=== FILE: README.md ===
# Statik, modelled in Dafny

Statik is a static site generator. A project declares models, such as `Post`
with fields `title: String` and `tags: Tag[] -> posts`, and supplies records
for them as YAML or Markdown files. It also declares views, which are paths
plus templates. Statik builds a database from the records and expands every
view into a nested output tree, path component by path component. It renders
each leaf through a template engine and writes the tree to disk.

This project models the deterministic core of that pipeline and proves what
its code promises. There is one Dafny module per source file:

- `Utils` (`statik/utils.py`): output trees, deep merge, key normalisation, URL helpers, association-table names and duplicate finding.
- `Fields` and `Models` (`statik/fields.py`, `statik/models.py`): field-type parsing, the model registry and back-reference inference.
- `Database`, `DbInstance` and `DepOrder` (`statik/database.py`, plus the table-creation order of `statik/data.py`): model ordering, record loading with primary-key checks, record rewriting, association tables and the safe-mode query gate.
- `LegacyData`, `LegacyModels` and `LegacyConfig` (`statik/data.py`, `src/models.py`, `src/config.py`): the older database, model and configuration layer.
- `Views` and `Context` (`statik/views.py`, `statik/context.py`): view configuration and expansion, and context precedence.
- `Pagination` (`statik/pagination.py`): paginators, pages and their iterators, as classes.
- `Config`, `MarkdownConfiguration` and `Templating` (`statik/config.py`, `statik/markdown_config.py`, `statik/templating.py`): project configuration, Markdown settings and the template engine's registries and caches.
- `TemplateTags`, `Filters` and `Tags` (`statik/templatetags.py`, `statik/filters.py`, `statik/tags.py`): the tag store and the built-in tags and filters.
- `MarkdownExts` and `MarkdownYaml` (`statik/markdown_exts.py`, `statik/markdownyaml.py`): the front-matter splitters, the lorem-ipsum rewriter and the permalink tree walk.

Three shared modules support them:

- `Common` holds `Option`, `Result` and the error kinds the source raises.
- `PyStr` holds Python string operations: `strip`, `split`, number formatting, and `lower` for the ASCII capitals only.
- `Values` holds the YAML/JSON value type. Its dict keeps insertion order, as a Python dict does.

Everything outside Python's own semantics enters as a function parameter. That covers YAML loading, Markdown conversion, slugify, the lorem-ipsum generators, template rendering, database queries, file existence and the environment.

## Model

| member | source | states |
|---|---|---|
| Utils.NonEmpty | statik/utils.py:92-97 | keeps exactly the non-empty strings of its input, in order and no more of them |
| Utils.ComponentsOfJoin | statik/utils.py:92-97 | a `/` between two paths only concatenates their component lists |
| Utils.ComponentsOfSlashes | statik/utils.py:95 | a run of slashes has no components |
| Utils.TrailingSlashesIgnored | statik/utils.py:92-97 | trailing slashes do not change which components a path has |
| Utils.LeadingSlashesIgnored | statik/utils.py:92-97 | leading slashes do not change which components a path has |
| Utils.DictFromPath | statik/utils.py:92-101 | the reverse loop builds the value nested under the non-empty components of the path, in order (`{}` when there are none) |
| Utils.NestedLookup | statik/utils.py:92-101 | following the path's components down the result reaches the value |
| Utils.NestedOnlyPath | statik/utils.py:92-101 | every node of the result lies on the path: nothing else is in the tree |
| Utils.MergeStep | statik/utils.py:113-124 | one round of the merge loop sets exactly the current key of `b` |
| Utils.DeepMergeDict | statik/utils.py:104-126 | `TypeError` when `a` or `b` is not a dict, otherwise the recursive merge of `b` into a copy of `a` |
| Utils.Merge | statik/utils.py:104-126 | the recursive merge of two dicts; proved in Utils.MergeRightLeafWins, MergeLeftLeafSurvives, MergeIntoEmpty and MergeIdempotent |
| Utils.MergeIntoEmpty | statik/utils.py:113-124 | merging into `{}` gives `b` back |
| Utils.MergeIdempotent | statik/utils.py:104-126 | merging a tree into itself changes nothing |
| Utils.MergeRightLeafWins | statik/utils.py:113-122 | every leaf of `b` is in the result at the same path: the right-hand leaf wins |
| Utils.MergeLeftLeafSurvives | statik/utils.py:110-126 | a leaf of `a` whose path `b` does not touch survives |
| Utils.UnderscoreKey | statik/utils.py:132 | same length, no `-` left, every other character kept |
| Utils.UnderscoreValue | statik/utils.py:134 | non-dict values are kept as they are; dicts come back well formed |
| Utils.UnderscorePrefix | statik/utils.py:130-136 | each round of the loop keeps the dict well formed with dash-free keys |
| Utils.UnderscoreDashFree | statik/utils.py:129-136 | no `-` is left in a key at any level of nesting |
| Utils.UnderscorePrefixKeys | statik/utils.py:130-134 | after `n` rounds the keys are exactly the underscored first `n` keys |
| Utils.UnderscoreVarNamesMeaning | statik/utils.py:129-136 | a well-formed, dash-free dict whose keys are exactly the underscored keys of the input |
| Utils.UnderscoreVarNames | statik/utils.py:129-136 | `underscore_var_names` at every level; proved in Utils.UnderscoreVarNamesMeaning and UnderscoreDashFree |
| Utils.UnderscoreValues | statik/utils.py:134 | where underscored keys do not collide, each value is the underscored input value |
| Utils.DictStrip | statik/utils.py:281-297 | the same keys as the input, and a well-formed input gives a well-formed result |
| Utils.StripValueStripped | statik/utils.py:291-295 | no string at any level keeps surrounding whitespace, and stripping again changes nothing |
| Utils.StripValue | statik/utils.py:281-298 | one value of `dict_strip`: strings stripped, dicts recursed; proved in Utils.StripValueStripped |
| Utils.DictStripIdempotent | statik/utils.py:281-297 | `dict_strip` is idempotent |
| Utils.StripEach | statik/utils.py:302 | each line stripped, in order |
| Utils.StripStr | statik/utils.py:300-302 | the result holds no newline |
| Utils.StripStrSingleLine | statik/utils.py:300-302 | on a single line `strip_str` is plain stripping |
| Utils.AddUrlPathComponentJoin | statik/utils.py:139-140 | the result is the path without trailing slashes and the component without leading ones, around exactly one slash |
| Utils.AddUrlPathComponent | statik/utils.py:139-140 | `add_url_path_component`; proved in Utils.AddUrlPathComponentJoin and AddUrlPathComponentComponents |
| Utils.AddUrlPathComponentComponents | statik/utils.py:139-140 | the result's path components are the path's followed by the component's |
| Utils.CalculateAssociationTableName | statik/utils.py:193-194 | the concatenation of the two names in one order or the other |
| Utils.AssociationTableNameSymmetric | statik/utils.py:193-194 | the name does not depend on the order of the two models |
| Utils.LastSegment | statik/utils.py:200 | a slash-free piece that ends the URL after its last `/` |
| Utils.LastIndexOf | statik/utils.py:200-201 | the index of the last occurrence, or none when the character is absent |
| Utils.SplitExt | statik/utils.py:201 | empty, or a dot-led suffix of the name |
| Utils.GetUrlFileExtMeaning | statik/utils.py:197-207 | the result is empty or starts with a dot, ends the URL, holds no `/`, and is empty exactly when the last segment has no dot |
| Utils.GetUrlFileExt | statik/utils.py:197-207 | `get_url_file_ext`; proved in Utils.GetUrlFileExtMeaning, UrlExtOfLastSegment and UrlExtOfDirectory |
| Utils.ExtFound | statik/utils.py:201-205 | a name with a dot has an extension or starts with a dot; a name without one has none |
| Utils.UrlExtOfLastSegment | statik/utils.py:199-200 | only the segment after the last `/` counts |
| Utils.UrlExtOfDirectory | statik/utils.py:197-207 | a URL ending in `/` has no extension |
| Utils.ExtractFilenameParts | statik/utils.py:88-89 | the file name followed by its extension is the last segment, and it holds no `/` |
| Utils.ExtractFilename | statik/utils.py:88-89 | `extract_filename`; proved in Utils.ExtractFilenameParts |
| Utils.Uncapitalize | statik/utils.py:362-364 | same length and tail; no leading ASCII capital is left; a string without one is unchanged (ASCII case mapping only, see Left out) |
| Utils.DupsUpToMeaning | statik/utils.py:380-386 | an element is reported iff it occurs at least twice, and none is reported twice |
| Utils.DupsUpTo | statik/utils.py:367-388 | the reference list of repeated elements; proved in Utils.DupsUpToMeaning and tied to the loop by Utils.FindDuplicatesInArray |
| Utils.DupsOfDistinct | statik/utils.py:380-388 | without repeats nothing is reported |
| Utils.DistinctFromCard | statik/utils.py:380 | the `len(array) != len(set(array))` guard is exactly "has a repeat" |
| Utils.FindDuplicatesInArray | statik/utils.py:367-388 | the loop reports exactly the elements that occur at least twice, each once |
| Fields.ScalarKind | statik/fields.py:80-87 | a type name maps to the scalar class registered under exactly that name, and to none when no scalar class has it |
| Fields.Field.BackPopulates | statik/fields.py:68-77 | only the foreign-key and many-to-many classes have `back_populates`, and it is the keyword argument they were given |
| Fields.ParsedFieldTypeShape | statik/fields.py:101-103 | the parsed names carry no surrounding whitespace, the base holds no `[]`, and a back-reference name exists exactly when the string contains `->` |
| Fields.ParseFieldType | statik/fields.py:101-103 | the split of a declared field type into base, many-to-many marker and back reference; proved in Fields.ParsedFieldTypeShape and ParseRenderedFieldType |
| Fields.ParseRenderedFieldType | statik/fields.py:101-103 | parsing `Base[] -> back` gives back the base, the suffix flag and the back-reference name it was written from |
| Fields.RenderedHead | statik/fields.py:102 | the part before `->` strips to itself and cuts at `[]` to the base name |
| Fields.ArrowSplit | statik/fields.py:101 | `->` splits a declaration into the head and the back-reference part |
| Fields.ConstructField | statik/fields.py:90-121 | fails with `InvalidFieldTypeError` iff the base is neither a scalar name nor a model; otherwise a field named as given whose type is the base, carrying the back reference, a relation iff the base is not scalar, many-to-many iff also `[]` |
| Fields.ConstructRelationField | statik/fields.py:118-121 | a model name gives a many-to-many field with `[]` and a foreign-key field without, targeting that model |
| Fields.ConstructScalarField | statik/fields.py:115-116 | a scalar name builds that scalar field even with a `[]` suffix |
| Fields.ScalarNameFacts | statik/fields.py:80-87 | each scalar type name maps back to its own class |
| Models.DeclOf | statik/models.py:48-66 | a declared variable is `Content` exactly when its type is `Content`, and a built field is named after the key with `-` replaced by `_` |
| Models.Declarations | statik/models.py:48 | one declaration per declared variable, in order |
| Models.DeclarationsNamed | statik/models.py:58-66 | every built field is named after its underscored key |
| Models.BuildSucceeds | statik/models.py:48-67 | the constructor loop gets through iff every type builds a field and at most one variable is `Content` |
| Models.BuildAll | statik/models.py:48-70 | the state after the whole constructor loop, or its first error; proved in Models.BuildSucceeds, BuildContentField, BuildFieldNames and BuildForeignModels |
| Models.BuildContentField | statik/models.py:49-56 | `content_field` is unset iff no variable is `Content`, otherwise it is a `Content` variable's name as declared, before underscoring |
| Models.BuildFieldNames | statik/models.py:58-67 | `field_names` lists every declared name underscored, in order, and `fields` is keyed by exactly those names |
| Models.BuildFieldValues | statik/models.py:60-67 | each underscored name holds the field built from the last declaration with that name |
| Models.BuildForeignModels | statik/models.py:68-70 | `foreign_models` is exactly the set of targets of the relation fields |
| Models.BuildNext | statik/models.py:48-71 | one more round of the constructor loop |
| Models.BuildStopped | statik/models.py:50-55 | once a round raises, the loop's result is that error |
| Models.ScanFieldsFails | statik/models.py:79-83 | the scan of one model's fields raises iff a scalar field there targets this model (its `back_populates` is an `AttributeError`) |
| Models.ScanModelsFails | statik/models.py:77-83 | the whole scan raises iff some other model has such a scalar field |
| Models.ScanFieldsSound | statik/models.py:79-89 | every entry added names a relation field of the other model that targets this model and has that `back_populates`, with `to_model`, `back_populates` and `secondary` as the source sets them |
| Models.ScanFields | statik/models.py:73-89 | the inner loop of `find_additional_rels` over one model's fields; proved in Models.ScanFieldsSound, ScanFieldsComplete and ScanFieldsFails |
| Models.ScanModelsSound | statik/models.py:73-89 | every additional relationship is justified by a relation field of another model, never by this model's own fields |
| Models.ScanModels | statik/models.py:73-89 | the outer loop of `find_additional_rels`, skipping the model itself; proved in Models.ScanModelsSound, ScanModelsComplete and ScanModelsFails |
| Models.ScanFieldsComplete | statik/models.py:79-89 | every relation field with a `back_populates` that targets this model gets an entry |
| Models.ScanModelsComplete | statik/models.py:77-89 | over all other models, every such back reference gets an entry |
| Models.FieldStep | statik/models.py:79-89 | one round of the inner loop |
| Models.FieldsStopped | statik/models.py:82 | once the inner scan raises, later fields leave it alone |
| Models.ModelStep | statik/models.py:77-89 | one round of the outer loop; this model itself is skipped |
| Models.ScanFailsAt | statik/models.py:82 | the first scalar field targeting this model decides the error |
| Models.ModelsStopped | statik/models.py:77-83 | once the scan raises, later models leave it alone |
| Models.StatikModel.constructor | statik/models.py:35-45 | the name and model names are set and every field collection is empty |
| Models.StatikModel.BuildFields | statik/models.py:48-71 | the loop leaves the model's fields as the specification fold gives them, or raises its error |
| Models.StatikModel.AddDeclared | statik/models.py:49-70 | one declaration either raises the error the specification step gives (a second `Content` field, or a type that builds no field) or leaves the model exactly as that step does |
| Models.StatikModel.FindAdditionalRels | statik/models.py:73-96 | `additional_rels` becomes the result of the scan over all models, starting from the old entries |
| Models.NewStatikModel | statik/models.py:22-71 | `MissingParameterError("name")` without name and filename, `MissingParameterError("model_names")` without model names, otherwise the model named by `name` or the file name, with its fields built or the build's error |
| Database.AddForeignFacts | statik/database.py:162-164 | the inner loop only appends foreign models not yet listed, never the model itself, and keeps the list free of repeats |
| Database.VisitFacts | statik/database.py:160-167 | one model's visit appends its missing dependencies, then the model, and repeats nothing |
| Database.RoundToFacts | statik/database.py:159-167 | a round lists each model once, only known models, and every model visited so far |
| Database.Round | statik/database.py:158-167 | one sorting round: each model after its dependencies, appended once; proved in Database.RoundToFacts and RoundIsPermutation |
| Database.RoundToExtends | statik/database.py:159-167 | a round only appends to what it has listed |
| Database.RoundIsPermutation | statik/database.py:159-167 | a round is a reordering of the model names: nothing lost, nothing repeated |
| Database.FixpointPrefix | statik/database.py:169-171 | when a round reproduces the order, every prefix of it is what the round built, so each model's dependencies come before it |
| Database.FixpointOrder | statik/database.py:169-173 | when the loop stops, every model comes after all its foreign models other than itself |
| Database.SettleSound | statik/database.py:152-173 | an order the loop settles on lists each model once and puts dependencies first |
| Database.Settle | statik/database.py:152-173 | the sorting loop as written, run for a bounded number of rounds; what it settles on is proved sound in Database.SettleSound, and Database.CycleNeverSettles shows it never settles on a cycle |
| Database.CycleRounds | statik/database.py:159-171 | for A -> B -> A successive rounds swap the two names |
| Database.CycleNeverSettles | statik/database.py:152-173 | for A -> B -> A no number of rounds settles: the `while` never ends |
| Database.WithoutSelf | statik/database.py:163 | each model's dependencies with the self-reference removed |
| Database.RemoveAll | statik/database.py:163 | every element except the removed one is kept |
| Database.SortModelsCheckedSound | statik/database.py:152-173 | the corrected ordering puts every dependency first, and its `CircularDependencyException` names a non-empty set in which every model waits on another member |
| Database.SortModelsChecked | statik/database.py:139-176 | the intended ordering that reports a cycle instead of looping; proved in Database.SortModelsCheckedSound and SettledImpliesChecked |
| Database.SettledImpliesChecked | statik/database.py:152-173 | whenever the source loop stops, the corrected ordering succeeds |
| Database.CycleReported | statik/database.py:152-173 | the corrected ordering reports the A -> B -> A cycle |
| Database.SafeModeNeverExecutes | statik/database.py:341-345 | in safe mode the unsafe path is never taken, and a non-dict query raises `SafetyViolationError` |
| Database.DictQueryStructured | statik/database.py:347-349 | a dict query takes the structured path whatever the mode |
| Database.Query | statik/database.py:326-365 | the `query` gate: safe mode takes only a dict query, structured, and raises `SafetyViolationError` otherwise; outside safe mode a dict query is structured and anything else executed; proved in Database.SafeModeNeverExecutes and DictQueryStructured |
| Database.LoadCheckedResult | statik/database.py:283-304 | loading succeeds iff every record is built and the pks are distinct; it then keeps every record in order and has seen exactly their pks; otherwise the error is a record's or a `DuplicateModelInstanceError` |
| Database.LoadChecked | statik/database.py:281-324 | record files loaded in turn with their primary keys checked for repeats; proved in Database.LoadCheckedResult |
| Database.LoadStopped | statik/database.py:298-304 | a failure is final: the later files are not read |
| Database.EntryFilesMembers | statik/database.py:283-284 | exactly the files not ending in `_all.yml` are loaded |
| Database.FileRecs | statik/database.py:287-295 | one record per entry file, in order |
| Database.LoadModelDataFromFiles | statik/database.py:281-324 | the file loop gives the records of the entry files, checked for duplicate pks |
| Database.LoadModelDataItem | statik/database.py:228-254 | one entry: a non-dict or pk-less entry raises `InvalidModelCollectionDataError`, a pk already seen raises `DuplicateModelInstanceError`, and an empty caller set stays empty because it is replaced by a fresh local set |
| Database.LoadModelDataCollection | statik/database.py:208-226 | a non-list collection raises `InvalidModelCollectionDataError`; otherwise each item is loaded in order as the source does |
| Database.ItemsStopped | statik/database.py:224-225 | a failing item ends the collection |
| Database.CollectionSeenStaysEmpty | statik/database.py:221-254 | the collection's seen set stays empty, so duplicates go undetected: loading succeeds iff every item builds |
| Database.CollectionAsWritten | statik/database.py:208-254 | collection loading as written, whose seen set never grows; shown in Database.CollectionSeenStaysEmpty and DuplicateEntriesAccepted |
| Database.ItemRecs | statik/database.py:224-225 | one record per item, in order |
| Database.CollectionCheckedResult | statik/database.py:221-254 | the corrected collection loader succeeds iff every item builds and the pks are distinct |
| Database.CollectionChecked | statik/database.py:208-254 | collection loading as intended, with the seen keys accumulating; proved in Database.CollectionCheckedResult |
| Database.DuplicateEntriesAccepted | statik/database.py:228-254 | with two entries of pk `a` the `DuplicateModelInstanceError` check never fires as written: both entries reach the session, where the load then fails at commit with a database error instead of the intended message; the corrected loader raises `DuplicateModelInstanceError` |
| Database.GetOrCreateReuses | statik/database.py:499-514 | asking again, in either order of the models, returns the same table and changes nothing |
| Database.GetOrCreate | statik/database.py:499-514 | the association table registry as written, keyed by the concatenated name; proved in Database.GetOrCreateReuses and shown faulty in Database.AssociationNamesCollide |
| Database.GetOrCreateNew | statik/database.py:499-514 | an unknown pair creates a table under the association name and adds only that entry |
| Database.AssociationNamesCollide | statik/database.py:499-503 | the pairs (`ab`, `c`) and (`a`, `bc`) share the name `abc`, so the second pair gets the first pair's table |
| Database.GetOrCreateByPairLinks | statik/database.py:499-514 | keyed by the pair, the table returned always links exactly the two models asked for |
| Database.GetOrCreateByPair | statik/database.py:499-514 | the registry keyed by the sorted pair of model names; proved in Database.GetOrCreateByPairLinks |
| Database.StatikDatabase.constructor | statik/database.py:66-90 | the dependencies are set and no table is tracked |
| Database.StatikDatabase.SortModels | statik/database.py:139-176 | the loop settles within the given number of rounds exactly when the round specification does, on the same order (whose soundness `SettleSound` states) |
| Database.StatikDatabase.SortRound | statik/database.py:158-167 | one pass of the nested loops yields the round specification, which `RoundIsPermutation` shows is a reordering of the models without repeats |
| Database.StatikDatabase.GetOrCreateAssociationTable | statik/database.py:499-514 | returns the table and updates the tracked tables as the get-or-create specification does |
| DbInstance.DedupTo | statik/database.py:422-428 | the de-duplicated prefix holds no value twice and exactly the values of the prefix |
| DbInstance.Deduped | statik/database.py:422-428 | `list(set(values))`: no value twice, and exactly the values of the list |
| DbInstance.ResolveComplete | statik/database.py:465-474 | every listed key that names an existing row has that row among the resolved rows |
| DbInstance.ResolveInOrder | statik/database.py:465-474 | the resolved rows are rows of listed keys found in the target table, in the order of the list |
| DbInstance.MissingMeaning | statik/database.py:440-459 | the keys to create are exactly the listed keys not found, when the target table holds only `pk`, and none otherwise |
| DbInstance.NewInstance | statik/database.py:377-480 | the constructor's loops compute the record the specification describes, or its error |
| DbInstance.InstanceOf | statik/database.py:377-480 | the record the constructor builds, or the error of its field loop; the loops are tied to it by DbInstance.NewInstance |
| DbInstance.FieldLoop | statik/database.py:394-474 | the loop over the declared fields gives the specification's rewrite of all of them, stopping at the first error |
| DbInstance.RewriteOne | statik/database.py:395-474 | one turn of the field loop, by field kind |
| DbInstance.RewriteField | statik/database.py:395-474 | one turn of the field loop by field kind; proved in DbInstance.InstanceForeignKey, InstanceDateTime and InstanceManyToMany |
| DbInstance.MissingItems | statik/database.py:440-459 | the loop collecting `missing_items` gives the keys the specification lists |
| DbInstance.ResolveRows | statik/database.py:465-474 | the `pk.in_` query followed by the sort on list position gives the specification's rows |
| DbInstance.RewriteStopped | statik/database.py:394-474 | a failing field ends the loop: its error is the constructor's |
| DbInstance.RewriteFieldFrame | statik/database.py:395-474 | rewriting field `f` changes no key other than `f` and `f_id` |
| DbInstance.RewriteFrame | statik/database.py:394-474 | a key that is neither a later field nor its `_id` column is untouched by the later turns |
| DbInstance.SuffixCancels | statik/database.py:406 | two field names with the same `_id` column are the same name |
| DbInstance.OwnKeys | statik/database.py:394-474 | when field names do not clash with each other's `_id` columns, each field's turn sees the field as the source gave it and its result survives to the end |
| DbInstance.InstanceForeignKey | statik/database.py:403-407 | a foreign key given in the source is moved to its `_id` column and removed under its own name |
| DbInstance.InstanceDateTime | statik/database.py:396-399 | a date/time string is replaced by its parse, and an unparseable one fails the constructor |
| DbInstance.InstanceManyToMany | statik/database.py:409-474 | a many-to-many value that is not a list raises `InvalidFieldTypeError`; otherwise it becomes the found rows of its de-duplicated keys, in list order |
| DbInstance.InstancePk | statik/database.py:389-390 | the `pk` value is the record's name |
| DbInstance.InstanceContent | statik/database.py:476-478 | the content field holds the source's content |
| DbInstance.RewriteImplicit | statik/database.py:440-463 | every key queued for implicit creation is missing from its target, which holds only `pk` |
| DbInstance.InstanceImplicit | statik/database.py:440-463 | the constructor queues for creation only keys that are missing from a `pk`-only target |
| DepOrder.Pending | statik/data.py:105 | the models not created by the first pass: each listed model once, exactly those not yet created |
| DepOrder.RoundTo | statik/data.py:112-121 | a round leaves at most as many models as it visits |
| DepOrder.RoundLeftFrom | statik/data.py:112-121 | the models a round leaves are among those it visited |
| DepOrder.CreateKeepsInv | statik/data.py:117-119 | creating a model whose dependencies all exist keeps the order dependency-respecting and repeat-free |
| DepOrder.FirstPassInv | statik/data.py:95-103 | the first pass creates only listed models, in a dependency-respecting order |
| DepOrder.RoundToInv | statik/data.py:107-123 | a round creates exactly the visited models it does not leave, keeps the order sound, and when it leaves every model it changes nothing and none of them had its dependencies met |
| DepOrder.RoundsResult | statik/data.py:107-127 | the rounds end with every model in a dependency-respecting order, or raise `CircularDependencyException` for a set in which every model waits on another member or an unknown model |
| DepOrder.CreationOrderResult | statik/data.py:95-127 | the whole loop gives a dependency-respecting permutation of the models, or reports a genuinely stuck set |
| DepOrder.CreationOrder | statik/data.py:95-127 | the rounds of `_create_tables` until all models are created or a round makes no progress; proved in DepOrder.CreationOrderResult and CreationOrderComplete |
| DepOrder.CreationOrderComplete | statik/data.py:95-127 | whenever some dependency-respecting order exists, the loop succeeds |
| DepOrder.FirstIn | statik/data.py:107-127 | the first position of an order that holds a member of a set |
| DepOrder.SelfDependencyFails | statik/data.py:113-115 | a model that depends on itself is never created: the loop raises `CircularDependencyException` |
| LegacyData.Statements | statik/data.py:89-103 | one CREATE TABLE statement per model of the order, in that order |
| LegacyData.CreateTables | statik/data.py:78-136 | the table-creation loops give the specification's statements or its `CircularDependencyException` |
| LegacyData.Round | statik/data.py:110-121 | one pass over the remaining models gives the specification's round |
| LegacyData.TablesResult | statik/data.py:78-136 | on success the statements are those of a dependency-respecting permutation of the models, followed by the intermediate tables; a failure names a genuinely stuck set |
| LegacyData.TablesOf | statik/data.py:78-138 | the statements `_create_tables` executes, or its circular dependency; proved in LegacyData.TablesResult and TablesCreatedUnlessCircular |
| LegacyData.TablesCreatedUnlessCircular | statik/data.py:78-127 | whenever a dependency-respecting order exists the tables are created, and a self-dependent model always makes the loop fail |
| LegacyData.Placeholders | statik/data.py:189 | one `?` per column |
| LegacyData.MakeInsertQuery | statik/data.py:168-193 | the statement names the model's table and `id` followed by the fields, and the values are each column's value in the object, `None` where it has none |
| LegacyData.InsertSql | statik/data.py:168-193 | the INSERT statement text for a table and its columns; its columns and placeholders are recovered in LegacyData.ColumnsRoundTrip and PlaceholdersPerColumn |
| LegacyData.PlaceholdersPerColumn | statik/data.py:186-190 | the placeholder list splits back into exactly one `?` per column |
| LegacyData.ColumnsRoundTrip | statik/data.py:182-188 | for field names without commas, the column list splits back into `id` and the field names |
| LegacyData.OperatorLookupMeaning | statik/data.py:27-43 | `OPERATOR_LOOKUP` produces exactly the SQL operators |
| LegacyData.OperatorSpellingsAgree | statik/data.py:27-43 | the word and symbol spellings of each operator map to the same SQL operator |
| LegacyData.FilterEntry | statik/data.py:276-296 | an entry is accepted iff its field is the model's and a dict value names exactly one known operator; an unknown field or several operators raise `QueryException`; a plain value is compared with `=` |
| LegacyData.FilterEntryClause | statik/data.py:296 | an accepted entry gives a clause `field op ?` on a field of the model with a known operator |
| LegacyData.EntriesTo | statik/data.py:276-297 | the entries add as many clauses as values |
| LegacyData.FiltersTo | statik/data.py:275-297 | the filters give as many clauses as values |
| LegacyData.ParseFilters | statik/data.py:254-297 | the filter-parsing loops give the specification's clauses and values or its error |
| LegacyData.ReadFilters | statik/data.py:275-297 | the loop over the filters gives the specification's result |
| LegacyData.ReadEntries | statik/data.py:276-297 | the loop over one filter's entries gives the specification's result |
| LegacyData.EntriesStopped | statik/data.py:276-292 | a rejected entry ends parsing: its error is the query's |
| LegacyData.FiltersStopped | statik/data.py:275-292 | a rejected filter ends parsing |
| LegacyData.EntriesMeaning | statik/data.py:276-297 | one filter parses iff each of its entries is accepted, adding one well-formed clause per entry |
| LegacyData.FiltersMeaning | statik/data.py:275-297 | the filters parse iff each is a dict whose entries are all accepted, and every clause is well-formed |
| LegacyData.QueryWhere | statik/data.py:254-297 | the WHERE clauses and values of `query`, with its unknown-model and filter errors; proved in LegacyData.FiltersMeaning, UnknownModelReported and FilterListFacts, and the loops are tied to it by LegacyData.ParseFilters |
| LegacyData.FilterListFacts | statik/data.py:268-273 | a falsy filter gives no clause, a dict means the same as a list holding it, and anything else raises `QueryException` |
| LegacyData.FilterList | statik/data.py:268-275 | the filters of a query: none when falsy, a dict wrapped in a list, anything else not a list refused; proved in LegacyData.FilterListFacts |
| LegacyData.UnknownModelReported | statik/data.py:254-255 | an unknown model raises `ModelDoesNotExistException` before the filters are looked at |
| LegacyData.Markers | statik/data.py:374 | which lines are `===` lines |
| LegacyData.SplitPreamble | statik/data.py:362-391 | the line loop with its two flags gives the specification's preamble and content |
| LegacyData.ScanMeaning | statik/data.py:372-391 | the preamble is the lines between the first and second `===`, the content every other non-`===` line, and `===` lines after the second are dropped |
| LegacyData.NoMarkersAllContent | statik/data.py:384-388 | without a `===` line the whole file is content |
| LegacyData.ConcatSnoc | statik/data.py:386-388 | appending a line extends the text by that line |
| LegacyData.AssembleFacts | statik/data.py:393-404 | an empty preamble and content give `{}`; otherwise the rendered content is under `_content`, a preamble must be a JSON object, and without one nothing else is present |
| LegacyData.Assemble | statik/data.py:393-404 | the record built from the preamble and the rendered content; proved in LegacyData.AssembleFacts |
| LegacyData.LoadMarkdown | statik/data.py:347-407 | `_load_markdown`: the preamble scan followed by the assembly of preamble and content; proved in LegacyData.ScanMeaning and AssembleFacts |
| LegacyData.RecordWithIdFacts | statik/data.py:341-343 | a record holds `id` and the model's fields and nothing else, and its `id` is the file stem |
| LegacyData.DispatchFacts | statik/data.py:330-338 | `md` and `markdown` files load as Markdown, `json` files as JSON, and any other extension raises `UnsupportedDataFileException` |
| LegacyData.LegacyInstanceOf | statik/data.py:314-345 | a data file loaded by its extension, made into a record of the model, with `id` set to the file stem; proved in LegacyData.RecordWithIdFacts |
| LegacyData.Dispatch | statik/data.py:330-338 | the loader chosen by the file extension, or `UnsupportedDataFileException`; proved in LegacyData.DispatchFacts |
| LegacyModels.ForeignPieces | src/models.py:182-184 | a type starting with `fk\|` splits on `\|` into `fk` and the pieces of what follows |
| LegacyModels.ForeignNotKnown | src/models.py:177-178 | a `fk\|` type is none of the plain type names |
| LegacyModels.ParseTypeMeaning | src/models.py:177-187 | a type is accepted iff it starts with `fk\|` or is one of the six plain types; a `fk\|` type refers to the first `\|`-piece after the prefix, and each plain type is recognised by its own name only |
| LegacyModels.ParseType | src/models.py:163-188 | the field type a declared type string stands for; proved in LegacyModels.ParseTypeMeaning |
| LegacyModels.FieldAsWritten | src/models.py:177-179 | as written, every rejected type raises, because the message refers to an undefined `name` |
| LegacyModels.NewField | src/models.py:163-187 | the field is built iff its type is accepted, with its own name, its model's name and the parsed type; otherwise `InvalidFieldTypeException` names the model, field and type |
| LegacyModels.UnknownTypeRaisesNameError | src/models.py:177-179 | a `text` field raises `NameError` as written and `InvalidFieldTypeException` as intended, and the two agree on every accepted type |
| LegacyModels.SqlTypeOfDeclared | src/models.py:190-207 | foreign keys, strings and content are TEXT, `int` INT, `datetime` DATETIME, `date` DATE and `float` DOUBLE, each iff |
| LegacyModels.SqlType | src/models.py:190-209 | `get_sql_type` for each accepted field type; proved in LegacyModels.SqlTypeOfDeclared |
| LegacyModels.Declarations | src/models.py:55-62 | one declaration per configuration entry |
| LegacyModels.NewLegacyModel | src/models.py:31-65 | the constructor's loop gives the specification's model or its error |
| LegacyModels.ReadFields | src/models.py:53-62 | the field loop gives the specification's fields, names and content count |
| LegacyModels.FieldsStopped | src/models.py:55-59 | a rejected entry ends the constructor with its error |
| LegacyModels.DeclareFieldMeaning | src/models.py:55-61 | entry `j` declares a field iff its name is not `_content` and its type is an accepted string; the field has that name, the model's name and the parsed type, and counts as content iff its type is `content` |
| LegacyModels.FieldsToSucceeds | src/models.py:55-62 | the field loop succeeds iff every entry declares a field |
| LegacyModels.FieldsToDomain | src/models.py:59 | the fields are keyed by exactly the entries' names |
| LegacyModels.FieldsToFields | src/models.py:59 | each entry's field is the one it declares |
| LegacyModels.FieldsToNames | src/models.py:55-59 | the field names are the entries' names in order |
| LegacyModels.FieldsToContent | src/models.py:60-61 | the content count reaches one iff some entry is `content`, and two iff two entries are |
| LegacyModels.LegacyModelResult | src/models.py:45-65 | a dict configuration makes a model iff every entry declares a field and at most one is `content` |
| LegacyModels.LegacyModelOf | src/models.py:31-65 | the legacy model a configuration declares, or its error; proved in LegacyModels.LegacyModelResult, LegacyModelFields and TwoContentFieldsRejected |
| LegacyModels.LegacyModelFields | src/models.py:49-62 | a model built keeps the entries' names in order, and each field is what its entry declares |
| LegacyModels.TwoContentFieldsRejected | src/models.py:64-65 | two `content` fields raise `InvalidModelConfigException` |
| LegacyModels.MakeInstance | src/models.py:68-112 | the conversion loop gives the specification's record or its error |
| LegacyModels.InstanceStopped | src/models.py:90-110 | a failing conversion ends `make_instance` with its error |
| LegacyModels.InstanceToSucceeds | src/models.py:90-110 | the record is built iff every field's conversion succeeds |
| LegacyModels.InstanceToFields | src/models.py:85-112 | the record holds exactly the model's fields, each with its converted value |
| LegacyModels.FieldValueFacts | src/models.py:84-110 | a falsy value is kept as it is; a missing field is `None`; a content field reads `_content`; a truthy string or content value is formatted with `%s`; a foreign key is taken unconverted |
| LegacyModels.FieldValue | src/models.py:68-113 | one field of `make_instance`: falsy values kept, truthy ones converted; proved in LegacyModels.FieldValueFacts |
| LegacyModels.GenerateSql | src/models.py:115-138 | the loop gives the specification's CREATE TABLE statement |
| LegacyModels.GenerateSqlOf | src/models.py:115-138 | the CREATE TABLE statement; its parts are proved in LegacyModels.SqlPartsMeaning |
| LegacyModels.ForeignFieldsTo | src/models.py:128-129 | only fields that refer to a model are listed |
| LegacyModels.SqlPartsMeaning | src/models.py:124-133 | one `name TYPE` column per field, in order, and one `FOREIGN KEY ... REFERENCES` clause per field referring to a model, in order |
| LegacyModels.ForeignClassesMeaning | src/models.py:141-149 | `get_foreign_classes` lists, in field order, exactly the non-empty models the fields refer to |
| LegacyModels.ForeignClasses | src/models.py:141-149 | the referenced models of the foreign-key fields; proved in LegacyModels.ForeignClassesMeaning |
| LegacyConfig.NewConfig | src/config.py:19-34 | the stored path is the given path without its trailing slashes: a prefix of it, not ending in `/`, followed in the original only by slashes |
| LegacyConfig.RStripUnique | src/config.py:31 | `rstrip("/")` yields the one prefix that does not end in `/` and is followed only by slashes |
| LegacyConfig.TrailingSlashIgnored | src/config.py:30-31 | a trailing slash on the project path makes no difference to the configuration |
| LegacyConfig.GetOpt | src/config.py:122-141 | an option is the current profile's value when its `profileConfig` entry is a dict holding it, and the global value or the default otherwise |
| LegacyConfig.GetOptPrecedence | src/config.py:132-141 | an option set nowhere is the default; a `profileConfig` that is not a dict is ignored; an option other than the default was set somewhere |
| LegacyConfig.GetStringOpt | src/config.py:105-119 | succeeds exactly when the option is a string and returns it; otherwise raises `InvalidConfigException` |
| LegacyConfig.Defaults | src/config.py:37-102 | without settings the base URL is `/`, the output mode `standard`, the project name the path's last component, and the output path the project's `public` directory |
| LegacyConfig.GetOutputPath | src/config.py:79-91 | the `outputPath` option or the project's `public` directory, made absolute; its default is in LegacyConfig.Defaults |
| LegacyConfig.ProjectNameOfTrailingSlash | src/config.py:31-43 | the default project name does not depend on trailing slashes of the path |
| LegacyConfig.GetProjectName | src/config.py:37-44 | the global `projectName`, or the last component of the project path; proved in LegacyConfig.ProjectNameOfTrailingSlash |
| LegacyConfig.OutputModeIgnoresProfile | src/config.py:93-102 | the output mode is read globally: changing the profile does not change it |
| LegacyConfig.GetOutputMode | src/config.py:93-103 | the global `outputMode`, `standard` by default; proved in LegacyConfig.OutputModeIgnoresProfile |
| LegacyConfig.BaseUrlFollowsProfile | src/config.py:69-138 | a base URL string set for the current profile is the base URL |
| LegacyConfig.GetBaseUrl | src/config.py:69-77 | the `baseUrl` option with profile precedence, `/` by default; proved in LegacyConfig.Defaults and BaseUrlFollowsProfile |
| LegacyConfig.GetProfiles | src/config.py:46-66 | without `profiles` the default profiles; otherwise the configured list, a single value wrapped in one, accepted exactly when every entry is a string, else `InvalidConfigException` |
| LegacyConfig.ListOf | src/config.py:59-61 | a list stays as it is and any other value becomes a one-element list |
| LegacyConfig.CheckProfiles | src/config.py:62-64 | succeeds exactly when every profile from position `i` on is a string, returning the list unchanged; otherwise raises `InvalidConfigException` |
| Views.PyIn | statik/views.py:115-121 | Python's `in`: a key of a dict, a substring of a string, an element of a list, and `TypeError` for anything else |
| Views.PathShapeOfMeaning | statik/views.py:71-108 | a missing `path` raises `MissingParameterError`, a string makes a simple view, a non-dict non-string raises `ValueError`, and a complex view is made iff the dict has a string `template` and a single-entry `for-each` |
| Views.OnlyValue | statik/views.py:108 | the query under a one-entry `for-each` dict's only key; its use is proved in Views.PathShapeOfMeaning |
| Views.PathShapeOf | statik/views.py:71-108 | the path configuration of a view from its `path` variable, or the error `configure` raises; proved in Views.PathShapeOfMeaning |
| Views.Section | statik/views.py:114-122 | a dict section of a dict context is taken underscored; any other section leaves the default |
| Views.ContextOf | statik/views.py:113-122 | without `context` every section is `{}`; a dict `context` always configures |
| Views.ConfigOfMeaning | statik/views.py:71-92 | a path error is `configure`'s; without a template given or in the variables `configure` raises `MissingParameterError`; a configured view has the path's shape, the given or loaded template, and underscored context sections |
| Views.ConfigOf | statik/views.py:71-92 | `configure`: the path shape, then the template, then the context sections, each check raising in that order; proved in Views.ConfigOfMeaning |
| Views.ConfiguredPath | statik/views.py:73-81 | a configured view has a `path`, and a simple view's path is that string |
| Views.ContextSections | statik/views.py:113-122 | each of `static`, `dynamic` and `for-each` is the underscored dict when there is one and `{}` otherwise, with no `-` left in any key |
| Views.ViewName | statik/views.py:44-59 | the name is the one given, else the file's stem; a missing name and file, missing models, or neither engine nor template raise `MissingParameterError` |
| Views.PageOutputComponents | statik/views.py:161-166 | a path with an extension is used as is; otherwise the page lands in the default file under the path's components |
| Views.PageOutput | statik/views.py:161-166 | the page's output path, with the default file appended to an extension-less path; proved in Views.PageOutputComponents |
| Views.ComponentsOfFileName | statik/views.py:139-142 | `/name` adds the one component `name` when `name` holds no `/` |
| Views.SlashRuleMeaning | statik/views.py:187 | a URL ending in `/` or `.js` is left alone and any other gets one `/` appended, so every result ends in one of the two |
| Views.SlashRule | statik/views.py:187 | the trailing-slash rule of `reverse_url`; proved in Views.SlashRuleMeaning and SlashRuleIdempotent |
| Views.SlashRuleIdempotent | statik/views.py:187 | applying the rule twice changes nothing more |
| Views.Single | statik/views.py:184 | `{variable: inst}` holds exactly that one entry |
| Views.ReverseUrlIsDirectory | statik/views.py:179-187 | a reverse URL that is not a `.js` file has no extension, so its page is the default file inside it |
| Views.ReverseUrl | statik/views.py:179-187 | `reverse_url`: the rendered path template or the simple path, under the slash rule; proved in Views.ReverseUrlIsDirectory |
| Views.Rounds | statik/views.py:133-152 | one round per record the path query yields |
| Views.FoldStopped | statik/views.py:133-152 | a failing round ends the loop with its error |
| Views.FoldPrefixSucceeds | statik/views.py:133-152 | a loop that got through `n` rounds got through every earlier one |
| Views.ComplexLatestPage | statik/views.py:144-152 | after a round, its path holds the template rendered in the context of that round |
| Views.RoundMerges | statik/views.py:149-152 | each round deep-merges its page into the output |
| Views.PageSurvivesRound | statik/views.py:149-152 | a round whose page avoids a path keeps the page found there |
| Views.FoldKeepsPage | statik/views.py:133-152 | a page that every later round keeps is still there at the end |
| Views.ComplexPageSurvives | statik/views.py:133-152 | a rendered page survives every later round whose page lands elsewhere |
| Views.ComplexContextPersists | statik/views.py:144-146 | a round only adds to the view's context: the path variable holds the round's record unless a for-each query shadows it, and each for-each variable holds its query's records |
| Views.ComplexOf | statik/views.py:129-153 | what `process_complex` returns for the records of the path query, as a fold of its rounds; the loop is tied to it by Views.RenderAll |
| Views.ComplexContext | statik/views.py:129-153 | the context `process_complex` leaves in the view; Views.StatikView.ProcessComplex sets exactly this context |
| Views.ContextTo | statik/views.py:133-153 | the view's context after some rounds, including the context a failing round leaves behind; its properties are in Views.ContextOfProgress, ContextStopped and FailedRoundContext |
| Views.ContextOfProgress | statik/views.py:133-153 | while no round has failed, the view's context is that of the loop's current state |
| Views.ContextStopped | statik/views.py:133-153 | after a round fails, the view's context no longer changes |
| Views.FailedRoundContext | statik/views.py:144-146 | a round fails only through its for-each queries, and then leaves the record bound to the path variable without any for-each result |
| Views.RoundsMeaning | statik/views.py:134-146 | each round has its record, the path its reverse URL gives, and the for-each results queried with `{variable: inst}` |
| Views.RenderRound | statik/views.py:133-152 | the loop body gives the specification's round |
| Views.Advance | statik/views.py:133-152 | round `i` of the loop extends the specification's fold by one round; a failing round is already the failure of the whole fold, and the context it hands on is the view's context after that round, also when the round fails (`Views.ContextTo`) |
| Views.RenderAll | statik/views.py:133-153 | the loop over the records gives the specification's fold, and the view's context ends as `Views.ContextTo` says: the last round's context, or the one a failing round left with the record bound |
| Views.RunQueries | statik/views.py:173-177 | the dynamic-context loop gives each variable its query's records, or the first query error |
| Views.StatikView.constructor | statik/views.py:23-38 | the defaults `__init__` sets before `configure` |
| Views.StatikView.Configure | statik/views.py:71-122 | `configure` either raises the specification's error or sets the shape, template, path and context sections the specification gives |
| Views.StatikView.Apply | statik/views.py:94-122 | the configuration's shape, template, path and context sections are stored |
| Views.StatikView.ProcessSimple | statik/views.py:161-171 | the template rendered in the view's context, under the page's output path |
| Views.StatikView.ProcessComplex | statik/views.py:129-153 | a failing path query is the error and leaves the context alone; otherwise the pages or the failing round's error come from the specification's loop, and the context becomes `Views.ComplexContext` in both cases |
| Views.StatikView.Process | statik/views.py:124-127 | static context first, then the dynamic results, then the simple or complex rendering; every failure (a dynamic query, the path query, a round) is the result, and the context left is stated in each case |
| Views.PreparedPrecedence | statik/views.py:125-126 | a dynamic result wins over a static variable of the same name, which wins over the view's initial context |
| Views.Prepared | statik/views.py:124-127 | the context `process` renders with: static variables over the initial context, then dynamic results over both; proved in Views.PreparedPrecedence |
| Context.QueriedKeys | statik/context.py:49-55 | the query loop lists the variables in order, each once |
| Context.Queried | statik/context.py:49-66 | the results of every query of a section keyed by its variable, or the first query error; proved in Context.QueriedKeys, QueriedValues and QueriedFails |
| Context.QueriedValues | statik/context.py:52-55 | each variable holds the records its query returns |
| Context.QueriedFails | statik/context.py:52-55 | the loop fails exactly when one of its queries fails |
| Context.QueriedStopped | statik/context.py:53-54 | a failing query ends the loop with its error |
| Context.Underscored | statik/context.py:30-38 | `underscore_var_names(deepcopy(d or dict()))`: no `-` in any key at any level, every key of the input present underscored, and no other key |
| Context.NewContext | statik/context.py:22-38 | the initial context is kept unless empty or missing, and the static, dynamic and for-each parts are `Context.Underscored` of the inputs: no `-` in any key, every input key present underscored, no other key, and `{}` for a missing input |
| Context.Layer | statik/context.py:73-76 | when its layer is active, each query variable holds its query's records and every other key keeps its value; inactive, the context is unchanged; a query failure is the build's |
| Context.BuildFails | statik/context.py:68-79 | `build` fails exactly when one of the dynamic or for-each queries it runs fails |
| Context.Build | statik/context.py:68-79 | `build`: the initial context, then static variables, environment, dynamic results, for-each results and `extra`; its failure and precedence rules are in Context.BuildFails and the Build lemmas |
| Context.BuildKeys | statik/context.py:68-79 | the built context holds exactly the keys of the layers that were applied |
| Context.BuildPrecedenceQueries | statik/context.py:73-78 | `extra` wins over the for-each results, which win over the dynamic results |
| Context.BuildPrecedenceBase | statik/context.py:70-72 | below the queries, the environment wins over the static context, which wins over the initial context |
| Context.ForEachNeedsInstance | statik/context.py:75-76 | without an instance the for-each queries neither run nor matter |
| Context.NoQueriesNoDatabase | statik/context.py:68-79 | without active queries the database is never used, and the result is initial, static and environment merged in that order |
| Pagination.CeilDivBounds | statik/pagination.py:107 | `int(math.ceil(total / per_page))` is the least count of pages whose capacity holds the items, negative totals included |
| Pagination.CeilDiv | statik/pagination.py:107 | integer ceiling division standing for `math.ceil(float(a) / float(b))`; proved in Pagination.CeilDivBounds |
| Pagination.Range | statik/pagination.py:109 | `range(lo, hi)`: `hi - lo` consecutive numbers from `lo`, none when `hi <= lo` |
| Pagination.Slice | statik/pagination.py:120-122 | `offset(off).limit(n)` gives at most `n` records: the `n` after `off`, the rest when fewer remain, none past the end |
| Pagination.Paginator.constructor | statik/pagination.py:95-109 | the query, page size, offset and first page are kept, and the counts derived from them agree with the query |
| Pagination.Paginator.PageItems | statik/pagination.py:117-123 | a page holds at most `items_per_page` records |
| Pagination.Paginator.GetPage | statik/pagination.py:114-123 | `paginator[page]` raises `IndexError` outside `start_page..last_page`, and otherwise returns a fresh page with that number and its records |
| Pagination.Paginator.Iter | statik/pagination.py:128-129 | iteration starts at the first page |
| Pagination.Paginator.Empty | statik/pagination.py:111-112 | `empty()`: the page count is zero; its meaning is stated in Pagination.EmptyMeaning |
| Pagination.EmptyMeaning | statik/pagination.py:104-112 | `empty()` holds exactly when the offset is at or past the end of the records by less than one page; there are then no pages. An offset a whole page or more past the end gives a negative `total_pages`, so `empty()` is false although no page exists (3 records, page size 5, offset 20) |
| Pagination.Page.constructor | statik/pagination.py:32-52 | a page keeps its paginator, number and records, and copies the paginator's counts |
| Pagination.Page.Len | statik/pagination.py:60-61 | `len(page)` is the number of records on it |
| Pagination.Page.Iter | statik/pagination.py:57-58 | iteration starts at the page's first record |
| Pagination.PageIterator.constructor | statik/pagination.py:12-14 | the iterator starts before the first record |
| Pagination.PageIterator.Next | statik/pagination.py:19-23 | `next()` returns the current record and advances, or raises `StopIteration` and stays put past the last record |
| Pagination.PaginatorIterator.constructor | statik/pagination.py:75-77 | the iterator starts at the given page |
| Pagination.PaginatorIterator.Next | statik/pagination.py:82-86 | `next()` returns the current page and advances, stops past the last page, and raises `IndexError` below the first page |
| Pagination.Paginate | statik/pagination.py:132-141 | `paginate` builds a paginator over the given query and settings |
| Pagination.PageCount | statik/pagination.py:106-107 | there are no pages exactly when the offset reaches past the records |
| Pagination.PagesCoverRecords | statik/pagination.py:106-123 | the pages read in order hold exactly the records after the offset |
| Pagination.PagesFrom | statik/pagination.py:106-130 | the records of consecutive pages in order; proved in Pagination.PagesCoverRecords and PagesPrefix |
| Pagination.PagesPrefix | statik/pagination.py:114-123 | the first `k` pages hold the records of the first `k` pages' worth after the offset |
| Pagination.PageStep | statik/pagination.py:120-122 | each page starts where the previous ones end |
| Pagination.SliceAppend | statik/pagination.py:120-122 | consecutive slices join into one slice |
| Pagination.PageArith | statik/pagination.py:121 | a page's offset is the previous page's plus the page size, and stays before the last record |
| Pagination.PageSizes | statik/pagination.py:106-123 | every page holds at least one record, all but the last are full, and the last holds what is left |
| Pagination.PageBounds | statik/pagination.py:107-121 | where page `k` starts among the items, for a page count rounded up |
| Pagination.SliceSize | statik/pagination.py:120-122 | how many records a slice holds, depending on how many remain |
| Pagination.PageFlags | statik/pagination.py:63-69 | `has_next` holds except on the last page and `has_previous` except on the first; a single page has neither |
| Pagination.PageStrRoundTrip | statik/pagination.py:54-55 | `str(page)` reads back as the page number |
| Pagination.IteratePages | statik/pagination.py:82-86 | iterating the paginator visits the page numbers of `page_range` in order |
| Pagination.IterateRecords | statik/pagination.py:82-86 | iterating the pages and their records yields exactly the records after the offset, in order |
| Pagination.PageCountBound | statik/pagination.py:83 | a page number is at most `last_page` exactly when fewer than the page count pages precede it |
| Pagination.PagesFromNext | statik/pagination.py:82-86 | reading one more page extends the records read by that page |
| Pagination.IterateItems | statik/pagination.py:19-23 | iterating a page yields its records in order |
| Config.DefaultProvidersIn | statik/config.py:59-62 | the providers kept are exactly the listed strings that are default providers |
| Config.DefaultProvidersInConcat | statik/config.py:59-62 | the comprehension keeps the listed order: filtering a concatenation is filtering each part in turn |
| Config.DefaultProvidersInSingle | statik/config.py:59-62 | one entry is kept, once, exactly when it is a default provider's name; with Config.DefaultProvidersInConcat this fixes the order and repetitions of the kept providers |
| Config.Defaults | statik/config.py:25-70 | an empty configuration is an untitled project at `/` in UTF-8 without a theme, with default Markdown settings, `assets` for both asset paths, no context and both providers, Jinja2 first |
| Config.StatikConfigOf | statik/config.py:25-70 | the `StatikConfig` constructor on loaded variables, with its Markdown and provider errors; a malformed `assets` falls back to the default. It reads the provider override as intended (`Config.Providers`), not as written; its defaults are in Config.Defaults |
| Config.AssetPathMeaning | statik/config.py:33-39 | an asset path other than `assets` comes from a string in the `assets` dict, a string there is always taken, and without an `assets` dict both paths are `assets` |
| Config.AssetPath | statik/config.py:33-39 | the asset path setting: a string under the key in an `assets` dict, or the default; proved in Config.AssetPathMeaning |
| Config.ContextPartMeaning | statik/config.py:41-49 | a context part is `{}` unless the `context` dict holds a dict under that key, in which case it holds that dict's keys underscored and no `-` in any key |
| Config.ContextPart | statik/config.py:41-49 | the `context.static` or `context.dynamic` part with underscored keys, or `{}`; proved in Config.ContextPartMeaning |
| Config.ProvidersMeaning | statik/config.py:51-70 | a configuration that loads has at least one provider, every one a default provider with a provider class; both providers, Jinja2 first, without an override, and with one the filtered override list in its own order |
| Config.Providers | statik/config.py:51-70 | the provider list as intended, with the `templates.providers` override read whenever it is present; its guarantees are in Config.ProvidersMeaning |
| Config.ProvidersOverrideIgnored | statik/config.py:52 | with `templates.providers: [mustache]` and no top-level `providers`, the override is ignored as written and honoured as intended |
| Config.ProvidersAsWritten | statik/config.py:52-70 | the provider list as written, which reads the override only when a top-level `providers` key exists; the difference is shown in Config.ProvidersOverrideIgnored |
| Config.ProvidersAgreeWhenRead | statik/config.py:52-62 | where the source does read the override, the two readings agree |
| Config.ExampleConfig | statik/config.py:27-39 | the project name, base path and both asset paths are taken as given |
| MarkdownConfiguration.EnabledFlag | statik/markdown_config.py:18-22 | `"true"`, `"1"`, `1` and `True` become `True`; `"false"`, `"0"`, `0` and `False` become `False`; a list or dict raises `TypeError`; anything else is kept |
| MarkdownConfiguration.AddAllStopped | statik/markdown_config.py:40-48 | a failing extension entry ends the loop with its error |
| MarkdownConfiguration.NewMarkdownConfig | statik/markdown_config.py:12-48 | the constructor's loop gives the specification's settings or its error |
| MarkdownConfiguration.MarkdownConfigOf | statik/markdown_config.py:12-48 | the settings the constructor reads, with `ValueError` and `AttributeError` for malformed parameters; the loop is tied to it by MarkdownConfiguration.NewMarkdownConfig |
| MarkdownConfiguration.AddExtension | statik/markdown_config.py:40-48 | one requested extension: its name appended unless listed, and its settings stored or merged; its effect on the lists is in MarkdownConfiguration.AddAllNames and AddAllConfig |
| MarkdownConfiguration.WithoutMembers | statik/markdown_config.py:41-42 | the requested names not already listed, exactly |
| MarkdownConfiguration.LastIsNew | statik/markdown_config.py:40 | a name requested once is not among the names requested before it |
| MarkdownConfiguration.AddAllConfig | statik/markdown_config.py:44-48 | with each extension requested once, the extension config holds exactly the non-`None` configs given |
| MarkdownConfiguration.AddAllNames | statik/markdown_config.py:41-42 | the extension list is the starting list followed by the requested names not in it, in request order |
| MarkdownConfiguration.WithoutStep | statik/markdown_config.py:41-42 | one more requested name is appended iff it is not already listed |
| MarkdownConfiguration.NamesAfter | statik/markdown_config.py:41-42 | adding a name appends it unless it is a built-in |
| MarkdownConfiguration.ExtensionsRequested | statik/markdown_config.py:28-48 | the four built-in extensions come first, then the requested ones not among them, and the config is what was given |
| MarkdownConfiguration.WithoutDistinct | statik/markdown_config.py:41-42 | the names appended are free of repeats |
| MarkdownConfiguration.ExtensionsDistinct | statik/markdown_config.py:29-42 | each extension is listed once |
| MarkdownConfiguration.Defaults | statik/markdown_config.py:12-37 | no parameters give permalinks off, text `¶`, no class or title, the four built-ins and no extension config |
| Templating.Keep | statik/templating.py:87-88 | the providers kept are exactly those in both lists, never more than given |
| Templating.SupportedProviders | statik/templating.py:85-94 | outside safe mode the configured providers are used as they are; in safe mode only the safer ones among them; none left raises `NoSupportedTemplateProvidersError` |
| Templating.FirstUnknown | statik/templating.py:45-50 | the first provider without a provider class, none iff every provider has one |
| Templating.BuildExtMap | statik/templating.py:96-105 | the loops over providers and their extensions give the specification's extension map and extension list |
| Templating.ClaimEachMeaning | statik/templating.py:102-105 | claiming extensions lists each once; an extension already claimed keeps its provider and a new one goes to the claimer |
| Templating.ExtMapOfMeaning | statik/templating.py:99-105 | an extension is mapped iff some provider reads it, and then to the first such provider in order |
| Templating.ExtMapOf | statik/templating.py:96-105 | the extension-to-provider map in provider precedence order; proved in Templating.ExtMapOfMeaning |
| Templating.FirstClaimerIsEarliest | statik/templating.py:99-105 | the first provider reading an extension claims it |
| Templating.FirstClaimer | statik/templating.py:99-105 | the reference definition of the provider owning an extension; Templating.ExtMapOfMeaning ties the map to it |
| Templating.FirstClaimerNone | statik/templating.py:99-105 | an extension no provider reads is not claimed |
| Templating.DefaultExtensions | statik/templating.py:31-42 | the default providers list `.html.jinja2`, `.jinja2`, `.html`, `.html.mustache`, `.mustache`, and `.html` goes to Jinja2, or to Mustache in safe mode |
| Templating.TemplatePaths | statik/templating.py:112-120 | the project's templates folder first, then the theme's when there is a theme |
| Templating.PathJoin | statik/templating.py:112-120 | `os.path.join` of two POSIX paths, used for the template directories and file lookup |
| Templating.FirstMissing | statik/templating.py:128-130 | the first template path that is not a directory, none iff all are |
| Templating.EngineSetupMeaning | statik/templating.py:77-130 | a constructed engine has supported providers with provider classes, only Mustache in safe mode, each extension mapped to a supported provider, the project's templates folder first, and every template path an existing directory |
| Templating.EngineSetup | statik/templating.py:77-135 | the engine constructor's providers, extension map and template paths, with its errors in source order; proved in Templating.EngineSetupMeaning |
| Templating.FirstClaimerIn | statik/templating.py:102-105 | an extension's claimer is one of the providers |
| Templating.LastMatchingExt | statik/templating.py:150-152 | the extension found is one the name ends with |
| Templating.LastMatchingExtMeaning | statik/templating.py:150-152 | the last matching extension wins, and none is found iff none matches |
| Templating.FirstFileFrom | statik/utils.py:338-359 | what is found is a path and extension naming an existing file |
| Templating.FirstFileNone | statik/utils.py:351-359 | nothing is found exactly when no path holds a file with any of the extensions |
| Templating.FirstPathWins | statik/utils.py:351-356 | a file in the first path is found in the first path, before any later path |
| Templating.TemplateDetailsMeaning | statik/templating.py:146-160 | the template name ends with an extension whose provider is returned, a base path found holds the file, and `MissingTemplateError` means no path holds the name with any extension |
| Templating.TemplateDetails | statik/templating.py:146-160 | `find_template_details`: the known extension or the first matching file, or `MissingTemplateError`; proved in Templating.TemplateDetailsMeaning |
| Templating.StatikTemplateEngine.constructor | statik/templating.py:77-108 | the engine starts with the worked-out providers, extension map and template paths, and empty caches |
| Templating.StatikTemplateEngine.GetProvider | statik/templating.py:137-144 | providers are created lazily, once each, and an unknown provider raises `KeyError` |
| Templating.StatikTemplateEngine.FindTemplateDetails | statik/templating.py:146-160 | the loop gives the specification's template details |
| Templating.StatikTemplateEngine.LoadTemplate | statik/templating.py:162-195 | a cached template is returned as it is; otherwise the template is found, loaded with its provider and cached, and a failure leaves the cache unchanged |
| Templating.StatikTemplateEngine.CreateTemplate | statik/templating.py:197-210 | the named provider, or the first supported one, creates the template, and its errors become `TemplateError` |
| Templating.TemplateDetailsProvider | statik/templating.py:160 | the provider found for a template is the one its extension maps to |
| Templating.NewEngine | statik/templating.py:77-135 | construction fails exactly when the setup does, with its error; otherwise the engine holds the setup's providers, extension map and template paths, and empty caches |
| TemplateTags.Invoke | statik/templatetags.py:30-33 | a tag without a flag or without a callable raises `KeyError`; otherwise its callable is called with the keyword arguments, and with the context in front of the positional arguments exactly when its flag is truthy |
| TemplateTags.TemplateTagStore.InvokeTag | statik/templatetags.py:30-33 | `invoke_tag` on the store's current tables; proved through TemplateTags.Invoke |
| TemplateTags.InvokeWithoutContext | statik/templatetags.py:31-33 | a tag whose flag is falsy never sees the context |
| TemplateTags.TemplateTagStore.constructor | statik/templatetags.py:25-28 | a new store has no filters, tags or flags |
| TemplateTags.TemplateTagStore.RegisterTag | statik/templatetags.py:35-36 | registering a tag binds its name and changes nothing else; a later registration replaces an earlier one |
| TemplateTags.TemplateTagStore.RegisterFilter | statik/templatetags.py:38-39 | registering a filter binds its name and changes nothing else |
| TemplateTags.TemplateTagStore.SimpleTag | statik/templatetags.py:41-59 | with a name, a decorator is returned and only the flag is set; without one, the function is registered under its own name and its flag set; with neither, `IndexError` leaves the store unchanged |
| TemplateTags.TemplateTagStore.Filter | statik/templatetags.py:61-79 | the same for filters: a decorator with a name, direct registration under the function's name otherwise, `IndexError` with neither |
| TemplateTags.TemplateTagStore.Decorate | statik/templatetags.py:45-47 | applying a returned decorator registers the function under the decorator's name, in the tag or the filter registry only, and returns `None` |
| Filters.Insert | statik/filters.py:19 | inserting a position adds exactly one position, all within the list |
| Filters.SortIdx | statik/filters.py:19 | the sort lists as many positions as elements, all within the list |
| Filters.InsertKeepsBelow | statik/filters.py:19 | insertion adds exactly the new position to those listed |
| Filters.BeforeTrans | statik/filters.py:19 | the stable sort order, ascending or reversed, is transitive |
| Filters.BeforeTotal | statik/filters.py:19 | of two distinct positions exactly one goes first |
| Filters.InsertOrdered | statik/filters.py:19 | inserting into a sorted list of positions keeps it sorted |
| Filters.SortIdxOrdered | statik/filters.py:19 | the positions come out in sort order |
| Filters.SortIdxSpec | statik/filters.py:19 | the sort lists every position once, in sort order, equal keys keeping their original order |
| Filters.AtIndex | statik/filters.py:19 | the element at each output position is the input element at the listed position |
| Filters.AtInsert | statik/filters.py:19 | inserting a position adds its element to those taken |
| Filters.SortIdxElements | statik/filters.py:19 | the sorted elements are a permutation of the list |
| Filters.Keys | statik/filters.py:19 | `getattr(x, key)` for every element, failing iff some element lacks the attribute |
| Filters.FilterSortBy | statik/filters.py:14-19 | `sort_by` raises `AttributeError` for the stripped key iff some element lacks that attribute, and otherwise keeps the list's length |
| Filters.SortByMeaning | statik/filters.py:14-19 | the result is the list permuted into stable order of the stripped key's values, reversed iff the key starts with `-` |
| Filters.SortBySorted | statik/filters.py:14-19 | every element of the result has the attribute, and of any two elements the earlier never has the greater key, or the smaller for a `-` key |
| Filters.SortKeyParts | statik/filters.py:16-18 | a key starting with `-` loses all its leading dashes, and the stripped key is the key's tail |
| Filters.RegisterFilters | statik/filters.py:8-13 | loading the module registers `date` and `sort_by` as filters not taking the context, leaving tags alone |
| Tags.PrintContext | statik/tags.py:9-11 | `{% context %}` returns its first argument, the context, and fails without one |
| Tags.Strs | statik/tags.py:19 | `map(str, args)`: one string per argument, in order |
| Tags.KeywordStrs | statik/tags.py:20 | one `k=v` string per keyword argument |
| Tags.EchoArgumentsAsWritten | statik/tags.py:15-22 | as written the echo fails iff keyword arguments are given, since `map` passes the pairs as one argument to a two-argument lambda |
| Tags.EchoArguments | statik/tags.py:15-22 | the echo is always `ditto(...)` |
| Tags.EchoAsWrittenWithoutKeywords | statik/tags.py:19-22 | without keyword arguments the two readings agree |
| Tags.KeywordEchoFails | statik/tags.py:20 | the direct call `echo_arguments(a=1)` raises as written and returns `ditto(a=1)` as intended; templates cannot reach it, since their tag parser passes positional arguments only |
| Tags.EchoExamples | statik/tags.py:17 | `{% ditto 1 2 3 %}` renders `ditto(1, 2, 3)` and `{% ditto %}` renders `ditto()` |
| Tags.EchoArgumentsRoundTrip | statik/tags.py:19-22 | for comma-free arguments, the text between the parentheses splits back on `, ` into the arguments' strings |
| Tags.SplitJoinComma | statik/tags.py:19 | splitting a `, `-join of comma-free parts gives the parts back |
| Tags.CommaFreeSplit | statik/tags.py:19 | a comma-free string splits on `, ` into itself |
| Tags.SplitAfterComma | statik/tags.py:19 | a comma-free first part is the first piece of the split |
| Tags.RegisterTags | statik/tags.py:9-14 | loading the module registers `context`, taking the context, and `ditto`, not taking it, leaving the filters alone; invoking `context` passes the context in front, `ditto` does not |
| Tags.ContextTagReturnsContext | statik/tags.py:9-11 | `{% context %}` renders the context it is given |
| MarkdownExts.Fences | statik/markdown_exts.py:82-91 | marks exactly the lines whose stripped text is `---`, one flag per line |
| MarkdownExts.SplitFrontMatter | statik/markdown_exts.py:81-96 | the line loop collects YAML only after an opening `---` line and up to the next `---` line, and every other line from the loop's start is body, in order |
| MarkdownExts.RunYamlMeta | statik/markdown_exts.py:76-103 | `meta` is reset to `{}`; a document of two or more lines yields its body lines and, when YAML lines were collected, their newline-joined text loaded into `meta`; a load failure is raised and leaves `meta` at `{}` |
| MarkdownExts.YamlMeta | statik/markdown_exts.py:76-103 | the front-matter preprocessor as intended, where only an empty document yields nothing; proved in MarkdownExts.RunYamlMeta and PlainDocumentKept |
| MarkdownExts.YamlMetaAsWritten | statik/markdown_exts.py:80-103 | the preprocessor as written, where fewer than two lines yield nothing; the difference is shown in MarkdownExts.OneLineDocumentLost |
| MarkdownExts.PlainLines | statik/markdown_exts.py:86-96 | without an opening `---`, the loop keeps every line as body, in order, and collects no YAML |
| MarkdownExts.CollectedLines | statik/markdown_exts.py:83-94 | after an opening `---`, every line before the closing one is YAML and none is body |
| MarkdownExts.LinesAfterClose | statik/markdown_exts.py:89-96 | after the closing `---` at line `c`, the YAML is lines 1 to `c - 1` and the body is every line after `c`; later `---` lines are body |
| MarkdownExts.NoFrontMatter | statik/markdown_exts.py:80-96 | a document of two or more lines not opening with `---` is body in full, with no metadata |
| MarkdownExts.FrontMatterBetweenFences | statik/markdown_exts.py:80-96 | a document opening with `---` and closing it at line `c` has lines 1 to `c - 1` as YAML and the rest after `c` as body |
| MarkdownExts.FrontMatterUnclosed | statik/markdown_exts.py:80-96 | a document opening with `---` that never closes it is all YAML and has an empty body |
| MarkdownExts.OneLineDocumentLost | statik/markdown_exts.py:80-103 | the one-line document `Hello` comes out of the preprocessor empty, while the intended reading keeps the line |
| MarkdownExts.PlainDocumentKept | statik/markdown_exts.py:80-96 | under the intended reading, any non-empty document not opening with `---` is kept in full as body |
| MarkdownExts.DigitEnd | statik/markdown_exts.py:161 | finds the end of the maximal run of digits from a position, the `\d+` of the pattern |
| MarkdownExts.ParseTailText | statik/markdown_exts.py:161 | the pattern's tail `(:\d+)?\)\w*$` accepts the tail text of every well-formed directive and reads back its count and trailing word characters |
| MarkdownExts.DigitRun | statik/markdown_exts.py:161 | a run of digits that stops before a non-digit is exactly the run the count group matches |
| MarkdownExts.ParseTailMeaning | statik/markdown_exts.py:161 | whatever the tail pattern accepts is a non-empty digit count, if any, followed by `)` and word characters only, and re-forms the tail exactly |
| MarkdownExts.DirectiveRoundTrip | statik/markdown_exts.py:161 | the pattern matches the text of every well-formed directive and recovers its kind, count and trailing text |
| MarkdownExts.ParseDirective | statik/markdown_exts.py:161 | the lorem-ipsum pattern as a parser of kind, count and tail; it is inverted by the directive text in MarkdownExts.DirectiveRoundTrip and ParsedIsDirective |
| MarkdownExts.EarlierKindsFail | statik/markdown_exts.py:161 | a directive's text is not matched by any kind tried before its own, so the greedy optional `s` picks the right kind |
| MarkdownExts.ParsedIsDirective | statik/markdown_exts.py:161-180 | every line the pattern matches is the text of a well-formed directive, so the pattern accepts exactly the directive texts |
| MarkdownExts.RunLoremIpsum | statik/markdown_exts.py:175-190 | the line loop returns every non-directive line unchanged and every directive replaced by its generated lines, in order, or raises the first directive's error |
| MarkdownExts.LoremIpsum | statik/markdown_exts.py:175-190 | the lorem-ipsum preprocessor on the first lines, stopping at the first error; the loop is tied to it by MarkdownExts.RunLoremIpsum |
| MarkdownExts.Expand | statik/markdown_exts.py:177-189 | one line: kept unless it is a directive, otherwise the generated text split into lines, or `SyntaxError` for a plural kind without a count; proved in MarkdownExts.DirectiveCounts |
| MarkdownExts.LoremStopped | statik/markdown_exts.py:184-185 | once a directive raises, no later line changes the outcome: the whole run raises that error |
| MarkdownExts.NoDirectivesKept | statik/markdown_exts.py:188-189 | a document without directives passes through unchanged |
| MarkdownExts.DirectiveCounts | statik/markdown_exts.py:162-187 | a given count is passed to the kind's generator; a singular kind without one generates one item; a plural kind without one raises `SyntaxError` |
| MarkdownExts.HundredWords | statik/markdown_exts.py:161-187 | `!(lipsum-words:100)` is replaced by a hundred generated words, split into lines |
| MarkdownExts.StripElText | statik/utils.py:305-333 | the stripped text of an element and its descendants never holds a newline |
| MarkdownExts.Unquote | statik/markdown_exts.py:116 | the text has no single or double quote left and keeps every other character |
| MarkdownExts.Permalink | statik/markdown_exts.py:109-128 | the permalink is an `a` element with `href` `#` plus the id, `class`, `title` and text set exactly when configured, and nothing else |
| MarkdownExts.InsertPermalinks | statik/markdown_exts.py:106-138 | the walk keeps an element's tag, attributes, text, tail and number of children |
| MarkdownExts.InsertFrom | statik/markdown_exts.py:107-138 | each child is processed, in order, and no child is added or dropped at this level |
| MarkdownExts.LinkUnchanged | statik/markdown_exts.py:130-138 | walking into a permalink just appended changes nothing, so the recursion after the append adds nothing |
| MarkdownExts.ProcessedHeading | statik/markdown_exts.py:108-130 | a heading keeps an existing `id`, otherwise gets the slug of its quote-free text to depth 3; its other attributes stay, and exactly one permalink to that id is appended as its last child |
| MarkdownExts.ProcessedOther | statik/markdown_exts.py:107-138 | an element that is not a heading keeps its tag, attributes, text, tail and number of children |
| MarkdownExts.SetIdsFrom | statik/markdown_exts.py:112-118 | each child, in order, with ids set where the walk sets them |
| MarkdownExts.UnlinkFrom | statik/markdown_exts.py:130 | each kept child, in order, with the last child of each heading removed |
| MarkdownExts.PermalinksRemoved | statik/markdown_exts.py:106-138 | removing the last child of every heading from the walked tree gives the original tree with ids set: the walk adds exactly one permalink per heading and changes nothing else |
| MarkdownExts.SetIds | statik/markdown_exts.py:106-138 | the reference tree for the permalink walk: every heading gets its id and nothing else changes; MarkdownExts.PermalinksRemoved ties the walk to it |
| MarkdownExts.Unlinked | statik/markdown_exts.py:127-136 | the tree with the last child of every heading removed, which undoes the added permalinks in MarkdownExts.PermalinksRemoved |
| MarkdownExts.UnlinkProcessed | statik/markdown_exts.py:107-138 | the same, child by child, for the processed children of an element |
| MarkdownExts.UnlinkChildProcessed | statik/markdown_exts.py:108-138 | the same for one processed child |
| MarkdownExts.NoHeadingsUnchanged | statik/markdown_exts.py:106-138 | a tree without headings comes out of the walk unchanged |
| MarkdownExts.PlainHeadingId | statik/markdown_exts.py:112-116 | a heading without an id and with plain text only gets the slug of its stripped text without quotes |
| MarkdownYaml.CharRef | statik/markdownyaml.py:45 | a character's encoding is pure ASCII |
| MarkdownYaml.XmlCharRefs | statik/markdownyaml.py:45-49 | encoding a text gives pure ASCII |
| MarkdownYaml.EncodeEach | statik/markdownyaml.py:45 | each line is encoded on its own, line count kept |
| MarkdownYaml.CharRefRoundTrip | statik/markdownyaml.py:45 | a non-ASCII character becomes `&#`, its code point in decimal, and `;`, and reads back as that code point |
| MarkdownYaml.AsciiUnchanged | statik/markdownyaml.py:45 | ASCII text is left as it is |
| MarkdownYaml.EncodeConcat | statik/markdownyaml.py:45-49 | encoding distributes over concatenation |
| MarkdownYaml.EncodeJoin | statik/markdownyaml.py:49 | encoding the newline-joined YAML text equals joining the separately encoded lines |
| MarkdownYaml.SplitEncoded | statik/markdownyaml.py:30-45 | the line loop collects the same YAML lines as the one in `statik/markdown_exts.py` and keeps the same body lines, each encoded |
| MarkdownYaml.RunYamlMeta | statik/markdownyaml.py:25-52 | `meta` is reset to `{}`; a document of two or more lines yields its encoded body lines and, when YAML lines were collected, their joined and encoded text loaded into `meta`; a load failure is raised and leaves `meta` at `{}` |
| MarkdownYaml.Run | statik/markdownyaml.py:25-52 | the encoding front-matter preprocessor as intended, where only an empty list yields nothing; proved in MarkdownYaml.RunYamlMeta and RunFromLines |
| MarkdownYaml.RunAsWritten | statik/markdownyaml.py:29-52 | the preprocessor as written, where fewer than two lines yield nothing; the difference is shown in MarkdownYaml.OneLineDocumentDropped |
| MarkdownYaml.BodyFromLines | statik/markdownyaml.py:38-45 | every body line of the loop is a line of the document |
| MarkdownYaml.YamlFromLines | statik/markdownyaml.py:38-43 | every YAML line of the loop is a line of the document |
| MarkdownYaml.RunFromLines | statik/markdownyaml.py:29-45 | the body and YAML lines of a run are lines of the document |
| MarkdownYaml.EncodeEachAscii | statik/markdownyaml.py:45 | ASCII lines are left as they are |
| MarkdownYaml.AsciiDocumentAgrees | statik/markdownyaml.py:25-52 | on an ASCII document this preprocessor and the one in `statik/markdown_exts.py` give the same body and the same metadata |
| MarkdownYaml.AccentEncoded | statik/markdownyaml.py:45 | `Hé` becomes `H&#233;` |
| MarkdownYaml.OneLineDocumentDropped | statik/markdownyaml.py:29-52 | the direct call `run(["Hé"])` returns no lines as written, while the intended reading keeps it as `H&#233;`; rendering does not reach it, since `normalize_whitespace` runs first and appends blank lines |

## Left out

- SQLAlchemy, mlalchemy and the unsafe `exec` query path of `statik/database.py` are not modelled. A query is a function parameter from query and bindings to records; only the safe-mode gate in front of it is modelled.
- The module-level `globals()` registry of generated tables is a map owned by `Database.StatikDatabase`. It holds association tables only.
- Jinja2 and pystache rendering, `yaml.safe_load`, `markdown.convert`, `slugify`, the `lipsum` generators and `dateutil` date parsing are function parameters. What they return is not modelled.
- The filesystem, `os.environ` and the process are not modelled. File existence, directory listings and the environment are parameters. Files are never read or written.
- `filter_datetime` (the `date` filter, `statik/filters.py:8-10`) calls `strftime`. It is registered by name only, and its formatting is not modelled.
- Floating point: the `math.ceil(float(...))` of pagination is integer ceiling division. The `float()` coercion of `src/models.py` is left out.
- Pagination.Paginator.constructor: requires `itemsPerPage > 0`. With 0 the source raises `ZeroDivisionError`, which is not modelled. A negative page size is excluded too. The source accepts it without error, and `total_pages` can then be zero, negative or positive: a negative `total_items` (offset past the records) over a negative size rounds up to a positive count, and iteration then asks for pages that hold no records. None of this is modelled.
- Config.StatikConfigOf: loading `config.yml` and `dict_strip` of its variables happen before it. The variables arrive as a dict. It reads the provider override as intended (`Config.Providers`, Findings row `statik/config.py:52`), not as written (`Config.ProvidersAsWritten`). So `{templates: {providers: [mustache]}}` gives `[mustache]` here where the source keeps `[jinja2, mustache]`. With a top-level `providers` key and a `templates` that is not a dict holding `providers`, the source raises `TypeError` or `KeyError`; the model does not.
- MarkdownConfiguration.AddExtension: merging new settings into settings already stored needs two dicts. Any other pair is reported as `TypeError`, whereas `dict.update` would also accept a list of pairs.
- Database.CollectionAsWritten: the session, the table's primary-key constraint and the commit at `statik/database.py:206` are not modelled. A collection with a repeated `pk` succeeds here as far as the loading loop goes; the source then fails at commit with a database integrity error.
- Database.GetOrCreate: the registry stands for the module's `globals()` but holds only association tables. The real dict also holds the module's imports (`statik/database.py:1-30`, such as `DateTime`, `Table`, `String` and `datetime`) and every generated model class, added by `set_global(model.name, Model)` at `statik/database.py:622`. `get_or_create_association_table` returns whatever is stored under the name. So models `Date` and `Time` would get SQLAlchemy's `DateTime` as their association table, and a model `PostTag` built before the `Post`/`Tag` association would be returned as that table. Neither collision is modelled.
- Database.StatikDatabase.constructor: the registry starts empty, not holding the imported names described under `Database.GetOrCreate`.
- Database.StatikDatabase.GetOrCreateAssociationTable: no model class is ever registered in it, so it inherits the `Database.GetOrCreate` gap.
- DbInstance.Found: a key matches a stored primary key only when it is a string equal to it. A database engine that compares a number or a boolean with a text column through its text form (SQLite's TEXT affinity, where `2019` matches a stored `'2019'`) is not modelled.
- DbInstance.MissingMeaning: because of the `DbInstance.Found` gap, a non-string key whose text form is a stored primary key counts as missing here and, for a target with only `pk`, is queued for implicit creation. The source would find it.
- DbInstance.ResolveRows: for such a key the source's final sort (`statik/database.py:471-472`) raises `ValueError`, since the stored text key is not in the list of original values. The model resolves only string keys and never produces that error.
- DbInstance.InstanceManyToMany: inherits both gaps. A many-to-many list holding a non-string key present as text is treated as naming a missing row instead of ending in `ValueError`.
- DbInstance.Deduped and Utils.FindDuplicatesInArray: values are compared by structural equality. Python's hashing is not modelled, so `1` and `True` are different values here, and a list element, for which `set()` raises `TypeError`, is accepted.
- Utils.Uncapitalize: only the ASCII capitals are lowered (`PyStr.LowerChar`). Python's Unicode-aware `lower()` also lowers `É`, and can change the length, as with `İ`, which lowers to two characters.
- Filters.FilterSortBy: the ordering `lt` is a total parameter. Python's `sorted` raises `TypeError` when two keys cannot be compared, such as `None` next to a string or a date from an optional field, and the model never produces that error.
- Pagination.Paginate: the offset is a `nat`. A negative offset, which `paginate` passes on to the query unchecked, is not modelled.
- `_load_json` of `statik/data.py` is a parameter of `LegacyData.Dispatch` and is not modelled. As written, its check of `_content` reads `result['content']` at `statik/data.py:444` and raises `KeyError` when the content has no `html` entry and the record has no top-level `content` entry.
- DbInstance.Deduped: many-to-many de-duplication keeps first occurrences in input order. The source goes through a Python `set`, whose iteration order is not modelled.
- DepOrder.CreationOrder and LegacyData.CreateTables: each round visits the remaining models in list order, not in Python set order. Within a round a model can see models created earlier in the same round, so which models a round creates can depend on that order. Whether the tables are all created does not depend on it, since success holds exactly when some dependency-respecting order exists (DepOrder.CreationOrderComplete). On success every model is created once, so only the order of the statements can differ. On a cycle, the set of models reported as stuck is not shown to be the same for every order.
- Views.OnlyValue: the value under a single-entry dict's only key. The `VNone` branch is for a malformed `Dict` only and never arises from loaded data.
- Context.NewContext: `initial` is stored as given, as in the source. Sharing of that dict with the caller (aliasing) is not modelled, since the model works on values.
- The permalink walk of `statik/markdown_exts.py` is modelled on values (`MarkdownExts.InsertPermalinks`). In-place mutation of the element tree, attribute order and aliasing of elements are not captured.
- MarkdownExts.ParseDirective: the lorem-ipsum pattern's `\w` and `\d` are taken over ASCII only. Python's `$` also matching before a final newline is not modelled; lines handed to preprocessors hold no newline.
- `statik/data.py` is Python 2 and fails as written in several places: a syntax error at `statik/data.py:288`, `['id'].extend(...)` yielding `None`, and a tuple unpacking of a string. The model follows the evident intent of `_create_tables`, filter parsing, `make_insert_query` and `_load_markdown`.
- Logging, the error-context bookkeeping (`StatikErrorContext`) and the wording of error messages are left out. Errors are identified by kind and the names they carry.
- Deployment, uploading, file watching, the command line, project orchestration, asset copying, `statik/common.py`, `statik/jinja2ext.py`, `statik/external_database.py` and the stubs `src/views.py`, `src/data.py` and `src/utils.py` are not part of this model.

## Findings

| source | as written | input that shows it | evidently intended | confidence | as-written member | corrected member |
|---|---|---|---|---|---|---|
| statik/database.py:152-173 | `sort_models` repeats rounds until one reproduces the previous order, with no cycle check | models `A` with a foreign key to `B` and `B` with one to `A`: the rounds alternate between two orders and the loop never ends | a dependency cycle is reported as an error | high, not executed | Database.Settle, Database.CycleNeverSettles | Database.SortModelsChecked, Database.SortModelsCheckedSound, Database.CycleReported |
| statik/database.py:221-254 | `if not seen_entries` replaces the caller's empty set with a fresh one, so entries of a collection never accumulate | with a collection `[{pk: a}, {pk: a}]` the `DuplicateModelInstanceError` check never fires; both entries reach the session, and the load then fails at commit with a database error instead of the intended message | a repeated `pk` in a collection raises `DuplicateModelInstanceError` | high, not executed | Database.CollectionAsWritten, Database.DuplicateEntriesAccepted | Database.CollectionChecked, Database.CollectionCheckedResult |
| statik/database.py:499-503 | association tables are looked up by the concatenated name of the sorted pair | the pairs (`ab`, `c`) and (`a`, `bc`) both give `abc`, so the second pair gets the first pair's table | one table per unordered pair of models | medium, not executed | Database.GetOrCreate, Database.AssociationNamesCollide | Database.GetOrCreateByPair, Database.GetOrCreateByPairLinks |
| src/models.py:177-179 | the error message formats `name`, which is unbound in `StatikField.__init__` | field type `text` | `InvalidFieldTypeException` naming the field | high, not executed | LegacyModels.FieldAsWritten, LegacyModels.UnknownTypeRaisesNameError | LegacyModels.NewField |
| statik/config.py:52 | the override in `templates.providers` is read only when a top-level `providers` key also exists | `templates: {providers: [mustache]}` keeps both providers | the override is read whenever `templates` holds `providers` | high, not executed | Config.ProvidersAsWritten, Config.ProvidersOverrideIgnored | Config.Providers, Config.ProvidersMeaning |
| statik/tags.py:20 | `map` is given a two-argument function and one iterable of pairs | the direct call `echo_arguments(a=1)` raises `TypeError`; latent in templates, whose tag parser passes positional arguments only | keyword arguments are echoed as `k=v` | high, not executed | Tags.EchoArgumentsAsWritten, Tags.KeywordEchoFails | Tags.EchoArguments, Tags.KeywordEchoFails |
| statik/markdown_exts.py:80 | `len(lines) > 1` returns `[]` for a one-line document | the document `Hello` renders empty | only an empty document yields no lines | medium, not executed | MarkdownExts.YamlMetaAsWritten, MarkdownExts.OneLineDocumentLost | MarkdownExts.YamlMeta, MarkdownExts.PlainDocumentKept |
| statik/markdownyaml.py:29 | the same `len(lines) > 1` test | the direct call `run(["Hé"])` returns no lines; latent in rendering, where the preprocessor runs after `normalize_whitespace` and so always gets blank lines appended | only an empty list yields no lines | medium, not executed | MarkdownYaml.RunAsWritten, MarkdownYaml.OneLineDocumentDropped | MarkdownYaml.Run, MarkdownYaml.OneLineDocumentDropped |

=== FILE: common.dfy ===
/** Failure-compatible wrappers and the errors Statik raises.
    The Python exception classes become constructors of one `Error` datatype;
    each carries the names the source puts into its message. */
module Common {

  datatype Option<+T> = None | Some(value: T) {
    predicate IsFailure() { None? }
    function PropagateFailure<U>(): Option<U>
      requires None?
    {
      None
    }
    function Extract(): T
      requires Some?
    {
      value
    }
  }

  datatype Error =
    // built-in Python exceptions raised on the modelled paths
    | TypeError(what: string)
    | ValueError(what: string)
    | IndexError(index: int)
    | KeyError(key: string)
    | NameError(name: string)
    | AttributeError(what: string)
    | SyntaxError(what: string)
    // statik/errors.py
    | MissingParameterError(param: string)
    | InvalidFieldTypeError(model: string, field: string, expected: string)
    | ModelError(model: string, what: string)
    | DuplicateModelInstanceError(model: string, pk: string)
    | InvalidModelCollectionDataError(model: string)
    | SafetyViolationError(what: string)
    | ProjectConfigurationError(what: string)
    | NoSupportedTemplateProvidersError
    | MissingTemplateError(name: string)
    | MissingProjectFolderError(folder: string)
    | TemplateError(what: string)
    // the exceptions of the older src/ and statik/data.py layer
    | ModelDoesNotExistException(model: string)
    | QueryException(what: string)
    | CircularDependencyException(remaining: set<string>)
    | UnsupportedDataFileException(ext: string)
    | InvalidModelConfigException(model: string, what: string)
    | InvalidFieldTypeException(model: string, field: string, fieldType: string)
    | InvalidConfigException(what: string)

  datatype Result<+T> = Success(value: T) | Failure(error: Error) {
    predicate IsFailure() { Failure? }
    function PropagateFailure<U>(): Result<U>
      requires Failure?
    {
      Failure(error)
    }
    function Extract(): T
      requires Success?
    {
      value
    }
  }

  /** Outcome of an operation that only changes state. */
  datatype Outcome = Pass | Fail(error: Error) {
    predicate IsFailure() { Fail? }
    function PropagateFailure(): Outcome
      requires Fail?
    {
      this
    }
  }
}

=== FILE: config.dfy ===
/** A project's configuration (statik/config.py): the settings read from
    the project's `config.yml`, each computed once from the loaded
    variables. Loading and stripping the YAML happens before and is not
    part of this module: the variables arrive as a dict. */
module Config {
  import opened Common
  import opened Values
  import opened Utils
  import opened MarkdownConfiguration
  import opened Templating

  datatype StatikConfig = StatikConfig(
    projectName: Value,
    basePath: Value,
    encoding: Value,
    theme: Value,
    markdown: MarkdownConfig,
    assetsSrcPath: string,
    assetsDestPath: string,
    contextStatic: Dict,
    contextDynamic: Dict,
    templateProviders: seq<string>)

  const DefaultAssetsPath: string := "assets"

  /** An asset path: the string under `key` in an `assets` dict, `assets`
      otherwise. */
  function AssetPath(vars: Dict, key: string): string {
    var assets := GetOr(vars, "assets", VNone);
    if assets.VDict? && GetOr(assets.d, key, VNone).VStr? then GetOr(assets.d, key, VNone).s
    else DefaultAssetsPath
  }

  /** A context part: the dict under `key` in a `context` dict, its keys
      underscored, or `{}` otherwise. */
  function ContextPart(vars: Dict, key: string): Dict {
    var context := GetOr(vars, "context", VNone);
    if context.VDict? && GetOr(context.d, key, VNone).VDict? then UnderscoreVarNames(GetOr(context.d, key, VNone).d)
    else Empty
  }

  /** `[p for p in providers if p in DEFAULT_TEMPLATE_PROVIDERS]`. */
  function DefaultProvidersIn(providers: seq<Value>): (r: seq<string>)
    ensures forall p :: p in r ==> p in DefaultTemplateProviders && VStr(p) in providers
    ensures forall p :: p in DefaultTemplateProviders && VStr(p) in providers ==> p in r
  {
    if |providers| == 0 then []
    else
      var v := providers[|providers| - 1];
      DefaultProvidersIn(providers[..|providers| - 1])
        + (if v.VStr? && v.s in DefaultTemplateProviders then [v.s] else [])
  }

  /** The filter keeps the listed order: filtering two lists one after the
      other is filtering their concatenation. */
  lemma {:induction false} DefaultProvidersInConcat(a: seq<Value>, b: seq<Value>)
    ensures DefaultProvidersIn(a + b) == DefaultProvidersIn(a) + DefaultProvidersIn(b)
    decreases |b|
  {
    if |b| == 0 {
      assert a + b == a;
    } else {
      var front := b[..|b| - 1];
      assert (a + b)[..|a + b| - 1] == a + front;
      assert (a + b)[|a + b| - 1] == b[|b| - 1];
      DefaultProvidersInConcat(a, front);
    }
  }

  /** One entry is kept, once, exactly when it is a default provider's name;
      with DefaultProvidersInConcat this fixes the filter's result, order and
      repetitions included. */
  lemma DefaultProvidersInSingle(v: Value)
    ensures DefaultProvidersIn([v]) == if v.VStr? && v.s in DefaultTemplateProviders then [v.s] else []
  {
    assert [v][..0] == [];
  }

  /** The provider list as written: the override is read from
      `vars['templates']['providers']`, but only when `vars` holds both a
      `templates` and a top-level `providers` key; reading it then raises
      when `templates` is not a dict holding `providers`. */
  function ProvidersAsWritten(vars: Dict): Result<seq<string>> {
    if "templates" in vars.vals && "providers" in vars.vals then
      var templates := vars.vals["templates"];
      if !templates.VDict? then Failure(TypeError("indices must be integers"))
      else if "providers" !in templates.d.vals then Failure(KeyError("providers"))
      else if !templates.d.vals["providers"].VList? then
        Failure(ProjectConfigurationError("Template providers in project configuration must be a list."))
      else Success(DefaultProvidersIn(templates.d.vals["providers"].elems))
    else Success(DefaultTemplateProviders)
  }

  /** The provider list as evidently intended: the override is
      `templates.providers`, considered whenever `templates` is a dict
      holding `providers`; it must be a list, and only known providers are
      kept, in the order given. */
  function Providers(vars: Dict): Result<seq<string>> {
    var templates := GetOr(vars, "templates", VNone);
    if templates.VDict? && "providers" in templates.d.vals then
      if !templates.d.vals["providers"].VList? then
        Failure(ProjectConfigurationError("Template providers in project configuration must be a list."))
      else Success(DefaultProvidersIn(templates.d.vals["providers"].elems))
    else Success(DefaultTemplateProviders)
  }

  /** `StatikConfig(...)` on the loaded variables: the Markdown settings
      must be valid, the provider list a list, and at least one provider
      must be left. */
  function StatikConfigOf(vars: Dict): Result<StatikConfig> {
    var markdown :- MarkdownConfigOf(GetOr(vars, "markdown", VDict(Empty)));
    var providers :- Providers(vars);
    if |providers| == 0 then Failure(NoSupportedTemplateProvidersError)
    else Success(StatikConfig(
      GetOr(vars, "project-name", VStr("Untitled project")),
      GetOr(vars, "base-path", VStr("/")),
      GetOr(vars, "encoding", VStr("utf-8")),
      GetOr(vars, "theme", VNone),
      markdown,
      AssetPath(vars, "source"),
      AssetPath(vars, "dest"),
      ContextPart(vars, "static"),
      ContextPart(vars, "dynamic"),
      providers))
  }

  /** An empty configuration: an untitled project at `/` in UTF-8 without a
      theme, the default Markdown settings, `assets` for both asset paths,
      no context, and both providers, Jinja2 first. */
  lemma Defaults()
    ensures StatikConfigOf(Empty) == Success(StatikConfig(
      VStr("Untitled project"), VStr("/"), VStr("utf-8"), VNone,
      MarkdownConfig(VBool(false), VStr(Pilcrow), VNone, VNone, Builtins, Empty),
      "assets", "assets", Empty, Empty, ["jinja2", "mustache"]))
  {
    MarkdownConfiguration.Defaults();
  }

  /** An asset path other than the default comes from a string in the
      `assets` dict, and a string there is always taken. */
  lemma AssetPathMeaning(vars: Dict, key: string)
    ensures var a := GetOr(vars, "assets", VNone);
      && (AssetPath(vars, key) != DefaultAssetsPath ==> a.VDict? && GetOr(a.d, key, VNone) == VStr(AssetPath(vars, key)))
      && (a.VDict? && GetOr(a.d, key, VNone).VStr? ==> VStr(AssetPath(vars, key)) == GetOr(a.d, key, VNone))
      && (!a.VDict? ==> AssetPath(vars, key) == DefaultAssetsPath)
  {
  }

  /** A context part is `{}` unless the `context` dict holds a dict under
      that key; when it does, the part has that dict's keys underscored and
      no `-` in any key at any level. */
  lemma ContextPartMeaning(vars: Dict, key: string)
    ensures var c := GetOr(vars, "context", VNone);
      var part := ContextPart(vars, key);
      && WF(part) && DashFree(VDict(part))
      && (!(c.VDict? && GetOr(c.d, key, VNone).VDict?) ==> part == Empty)
      && (c.VDict? && GetOr(c.d, key, VNone).VDict? ==>
            forall k :: k in GetOr(c.d, key, VNone).d.keys ==> UnderscoreKey(k) in part.keys)
  {
    var c := GetOr(vars, "context", VNone);
    if c.VDict? && GetOr(c.d, key, VNone).VDict? {
      UnderscoreVarNamesMeaning(GetOr(c.d, key, VNone).d);
    }
  }

  /** A configuration that loads has at least one provider, every one of
      them a default provider with a provider class; without a
      `templates.providers` override it has both, Jinja2 first. */
  lemma ProvidersMeaning(vars: Dict)
    requires StatikConfigOf(vars).Success?
    ensures var ps := StatikConfigOf(vars).value.templateProviders;
      && |ps| > 0
      && (forall p :: p in ps ==> p in DefaultTemplateProviders)
      && KnownProviders(ps)
    ensures var t := GetOr(vars, "templates", VNone);
      !(t.VDict? && "providers" in t.d.vals) ==> StatikConfigOf(vars).value.templateProviders == DefaultTemplateProviders
    ensures var t := GetOr(vars, "templates", VNone);
      t.VDict? && "providers" in t.d.vals ==>
        t.d.vals["providers"].VList? && StatikConfigOf(vars).value.templateProviders == DefaultProvidersIn(t.d.vals["providers"].elems)
  {
    var ps := StatikConfigOf(vars).value.templateProviders;
    assert Providers(vars) == Success(ps);
    forall p | p in ps ensures p in DefaultTemplateProviders && p in TemplateProviderExts {
    }
  }

  /** With `templates: {providers: [mustache]}` and no top-level
      `providers` key, the source ignores the override and keeps both
      providers; the intended reading keeps Mustache alone. */
  lemma ProvidersOverrideIgnored()
    ensures var vars := Dict(["templates"], map["templates" :=
      VDict(Dict(["providers"], map["providers" := VList([VStr("mustache")])]))]);
      && ProvidersAsWritten(vars) == Success(["jinja2", "mustache"])
      && Providers(vars) == Success(["mustache"])
  {
    var ps := [VStr("mustache")];
    var inner := Dict(["providers"], map["providers" := VList(ps)]);
    var vars := Dict(["templates"], map["templates" := VDict(inner)]);
    assert "providers"[0] != "templates"[0];
    assert "providers" !in vars.vals;
    assert ProvidersAsWritten(vars) == Success(DefaultTemplateProviders);
    assert ps[..0] == [];
    assert "mustache" in DefaultTemplateProviders;
    assert DefaultProvidersIn(ps) == [] + ["mustache"];
    assert [] + ["mustache"] == ["mustache"];
    assert GetOr(vars, "templates", VNone) == VDict(inner);
    assert Providers(vars) == Success(DefaultProvidersIn(ps));
  }

  /** Where the source does read the override, the two readings agree. */
  lemma ProvidersAgreeWhenRead(vars: Dict)
    requires "providers" in vars.vals
    requires var t := GetOr(vars, "templates", VNone); t.VDict? && "providers" in t.d.vals
    ensures ProvidersAsWritten(vars) == Providers(vars)
  {
  }

  /** The test configuration: project name, base path and both asset paths
      as given. */
  lemma ExampleConfig()
    ensures var assets := Dict(["source", "dest"], map["source" := VStr("src_static"), "dest" := VStr("dest_static")]);
      var vars := Dict(["project-name", "base-path", "assets"],
        map["project-name" := VStr("Test Project"), "base-path" := VStr("/blog/"), "assets" := VDict(assets)]);
      && StatikConfigOf(vars).Success?
      && StatikConfigOf(vars).value.projectName == VStr("Test Project")
      && StatikConfigOf(vars).value.basePath == VStr("/blog/")
      && StatikConfigOf(vars).value.assetsSrcPath == "src_static"
      && StatikConfigOf(vars).value.assetsDestPath == "dest_static"
  {
    var assets := Dict(["source", "dest"], map["source" := VStr("src_static"), "dest" := VStr("dest_static")]);
    var vars := Dict(["project-name", "base-path", "assets"],
      map["project-name" := VStr("Test Project"), "base-path" := VStr("/blog/"), "assets" := VDict(assets)]);
    assert "base-path"[0] != "templates"[0];
    assert GetOr(vars, "markdown", VDict(Empty)) == VDict(Empty);
    assert GetOr(vars, "templates", VNone) == VNone;
    MarkdownConfiguration.Defaults();
  }
}

=== FILE: context.dfy ===
/** Template contexts (statik/context.py): a context holds an initial dict,
    static variables, dynamic queries and for-each queries; `build` overlays
    them, in that order and with the process environment and the caller's
    extra variables in between and on top, into the dict a template sees. */
module Context {
  import opened Common
  import opened Values
  import opened Utils

  /** A database query as contexts and views run it: the query, the
      additional locals (`VNone` for none), and the records it yields or the
      error it raises. Safe mode is fixed by whoever supplies the runner. */
  type Runner = (Value, Value) -> Result<seq<Value>>

  /** The dict the loop `result[var] = db.query(query, ...)` has built after
      the first `n` entries of `d`: each variable holds the list of records
      its query yields; the first query that fails ends the loop. */
  function QueriedTo(d: Dict, run: Runner, locals: Value, n: nat): Result<Dict>
    requires Listed(d) && n <= |d.keys|
  {
    if n == 0 then Success(Empty)
    else
      var prev :- QueriedTo(d, run, locals, n - 1);
      var k := d.keys[n - 1];
      var res :- run(d.vals[k], locals);
      Success(Put(prev, k, VList(res)))
  }

  /** The loop lists the variables in order, each once. */
  lemma {:induction false} QueriedKeys(d: Dict, run: Runner, locals: Value, n: nat)
    requires WF(d) && n <= |d.keys|
    ensures var r := QueriedTo(d, run, locals, n);
      r.Success? ==> WF(r.value) && r.value.keys == d.keys[..n]
  {
    if n > 0 {
      QueriedKeys(d, run, locals, n - 1);
      var k := d.keys[n - 1];
      assert d.keys[..n] == d.keys[..n - 1] + [k];
      assert k !in d.keys[..n - 1];
    }
  }

  /** Each variable holds the records of its query. */
  lemma {:induction false} QueriedValues(d: Dict, run: Runner, locals: Value, n: nat)
    requires Listed(d) && n <= |d.keys|
    ensures var r := QueriedTo(d, run, locals, n);
      r.Success? ==> forall k :: k in r.value.vals ==>
        k in d.vals && run(d.vals[k], locals).Success? && r.value.vals[k] == VList(run(d.vals[k], locals).value)
  {
    if n > 0 {
      QueriedValues(d, run, locals, n - 1);
    }
  }

  /** The loop fails exactly when one of its queries fails. */
  lemma {:induction false} QueriedFails(d: Dict, run: Runner, locals: Value, n: nat)
    requires Listed(d) && n <= |d.keys|
    ensures QueriedTo(d, run, locals, n).Failure? <==>
      exists i :: 0 <= i < n && run(d.vals[d.keys[i]], locals).Failure?
  {
    if n > 0 {
      QueriedFails(d, run, locals, n - 1);
    }
  }

  /** The first failing query decides the error: the loop raises it
      however many entries follow. */
  lemma {:induction false} QueriedStopped(d: Dict, run: Runner, locals: Value, i: nat, n: nat)
    requires Listed(d) && i <= n <= |d.keys|
    requires QueriedTo(d, run, locals, i).Failure?
    ensures QueriedTo(d, run, locals, n) == QueriedTo(d, run, locals, i)
    decreases n - i
  {
    if i < n {
      QueriedStopped(d, run, locals, i, n - 1);
    }
  }

  /** The results of every query of `d`, keyed by its variable. */
  function Queried(d: Dict, run: Runner, locals: Value): Result<Dict>
    requires Listed(d)
  {
    QueriedTo(d, run, locals, |d.keys|)
  }

  /** A `StatikContext`. */
  datatype StatikContext = StatikContext(initial: Dict, staticVars: Dict, dynamic: Dict, forEach: Dict)

  /** `d or dict()` followed by `underscore_var_names(deepcopy(...))`. */
  function Underscored(d: Option<Dict>): (r: Dict)
    ensures WF(r) && DashFree(VDict(r))
    ensures d.None? ==> r == Empty
    ensures d.Some? ==> forall k :: k in d.value.keys ==> UnderscoreKey(k) in r.keys
    ensures d.Some? ==> forall k :: k in r.keys ==> exists k' :: k' in d.value.keys && UnderscoreKey(k') == k
  {
    if d.None? then Empty
    else
      UnderscoreVarNamesMeaning(d.value);
      UnderscoreVarNames(d.value)
  }

  /** `StatikContext(initial, static, dynamic, for_each)`: the initial dict is
      kept as given (an empty one is replaced by a fresh empty dict); the
      other three are copied with `-` in their keys replaced by `_`. */
  function NewContext(initial: Option<Dict>, staticVars: Option<Dict>, dynamic: Option<Dict>,
                      forEach: Option<Dict>): (c: StatikContext)
    ensures initial.Some? && |initial.value.keys| > 0 ==> c.initial == initial.value
    ensures initial.None? || |initial.value.keys| == 0 ==> c.initial == Empty
    ensures WF(c.staticVars) && WF(c.dynamic) && WF(c.forEach)
    ensures DashFree(VDict(c.staticVars)) && DashFree(VDict(c.dynamic)) && DashFree(VDict(c.forEach))
    ensures c.staticVars == Underscored(staticVars) && c.dynamic == Underscored(dynamic) && c.forEach == Underscored(forEach)
  {
    StatikContext(
      if initial.Some? && |initial.value.keys| > 0 then initial.value else Empty,
      Underscored(staticVars), Underscored(dynamic), Underscored(forEach))
  }

  /** The dynamic queries run when there are any. */
  predicate DynamicActive(c: StatikContext) {
    |c.dynamic.keys| > 0
  }

  /** The for-each queries run when there are any and an instance is given. */
  predicate ForEachActive(c: StatikContext, forEachInst: Value) {
    |c.forEach.keys| > 0 && Truthy(forEachInst)
  }

  /** One layer of query results laid over `base` when `active`: each
      variable of `d` then holds its query's records, every other key keeps
      its value. */
  function Layer(base: Dict, d: Dict, active: bool, run: Runner, locals: Value): (r: Result<Dict>)
    requires WF(d)
    ensures !active ==> r == Success(base)
    ensures active ==> (r.Failure? <==> exists i :: 0 <= i < |d.keys| && run(d.vals[d.keys[i]], locals).Failure?)
    ensures r.Success? ==> forall k :: k in r.value.vals <==> k in base.vals || (active && k in d.vals)
    ensures r.Success? && active ==> forall k :: k in d.vals ==>
      run(d.vals[k], locals).Success? && r.value.vals[k] == VList(run(d.vals[k], locals).value)
    ensures r.Success? ==> forall k :: k in base.vals && !(active && k in d.vals) ==> r.value.vals[k] == base.vals[k]
  {
    if !active then Success(base)
    else
      QueriedKeys(d, run, locals, |d.keys|);
      QueriedValues(d, run, locals, |d.keys|);
      QueriedFails(d, run, locals, |d.keys|);
      var q :- Queried(d, run, locals);
      assert d.keys[..|d.keys|] == d.keys;
      assert q.vals.Keys == d.vals.Keys;
      Success(Update(base, q))
  }

  /** `build(db, safe_mode, for_each_inst, extra)`, with `os.environ` given as
      `environ`: a copy of the initial dict updated with the static
      variables, the environment, the dynamic query results, the for-each
      query results and, when it is a dict, `extra`. Both kinds of query
      receive `extra` as their additional locals. */
  function Build(c: StatikContext, run: Runner, environ: Dict, forEachInst: Value, extra: Value): Result<Dict>
    requires WF(c.dynamic) && WF(c.forEach)
  {
    var base := Update(Update(c.initial, c.staticVars), environ);
    var withDynamic :- Layer(base, c.dynamic, DynamicActive(c), run, extra);
    var withForEach :- Layer(withDynamic, c.forEach, ForEachActive(c, forEachInst), run, extra);
    Success(if extra.VDict? then Update(withForEach, extra.d) else withForEach)
  }

  /** `build` fails exactly when one of the queries it runs fails. */
  lemma BuildFails(c: StatikContext, run: Runner, environ: Dict, forEachInst: Value, extra: Value)
    requires WF(c.dynamic) && WF(c.forEach)
    ensures Build(c, run, environ, forEachInst, extra).Failure? <==>
      (DynamicActive(c) && exists i :: 0 <= i < |c.dynamic.keys| && run(c.dynamic.vals[c.dynamic.keys[i]], extra).Failure?)
      || (ForEachActive(c, forEachInst)
          && exists i :: 0 <= i < |c.forEach.keys| && run(c.forEach.vals[c.forEach.keys[i]], extra).Failure?)
  {
    var base := Update(Update(c.initial, c.staticVars), environ);
    var l1 := Layer(base, c.dynamic, DynamicActive(c), run, extra);
    if l1.Success? {
      var l2 := Layer(l1.value, c.forEach, ForEachActive(c, forEachInst), run, extra);
    }
  }

  /** The result holds exactly the keys of the layers that were applied. */
  lemma BuildKeys(c: StatikContext, run: Runner, environ: Dict, forEachInst: Value, extra: Value, r: Dict,
                  k: string)
    requires WF(c.staticVars) && WF(c.dynamic) && WF(c.forEach) && WF(environ)
    requires extra.VDict? ==> WF(extra.d)
    requires Build(c, run, environ, forEachInst, extra) == Success(r)
    ensures k in r.vals <==>
        k in c.initial.vals || k in c.staticVars.vals || k in environ.vals
        || (DynamicActive(c) && k in c.dynamic.vals)
        || (ForEachActive(c, forEachInst) && k in c.forEach.vals)
        || (extra.VDict? && k in extra.d.vals)
  {
    var base := Update(Update(c.initial, c.staticVars), environ);
    assert base.vals == c.initial.vals + c.staticVars.vals + environ.vals;
    var l1 := Layer(base, c.dynamic, DynamicActive(c), run, extra).value;
    var l2 := Layer(l1, c.forEach, ForEachActive(c, forEachInst), run, extra).value;
    assert r == if extra.VDict? then Update(l2, extra.d) else l2;
  }

  /** The query layers and `extra` win: a key takes its value from `extra`
      if that is a dict holding it, else from the for-each results, else
      from the dynamic results. */
  lemma BuildPrecedenceQueries(c: StatikContext, run: Runner, environ: Dict, forEachInst: Value, extra: Value,
                               r: Dict, k: string)
    requires WF(c.dynamic) && WF(c.forEach)
    requires extra.VDict? ==> WF(extra.d)
    requires Build(c, run, environ, forEachInst, extra) == Success(r)
    ensures extra.VDict? && k in extra.d.vals ==> r.vals[k] == extra.d.vals[k]
    ensures !(extra.VDict? && k in extra.d.vals) && ForEachActive(c, forEachInst) && k in c.forEach.vals ==>
      run(c.forEach.vals[k], extra).Success? && r.vals[k] == VList(run(c.forEach.vals[k], extra).value)
    ensures (!(extra.VDict? && k in extra.d.vals) && !(ForEachActive(c, forEachInst) && k in c.forEach.vals)
             && DynamicActive(c) && k in c.dynamic.vals) ==>
        run(c.dynamic.vals[k], extra).Success? && r.vals[k] == VList(run(c.dynamic.vals[k], extra).value)
  {
    var base := Update(Update(c.initial, c.staticVars), environ);
    var l1 := Layer(base, c.dynamic, DynamicActive(c), run, extra).value;
    var l2 := Layer(l1, c.forEach, ForEachActive(c, forEachInst), run, extra).value;
    assert r == if extra.VDict? then Update(l2, extra.d) else l2;
  }

  /** Below the queries: a key no query layer and no `extra` sets takes its
      value from the environment, else from the static variables, else from
      the initial dict. */
  lemma BuildPrecedenceBase(c: StatikContext, run: Runner, environ: Dict, forEachInst: Value, extra: Value,
                            r: Dict, k: string)
    requires WF(c.staticVars) && WF(c.dynamic) && WF(c.forEach) && WF(environ)
    requires extra.VDict? ==> WF(extra.d)
    requires Build(c, run, environ, forEachInst, extra) == Success(r)
    requires !(extra.VDict? && k in extra.d.vals) && !(ForEachActive(c, forEachInst) && k in c.forEach.vals)
      && !(DynamicActive(c) && k in c.dynamic.vals)
    ensures k in environ.vals ==> r.vals[k] == environ.vals[k]
    ensures k !in environ.vals && k in c.staticVars.vals ==> r.vals[k] == c.staticVars.vals[k]
    ensures k !in environ.vals && k !in c.staticVars.vals && k in c.initial.vals ==> r.vals[k] == c.initial.vals[k]
  {
    var base := Update(Update(c.initial, c.staticVars), environ);
    assert base.vals == c.initial.vals + c.staticVars.vals + environ.vals;
    var l1 := Layer(base, c.dynamic, DynamicActive(c), run, extra).value;
    var l2 := Layer(l1, c.forEach, ForEachActive(c, forEachInst), run, extra).value;
    assert r == if extra.VDict? then Update(l2, extra.d) else l2;
  }

  /** Without an instance the for-each queries neither run nor matter. */
  lemma ForEachNeedsInstance(c: StatikContext, run: Runner, environ: Dict, forEachInst: Value, extra: Value)
    requires WF(c.dynamic) && WF(c.forEach) && !Truthy(forEachInst)
    ensures Build(c, run, environ, forEachInst, extra) == Build(c.(forEach := Empty), run, environ, forEachInst, extra)
  {
  }

  /** With no queries to run and no dict of extras, the context is the
      initial dict overlaid with the static variables and the environment,
      whatever runner is used. */
  lemma NoQueriesNoDatabase(c: StatikContext, run1: Runner, run2: Runner, environ: Dict, forEachInst: Value,
                            extra: Value)
    requires WF(c.dynamic) && WF(c.forEach) && !DynamicActive(c) && !ForEachActive(c, forEachInst)
    requires !extra.VDict?
    ensures Build(c, run1, environ, forEachInst, extra) == Build(c, run2, environ, forEachInst, extra)
      == Success(Update(Update(c.initial, c.staticVars), environ))
  {
  }
}

=== FILE: database.dfy ===
/** The in-memory database of statik/database.py: the order in which model
    data is loaded, the registry of generated tables, the loading of records
    with their primary-key checks, the rewriting of a record's field values
    and the safe-mode gate on queries. SQLAlchemy itself is not modelled: a
    table is known by its name and the primary keys it holds. */
module Database {
  import opened Common
  import opened Values
  import opened PyStr
  import opened Utils
  import opened Fields
  import opened Models
  import DepOrder

  /* ---------- sort_models ---------- */

  /** Each model's foreign models, in the order a sorting round visits them. */
  type Deps = DepOrder.Deps

  /** The models listed are exactly the known ones, and every foreign model
      is a known model. */
  ghost predicate Closed(names: seq<string>, deps: Deps) {
    (forall n :: n in deps <==> n in names)
    && forall n, d :: n in deps && d in deps[n] ==> d in deps
  }

  predicate IsPrefix(a: seq<string>, b: seq<string>) {
    |a| <= |b| && forall k :: 0 <= k < |a| ==> a[k] == b[k]
  }

  /** The foreign models of `m`, up to position `j` of `fs`, appended to
      `acc` when not listed yet; `m` itself is skipped. */
  function AddForeign(acc: seq<string>, fs: seq<string>, m: string, j: nat): seq<string>
    requires j <= |fs|
  {
    if j == 0 then acc
    else
      var a := AddForeign(acc, fs, m, j - 1);
      if fs[j - 1] !in a && fs[j - 1] != m then a + [fs[j - 1]] else a
  }

  /** A round's work for model `m`: its missing foreign models, then `m`
      itself unless already listed. */
  function Visit(acc: seq<string>, fs: seq<string>, m: string): seq<string> {
    var a := AddForeign(acc, fs, m, |fs|);
    if m in a then a else a + [m]
  }

  /** A sorting round over the first `i` models of `names`. */
  function RoundTo(names: seq<string>, deps: Deps, i: nat): seq<string>
    requires i <= |names| && DepOrder.Known(names, deps)
  {
    if i == 0 then [] else Visit(RoundTo(names, deps, i - 1), deps[names[i - 1]], names[i - 1])
  }

  function Round(names: seq<string>, deps: Deps): seq<string>
    requires DepOrder.Known(names, deps)
  {
    RoundTo(names, deps, |names|)
  }

  /** The sorting loop run for at most `rounds` rounds: the order it stops
      at, once a round reproduces the previous order, or `None` when it has
      not stopped by then. */
  function Settle(names: seq<string>, deps: Deps, rounds: nat): Option<seq<string>>
    requires Closed(names, deps) && Distinct(names)
    decreases rounds
  {
    if rounds == 0 then None
    else
      var s := Round(names, deps);
      if names == s then Some(s)
      else
        RoundIsPermutation(names, deps);
        Settle(s, deps, rounds - 1)
  }

  lemma {:induction false} AddForeignFacts(acc: seq<string>, fs: seq<string>, m: string, j: nat)
    requires j <= |fs|
    ensures var a := AddForeign(acc, fs, m, j);
      IsPrefix(acc, a)
      && (forall k :: |acc| <= k < |a| ==> a[k] in fs && a[k] != m)
      && (forall k :: 0 <= k < j && fs[k] != m ==> fs[k] in a)
      && (forall x :: x in a ==> x in acc || x in fs)
      && (Distinct(acc) ==> Distinct(a))
  {
    if j > 0 {
      AddForeignFacts(acc, fs, m, j - 1);
    }
  }

  lemma VisitFacts(acc: seq<string>, fs: seq<string>, m: string)
    ensures var v := Visit(acc, fs, m);
      IsPrefix(acc, v) && m in v
      && (forall x :: x in v ==> x in acc || x in fs || x == m)
      && (Distinct(acc) ==> Distinct(v))
  {
    AddForeignFacts(acc, fs, m, |fs|);
  }

  /** A round lists each model once, and only known models. */
  lemma {:induction false} RoundToFacts(names: seq<string>, deps: Deps, i: nat)
    requires i <= |names| && Closed(names, deps)
    ensures Distinct(RoundTo(names, deps, i))
    ensures forall x :: x in RoundTo(names, deps, i) ==> x in deps
    ensures forall k :: 0 <= k < i ==> names[k] in RoundTo(names, deps, i)
  {
    if i > 0 {
      RoundToFacts(names, deps, i - 1);
      VisitFacts(RoundTo(names, deps, i - 1), deps[names[i - 1]], names[i - 1]);
    }
  }

  /** A round only appends: it extends the round over fewer models. */
  lemma {:induction false} RoundToExtends(names: seq<string>, deps: Deps, i: nat, n: nat)
    requires i <= n <= |names| && DepOrder.Known(names, deps)
    ensures IsPrefix(RoundTo(names, deps, i), RoundTo(names, deps, n))
    decreases n - i
  {
    if i < n {
      RoundToExtends(names, deps, i + 1, n);
      VisitFacts(RoundTo(names, deps, i), deps[names[i]], names[i]);
    }
  }

  lemma {:induction false} DistinctCard(s: seq<string>)
    requires Distinct(s)
    ensures |set x | x in s| == |s|
  {
    if |s| > 0 {
      DistinctCard(s[1..]);
      assert (set x | x in s) == {s[0]} + set x | x in s[1..];
    }
  }

  /** A round reorders the known models: each appears once, none is lost. */
  lemma RoundIsPermutation(names: seq<string>, deps: Deps)
    requires Closed(names, deps) && Distinct(names)
    ensures var s := Round(names, deps);
      Distinct(s) && (forall x :: x in s <==> x in names) && |s| == |names| && Closed(s, deps)
  {
    RoundToFacts(names, deps, |names|);
    var s := Round(names, deps);
    assert (set x | x in s) == set x | x in names;
    DistinctCard(s);
    DistinctCard(names);
  }

  /** Where a round reproduces the order it started from, the first `i`
      models of the round are the first `i` models of the order. */
  lemma {:induction false} FixpointPrefix(names: seq<string>, deps: Deps, i: nat)
    requires i <= |names| && Closed(names, deps) && Distinct(names) && Round(names, deps) == names
    ensures RoundTo(names, deps, i) == names[..i]
    ensures forall k, d :: 0 <= k < i && d in deps[names[k]] && d != names[k] ==> d in names[..k]
  {
    if i > 0 {
      FixpointPrefix(names, deps, i - 1);
      var r := RoundTo(names, deps, i - 1);
      var x := names[i - 1];
      var fs := deps[x];
      var a := AddForeign(r, fs, x, |fs|);
      AddForeignFacts(r, fs, x, |fs|);
      RoundToExtends(names, deps, i, |names|);
      VisitFacts(a, [], x);
      assert a == r;
      assert x !in names[..i - 1];
      assert names[..i] == names[..i - 1] + [x];
      forall k, d | 0 <= k < i && d in deps[names[k]] && d != names[k]
        ensures d in names[..k]
      {
        if k == i - 1 {
          var j :| 0 <= j < |fs| && fs[j] == d;
        }
      }
    }
  }

  /** Where a round reproduces the order, that order puts every model after
      all of its foreign models other than itself. */
  lemma FixpointOrder(names: seq<string>, deps: Deps)
    requires Closed(names, deps) && Distinct(names) && Round(names, deps) == names
    ensures forall k, d :: 0 <= k < |names| && d in deps[names[k]] && d != names[k] ==> d in names[..k]
  {
    FixpointPrefix(names, deps, |names|);
  }

  /** When the sorting loop stops, it has produced an order of all models,
      each once, each after its foreign models other than itself. */
  lemma {:induction false} SettleSound(names: seq<string>, deps: Deps, rounds: nat)
    requires Closed(names, deps) && Distinct(names)
    ensures Settle(names, deps, rounds).Some? ==>
      var o := Settle(names, deps, rounds).value;
      Distinct(o) && (forall x :: x in o <==> x in names)
      && forall k, d :: 0 <= k < |o| && d in deps[o[k]] && d != o[k] ==> d in o[..k]
    decreases rounds
  {
    if rounds > 0 {
      RoundIsPermutation(names, deps);
      var s := Round(names, deps);
      if names == s {
        FixpointOrder(names, deps);
      } else {
        SettleSound(s, deps, rounds - 1);
      }
    }
  }

  /** Two models that reference each other. */
  const CycleDeps: Deps := map["A" := ["B"], "B" := ["A"]]

  lemma CycleRounds()
    ensures Round(["A", "B"], CycleDeps) == ["B", "A"]
    ensures Round(["B", "A"], CycleDeps) == ["A", "B"]
  {
    assert RoundTo(["A", "B"], CycleDeps, 1) == ["B", "A"];
    assert RoundTo(["B", "A"], CycleDeps, 1) == ["A", "B"];
  }

  /** With A -> B -> A the rounds alternate between the two orders forever:
      however many rounds are allowed, the loop never stops. */
  lemma {:induction false} CycleNeverSettles(rounds: nat)
    ensures Settle(["A", "B"], CycleDeps, rounds) == None
    ensures Settle(["B", "A"], CycleDeps, rounds) == None
  {
    CycleRounds();
    if rounds > 0 {
      CycleNeverSettles(rounds - 1);
    }
  }

  /** The foreign models of each model, self-references removed. */
  function WithoutSelf(deps: Deps): (r: Deps)
    ensures r.Keys == deps.Keys
    ensures forall n, d :: n in deps ==> (d in r[n] <==> d in deps[n] && d != n)
  {
    map n | n in deps :: RemoveAll(deps[n], n)
  }

  function RemoveAll(s: seq<string>, x: string): (r: seq<string>)
    ensures forall y :: y in r <==> y in s && y != x
  {
    if |s| == 0 then []
    else if s[0] == x then RemoveAll(s[1..], x)
    else [s[0]] + RemoveAll(s[1..], x)
  }

  /** The evidently intended ordering: dependency rounds that ignore
      self-references and report a cycle instead of looping. */
  function SortModelsChecked(names: seq<string>, deps: Deps): Result<seq<string>>
    requires Closed(names, deps)
  {
    DepOrder.CreationOrder(names, WithoutSelf(deps))
  }

  /** The corrected ordering lists every model once, each after its foreign
      models other than itself; it fails only on a cycle through other
      models, and then names models each waiting on another of them. */
  lemma SortModelsCheckedSound(names: seq<string>, deps: Deps)
    requires Closed(names, deps) && Distinct(names)
    ensures SortModelsChecked(names, deps).Success? ==>
      var o := SortModelsChecked(names, deps).value;
      Distinct(o) && (forall x :: x in o <==> x in names)
      && forall k, d :: 0 <= k < |o| && d in deps[o[k]] && d != o[k] ==> d in set j | 0 <= j < k :: o[j]
    ensures SortModelsChecked(names, deps).Failure? ==>
      var e := SortModelsChecked(names, deps).error;
      e.CircularDependencyException? && e.remaining != {}
      && forall m :: m in e.remaining ==> m in deps && exists d :: d in deps[m] && d != m && d in e.remaining
  {
    DepOrder.CreationOrderResult(names, WithoutSelf(deps));
  }

  /** Whenever the sorting loop stops, the corrected ordering succeeds too. */
  lemma SettledImpliesChecked(names: seq<string>, deps: Deps, rounds: nat)
    requires Closed(names, deps) && Distinct(names)
    requires Settle(names, deps, rounds).Some?
    ensures SortModelsChecked(names, deps).Success?
  {
    SettleSound(names, deps, rounds);
    var o := Settle(names, deps, rounds).value;
    var ws := WithoutSelf(deps);
    forall i | 0 <= i < |o|
      ensures o[i] in ws && DepOrder.Satisfied(ws[o[i]], set k | 0 <= k < i :: o[k])
    {
      forall d | d in ws[o[i]] ensures d in set k | 0 <= k < i :: o[k] {
        assert d in o[..i];
        var k :| 0 <= k < i && o[..i][k] == d;
        assert o[k] == d;
      }
    }
    DepOrder.CreationOrderComplete(names, ws, o);
  }

  /** The corrected ordering reports the A -> B -> A cycle. */
  lemma CycleReported()
    ensures SortModelsChecked(["A", "B"], CycleDeps) == Failure(CircularDependencyException({"A", "B"}))
  {
    var ws := WithoutSelf(CycleDeps);
    assert RemoveAll(["B"], "A") == ["B"] by { assert ["B"][1..] == []; }
    assert RemoveAll(["A"], "B") == ["A"] by { assert ["A"][1..] == []; }
    assert ws["A"] == ["B"] && ws["B"] == ["A"];
    DepOrder.CreationOrderResult(["A", "B"], ws);
    var r := SortModelsChecked(["A", "B"], CycleDeps);
    if r.Success? {
      assert false;
    }
    assert r.error.remaining == {"A", "B"};
  }

  /* ---------- the safe-mode gate of `query` ---------- */

  /** `query(query, additional_locals, safe_mode)`: in safe mode only a
      structured (dict) query is accepted; a dict query always takes the
      structured path, anything else is handed to Python's `exec` (here the
      function `unsafe`, with the additional locals bound). */
  function Query(query: Value, safeMode: bool, structured: Dict -> Result<seq<Value>>,
                 unsafe: Value -> Result<seq<Value>>): Result<seq<Value>>
  {
    if safeMode && !query.VDict? then Failure(SafetyViolationError("query"))
    else if query.VDict? then structured(query.d)
    else unsafe(query)
  }

  /** In safe mode no code is executed: the result does not depend on the
      `exec` path at all, and only a dict query can succeed. */
  lemma SafeModeNeverExecutes(query: Value, structured: Dict -> Result<seq<Value>>,
                              unsafe1: Value -> Result<seq<Value>>, unsafe2: Value -> Result<seq<Value>>)
    ensures Query(query, true, structured, unsafe1) == Query(query, true, structured, unsafe2)
    ensures !query.VDict? ==> Query(query, true, structured, unsafe1) == Failure(SafetyViolationError("query"))
  {
  }

  /** A dict query takes the structured path whatever the mode. */
  lemma DictQueryStructured(query: Value, safeMode: bool, structured: Dict -> Result<seq<Value>>,
                            unsafe: Value -> Result<seq<Value>>)
    requires query.VDict?
    ensures Query(query, safeMode, structured, unsafe) == structured(query.d)
  {
  }

  /* ---------- loading records ---------- */

  type FieldValues = map<string, Value>

  /** One record as built by `StatikDatabaseInstance`: its field values, or
      the error raised while building it. */
  type Rec = Result<FieldValues>

  /** `entry.field_values['pk']`. */
  function PkOf(fv: FieldValues): Value {
    if "pk" in fv then fv["pk"] else VNone
  }

  /** A primary key as the error message renders it. */
  function PkText(pk: Value): string {
    match pk
    case VStr(s) => s
    case VInt(i) => IntToString(i)
    case _ => ""
  }

  /** The primary keys seen and the records loaded so far. */
  datatype Loaded = Loaded(seen: set<Value>, records: seq<FieldValues>)

  /** The first `i` records loaded in turn, each primary key checked against
      those seen before it. */
  function LoadChecked(modelName: string, recs: seq<Rec>, i: nat): Result<Loaded>
    requires i <= |recs|
  {
    if i == 0 then Success(Loaded({}, []))
    else
      var l :- LoadChecked(modelName, recs, i - 1);
      var r :- recs[i - 1];
      if PkOf(r) in l.seen then Failure(DuplicateModelInstanceError(modelName, PkText(PkOf(r))))
      else Success(Loaded(l.seen + {PkOf(r)}, l.records + [r]))
  }

  function CheckedRecords(modelName: string, recs: seq<Rec>): Result<seq<FieldValues>> {
    var l :- LoadChecked(modelName, recs, |recs|);
    Success(l.records)
  }

  /** No primary key occurs twice among the first `i` records. */
  predicate DistinctPks(recs: seq<Rec>, i: nat)
    requires i <= |recs|
  {
    forall a, b :: 0 <= a < b < i && recs[a].Success? && recs[b].Success? ==> PkOf(recs[a].value) != PkOf(recs[b].value)
  }

  /** Loading succeeds exactly when every record was read and no primary key
      repeats; it then holds every record's values, in order. A failure is
      the error of a record or a repeated primary key. */
  lemma {:induction false} LoadCheckedResult(modelName: string, recs: seq<Rec>, i: nat)
    requires i <= |recs|
    ensures LoadChecked(modelName, recs, i).Success?
      <==> (forall k :: 0 <= k < i ==> recs[k].Success?) && DistinctPks(recs, i)
    ensures LoadChecked(modelName, recs, i).Success? ==>
      var l := LoadChecked(modelName, recs, i).value;
      |l.records| == i && (forall k :: 0 <= k < i ==> l.records[k] == recs[k].value)
      && forall x :: x in l.seen <==> exists k :: 0 <= k < i && PkOf(recs[k].value) == x
    ensures LoadChecked(modelName, recs, i).Failure? ==>
      var e := LoadChecked(modelName, recs, i).error;
      exists k :: 0 <= k < i && ((recs[k].Failure? && e == recs[k].error)
        || (recs[k].Success? && e == DuplicateModelInstanceError(modelName, PkText(PkOf(recs[k].value)))))
  {
    if i > 0 {
      LoadCheckedResult(modelName, recs, i - 1);
      var prev := LoadChecked(modelName, recs, i - 1);
      if prev.Success? && recs[i - 1].Success? {
        var pk := PkOf(recs[i - 1].value);
        if pk in prev.value.seen {
          var k :| 0 <= k < i - 1 && PkOf(recs[k].value) == pk;
          assert !DistinctPks(recs, i) by {
            assert PkOf(recs[k].value) == PkOf(recs[i - 1].value);
          }
        }
      }
    }
  }

  /** A failure is final: the later records are not read. */
  lemma {:induction false} LoadStopped(modelName: string, recs: seq<Rec>, i: nat, n: nat)
    requires i <= n <= |recs| && LoadChecked(modelName, recs, i).Failure?
    ensures LoadChecked(modelName, recs, n) == LoadChecked(modelName, recs, i)
    decreases n - i
  {
    if i < n {
      LoadStopped(modelName, recs, i + 1, n);
    }
  }

  /** Loading one more record after the first `i` loaded. */
  lemma LoadStep(modelName: string, recs: seq<Rec>, i: nat, l: Loaded)
    requires i < |recs| && LoadChecked(modelName, recs, i) == Success(l)
    ensures recs[i].Failure? ==> LoadChecked(modelName, recs, i + 1) == Failure(recs[i].error)
    ensures recs[i].Success? && PkOf(recs[i].value) in l.seen ==>
      LoadChecked(modelName, recs, i + 1) == Failure(DuplicateModelInstanceError(modelName, PkText(PkOf(recs[i].value))))
    ensures recs[i].Success? && PkOf(recs[i].value) !in l.seen ==>
      LoadChecked(modelName, recs, i + 1) == Success(Loaded(l.seen + {PkOf(recs[i].value)}, l.records + [recs[i].value]))
  {
  }

  /** The per-record files of a model directory: every name ending in
      `_all.yml` is left out, the others keep their order. */
  function EntryFiles(files: seq<string>): seq<string> {
    if |files| == 0 then []
    else
      var rest := EntryFiles(files[1..]);
      if IsCollectionFile(files[0]) then rest else [files[0]] + rest
  }

  predicate IsCollectionFile(f: string) {
    EndsWith(f, "_all.yml")
  }

  /** Exactly the files not ending in `_all.yml` are kept. */
  lemma {:induction false} EntryFilesMembers(files: seq<string>)
    ensures forall f :: f in EntryFiles(files) <==> f in files && !IsCollectionFile(f)
    ensures |EntryFiles(files)| <= |files|
  {
    if |files| > 0 {
      EntryFilesMembers(files[1..]);
      assert forall f :: f in files <==> f == files[0] || f in files[1..];
    }
  }

  /** The records built from the files, in order; `instance` builds the
      record of one file, with the file name, less directory and extension,
      as its primary key. */
  function FileRecs(files: seq<string>, instance: string -> Rec): (r: seq<Rec>)
    ensures |r| == |files| && forall k :: 0 <= k < |files| ==> r[k] == instance(files[k])
  {
    seq(|files|, k requires 0 <= k < |files| => instance(files[k]))
  }

  /** `load_model_data_from_files` for one directory: the records of its
      files, in order, with a repeated primary key rejected. */
  method LoadModelDataFromFiles(modelName: string, files: seq<string>, instance: string -> Rec)
    returns (r: Result<seq<FieldValues>>)
    ensures r == CheckedRecords(modelName, FileRecs(EntryFiles(files), instance))
  {
    var entryFiles := EntryFiles(files);
    ghost var recs := FileRecs(entryFiles, instance);
    var seenEntries: set<Value> := {};
    var records: seq<FieldValues> := [];
    for i := 0 to |entryFiles|
      invariant LoadChecked(modelName, recs, i) == Success(Loaded(seenEntries, records))
    {
      var entry := instance(entryFiles[i]);
      assert recs[i] == entry;
      LoadStep(modelName, recs, i, Loaded(seenEntries, records));
      if entry.Failure? {
        LoadStopped(modelName, recs, i + 1, |recs|);
        return Failure(entry.error);
      }
      var pk := PkOf(entry.value);
      if pk in seenEntries {
        LoadStopped(modelName, recs, i + 1, |recs|);
        return Failure(DuplicateModelInstanceError(modelName, PkText(pk)));
      }
      seenEntries := seenEntries + {pk};
      records := records + [entry.value];
    }
    r := Success(records);
  }

  /* ---------- the collection file ---------- */

  /** A collection entry as loaded: it must be a dict with a `pk`, and its
      record is built from that dict. */
  function ItemRec(modelName: string, item: Value, instance: Dict -> Rec): Rec {
    if !item.VDict? || "pk" !in item.d.vals then Failure(InvalidModelCollectionDataError(modelName))
    else instance(item.d)
  }

  /** `load_model_data_item(item, model, seen_entries)`: the record or the
      error, and the set of seen primary keys as the CALLER sees it
      afterwards. An empty set is falsy, so an empty `seen` is replaced by a
      fresh local set and the caller's set is not updated. */
  function ItemStep(modelName: string, item: Value, seen: set<Value>, instance: Dict -> Rec)
    : (Result<FieldValues>, set<Value>)
  {
    var rebound := seen == {};
    match ItemRec(modelName, item, instance)
    case Failure(e) => (Failure(e), seen)
    case Success(r) =>
      if PkOf(r) in seen then (Failure(DuplicateModelInstanceError(modelName, PkText(PkOf(r)))), seen)
      else (Success(r), if rebound then seen else seen + {PkOf(r)})
  }

  /** The collection loop as written: the first `i` entries, each loaded
      with the caller's set. */
  function ItemsTo(modelName: string, items: seq<Value>, instance: Dict -> Rec, i: nat)
    : Result<Loaded>
    requires i <= |items|
  {
    if i == 0 then Success(Loaded({}, []))
    else
      var l :- ItemsTo(modelName, items, instance, i - 1);
      var (r, seen) := ItemStep(modelName, items[i - 1], l.seen, instance);
      var fv :- r;
      Success(Loaded(seen, l.records + [fv]))
  }

  function CollectionAsWritten(modelName: string, collection: Value, instance: Dict -> Rec)
    : Result<seq<FieldValues>>
  {
    if !collection.VList? then Failure(InvalidModelCollectionDataError(modelName))
    else
      var l :- ItemsTo(modelName, collection.elems, instance, |collection.elems|);
      Success(l.records)
  }

  /** `load_model_data_item`, with the caller's set passed in and returned
      as the caller sees it. */
  method LoadModelDataItem(modelName: string, item: Value, seenEntries: set<Value>, instance: Dict -> Rec)
    returns (r: Result<FieldValues>, callerSeen: set<Value>)
    ensures (r, callerSeen) == ItemStep(modelName, item, seenEntries, instance)
  {
    callerSeen := seenEntries;
    var seen := seenEntries;
    if seen == {} {
      // a fresh set, no longer the caller's
      seen := {};
    }
    if !item.VDict? || "pk" !in item.d.vals {
      return Failure(InvalidModelCollectionDataError(modelName)), callerSeen;
    }
    var entry := instance(item.d);
    if entry.Failure? {
      return Failure(entry.error), callerSeen;
    }
    var pk := PkOf(entry.value);
    if pk in seen {
      return Failure(DuplicateModelInstanceError(modelName, PkText(pk))), callerSeen;
    }
    seen := seen + {pk};
    if seenEntries != {} {
      callerSeen := seen;
    }
    r := Success(entry.value);
  }

  /** `load_model_data_collection`, after the collection file is parsed. */
  method LoadModelDataCollection(modelName: string, collection: Value, instance: Dict -> Rec)
    returns (r: Result<seq<FieldValues>>)
    ensures r == CollectionAsWritten(modelName, collection, instance)
  {
    if !collection.VList? {
      return Failure(InvalidModelCollectionDataError(modelName));
    }
    var items := collection.elems;
    var seenEntries: set<Value> := {};
    var records: seq<FieldValues> := [];
    for i := 0 to |items|
      invariant ItemsTo(modelName, items, instance, i) == Success(Loaded(seenEntries, records))
    {
      var entry, seen := LoadModelDataItem(modelName, items[i], seenEntries, instance);
      if entry.Failure? {
        ItemsStopped(modelName, items, instance, i + 1, |items|);
        return Failure(entry.error);
      }
      seenEntries := seen;
      records := records + [entry.value];
    }
    r := Success(records);
  }

  lemma {:induction false} ItemsStopped(modelName: string, items: seq<Value>, instance: Dict -> Rec, i: nat, n: nat)
    requires i <= n <= |items| && ItemsTo(modelName, items, instance, i).Failure?
    ensures ItemsTo(modelName, items, instance, n) == ItemsTo(modelName, items, instance, i)
    decreases n - i
  {
    if i < n {
      ItemsStopped(modelName, items, instance, i + 1, n);
    }
  }

  /** As written, the set of seen primary keys stays empty, so the loop
      accepts a collection exactly when every entry can be read, whatever
      primary keys repeat. */
  lemma {:induction false} CollectionSeenStaysEmpty(modelName: string, items: seq<Value>,
                                                    instance: Dict -> Rec, i: nat)
    requires i <= |items|
    ensures ItemsTo(modelName, items, instance, i).Success? ==> ItemsTo(modelName, items, instance, i).value.seen == {}
    ensures ItemsTo(modelName, items, instance, i).Success?
      <==> forall k :: 0 <= k < i ==> ItemRec(modelName, items[k], instance).Success?
  {
    if i > 0 {
      CollectionSeenStaysEmpty(modelName, items, instance, i - 1);
    }
  }

  /** The evidently intended collection loading: the seen primary keys
      accumulate across entries, as they do for record files. */
  function CollectionChecked(modelName: string, collection: Value, instance: Dict -> Rec)
    : Result<seq<FieldValues>>
  {
    if !collection.VList? then Failure(InvalidModelCollectionDataError(modelName))
    else CheckedRecords(modelName, ItemRecs(modelName, collection.elems, instance))
  }

  function ItemRecs(modelName: string, items: seq<Value>, instance: Dict -> Rec): (r: seq<Rec>)
    ensures |r| == |items| && forall k :: 0 <= k < |items| ==> r[k] == ItemRec(modelName, items[k], instance)
  {
    seq(|items|, k requires 0 <= k < |items| => ItemRec(modelName, items[k], instance))
  }

  /** The corrected loading accepts a collection exactly when every entry can
      be read and no primary key repeats. */
  lemma CollectionCheckedResult(modelName: string, items: seq<Value>, instance: Dict -> Rec)
    ensures var recs := ItemRecs(modelName, items, instance);
      CollectionChecked(modelName, VList(items), instance).Success?
      <==> (forall k :: 0 <= k < |items| ==> recs[k].Success?) && DistinctPks(recs, |items|)
  {
    LoadCheckedResult(modelName, ItemRecs(modelName, items, instance), |items|);
  }

  /** A collection entry with primary key "a". */
  const EntryA: Value := VDict(Dict(["pk"], map["pk" := VStr("a")]))

  /** Two entries with the same primary key: as written the duplicate check
      never fires and both entries reach the session (the commit that would
      then fail on the primary key is not modelled); the corrected loading
      rejects the second with `DuplicateModelInstanceError`. */
  lemma DuplicateEntriesAccepted(modelName: string, instance: Dict -> Rec)
    requires instance(EntryA.d).Success? && PkOf(instance(EntryA.d).value) == VStr("a")
    ensures CollectionAsWritten(modelName, VList([EntryA, EntryA]), instance).Success?
    ensures CollectionChecked(modelName, VList([EntryA, EntryA]), instance)
      == Failure(DuplicateModelInstanceError(modelName, "a"))
  {
    CollectionSeenStaysEmpty(modelName, [EntryA, EntryA], instance, 2);
    var recs := ItemRecs(modelName, [EntryA, EntryA], instance);
    assert recs[0] == recs[1] == instance(EntryA.d);
    LoadCheckedResult(modelName, recs, 2);
    assert !DistinctPks(recs, 2);
  }

  /* ---------- the database object ---------- */

  /** What `globals()` holds under a name: a generated model class or an
      association table between two models. */
  datatype Global = ModelClass(model: string) | AssociationTable(name: string, left: string, right: string)

  /** `get_or_create_association_table(model1, model2)` on the registry `g`:
      the global already registered under the pair's table name, or a new
      table registered under it. */
  function GetOrCreate(g: map<string, Global>, model1: string, model2: string): (r: (Global, map<string, Global>))
  {
    var n := CalculateAssociationTableName(model1, model2);
    if n in g then (g[n], g)
    else
      var t := AssociationTable(n, model1, model2);
      (t, g[n := t])
  }

  /** Once a pair has a table, asking again, in either order, returns the
      same table and registers nothing. */
  lemma GetOrCreateReuses(g: map<string, Global>, a: string, b: string)
    ensures var (t, g1) := GetOrCreate(g, a, b);
      GetOrCreate(g1, a, b) == (t, g1) && GetOrCreate(g1, b, a) == (t, g1)
  {
    AssociationTableNameSymmetric(a, b);
  }

  /** A new table is registered under its own name and links the two models;
      nothing else in the registry changes. */
  lemma GetOrCreateNew(g: map<string, Global>, a: string, b: string)
    requires CalculateAssociationTableName(a, b) !in g
    ensures var (t, g1) := GetOrCreate(g, a, b);
      t == AssociationTable(CalculateAssociationTableName(a, b), a, b)
      && g1.Keys == g.Keys + {t.name}
      && forall n :: n in g ==> g1[n] == g[n]
  {
  }

  /** Two different pairs of models can share a table name: the table for
      ("a", "bc") is the one registered for ("ab", "c"). */
  lemma AssociationNamesCollide()
    ensures var (t, g) := GetOrCreate(map[], "ab", "c");
      GetOrCreate(g, "a", "bc").0 == AssociationTable("abc", "ab", "c")
  {
    assert !StrLt("c", "ab");
    assert !StrLt("bc", "a");
    assert "ab" + "c" == "a" + "bc";
  }

  /** The evidently intended registry: association tables keyed by the pair
      of models, in sorted order. */
  function PairKey(model1: string, model2: string): (string, string) {
    if StrLt(model2, model1) then (model2, model1) else (model1, model2)
  }

  function GetOrCreateByPair(g: map<(string, string), Global>, model1: string, model2: string): (r: (Global, map<(string, string), Global>))
  {
    var p := PairKey(model1, model2);
    if p in g then (g[p], g)
    else
      var t := AssociationTable(CalculateAssociationTableName(model1, model2), model1, model2);
      (t, g[p := t])
  }

  /** Tables registered by pair link exactly the pair they are keyed by. */
  ghost predicate LinksItsPair(g: map<(string, string), Global>) {
    forall p :: p in g ==>
      g[p].AssociationTable? && ((g[p].left, g[p].right) == p || (g[p].right, g[p].left) == p)
  }

  /** With the pair as key, the table returned for two models always links
      exactly those two models, and the registry keeps that property. */
  lemma GetOrCreateByPairLinks(g: map<(string, string), Global>, a: string, b: string)
    requires LinksItsPair(g)
    ensures var (t, g1) := GetOrCreateByPair(g, a, b);
      LinksItsPair(g1) && t.AssociationTable? && ((t.left, t.right) == (a, b) || (t.left, t.right) == (b, a))
  {
    StrLtTotal(a, b);
    var p := PairKey(a, b);
    if p in g {
      var t := g[p];
      assert (t.left, t.right) == p || (t.right, t.left) == p;
    }
  }

  /** The database object, as far as the modelled operations see it: each
      model's foreign models, and the registry of generated classes and
      tables that the source keeps in the module's globals. */
  class StatikDatabase {
    const deps: Deps
    var globals: map<string, Global>

    constructor (deps: Deps)
      ensures this.deps == deps && globals == map[]
    {
      this.deps := deps;
      globals := map[];
    }

    /** `sort_models`, with the number of rounds bounded by `maxRounds`:
        `None` when the loop has not stopped by then. */
    method SortModels(initial: seq<string>, maxRounds: nat) returns (r: Option<seq<string>>)
      requires Closed(initial, deps) && Distinct(initial)
      ensures r == Settle(initial, deps, maxRounds)
    {
      var modelNames := initial;
      var modelCount := |modelNames|;
      var swapped := true;
      var sortRound := 0;
      while swapped && sortRound < maxRounds
        invariant sortRound <= maxRounds
        invariant Closed(modelNames, deps) && Distinct(modelNames) && |modelNames| == modelCount
        invariant Settle(initial, deps, maxRounds)
          == if swapped then Settle(modelNames, deps, maxRounds - sortRound) else Some(modelNames)
        decreases maxRounds - sortRound
      {
        sortRound := sortRound + 1;
        var sortedModels := SortRound(modelNames);
        if modelNames == sortedModels {
          swapped := false;
        }
        RoundIsPermutation(modelNames, deps);
        modelNames := sortedModels;
      }
      if swapped {
        r := None;
      } else {
        r := Some(modelNames);
      }
    }

    /** One round of `sort_models`: each model's missing foreign models, then
        the model itself unless already listed. */
    method SortRound(modelNames: seq<string>) returns (sortedModels: seq<string>)
      requires DepOrder.Known(modelNames, deps)
      ensures sortedModels == Round(modelNames, deps)
    {
      sortedModels := [];
      for i := 0 to |modelNames|
        invariant sortedModels == RoundTo(modelNames, deps, i)
      {
        var name := modelNames[i];
        var foreign := deps[name];
        for j := 0 to |foreign|
          invariant sortedModels == AddForeign(RoundTo(modelNames, deps, i), foreign, name, j)
        {
          if foreign[j] !in sortedModels && foreign[j] != name {
            sortedModels := sortedModels + [foreign[j]];
          }
        }
        if name !in sortedModels {
          sortedModels := sortedModels + [name];
        }
      }
    }

    /** `get_or_create_association_table` inside `db_model_factory`. */
    method GetOrCreateAssociationTable(model1: string, model2: string) returns (t: Global)
      modifies this`globals
      ensures (t, globals) == GetOrCreate(old(globals), model1, model2)
    {
      var name := CalculateAssociationTableName(model1, model2);
      if name in globals {
        return globals[name];
      }
      t := AssociationTable(name, model1, model2);
      globals := globals[name := t];
    }
  }
}

=== FILE: dbinstance.dfy ===
/** A record as `StatikDatabaseInstance` builds it for the in-memory
    database (statik/database.py): the underscored variables of its source,
    its primary key, and then each declared field of its model rewritten in
    turn: date strings parsed, foreign keys moved to their `_id` column,
    many-to-many lists resolved against the target table, and the content
    field filled in. */
module DbInstance {
  import opened Common
  import opened Values
  import opened Utils
  import opened Fields
  import opened Models

  type FieldValues = map<string, Value>

  /** What the field loop reads from the database session: the primary keys
      stored so far in each model's table, and the models whose table has
      only the `pk` column. */
  datatype Tables = Tables(pks: map<string, set<string>>, pkOnly: set<string>)

  /** The record under construction: its field values and the
      `implicit_data_items`, one `(model, primary keys)` pair per
      many-to-many field, listing the keys to be created in that model. */
  datatype Entry = Entry(values: FieldValues, implicit: seq<(string, seq<Value>)>)

  /** The model as the field loop reads it. */
  datatype Shape = Shape(name: string, decl: ModelDecl, contentField: Option<string>)

  predicate ShapeOk(m: Shape) {
    Consistent(m.decl)
  }

  /** A key names an existing row of the target table. Only a string key is
      compared with the stored primary keys: the text form a database engine
      may give a number or a boolean before comparing is not modelled. */
  predicate Found(tables: Tables, target: string, x: Value) {
    x.VStr? && target in tables.pks && x.s in tables.pks[target]
  }

  /* ---------- many-to-many lists ---------- */

  /** `list(set(items))` for a list with repeats: each element once. The
      order of a Python set is not modelled; this keeps first occurrences. */
  function DedupTo(s: seq<Value>, n: nat): (r: seq<Value>)
    requires n <= |s|
    ensures Distinct(r) && forall x :: x in r <==> x in s[..n]
  {
    if n == 0 then []
    else
      var r := DedupTo(s, n - 1);
      assert s[..n] == s[..n - 1] + [s[n - 1]];
      if s[n - 1] in r then r else r + [s[n - 1]]
  }

  /** The list the lookups run over: the given one, or with its repeats
      dropped when it has any. */
  function Deduped(s: seq<Value>): (r: seq<Value>)
    ensures Distinct(r) && forall x :: x in r <==> x in s
  {
    assert s[..|s|] == s;
    if Distinct(s) then s else DedupTo(s, |s|)
  }

  /** The rows of `target` whose key is among `items[..n]`, in the order of
      `items`. */
  function ResolveTo(tables: Tables, target: string, items: seq<Value>, n: nat): seq<Value>
    requires n <= |items|
  {
    if n == 0 then []
    else
      var r := ResolveTo(tables, target, items, n - 1);
      if Found(tables, target, items[n - 1]) then r + [VRecord(target, items[n - 1].s)] else r
  }

  /** The keys of `items[..n]` that are not found, when the target table
      holds nothing but keys (missing rows of other tables are only warned
      about). */
  function MissingTo(tables: Tables, target: string, items: seq<Value>, n: nat): seq<Value>
    requires n <= |items|
  {
    if n == 0 then []
    else
      var r := MissingTo(tables, target, items, n - 1);
      if !Found(tables, target, items[n - 1]) && target in tables.pkOnly then r + [items[n - 1]] else r
  }

  /** Every found key of the list has its row among the resolved rows. */
  lemma {:induction false} ResolveComplete(tables: Tables, target: string, items: seq<Value>, n: nat)
    requires n <= |items|
    ensures forall k :: 0 <= k < n && Found(tables, target, items[k]) ==>
      VRecord(target, items[k].s) in ResolveTo(tables, target, items, n)
  {
    if n > 0 {
      ResolveComplete(tables, target, items, n - 1);
    }
  }

  /** The rows come at increasing positions of the list: they are sorted by
      the position of their key, as the `sort(key=original_values.index)` of
      the source puts them. */
  lemma {:induction false} ResolveInOrder(tables: Tables, target: string, items: seq<Value>, n: nat)
    requires n <= |items|
    ensures var r := ResolveTo(tables, target, items, n);
      exists pos: seq<nat> :: Increasing(pos, n) && |pos| == |r|
        && forall a :: 0 <= a < |pos| ==> Found(tables, target, items[pos[a]]) && r[a] == VRecord(target, items[pos[a]].s)
  {
    if n > 0 {
      ResolveInOrder(tables, target, items, n - 1);
      var r := ResolveTo(tables, target, items, n - 1);
      var pos: seq<nat> :| Increasing(pos, n - 1) && |pos| == |r|
        && forall a :: 0 <= a < |pos| ==> Found(tables, target, items[pos[a]]) && r[a] == VRecord(target, items[pos[a]].s);
      if Found(tables, target, items[n - 1]) {
        var pos' := pos + [n - 1];
        var r' := r + [VRecord(target, items[n - 1].s)];
        assert Increasing(pos', n);
        forall a | 0 <= a < |pos'|
          ensures Found(tables, target, items[pos'[a]]) && r'[a] == VRecord(target, items[pos'[a]].s)
        {
          if a < |pos| { assert pos'[a] == pos[a] && r'[a] == r[a]; }
        }
      } else {
        assert Increasing(pos, n);
      }
    }
  }

  /** Strictly increasing positions below `n`. */
  predicate Increasing(pos: seq<nat>, n: nat) {
    (forall a :: 0 <= a < |pos| ==> pos[a] < n) && forall a, b :: 0 <= a < b < |pos| ==> pos[a] < pos[b]
  }

  /** The keys to create are exactly the keys not found, when the target
      holds only keys, and there are none otherwise. */
  lemma {:induction false} MissingMeaning(tables: Tables, target: string, items: seq<Value>, n: nat)
    requires n <= |items|
    ensures var r := MissingTo(tables, target, items, n);
      (target in tables.pkOnly ==> forall x :: x in r <==> x in items[..n] && !Found(tables, target, x))
      && (target !in tables.pkOnly ==> r == [])
  {
    if n > 0 {
      MissingMeaning(tables, target, items, n - 1);
      assert items[..n] == items[..n - 1] + [items[n - 1]];
    }
  }

  /* ---------- the field loop ---------- */

  /** What the loop does for field `f`: a date/time field holding a string
      is parsed, a foreign key present moves to `f_id`, and a many-to-many
      field present must hold a list, which becomes the list of target rows. */
  function RewriteField(m: Shape, f: string, field: Field, e: Entry, tables: Tables,
                        parseDate: string -> Result<Value>): Result<Entry>
  {
    var vs := e.values;
    match field.kind
    case DateTimeField =>
      if f in vs && vs[f].VStr? then
        var d :- parseDate(vs[f].s);
        Success(e.(values := vs[f := d]))
      else Success(e)
    case ForeignKeyField =>
      if f in vs then Success(e.(values := vs[f + "_id" := vs[f]] - {f})) else Success(e)
    case ManyToManyField =>
      if f !in vs then Success(e)
      else if !vs[f].VList? then Failure(InvalidFieldTypeError(m.name, f, "a list"))
      else if field.fieldType !in tables.pks then Failure(KeyError(field.fieldType))
      else
        var items := Deduped(vs[f].elems);
        var target := field.fieldType;
        var missing := MissingTo(tables, target, items, |items|);
        var rows := ResolveTo(tables, target, items, |items|);
        Success(Entry(vs[f := VList(rows)], e.implicit + [(target, missing)]))
    case _ => Success(e)
  }

  /** The loop over the first `i` declared fields, from `start`. */
  function RewriteTo(m: Shape, start: Entry, tables: Tables, parseDate: string -> Result<Value>, i: nat)
    : Result<Entry>
    requires ShapeOk(m) && i <= |m.decl.fieldNames|
  {
    if i == 0 then Success(start)
    else
      var e :- RewriteTo(m, start, tables, parseDate, i - 1);
      var f := m.decl.fieldNames[i - 1];
      RewriteField(m, f, m.decl.fields[f], e, tables, parseDate)
  }

  /** The values before the loop: the underscored variables, with `pk` set
      to the record's name. */
  function StartValues(vars: Dict, name: Value): FieldValues {
    UnderscoreVarNames(vars).vals["pk" := name]
  }

  /** The content field, when the model has one, set to the content. */
  function WithContent(m: Shape, values: FieldValues, content: Value): FieldValues {
    if m.contentField.Some? then values[m.contentField.value := content] else values
  }

  /** The whole constructor: the record, or the error of the field loop. */
  function InstanceOf(m: Shape, vars: Dict, name: Value, content: Value, tables: Tables,
                      parseDate: string -> Result<Value>): Result<Entry>
    requires ShapeOk(m)
  {
    var e :- RewriteTo(m, Entry(StartValues(vars, name), []), tables, parseDate, |m.decl.fieldNames|);
    Success(e.(values := WithContent(m, e.values, content)))
  }

  /** `StatikDatabaseInstance.__init__`, for a model, the variables and
      content of the source, the record's name, and the session's tables. */
  method NewInstance(m: Shape, vars: Dict, name: Value, content: Value, tables: Tables,
                     parseDate: string -> Result<Value>) returns (r: Result<Entry>)
    requires ShapeOk(m)
    ensures r == InstanceOf(m, vars, name, content, tables, parseDate)
  {
    r := FieldLoop(m, Entry(StartValues(vars, name), []), tables, parseDate);
    if r.Success? && m.contentField.Some? {
      r := Success(r.value.(values := r.value.values[m.contentField.value := content]));
    }
  }

  /** The loop over the declared fields, in `field_names` order; the first
      error ends it. */
  method FieldLoop(m: Shape, start: Entry, tables: Tables, parseDate: string -> Result<Value>)
    returns (r: Result<Entry>)
    requires ShapeOk(m)
    ensures r == RewriteTo(m, start, tables, parseDate, |m.decl.fieldNames|)
  {
    var e := start;
    var names := m.decl.fieldNames;
    for i := 0 to |names|
      invariant RewriteTo(m, start, tables, parseDate, i) == Success(e)
    {
      var f := names[i];
      var next := RewriteOne(m, f, m.decl.fields[f], e, tables, parseDate);
      RewriteNext(m, start, tables, parseDate, i, e);
      if next.Failure? {
        RewriteStopped(m, start, tables, parseDate, i + 1, |names|);
        return next;
      }
      e := next.value;
    }
    r := Success(e);
  }

  /** One turn of the field loop. */
  method RewriteOne(m: Shape, f: string, field: Field, e: Entry, tables: Tables,
                    parseDate: string -> Result<Value>) returns (r: Result<Entry>)
    ensures r == RewriteField(m, f, field, e, tables, parseDate)
  {
    var fieldValues := e.values;
    var implicitItems := e.implicit;
    if field.kind == DateTimeField && f in fieldValues && fieldValues[f].VStr? {
      var d := parseDate(fieldValues[f].s);
      if d.Failure? {
        return Failure(d.error);
      }
      fieldValues := fieldValues[f := d.value];
    } else if field.kind == ForeignKeyField {
      if f in fieldValues {
        fieldValues := fieldValues[f + "_id" := fieldValues[f]];
        fieldValues := fieldValues - {f};
      }
    } else if field.kind == ManyToManyField && f in fieldValues {
      if !fieldValues[f].VList? {
        return Failure(InvalidFieldTypeError(m.name, f, "a list"));
      }
      var items := fieldValues[f].elems;
      if !Distinct(items) {
        items := DedupTo(items, |items|);
      }
      var target := field.fieldType;
      if target !in tables.pks {
        return Failure(KeyError(target));
      }
      var missing := MissingItems(tables, target, items);
      implicitItems := implicitItems + [(target, missing)];
      var rows := ResolveRows(tables, target, items);
      fieldValues := fieldValues[f := VList(rows)];
    }
    r := Success(Entry(fieldValues, implicitItems));
  }

  /** The lookup loop: each key not found is collected when the target
      table holds only keys. */
  method MissingItems(tables: Tables, target: string, items: seq<Value>) returns (missing: seq<Value>)
    ensures missing == MissingTo(tables, target, items, |items|)
  {
    missing := [];
    for k := 0 to |items|
      invariant missing == MissingTo(tables, target, items, k)
    {
      if !Found(tables, target, items[k]) && target in tables.pkOnly {
        missing := missing + [items[k]];
      }
    }
  }

  /** The `pk.in_(...)` query followed by the sort on list position. */
  method ResolveRows(tables: Tables, target: string, items: seq<Value>) returns (rows: seq<Value>)
    ensures rows == ResolveTo(tables, target, items, |items|)
  {
    rows := [];
    for k := 0 to |items|
      invariant rows == ResolveTo(tables, target, items, k)
    {
      if Found(tables, target, items[k]) {
        rows := rows + [VRecord(target, items[k].s)];
      }
    }
  }

  /** The loop after one more field. */
  lemma RewriteNext(m: Shape, start: Entry, tables: Tables, parseDate: string -> Result<Value>, i: nat, e: Entry)
    requires ShapeOk(m) && i < |m.decl.fieldNames|
    requires RewriteTo(m, start, tables, parseDate, i) == Success(e)
    ensures RewriteTo(m, start, tables, parseDate, i + 1)
      == RewriteField(m, m.decl.fieldNames[i], m.decl.fields[m.decl.fieldNames[i]], e, tables, parseDate)
  {
  }

  lemma {:induction false} RewriteStopped(m: Shape, start: Entry, tables: Tables, parseDate: string -> Result<Value>,
                                          i: nat, n: nat)
    requires ShapeOk(m) && i <= n <= |m.decl.fieldNames|
    requires RewriteTo(m, start, tables, parseDate, i).Failure?
    ensures RewriteTo(m, start, tables, parseDate, n) == RewriteTo(m, start, tables, parseDate, i)
    decreases n - i
  {
    if i < n {
      RewriteStopped(m, start, tables, parseDate, i + 1, n);
    }
  }

  /* ---------- what the constructor promises ---------- */

  /** Field `f` of the loop writes only the keys `f` and `f_id`, and adds at
      most one implicit entry. */
  lemma RewriteFieldFrame(m: Shape, f: string, field: Field, e: Entry, tables: Tables,
                          parseDate: string -> Result<Value>, k: string)
    requires RewriteField(m, f, field, e, tables, parseDate).Success?
    requires k != f && k != f + "_id"
    ensures var e' := RewriteField(m, f, field, e, tables, parseDate).value;
      (k in e'.values <==> k in e.values) && (k in e.values ==> e'.values[k] == e.values[k])
  {
  }

  /** A key that none of the fields `lo..hi` writes keeps its value across
      them. */
  lemma {:induction false} RewriteFrame(m: Shape, start: Entry, tables: Tables, parseDate: string -> Result<Value>,
                                        lo: nat, hi: nat, k: string)
    requires ShapeOk(m) && lo <= hi <= |m.decl.fieldNames|
    requires RewriteTo(m, start, tables, parseDate, hi).Success?
    requires forall i :: lo <= i < hi ==> k != m.decl.fieldNames[i] && k != m.decl.fieldNames[i] + "_id"
    ensures RewriteTo(m, start, tables, parseDate, lo).Success?
    ensures var a := RewriteTo(m, start, tables, parseDate, lo).value.values;
      var b := RewriteTo(m, start, tables, parseDate, hi).value.values;
      (k in a <==> k in b) && (k in a ==> a[k] == b[k])
    decreases hi
  {
    if lo < hi {
      RewriteFrame(m, start, tables, parseDate, lo, hi - 1, k);
      var f := m.decl.fieldNames[hi - 1];
      RewriteFieldFrame(m, f, m.decl.fields[f], RewriteTo(m, start, tables, parseDate, hi - 1).value,
                        tables, parseDate, k);
    }
  }

  /** The declared field names are distinct and none of them is another's
      foreign-key column `name_id`, so each field's keys are its own. */
  predicate Separate(names: seq<string>) {
    forall a, b :: 0 <= a < |names| && 0 <= b < |names| ==>
      (a != b ==> names[a] != names[b]) && names[a] != names[b] + "_id"
  }

  lemma SuffixCancels(x: string, y: string, t: string)
    requires x + t == y + t
    ensures x == y
  {
    assert x == (x + t)[..|x|];
    assert y == (y + t)[..|y|];
  }

  /** With separate field names, field `j` sees its own key as the loop
      started with it, and its keys end the loop as field `j` left them. */
  lemma {:induction false} OwnKeys(m: Shape, start: Entry, tables: Tables, parseDate: string -> Result<Value>, j: nat)
    requires ShapeOk(m) && Separate(m.decl.fieldNames) && j < |m.decl.fieldNames|
    requires RewriteTo(m, start, tables, parseDate, |m.decl.fieldNames|).Success?
    ensures RewriteTo(m, start, tables, parseDate, j + 1).Success?
    ensures var f := m.decl.fieldNames[j];
      var before := RewriteTo(m, start, tables, parseDate, j).value.values;
      var after := RewriteTo(m, start, tables, parseDate, j + 1).value.values;
      var last := RewriteTo(m, start, tables, parseDate, |m.decl.fieldNames|).value.values;
      (f in before <==> f in start.values) && (f in before ==> before[f] == start.values[f])
      && (forall k :: k == f || k == f + "_id" ==> (k in after <==> k in last) && (k in after ==> after[k] == last[k]))
  {
    var names := m.decl.fieldNames;
    var f := names[j];
    RewriteFrame(m, start, tables, parseDate, j + 1, |names|, f);
    RewriteFrame(m, start, tables, parseDate, 0, j, f);
    forall i | j + 1 <= i < |names|
      ensures f + "_id" != names[i] && f + "_id" != names[i] + "_id"
    {
      if f + "_id" == names[i] + "_id" { SuffixCancels(f, names[i], "_id"); }
    }
    RewriteFrame(m, start, tables, parseDate, j + 1, |names|, f + "_id");
  }

  /** The conditions on field `j` of an instance lemma: the names are
      separate, and the content field, written last, is neither of its keys. */
  predicate FieldSetting(m: Shape, j: nat) {
    ShapeOk(m) && Separate(m.decl.fieldNames) && j < |m.decl.fieldNames|
    && (m.contentField.Some? ==>
          m.contentField.value != m.decl.fieldNames[j] && m.contentField.value != m.decl.fieldNames[j] + "_id")
  }

  /** A foreign key given in the source moves to its `_id` column. */
  lemma InstanceForeignKey(m: Shape, vars: Dict, name: Value, content: Value, tables: Tables,
                           parseDate: string -> Result<Value>, j: nat)
    requires FieldSetting(m, j) && m.decl.fields[m.decl.fieldNames[j]].kind == ForeignKeyField
    requires InstanceOf(m, vars, name, content, tables, parseDate).Success?
    ensures var f := m.decl.fieldNames[j];
      var start := StartValues(vars, name);
      var r := InstanceOf(m, vars, name, content, tables, parseDate).value.values;
      f in start ==> f !in r && f + "_id" in r && r[f + "_id"] == start[f]
  {
    OwnKeys(m, Entry(StartValues(vars, name), []), tables, parseDate, j);
  }

  /** A date/time field holding a string holds the parsed date; a string
      that does not parse makes the whole record fail. */
  lemma InstanceDateTime(m: Shape, vars: Dict, name: Value, content: Value, tables: Tables,
                         parseDate: string -> Result<Value>, j: nat)
    requires FieldSetting(m, j) && m.decl.fields[m.decl.fieldNames[j]].kind == DateTimeField
    requires m.decl.fieldNames[j] in StartValues(vars, name) && StartValues(vars, name)[m.decl.fieldNames[j]].VStr?
    ensures var f := m.decl.fieldNames[j];
      var d := parseDate(StartValues(vars, name)[f].s);
      var r := InstanceOf(m, vars, name, content, tables, parseDate);
      (r.Success? ==> d.Success? && f in r.value.values && r.value.values[f] == d.value)
      && (d.Failure? ==> r.Failure?)
  {
    var start := Entry(StartValues(vars, name), []);
    if RewriteTo(m, start, tables, parseDate, |m.decl.fieldNames|).Success? {
      OwnKeys(m, start, tables, parseDate, j);
    }
  }

  /** A many-to-many field given in the source must hold a list, otherwise
      the record fails; the list becomes the rows of the target table whose
      keys it names, repeats dropped. */
  lemma InstanceManyToMany(m: Shape, vars: Dict, name: Value, content: Value, tables: Tables,
                           parseDate: string -> Result<Value>, j: nat)
    requires FieldSetting(m, j) && m.decl.fields[m.decl.fieldNames[j]].kind == ManyToManyField
    requires m.decl.fieldNames[j] in StartValues(vars, name)
    ensures var f := m.decl.fieldNames[j];
      var v := StartValues(vars, name)[f];
      var target := m.decl.fields[f].fieldType;
      var r := InstanceOf(m, vars, name, content, tables, parseDate);
      (!v.VList? ==> r.Failure?)
      && (r.Success? ==>
            v.VList? && target in tables.pks && f in r.value.values
            && var items := Deduped(v.elems); r.value.values[f] == VList(ResolveTo(tables, target, items, |items|)))
  {
    var start := Entry(StartValues(vars, name), []);
    if RewriteTo(m, start, tables, parseDate, |m.decl.fieldNames|).Success? {
      OwnKeys(m, start, tables, parseDate, j);
    }
  }

  /** The record's primary key is its name, unless a field or the content
      field is called `pk`. */
  lemma InstancePk(m: Shape, vars: Dict, name: Value, content: Value, tables: Tables,
                   parseDate: string -> Result<Value>)
    requires ShapeOk(m) && "pk" !in m.decl.fieldNames && m.contentField != Some("pk")
    requires InstanceOf(m, vars, name, content, tables, parseDate).Success?
    ensures var r := InstanceOf(m, vars, name, content, tables, parseDate).value.values;
      "pk" in r && r["pk"] == name
  {
    var names := m.decl.fieldNames;
    forall i | 0 <= i < |names|
      ensures "pk" != names[i] && "pk" != names[i] + "_id"
    {
      assert names[i] in names;
      assert |names[i] + "_id"| >= 3;
    }
    RewriteFrame(m, Entry(StartValues(vars, name), []), tables, parseDate, 0, |names|, "pk");
  }

  /** The content field holds the content of the source. */
  lemma InstanceContent(m: Shape, vars: Dict, name: Value, content: Value, tables: Tables,
                        parseDate: string -> Result<Value>)
    requires ShapeOk(m) && m.contentField.Some?
    requires InstanceOf(m, vars, name, content, tables, parseDate).Success?
    ensures var r := InstanceOf(m, vars, name, content, tables, parseDate).value.values;
      m.contentField.value in r && r[m.contentField.value] == content
  {
  }

  /** Every implicit entry targets a table with only the key column when it
      lists keys, and lists only keys that table does not hold. */
  ghost predicate ImplicitOk(tables: Tables, implicit: seq<(string, seq<Value>)>) {
    forall i :: 0 <= i < |implicit| ==>
      (implicit[i].1 != [] ==> implicit[i].0 in tables.pkOnly)
      && forall x :: x in implicit[i].1 ==> !Found(tables, implicit[i].0, x)
  }

  lemma {:induction false} RewriteImplicit(m: Shape, start: Entry, tables: Tables, parseDate: string -> Result<Value>, i: nat)
    requires ShapeOk(m) && i <= |m.decl.fieldNames| && ImplicitOk(tables, start.implicit)
    requires RewriteTo(m, start, tables, parseDate, i).Success?
    ensures ImplicitOk(tables, RewriteTo(m, start, tables, parseDate, i).value.implicit)
  {
    if i > 0 {
      RewriteImplicit(m, start, tables, parseDate, i - 1);
      var e := RewriteTo(m, start, tables, parseDate, i - 1).value;
      var f := m.decl.fieldNames[i - 1];
      var field := m.decl.fields[f];
      if field.kind == ManyToManyField && f in e.values {
        var items := Deduped(e.values[f].elems);
        MissingMeaning(tables, field.fieldType, items, |items|);
        assert items[..|items|] == items;
      }
    }
  }

  /** The implicit records are created only in tables that hold nothing but
      keys, and only for keys those tables do not hold yet. */
  lemma InstanceImplicit(m: Shape, vars: Dict, name: Value, content: Value, tables: Tables,
                         parseDate: string -> Result<Value>)
    requires ShapeOk(m)
    requires InstanceOf(m, vars, name, content, tables, parseDate).Success?
    ensures ImplicitOk(tables, InstanceOf(m, vars, name, content, tables, parseDate).value.implicit)
  {
    RewriteImplicit(m, Entry(StartValues(vars, name), []), tables, parseDate, |m.decl.fieldNames|);
  }
}

=== FILE: deporder.dfy ===
/** Ordering models so that each one comes after the models it depends on,
    the way the table-creation loop of the older data layer does it
    (statik/data.py): models without dependencies first, then rounds over the
    remaining models, each round creating every model whose dependencies
    have all been created, until nothing remains or a round makes no
    progress. */
module DepOrder {
  import opened Common
  import opened Values

  /** Each model's dependencies, in the order the loop visits them. */
  type Deps = map<string, seq<string>>

  /** Every listed model has a dependency entry. */
  predicate Known(names: seq<string>, deps: Deps) {
    forall k :: 0 <= k < |names| ==> names[k] in deps
  }

  predicate Satisfied(ds: seq<string>, created: set<string>) {
    forall d :: d in ds ==> d in created
  }

  /** Every model in `order` comes after each of its dependencies. */
  predicate DepsFirst(order: seq<string>, deps: Deps) {
    forall i :: 0 <= i < |order| ==> order[i] in deps && Satisfied(deps[order[i]], set k | 0 <= k < i :: order[k])
  }

  /** What the loop has produced so far: the creation order and the set of
      created models. */
  datatype State = State(order: seq<string>, created: set<string>)

  /** The first pass: the models with no dependencies, in order. */
  function FirstPass(names: seq<string>, deps: Deps, i: nat): State
    requires i <= |names| && Known(names, deps)
  {
    if i == 0 then State([], {})
    else
      var s := FirstPass(names, deps, i - 1);
      var m := names[i - 1];
      if |deps[m]| == 0 then State(s.order + [m], s.created + {m}) else s
  }

  /** The models of `names[..i]` not yet created, in order. */
  function Pending(names: seq<string>, created: set<string>, i: nat): (r: seq<string>)
    requires i <= |names|
    ensures forall x :: x in r <==> x in names[..i] && x !in created
    ensures Distinct(names) ==> Distinct(r)
  {
    if i == 0 then []
    else
      var r := Pending(names, created, i - 1);
      assert names[..i] == names[..i - 1] + [names[i - 1]];
      if names[i - 1] in created then r else r + [names[i - 1]]
  }

  /** One round over the remaining models `rem`, up to position `j`: a model
      whose dependencies have all been created by now (earlier in this round
      included) is created; the others stay. */
  function RoundTo(rem: seq<string>, deps: Deps, s: State, j: nat): (r: (State, seq<string>))
    requires j <= |rem| && Known(rem, deps)
    ensures |r.1| <= j
  {
    if j == 0 then (s, [])
    else
      var (t, left) := RoundTo(rem, deps, s, j - 1);
      var m := rem[j - 1];
      if Satisfied(deps[m], t.created) then (State(t.order + [m], t.created + {m}), left)
      else (t, left + [m])
  }

  /** The rounds, until no model remains or a round creates none. */
  function Rounds(rem: seq<string>, deps: Deps, s: State): Result<seq<string>>
    requires Known(rem, deps)
    decreases |rem|
  {
    if |rem| == 0 then Success(s.order)
    else
      var (t, left) := RoundTo(rem, deps, s, |rem|);
      if |left| == |rem| then Failure(CircularDependencyException(set m | m in left))
      else
        assert forall k :: 0 <= k < |left| ==> left[k] in deps by {
          RoundLeftFrom(rem, deps, s, |rem|);
          assert rem[..|rem|] == rem;
          assert forall x :: x in rem ==> x in deps;
        }
        Rounds(left, deps, t)
  }

  /** The whole loop: the creation order, or the models left over when a
      round made no progress. */
  function CreationOrder(names: seq<string>, deps: Deps): Result<seq<string>>
    requires Known(names, deps)
  {
    var s := FirstPass(names, deps, |names|);
    assert names[..|names|] == names;
    var rem := Pending(names, s.created, |names|);
    assert forall k :: 0 <= k < |rem| ==> rem[k] in names;
    Rounds(rem, deps, s)
  }

  lemma RoundLeftFrom(rem: seq<string>, deps: Deps, s: State, j: nat)
    requires j <= |rem| && Known(rem, deps)
    ensures forall x :: x in RoundTo(rem, deps, s, j).1 ==> x in rem[..j]
  {
    if j > 0 {
      RoundLeftFrom(rem, deps, s, j - 1);
      assert rem[..j] == rem[..j - 1] + [rem[j - 1]];
    }
  }

  /* ---------- invariant of the loop ---------- */

  /** The state is consistent: each model created once, the order lists the
      created models, all of them are known models and each comes after its
      dependencies. */
  ghost predicate Inv(names: seq<string>, deps: Deps, s: State) {
    Distinct(s.order) && (forall x :: x in s.order <==> x in s.created)
    && (forall x :: x in s.created ==> x in names) && DepsFirst(s.order, deps)
  }

  /** `rem` lists, once each, the known models not yet created. */
  ghost predicate RemOk(names: seq<string>, s: State, rem: seq<string>) {
    Distinct(rem) && forall x :: x in rem <==> x in names && x !in s.created
  }

  /** Appending a model whose dependencies are all created keeps the invariant. */
  lemma CreateKeepsInv(names: seq<string>, deps: Deps, s: State, m: string)
    requires Inv(names, deps, s) && m in names && m !in s.created
    requires m in deps && Satisfied(deps[m], s.created)
    ensures Inv(names, deps, State(s.order + [m], s.created + {m}))
  {
    var o := s.order + [m];
    forall i | 0 <= i < |o|
      ensures o[i] in deps && Satisfied(deps[o[i]], set k | 0 <= k < i :: o[k])
    {
      var before := set k | 0 <= k < i :: o[k];
      if i == |s.order| {
        forall d | d in deps[m] ensures d in before {
          var k :| 0 <= k < |s.order| && s.order[k] == d;
          assert o[k] == d;
        }
      } else {
        forall d | d in deps[o[i]] ensures d in before {
          assert d in set k | 0 <= k < i :: s.order[k];
          var k :| 0 <= k < i && s.order[k] == d;
          assert o[k] == d;
        }
      }
    }
  }

  lemma {:induction false} FirstPassInv(names: seq<string>, deps: Deps, i: nat)
    requires i <= |names| && Known(names, deps) && Distinct(names)
    ensures Inv(names, deps, FirstPass(names, deps, i))
    ensures forall x :: x in FirstPass(names, deps, i).created ==> x in names[..i]
  {
    if i > 0 {
      FirstPassInv(names, deps, i - 1);
      var s := FirstPass(names, deps, i - 1);
      var m := names[i - 1];
      assert names[..i] == names[..i - 1] + [m];
      if |deps[m]| == 0 {
        assert m !in names[..i - 1];
        CreateKeepsInv(names, deps, s, m);
      }
    }
  }

  /** What one round does: it keeps the invariant, every model of `rem[..j]`
      is either created or left, and a round that leaves them all changes
      nothing and finds each of them unsatisfied. */
  lemma {:induction false} RoundToInv(names: seq<string>, rem: seq<string>, deps: Deps, s: State, j: nat)
    requires j <= |rem| && Known(rem, deps) && Inv(names, deps, s) && RemOk(names, s, rem)
    ensures var (t, left) := RoundTo(rem, deps, s, j);
      Inv(names, deps, t) && Distinct(left)
      && (forall x :: x in t.created <==> x in s.created || (x in rem[..j] && x !in left))
      && (forall x :: x in left ==> x in rem[..j])
      && (|left| == j ==> t == s && left == rem[..j])
      && (|left| == j ==> forall x :: x in left ==> !Satisfied(deps[x], s.created))
  {
    if j > 0 {
      RoundToInv(names, rem, deps, s, j - 1);
      var (t, left) := RoundTo(rem, deps, s, j - 1);
      var m := rem[j - 1];
      assert rem[..j] == rem[..j - 1] + [m];
      assert m !in rem[..j - 1];
      if Satisfied(deps[m], t.created) {
        CreateKeepsInv(names, deps, t, m);
      }
    }
  }

  /** The result of the rounds, from a consistent state: a success lists
      every known model once, each after its dependencies; a failure names
      a non-empty set of remaining models, each with a dependency that is
      itself remaining or is no known model. */
  lemma {:induction false} RoundsResult(names: seq<string>, rem: seq<string>, deps: Deps, s: State)
    requires Known(rem, deps) && Inv(names, deps, s) && RemOk(names, s, rem)
    ensures Rounds(rem, deps, s).Success? ==>
      var o := Rounds(rem, deps, s).value;
      Distinct(o) && (forall x :: x in o <==> x in names) && DepsFirst(o, deps)
    ensures Rounds(rem, deps, s).Failure? ==> Stuck(names, deps, Rounds(rem, deps, s).error)
    decreases |rem|
  {
    if |rem| > 0 {
      RoundToInv(names, rem, deps, s, |rem|);
      var (t, left) := RoundTo(rem, deps, s, |rem|);
      assert rem[..|rem|] == rem;
      if |left| == |rem| {
        var e := CircularDependencyException(set m | m in left);
        assert rem[0] in e.remaining;
        forall m | m in e.remaining
          ensures m in names && exists d :: d in deps[m] && (d in e.remaining || d !in names)
        {
          assert !Satisfied(deps[m], s.created);
          var d :| d in deps[m] && d !in s.created;
        }
      } else {
        RoundLeftFrom(rem, deps, s, |rem|);
        assert forall x :: x in rem ==> x in deps;
        assert Known(left, deps);
        assert RemOk(names, t, left);
        RoundsResult(names, left, deps, t);
      }
    }
  }

  /** A failure that names a non-empty set of known models, each of which
      depends on a model of the set or on no known model. */
  ghost predicate Stuck(names: seq<string>, deps: Deps, e: Error) {
    e.CircularDependencyException? && e.remaining != {}
    && forall m :: m in e.remaining ==>
      m in names && m in deps && exists d :: d in deps[m] && (d in e.remaining || d !in names)
  }

  /** A success is a dependency-respecting permutation of the models; a
      failure is a genuinely stuck set. */
  lemma CreationOrderResult(names: seq<string>, deps: Deps)
    requires Known(names, deps) && Distinct(names)
    ensures CreationOrder(names, deps).Success? ==>
      var o := CreationOrder(names, deps).value;
      Distinct(o) && (forall x :: x in o <==> x in names) && DepsFirst(o, deps)
    ensures CreationOrder(names, deps).Failure? ==> Stuck(names, deps, CreationOrder(names, deps).error)
  {
    FirstPassInv(names, deps, |names|);
    var s := FirstPass(names, deps, |names|);
    assert names[..|names|] == names;
    var rem := Pending(names, s.created, |names|);
    assert forall x :: x in names ==> x in deps;
    RoundsResult(names, rem, deps, s);
  }

  /** When some ordering of the models puts every model after its
      dependencies, the loop finds one: it reports a circular dependency only
      when there is one. */
  lemma CreationOrderComplete(names: seq<string>, deps: Deps, o: seq<string>)
    requires Known(names, deps) && Distinct(names)
    requires (forall x :: x in o <==> x in names) && DepsFirst(o, deps)
    ensures CreationOrder(names, deps).Success?
  {
    CreationOrderResult(names, deps);
    if CreationOrder(names, deps).Failure? {
      var e := CreationOrder(names, deps).error;
      var m :| m in e.remaining;
      var i := FirstIn(o, e.remaining, m);
      var d :| d in deps[o[i]] && (d in e.remaining || d !in names);
      assert false;
    }
  }

  /** The first position of `o` that holds a member of `r`. */
  lemma FirstIn(o: seq<string>, r: set<string>, m: string) returns (i: nat)
    requires m in o && m in r
    ensures i < |o| && o[i] in r && forall k :: 0 <= k < i ==> o[k] !in r
  {
    i := 0;
    while o[i] !in r
      invariant i < |o| && forall k :: 0 <= k < i ==> o[k] !in r
      decreases |o| - i
    {
      i := i + 1;
    }
  }

  /** A model that depends on itself is never created. */
  lemma SelfDependencyFails(names: seq<string>, deps: Deps, m: string)
    requires Known(names, deps) && Distinct(names)
    requires m in names && m in deps && m in deps[m]
    ensures CreationOrder(names, deps).Failure?
  {
    CreationOrderResult(names, deps);
  }
}

=== FILE: fields.dfy ===
/** Model fields (statik/fields.py): a declared type string such as
    `RoomTag[] -> rooms` becomes a scalar, foreign-key or many-to-many field. */
module Fields {
  import opened Common
  import opened PyStr

  /** The field classes: six scalar kinds and the two relations. */
  datatype Kind =
    | StringField | DateTimeField | IntegerField | BooleanField | ContentField | TextField
    | ForeignKeyField | ManyToManyField
  {
    predicate IsRelation() { this == ForeignKeyField || this == ManyToManyField }
  }

  /** The type name a scalar field class stores as its `field_type`. */
  function ScalarName(k: Kind): string
    requires !k.IsRelation()
  {
    match k
    case StringField => "String"
    case DateTimeField => "DateTime"
    case IntegerField => "Integer"
    case BooleanField => "Boolean"
    case ContentField => "Content"
    case TextField => "Text"
  }

  /** `FIELD_TYPES`: the scalar field class registered under a type name, if any. */
  function ScalarKind(name: string): (k: Option<Kind>)
    ensures k.Some? ==> !k.value.IsRelation() && ScalarName(k.value) == name
    ensures k.None? ==> forall s: Kind :: !s.IsRelation() ==> ScalarName(s) != name
  {
    match name
    case "String" => Some(StringField)
    case "DateTime" => Some(DateTimeField)
    case "Integer" => Some(IntegerField)
    case "Boolean" => Some(BooleanField)
    case "Content" => Some(ContentField)
    case "Text" => Some(TextField)
    case _ => None
  }

  /** A built field. `fieldType` is the scalar type name, or the target model
      for a relation. `backPopulatesParam` is the `back_populates` keyword
      argument every field receives in `params`. */
  datatype Field = Field(kind: Kind, name: string, fieldType: string, backPopulatesParam: Option<string>)
  {
    /** The `back_populates` attribute, which only the two relation classes
        define; reading it on a scalar field is an `AttributeError`. */
    function BackPopulates(): (r: Result<Option<string>>)
      ensures r.Success? <==> kind.IsRelation()
      ensures r.Success? ==> r.value == backPopulatesParam
    {
      if kind.IsRelation() then Success(backPopulatesParam)
      else Failure(AttributeError("back_populates"))
    }
  }

  /** What a type string declares: the base type name, whether it carries the
      `[]` suffix, and the name after `->`. */
  datatype TypeSpec = TypeSpec(base: string, many: bool, backPopulates: Option<string>)

  /** The parsing at the start of `construct_field`: split on `->`, strip the
      first part, cut it at the first `[]` and strip again. */
  function ParseFieldType(fieldType: string): TypeSpec {
    var parts := Split(fieldType, "->");
    var head := Strip(parts[0]);
    TypeSpec(Strip(Split(head, "[]")[0]), EndsWith(head, "[]"),
             if |parts| > 1 then Some(Strip(parts[1])) else None)
  }

  /** The parsed names carry no surrounding whitespace, the base name holds
      no `[]`, and a back-reference name is present exactly when the string
      contains `->`. */
  lemma ParsedFieldTypeShape(fieldType: string)
    ensures var t := ParseFieldType(fieldType);
      && t.base == Strip(t.base)
      && !Contains(t.base, "[]")
      && (t.backPopulates.Some? <==> Contains(fieldType, "->"))
      && (t.backPopulates.Some? ==> t.backPopulates.value == Strip(t.backPopulates.value))
  {
    var parts := Split(fieldType, "->");
    var head := Strip(parts[0]);
    var pieces := Split(head, "[]");
    var base := Strip(pieces[0]);
    StripIdempotent(pieces[0]);
    SplitPiecesAvoidSep(head, "[]");
    assert pieces[0] in pieces;
    StripSpec(pieces[0]);
    InfixAvoids(pieces[0], base, "[]", LeadingSpace(pieces[0]));
    SplitMany(fieldType, "->");
    if |parts| > 1 { StripIdempotent(parts[1]); }
  }

  /** A type declaration written back as text, in the documented form
      `Target[] -> backref`. */
  function RenderFieldType(t: TypeSpec): string {
    t.base + (if t.many then "[]" else "")
    + match t.backPopulates case None => "" case Some(b) => " -> " + b
  }

  /** A name that reads back unchanged: no surrounding whitespace and no
      `->` or `[]` inside it. */
  predicate PlainName(s: string) {
    (|s| == 0 || (!IsSpace(s[0]) && !IsSpace(s[|s| - 1])))
    && NoPair(s, '-', '>') && NoPair(s, '[', ']')
  }

  /** The part before `->` keeps its shape under `strip()` and contains no `->`. */
  lemma RenderedHeadShape(base: string, many: bool)
    requires PlainName(base)
    ensures var x := base + (if many then "[]" else "");
      && (|x| == 0 || (!IsSpace(x[0]) && !IsSpace(x[|x| - 1])))
      && NoPair(x, '-', '>')
  {
    NoPairConcat(base, if many then "[]" else "", '-', '>');
  }

  /** Splitting the part before `->` on `[]` recovers the base name and the suffix. */
  lemma RenderedHeadMany(base: string)
    requires PlainName(base)
    ensures Split(base + "[]", "[]")[0] == base
    ensures EndsWith(base + "[]", "[]")
  {
    var x := base + "[]";
    forall j | 0 <= j < |base| ensures !(x[j] == '[' && x[j + 1] == ']') {
      if j + 1 < |base| { assert x[j] == base[j] && x[j + 1] == base[j + 1]; }
    }
    PairFirstAt(x, '[', ']', |base|);
    assert x[..|base|] == base;
  }

  lemma RenderedHeadSingle(base: string)
    requires PlainName(base)
    ensures Split(base, "[]")[0] == base
    ensures !EndsWith(base, "[]")
  {
    NoPairNotContains(base, '[', ']');
    SplitWithoutSep(base, "[]");
    if |base| >= 2 {
      assert !(base[|base| - 2] == '[' && base[|base| - 1] == ']');
      assert "[]"[0] == '[' && "[]"[1] == ']';
    }
  }

  lemma RenderedHead(base: string, many: bool)
    requires PlainName(base)
    ensures var x := base + (if many then "[]" else "");
      && (|x| == 0 || (!IsSpace(x[0]) && !IsSpace(x[|x| - 1])))
      && NoPair(x, '-', '>')
      && Strip(x) == x
      && Split(x, "[]")[0] == base
      && EndsWith(x, "[]") == many
  {
    var x := base + (if many then "[]" else "");
    RenderedHeadShape(base, many);
    StripFixed(x);
    if many { RenderedHeadMany(base); } else { assert x == base; RenderedHeadSingle(base); }
  }

  /** With a back reference, `->` first occurs after the head and its space. */
  lemma ArrowSplit(x: string, b: string)
    requires NoPair(x, '-', '>') && NoPair(b, '-', '>')
    ensures Split(x + " -> " + b, "->") == [x + " ", " " + b]
  {
    var s := x + " -> " + b;
    forall j | 0 <= j < |x| + 1 ensures !(s[j] == '-' && s[j + 1] == '>') {
      if j + 1 < |x| { assert s[j] == x[j] && s[j + 1] == x[j + 1]; }
    }
    PairFirstAt(s, '-', '>', |x| + 1);
    assert s[..|x| + 1] == x + " ";
    assert s[|x| + 3..] == " " + b;
    NoPairConcat(" ", b, '-', '>');
    NoPairNotContains(" " + b, '-', '>');
    SplitWithoutSep(" " + b, "->");
  }

  /** Splitting a rendered declaration on `->` separates the head from the
      back-reference name. */
  lemma RenderedParts(t: TypeSpec)
    requires PlainName(t.base)
    requires t.backPopulates.Some? ==> PlainName(t.backPopulates.value)
    ensures var x := t.base + (if t.many then "[]" else "");
      Split(RenderFieldType(t), "->") ==
        match t.backPopulates case None => [x] case Some(b) => [x + " ", " " + b]
  {
    var x := t.base + (if t.many then "[]" else "");
    RenderedHeadShape(t.base, t.many);
    match t.backPopulates
    case None =>
      assert RenderFieldType(t) == x;
      NoPairNotContains(x, '-', '>');
      SplitWithoutSep(x, "->");
    case Some(b) =>
      assert RenderFieldType(t) == x + " -> " + b;
      ArrowSplit(x, b);
  }

  /** Parsing a rendered declaration gives back what was rendered. */
  lemma ParseRenderedFieldType(t: TypeSpec)
    requires PlainName(t.base)
    requires t.backPopulates.Some? ==> PlainName(t.backPopulates.value)
    ensures ParseFieldType(RenderFieldType(t)) == t
  {
    ParsedHead(t);
    ParsedBack(t);
  }

  /** The part before `->` of a rendered declaration parses to its base and suffix. */
  lemma ParsedHead(t: TypeSpec)
    requires PlainName(t.base)
    requires t.backPopulates.Some? ==> PlainName(t.backPopulates.value)
    ensures var x := t.base + (if t.many then "[]" else "");
      && Strip(Split(RenderFieldType(t), "->")[0]) == x
      && Strip(Split(x, "[]")[0]) == t.base
      && EndsWith(x, "[]") == t.many
  {
    var x := t.base + (if t.many then "[]" else "");
    RenderedParts(t);
    RenderedHead(t.base, t.many);
    StripFixed(x);
    StripFixed(t.base);
  }

  /** The part after `->` of a rendered declaration parses to its back reference. */
  lemma ParsedBack(t: TypeSpec)
    requires PlainName(t.base)
    requires t.backPopulates.Some? ==> PlainName(t.backPopulates.value)
    ensures var parts := Split(RenderFieldType(t), "->");
      (if |parts| > 1 then Some(Strip(parts[1])) else None) == t.backPopulates
  {
    RenderedParts(t);
    if t.backPopulates.Some? { StripFixed(t.backPopulates.value); }
  }

  /** `construct_field(model_name, field_name, field_type, all_models)`. */
  function ConstructField(modelName: string, fieldName: string, fieldType: string,
                          allModels: seq<string>): (r: Result<Field>)
    ensures var t := ParseFieldType(fieldType);
      r.Failure? <==> ScalarKind(t.base).None? && t.base !in allModels
    ensures r.Failure? ==> r.error == InvalidFieldTypeError(modelName, fieldName, "")
    ensures r.Success? ==> var t := ParseFieldType(fieldType);
      && r.value.name == fieldName
      && r.value.fieldType == t.base
      && r.value.backPopulatesParam == t.backPopulates
      && (r.value.kind.IsRelation() <==> ScalarKind(t.base).None?)
      && (r.value.kind == ManyToManyField <==> ScalarKind(t.base).None? && t.many)
  {
    var t := ParseFieldType(fieldType);
    if ScalarKind(t.base).None? && t.base !in allModels then
      Failure(InvalidFieldTypeError(modelName, fieldName, ""))
    else if ScalarKind(t.base).Some? then
      Success(Field(ScalarKind(t.base).value, fieldName, t.base, t.backPopulates))
    else if t.many then
      Success(Field(ManyToManyField, fieldName, t.base, t.backPopulates))
    else
      Success(Field(ForeignKeyField, fieldName, t.base, t.backPopulates))
  }

  /** A declared relation `Target`, `Target[]`, optionally followed by
      `-> name`, builds a foreign-key or many-to-many field to `Target`
      carrying `name` as its back reference. */
  lemma ConstructRelationField(modelName: string, fieldName: string, t: TypeSpec, allModels: seq<string>)
    requires PlainName(t.base) && t.base in allModels && ScalarKind(t.base).None?
    requires t.backPopulates.Some? ==> PlainName(t.backPopulates.value)
    ensures ConstructField(modelName, fieldName, RenderFieldType(t), allModels)
      == Success(Field(if t.many then ManyToManyField else ForeignKeyField, fieldName, t.base, t.backPopulates))
  {
    ParseRenderedFieldType(t);
  }

  /** A scalar type name builds that scalar field, whether or not `[]` follows it. */
  lemma ConstructScalarField(modelName: string, fieldName: string, k: Kind, many: bool,
                             back: Option<string>, allModels: seq<string>)
    requires !k.IsRelation()
    requires back.Some? ==> PlainName(back.value)
    ensures ConstructField(modelName, fieldName, RenderFieldType(TypeSpec(ScalarName(k), many, back)), allModels)
      == Success(Field(k, fieldName, ScalarName(k), back))
  {
    ScalarNameFacts(k);
    ParseRenderedFieldType(TypeSpec(ScalarName(k), many, back));
  }

  /** Each scalar type name is plain and maps back to its own class. */
  lemma ScalarNameFacts(k: Kind)
    requires !k.IsRelation()
    ensures PlainName(ScalarName(k)) && ScalarKind(ScalarName(k)) == Some(k)
  {
    LettersPlain(ScalarName(k));
  }

  /** A name made of ASCII letters is plain. */
  lemma LettersPlain(s: string)
    requires forall i :: 0 <= i < |s| ==> 'A' <= s[i] <= 'Z' || 'a' <= s[i] <= 'z'
    ensures PlainName(s)
  {
    if |s| > 0 {
      assert !IsSpace(s[0]) && !IsSpace(s[|s| - 1]);
    }
  }
}

=== FILE: filters.dfy ===
/** The `sort_by` template filter (statik/filters.py): a new list holding the
    elements of the input ordered by one of their attributes, descending when
    the key starts with `-`, with elements of equal keys in input order.

    The sort is stated on positions: `SortIdx` orders the positions of the
    input, and the filter returns the elements at those positions. */
module Filters {
  import opened Common
  import opened PyStr
  import opened Values
  import opened TemplateTags

  /** A strict total order on attribute values, as Python's `<` is on numbers,
      on strings and on dates. */
  ghost predicate StrictTotal<K(!new)>(lt: (K, K) -> bool) {
    && (forall a :: !lt(a, a))
    && (forall a, b, c :: lt(a, b) && lt(b, c) ==> lt(a, c))
    && (forall a, b :: a == b || lt(a, b) || lt(b, a))
  }

  /** Position `i` of the input goes before position `j` in the output: its
      key comes first in the requested direction, or the two keys are equal
      and `i` came first in the input (`sorted` is stable, also with
      `reverse=True`). */
  predicate Before<K(==)>(ks: seq<K>, lt: (K, K) -> bool, desc: bool, i: nat, j: nat)
    requires i < |ks| && j < |ks|
  {
    (if desc then lt(ks[j], ks[i]) else lt(ks[i], ks[j])) || (ks[i] == ks[j] && i < j)
  }

  /** Every position of `p` is below `n`. */
  predicate Below(p: seq<nat>, n: nat) {
    forall k :: 0 <= k < |p| ==> p[k] < n
  }

  /** `p` lists each of the positions `0 .. n-1` exactly once. */
  predicate IsPerm(p: seq<nat>, n: nat) {
    |p| == n && Below(p, n) && forall a, b :: 0 <= a < b < |p| ==> p[a] != p[b]
  }

  /** The positions of `p` come in `Before` order. */
  predicate Ordered<K(==)>(ks: seq<K>, lt: (K, K) -> bool, desc: bool, p: seq<nat>)
    requires Below(p, |ks|)
  {
    forall a, b :: 0 <= a < b < |p| ==> Before(ks, lt, desc, p[a], p[b])
  }

  /** Inserts position `j` in front of the first position it goes before. */
  function Insert<K(==)>(ks: seq<K>, lt: (K, K) -> bool, desc: bool, p: seq<nat>, j: nat): (r: seq<nat>)
    requires j < |ks| && Below(p, |ks|)
    ensures Below(r, |ks|) && |r| == |p| + 1
  {
    if |p| == 0 then [j]
    else if Before(ks, lt, desc, j, p[0]) then [j] + p
    else [p[0]] + Insert(ks, lt, desc, p[1..], j)
  }

  /** The positions `0 .. n-1` in the order `sorted` puts their elements. */
  function SortIdx<K(==)>(ks: seq<K>, lt: (K, K) -> bool, desc: bool, n: nat): (p: seq<nat>)
    requires n <= |ks|
    ensures Below(p, n) && Below(p, |ks|) && |p| == n
  {
    if n == 0 then []
    else
      var q := SortIdx(ks, lt, desc, n - 1);
      var r := Insert(ks, lt, desc, q, n - 1);
      InsertKeepsBelow(ks, lt, desc, q, n - 1);
      r
  }

  /** Inserting `j` into positions below `j` gives positions up to `j`. */
  lemma InsertKeepsBelow<K>(ks: seq<K>, lt: (K, K) -> bool, desc: bool, p: seq<nat>, j: nat)
    requires j < |ks| && Below(p, j)
    ensures Below(Insert(ks, lt, desc, p, j), j + 1)
    ensures multiset(Insert(ks, lt, desc, p, j)) == multiset(p) + multiset{j}
  {
    if |p| > 0 && !Before(ks, lt, desc, j, p[0]) {
      InsertKeepsBelow(ks, lt, desc, p[1..], j);
      assert p == [p[0]] + p[1..];
    }
  }

  /** `Before` is transitive. */
  lemma BeforeTrans<K(!new)>(ks: seq<K>, lt: (K, K) -> bool, desc: bool, i: nat, j: nat, k: nat)
    requires StrictTotal(lt)
    requires i < |ks| && j < |ks| && k < |ks|
    requires Before(ks, lt, desc, i, j) && Before(ks, lt, desc, j, k)
    ensures Before(ks, lt, desc, i, k)
  {
  }

  /** Of two distinct positions one goes before the other. */
  lemma BeforeTotal<K(!new)>(ks: seq<K>, lt: (K, K) -> bool, desc: bool, i: nat, j: nat)
    requires StrictTotal(lt)
    requires i < |ks| && j < |ks| && i != j
    ensures Before(ks, lt, desc, i, j) != Before(ks, lt, desc, j, i)
  {
  }

  /** Inserting a position larger than every position of an ordered `p`
      keeps it ordered. */
  lemma {:induction false} InsertOrdered<K(!new)>(ks: seq<K>, lt: (K, K) -> bool, desc: bool, p: seq<nat>, j: nat)
    requires StrictTotal(lt)
    requires j < |ks| && Below(p, j) && Ordered(ks, lt, desc, p)
    ensures Ordered(ks, lt, desc, Insert(ks, lt, desc, p, j))
    decreases |p|
  {
    if |p| == 0 {
    } else if Before(ks, lt, desc, j, p[0]) {
      InsertFirst(ks, lt, desc, p, j);
    } else {
      var t := p[1..];
      InsertOrdered(ks, lt, desc, t, j);
      InsertBehind(ks, lt, desc, p, j);
    }
  }

  /** A position that goes before the first of an ordered `p` goes before
      all of it. */
  lemma InsertFirst<K(!new)>(ks: seq<K>, lt: (K, K) -> bool, desc: bool, p: seq<nat>, j: nat)
    requires StrictTotal(lt)
    requires j < |ks| && Below(p, j) && Ordered(ks, lt, desc, p)
    requires |p| > 0 && Before(ks, lt, desc, j, p[0])
    ensures Ordered(ks, lt, desc, [j] + p)
  {
    var r := [j] + p;
    forall a, b | 0 <= a < b < |r| ensures Before(ks, lt, desc, r[a], r[b]) {
      if a == 0 && b > 1 {
        BeforeTrans(ks, lt, desc, j, p[0], p[b - 1]);
      }
    }
  }

  /** A position that does not go before the first of an ordered `p` is
      inserted behind it, and the result stays ordered when the insertion
      into the rest does. */
  lemma InsertBehind<K(!new)>(ks: seq<K>, lt: (K, K) -> bool, desc: bool, p: seq<nat>, j: nat)
    requires StrictTotal(lt)
    requires j < |ks| && Below(p, j) && Ordered(ks, lt, desc, p)
    requires |p| > 0 && !Before(ks, lt, desc, j, p[0])
    requires Ordered(ks, lt, desc, Insert(ks, lt, desc, p[1..], j))
    ensures Ordered(ks, lt, desc, Insert(ks, lt, desc, p, j))
  {
    var t := p[1..];
    var r := Insert(ks, lt, desc, p, j);
    assert r == [p[0]] + Insert(ks, lt, desc, t, j);
    InsertKeepsBelow(ks, lt, desc, t, j);
    BeforeTotal(ks, lt, desc, j, p[0]);
    forall b | 0 < b < |r| ensures Before(ks, lt, desc, p[0], r[b]) {
      assert r[b] in multiset(Insert(ks, lt, desc, t, j));
      assert r[b] in multiset(t) + multiset{j};
      if r[b] != j {
        var k :| 0 <= k < |t| && t[k] == r[b];
        assert p[k + 1] == r[b];
      }
    }
  }

  /** `SortIdx` lists the positions in `Before` order. */
  lemma {:induction false} SortIdxOrdered<K(!new)>(ks: seq<K>, lt: (K, K) -> bool, desc: bool, n: nat)
    requires StrictTotal(lt) && n <= |ks|
    ensures Ordered(ks, lt, desc, SortIdx(ks, lt, desc, n))
  {
    if n > 0 {
      var q := SortIdx(ks, lt, desc, n - 1);
      SortIdxOrdered(ks, lt, desc, n - 1);
      InsertOrdered(ks, lt, desc, q, n - 1);
    }
  }

  /** `SortIdx` lists every position once, in `Before` order. */
  lemma SortIdxSpec<K(!new)>(ks: seq<K>, lt: (K, K) -> bool, desc: bool, n: nat)
    requires StrictTotal(lt) && n <= |ks|
    ensures IsPerm(SortIdx(ks, lt, desc, n), n)
    ensures Ordered(ks, lt, desc, SortIdx(ks, lt, desc, n))
  {
    var r := SortIdx(ks, lt, desc, n);
    SortIdxOrdered(ks, lt, desc, n);
    forall a, b | 0 <= a < b < |r| ensures r[a] != r[b] {
      assert Before(ks, lt, desc, r[a], r[b]);
    }
  }

  /** The elements at the positions of `p`. */
  function At<T>(lst: seq<T>, p: seq<nat>): (r: seq<T>)
    requires Below(p, |lst|)
    ensures |r| == |p|
  {
    if |p| == 0 then [] else [lst[p[0]]] + At(lst, p[1..])
  }

  /** The element at output position `k` is the one at input position `p[k]`. */
  lemma {:induction false} AtIndex<T>(lst: seq<T>, p: seq<nat>)
    requires Below(p, |lst|)
    ensures forall k :: 0 <= k < |p| ==> At(lst, p)[k] == lst[p[k]]
    decreases |p|
  {
    if |p| > 0 {
      AtIndex(lst, p[1..]);
    }
  }

  /** Inserting position `j` adds the element at `j` to the elements taken. */
  lemma {:induction false} AtInsert<T, K>(ks: seq<K>, lt: (K, K) -> bool, desc: bool, lst: seq<T>, p: seq<nat>, j: nat)
    requires |lst| == |ks| && j < |ks| && Below(p, |ks|)
    ensures multiset(At(lst, Insert(ks, lt, desc, p, j))) == multiset(At(lst, p)) + multiset{lst[j]}
    decreases |p|
  {
    if |p| > 0 && !Before(ks, lt, desc, j, p[0]) {
      AtInsert(ks, lt, desc, lst, p[1..], j);
      assert At(lst, p) == [lst[p[0]]] + At(lst, p[1..]);
    }
  }

  /** The elements at the sorted positions `0 .. n-1` are those of `lst[..n]`,
      each as many times as it occurs there. */
  lemma {:induction false} SortIdxElements<T, K>(ks: seq<K>, lt: (K, K) -> bool, desc: bool, lst: seq<T>, n: nat)
    requires |lst| == |ks| && n <= |ks|
    ensures multiset(At(lst, SortIdx(ks, lt, desc, n))) == multiset(lst[..n])
  {
    if n > 0 {
      SortIdxElements(ks, lt, desc, lst, n - 1);
      SortIdxStep(ks, lt, desc, n);
      AtInsert(ks, lt, desc, lst, SortIdx(ks, lt, desc, n - 1), n - 1);
      SliceSnoc(lst, n);
    }
  }

  /** Sorting one more position inserts it into the positions sorted so far. */
  lemma SortIdxStep<K>(ks: seq<K>, lt: (K, K) -> bool, desc: bool, n: nat)
    requires 0 < n <= |ks|
    ensures SortIdx(ks, lt, desc, n) == Insert(ks, lt, desc, SortIdx(ks, lt, desc, n - 1), n - 1)
  {
  }

  /** Taking one more element of `lst` adds it to the multiset taken. */
  lemma SliceSnoc<T>(lst: seq<T>, n: nat)
    requires 0 < n <= |lst|
    ensures multiset(lst[..n]) == multiset(lst[..n - 1]) + multiset{lst[n - 1]}
  {
    assert lst[..n] == lst[..n - 1] + [lst[n - 1]];
  }

  /** The attribute `name` of every element, or `None` as soon as one lacks it. */
  function Keys<T, K>(lst: seq<T>, name: string, attr: (T, string) -> Option<K>): (r: Option<seq<K>>)
    ensures r.Some? <==> forall k :: 0 <= k < |lst| ==> attr(lst[k], name).Some?
    ensures r.Some? ==> |r.value| == |lst| && forall k :: 0 <= k < |lst| ==> r.value[k] == attr(lst[k], name).value
  {
    if |lst| == 0 then Some([])
    else
      match attr(lst[0], name)
      case None => None
      case Some(k) =>
        match Keys(lst[1..], name, attr)
        case None => None
        case Some(ks) => Some([k] + ks)
  }

  /** `filter_sort_by(lst, key)`: a key starting with `-` asks for descending
      order, and every leading `-` is dropped before the attribute is looked
      up; an element without the attribute raises `AttributeError`. */
  function FilterSortBy<T, K(==)>(lst: seq<T>, key: string, attr: (T, string) -> Option<K>, lt: (K, K) -> bool): (r: Result<seq<T>>)
    ensures r.Failure? <==> exists k :: 0 <= k < |lst| && attr(lst[k], LStrip(key, {'-'})).None?
    ensures r.Failure? ==> r.error == AttributeError(LStrip(key, {'-'}))
    ensures r.Success? ==> |r.value| == |lst|
  {
    var desc := StartsWith(key, "-");
    var name := LStrip(key, {'-'});
    match Keys(lst, name, attr)
    case None => Failure(AttributeError(name))
    case Some(ks) => Success(At(lst, SortIdx(ks, lt, desc, |ks|)))
  }

  /** The sorted list is a permutation of the input, ordered by the
      attribute in the requested direction, with equal keys in input order:
      the element at output position `a` comes from input position `p[a]`,
      for a permutation `p` that orders the positions by `Before`. */
  lemma SortByMeaning<T, K(!new)>(lst: seq<T>, key: string, attr: (T, string) -> Option<K>, lt: (K, K) -> bool)
    requires StrictTotal(lt)
    requires FilterSortBy(lst, key, attr, lt).Success?
    ensures var r := FilterSortBy(lst, key, attr, lt).value;
      var ks := Keys(lst, LStrip(key, {'-'}), attr).value;
      var p := SortIdx(ks, lt, StartsWith(key, "-"), |lst|);
      && IsPerm(p, |lst|)
      && Ordered(ks, lt, StartsWith(key, "-"), p)
      && (forall a :: 0 <= a < |r| ==> r[a] == lst[p[a]])
      && multiset(r) == multiset(lst)
  {
    var ks := Keys(lst, LStrip(key, {'-'}), attr).value;
    var p := SortIdx(ks, lt, StartsWith(key, "-"), |lst|);
    SortIdxSpec(ks, lt, StartsWith(key, "-"), |lst|);
    AtIndex(lst, p);
    SortIdxElements(ks, lt, StartsWith(key, "-"), lst, |lst|);
    assert lst[..|lst|] == lst;
  }

  /** Read on the output: every element has the attribute, and keys never
      go against the requested direction. */
  lemma SortBySorted<T, K(!new)>(lst: seq<T>, key: string, attr: (T, string) -> Option<K>, lt: (K, K) -> bool, a: nat, b: nat)
    requires StrictTotal(lt)
    requires FilterSortBy(lst, key, attr, lt).Success?
    requires a < b < |lst|
    ensures var r := FilterSortBy(lst, key, attr, lt).value;
      var name := LStrip(key, {'-'});
      && attr(r[a], name).Some? && attr(r[b], name).Some?
      && (if StartsWith(key, "-") then !lt(attr(r[a], name).value, attr(r[b], name).value)
          else !lt(attr(r[b], name).value, attr(r[a], name).value))
  {
    var name := LStrip(key, {'-'});
    var desc := StartsWith(key, "-");
    var ks := Keys(lst, name, attr).value;
    var p := SortIdx(ks, lt, desc, |lst|);
    SortIdxSpec(ks, lt, desc, |lst|);
    assert FilterSortBy(lst, key, attr, lt).value == At(lst, p);
    AtIndex(lst, p);
    assert Before(ks, lt, desc, p[a], p[b]);
  }

  /** The direction and the attribute name: descending exactly when the key
      starts with `-`, and the name is the key without all its leading `-`. */
  lemma SortKeyParts(key: string)
    ensures var name := LStrip(key, {'-'});
      && (StartsWith(key, "-") <==> |name| < |key|)
      && (name == "" || name[0] != '-')
      && EndsWith(key, name)
  {
    var name := LStrip(key, {'-'});
    if |key| > 0 && |name| == |key| {
      assert key[|key| - |name| + 0] == name[0];
    }
    if |name| < |key| {
      assert key[0] in {'-'};
      assert key[0 + 0] == "-"[0];
    }
    if StartsWith(key, "-") {
      assert key[0 + 0] == "-"[0];
    }
  }

  const FilterDatetimeFn: Callable := Callable("filter_datetime", None)
  const FilterSortByFn: Callable := Callable("filter_sort_by", None)

  /** Importing statik/filters.py: `date` and `sort_by` are registered as
      filters, neither taking the context. */
  method RegisterFilters(store: TemplateTagStore)
    modifies store
    ensures store.filters == old(store.filters)["date" := FilterDatetimeFn]["sort_by" := FilterSortByFn]
    ensures store.takesContext == old(store.takesContext)["date" := VBool(false)]["sort_by" := VBool(false)]
    ensures store.tags == old(store.tags)
  {
    var d := store.Filter([], Some("date"), None);
    var _ := store.Decorate(d.value.value, FilterDatetimeFn);
    d := store.Filter([], Some("sort_by"), None);
    var _ := store.Decorate(d.value.value, FilterSortByFn);
  }
}

=== FILE: legacy_config.dfy ===
/** The project configuration of the older code base (src/config.py): option
    lookup that lets the selected profile override the global value, typed
    string options, the list of profiles, and the defaults for the project
    name, the base URL, the output path and the output mode. */
module LegacyConfig {
  import opened Common
  import opened Values
  import opened PyStr
  import opened Utils

  /** A `StatikConfig`: the project path without trailing slashes, the
      configuration dict, the selected profile and the profiles to assume
      when the configuration names none. */
  datatype Config = Config(path: string, cfg: Dict, profile: string, defaultProfiles: seq<Value>)

  /** `StatikConfig(path, cfg, profile, default_profiles)`. */
  function NewConfig(path: string, cfg: Dict, profile: string, defaultProfiles: seq<Value>): (c: Config)
    ensures OccursAt(path, c.path, 0) && (c.path == "" || c.path[|c.path| - 1] != '/')
    ensures forall i :: |c.path| <= i < |path| ==> path[i] == '/'
  {
    Config(RStrip(path, {'/'}), cfg, profile, defaultProfiles)
  }

  /** The text before a run of trailing slashes is determined by where the
      last other character sits. */
  lemma RStripUnique(s: string, r: string)
    requires OccursAt(s, r, 0) && (forall i :: |r| <= i < |s| ==> s[i] == '/')
    requires r == "" || r[|r| - 1] != '/'
    ensures RStrip(s, {'/'}) == r
  {
    var q := RStrip(s, {'/'});
    assert |q| == |r|;
    assert forall i :: 0 <= i < |q| ==> q[i] == s[i] == r[i];
  }

  /** A trailing slash makes no difference to the stored path. */
  lemma TrailingSlashIgnored(path: string, cfg: Dict, profile: string, defaultProfiles: seq<Value>)
    ensures NewConfig(path + "/", cfg, profile, defaultProfiles) == NewConfig(path, cfg, profile, defaultProfiles)
  {
    var r := RStrip(path, {'/'});
    var s := path + "/";
    assert forall i :: 0 <= i < |path| ==> s[i] == path[i];
    RStripUnique(s, r);
  }

  /** The selected profile's own settings, when `profileConfig` is a dict
      holding a dict for it. */
  function ProfileSettings(c: Config): Option<Dict> {
    if "profileConfig" in c.cfg.vals && c.cfg.vals["profileConfig"].VDict?
      && c.profile in c.cfg.vals["profileConfig"].d.vals
      && c.cfg.vals["profileConfig"].d.vals[c.profile].VDict?
    then Some(c.cfg.vals["profileConfig"].d.vals[c.profile].d)
    else None
  }

  /** `get_opt(param, default)`: the profile's value, else the global value,
      else the default. */
  function GetOpt(c: Config, param: string, default: Value): (r: Value)
    ensures ProfileSettings(c).Some? && param in ProfileSettings(c).value.vals ==>
      r == ProfileSettings(c).value.vals[param]
    ensures (ProfileSettings(c).None? || param !in ProfileSettings(c).value.vals) ==>
      r == GetOr(c.cfg, param, default)
  {
    if "profileConfig" in c.cfg.vals && c.cfg.vals["profileConfig"].VDict?
      && c.profile in c.cfg.vals["profileConfig"].d.vals
      && c.cfg.vals["profileConfig"].d.vals[c.profile].VDict?
      && param in c.cfg.vals["profileConfig"].d.vals[c.profile].d.vals
    then c.cfg.vals["profileConfig"].d.vals[c.profile].d.vals[param]
    else GetOr(c.cfg, param, default)
  }

  /** A value set for the selected profile wins over the global one; a
      profile that sets nothing, or a `profileConfig` that is not a dict,
      leaves the global value; the default applies only when neither is
      set. */
  lemma GetOptPrecedence(c: Config, param: string, default: Value)
    ensures (ProfileSettings(c).None? || param !in ProfileSettings(c).value.vals) && param !in c.cfg.vals ==>
      GetOpt(c, param, default) == default
    ensures "profileConfig" in c.cfg.vals && !c.cfg.vals["profileConfig"].VDict? ==>
      GetOpt(c, param, default) == GetOr(c.cfg, param, default)
    ensures GetOpt(c, param, default) != default ==>
      (ProfileSettings(c).Some? && param in ProfileSettings(c).value.vals) || param in c.cfg.vals
  {
  }

  /** `get_string_opt(param, default)`: the option, which must be a string. */
  function GetStringOpt(c: Config, param: string, default: Value): (r: Result<string>)
    ensures r.Success? <==> GetOpt(c, param, default).VStr?
    ensures r.Success? ==> GetOpt(c, param, default) == VStr(r.value)
    ensures r.Failure? ==> r.error.InvalidConfigException?
  {
    var v := GetOpt(c, param, default);
    if !v.VStr? then Failure(InvalidConfigException(param)) else Success(v.s)
  }

  /** `get_base_url()`: the `baseUrl` option, `/` by default. */
  function GetBaseUrl(c: Config): Result<string> {
    GetStringOpt(c, "baseUrl", VStr("/"))
  }

  /** `get_output_mode()`: the global `outputMode`, `standard` by default. */
  function GetOutputMode(c: Config): Value {
    GetOr(c.cfg, "outputMode", VStr("standard"))
  }

  /** `get_project_name()`: the global `projectName`, by default the last
      component of the project path. */
  function GetProjectName(c: Config): Value {
    GetOr(c.cfg, "projectName", VStr(LastSegment(c.path)))
  }

  /** `os.path.join(path, "public")`. */
  function PublicDir(path: string): string {
    if path == "" then "public" else path + "/public"
  }

  /** `get_output_path()`: the `outputPath` option, by default the `public`
      directory of the project, made absolute by `absPath`. */
  function GetOutputPath(c: Config, absPath: string -> string): Result<string> {
    var p :- GetStringOpt(c, "outputPath", VStr(PublicDir(c.path)));
    Success(absPath(p))
  }

  /** The defaults: base URL `/`, output mode `standard`, project name the
      last path component, output path the project's `public` directory. */
  lemma Defaults(c: Config, absPath: string -> string)
    requires ProfileSettings(c).None?
    requires "baseUrl" !in c.cfg.vals && "outputMode" !in c.cfg.vals && "projectName" !in c.cfg.vals
      && "outputPath" !in c.cfg.vals
    ensures GetBaseUrl(c) == Success("/")
    ensures GetOutputMode(c) == VStr("standard")
    ensures GetProjectName(c) == VStr(LastSegment(c.path))
    ensures GetOutputPath(c, absPath) == Success(absPath(PublicDir(c.path)))
  {
  }

  /** The project name does not depend on trailing slashes of the path. */
  lemma ProjectNameOfTrailingSlash(path: string, cfg: Dict, profile: string, defaultProfiles: seq<Value>)
    ensures GetProjectName(NewConfig(path + "/", cfg, profile, defaultProfiles))
      == GetProjectName(NewConfig(path, cfg, profile, defaultProfiles))
  {
    TrailingSlashIgnored(path, cfg, profile, defaultProfiles);
  }

  /** The output mode is global: the profile's settings do not change it. */
  lemma OutputModeIgnoresProfile(c: Config, profile: string)
    ensures GetOutputMode(c.(profile := profile)) == GetOutputMode(c)
  {
  }

  /** The base URL follows the profile: a string the profile sets is the
      base URL, whatever the global value. */
  lemma BaseUrlFollowsProfile(c: Config, url: string)
    requires ProfileSettings(c).Some? && "baseUrl" in ProfileSettings(c).value.vals
      && ProfileSettings(c).value.vals["baseUrl"] == VStr(url)
    ensures GetBaseUrl(c) == Success(url)
  {
  }

  /** Every listed profile is a string. */
  predicate AllStrings(vs: seq<Value>) {
    forall k :: 0 <= k < |vs| ==> vs[k].VStr?
  }

  /** `get_profiles()`: the configured `profiles`, a single one wrapped in a
      list, each of which must be a string; the default profiles when none
      are configured. */
  function GetProfiles(c: Config): (r: Result<seq<Value>>)
    ensures "profiles" !in c.cfg.vals ==> r == Success(c.defaultProfiles)
    ensures "profiles" in c.cfg.vals ==>
      (r.Success? <==> AllStrings(ListOf(c.cfg.vals["profiles"])))
    ensures "profiles" in c.cfg.vals && r.Success? ==> r.value == ListOf(c.cfg.vals["profiles"])
    ensures r.Failure? ==> r.error.InvalidConfigException?
  {
    if "profiles" !in c.cfg.vals then Success(c.defaultProfiles)
    else
      var profiles := ListOf(c.cfg.vals["profiles"]);
      CheckProfiles(profiles, 0)
  }

  /** A list stays as it is; any other value becomes a list holding it. */
  function ListOf(v: Value): (r: seq<Value>)
    ensures v.VList? ==> r == v.elems
    ensures !v.VList? ==> r == [v]
  {
    if v.VList? then v.elems else [v]
  }

  /** The validation loop over `profiles[i..]`: the first non-string is
      refused. */
  function CheckProfiles(profiles: seq<Value>, i: nat): (r: Result<seq<Value>>)
    requires i <= |profiles|
    ensures r.Success? <==> forall k :: i <= k < |profiles| ==> profiles[k].VStr?
    ensures r.Success? ==> r.value == profiles
    ensures r.Failure? ==> r.error.InvalidConfigException?
    decreases |profiles| - i
  {
    if i == |profiles| then Success(profiles)
    else if !profiles[i].VStr? then Failure(InvalidConfigException("profile name must be a string"))
    else CheckProfiles(profiles, i + 1)
  }
}

=== FILE: legacy_data.dfy ===
/** The older data layer (statik/data.py): creating the tables in an order
    that satisfies the foreign keys, building INSERT statements, turning
    query filters into WHERE clauses, and loading instance files, whose
    Markdown form carries a JSON preamble between `===` lines. */
module LegacyData {
  import opened Common
  import opened Values
  import opened PyStr
  import opened Utils
  import opened DepOrder
  import LegacyModels

  /* ---------- table creation ---------- */

  /** The CREATE TABLE statement of each model of `order`, in order. */
  function Statements(createSql: map<string, string>, order: seq<string>): (r: seq<string>)
    requires forall x :: x in order ==> x in createSql
    ensures |r| == |order| && forall k :: 0 <= k < |order| ==> r[k] == createSql[order[k]]
  {
    seq(|order|, k requires 0 <= k < |order| => createSql[order[k]])
  }

  /** What `_create_tables()` executes: the model tables in creation order,
      then the intermediate tables; or the circular dependency that stops
      it. */
  function TablesOf(names: seq<string>, deps: Deps, createSql: map<string, string>, intermediate: seq<string>): Result<seq<string>>
    requires Known(names, deps) && Distinct(names) && forall x :: x in names ==> x in createSql
  {
    match CreationOrder(names, deps)
    case Failure(e) => Failure(e)
    case Success(order) =>
      CreationOrderResult(names, deps);
      Success(Statements(createSql, order) + intermediate)
  }

  /** `_create_tables()`: the models without dependencies first, then rounds
      over the remaining models until none remains or a round creates none,
      then the intermediate tables. The statements are returned in the order
      they would be executed. */
  method CreateTables(names: seq<string>, deps: Deps, createSql: map<string, string>, intermediate: seq<string>)
    returns (r: Result<seq<string>>)
    requires Known(names, deps) && Distinct(names) && forall x :: x in names ==> x in createSql
    ensures r == TablesOf(names, deps, createSql, intermediate)
  {
    var order: seq<string> := [];
    var created: set<string> := {};
    for i := 0 to |names|
      invariant FirstPass(names, deps, i) == State(order, created)
    {
      var m := names[i];
      if |deps[m]| == 0 {
        order := order + [m];
        created := created + {m};
      }
    }
    assert names[..|names|] == names;
    var remaining := Pending(names, created, |names|);
    assert forall x :: x in names ==> x in deps;
    assert forall k :: 0 <= k < |remaining| ==> remaining[k] in names;
    while |remaining| > 0
      invariant Known(remaining, deps)
      invariant Rounds(remaining, deps, State(order, created)) == CreationOrder(names, deps)
      decreases |remaining|
    {
      var left := Round(remaining, deps, order, created);
      ghost var before := State(order, created);
      order, created := left.0.order, left.0.created;
      if |left.1| == |remaining| {
        return Failure(CircularDependencyException(set m | m in left.1));
      }
      RoundLeftFrom(remaining, deps, before, |remaining|);
      assert remaining[..|remaining|] == remaining;
      assert forall x :: x in remaining ==> x in deps;
      remaining := left.1;
    }
    CreationOrderResult(names, deps);
    r := Success(Statements(createSql, order) + intermediate);
  }

  /** One round over the remaining models: a model is created when each of
      its dependencies has been created, earlier in the round included. */
  method Round(remaining: seq<string>, deps: Deps, order0: seq<string>, created0: set<string>)
    returns (r: (State, seq<string>))
    requires Known(remaining, deps)
    ensures r == RoundTo(remaining, deps, State(order0, created0), |remaining|)
  {
    var order, created := order0, created0;
    var left: seq<string> := [];
    for j := 0 to |remaining|
      invariant RoundTo(remaining, deps, State(order0, created0), j) == (State(order, created), left)
    {
      var m := remaining[j];
      var satisfied := true;
      for t := 0 to |deps[m]|
        invariant satisfied <==> forall k :: 0 <= k < t ==> deps[m][k] in created
      {
        if deps[m][t] !in created {
          satisfied := false;
        }
      }
      if satisfied {
        order := order + [m];
        created := created + {m};
      } else {
        left := left + [m];
      }
    }
    r := (State(order, created), left);
  }

  /** A success executes the statement of every model once, each after the
      statements of the models it depends on, and then the intermediate
      tables; a failure names models that are stuck on each other or on
      unknown models. */
  lemma TablesResult(names: seq<string>, deps: Deps, createSql: map<string, string>, intermediate: seq<string>)
    requires Known(names, deps) && Distinct(names) && forall x :: x in names ==> x in createSql
    ensures TablesOf(names, deps, createSql, intermediate).Success? ==>
      exists order: seq<string> ::
        && Distinct(order) && (forall x :: x in order <==> x in names) && DepsFirst(order, deps)
        && TablesOf(names, deps, createSql, intermediate).value == Statements(createSql, order) + intermediate
    ensures TablesOf(names, deps, createSql, intermediate).Failure? ==>
      Stuck(names, deps, TablesOf(names, deps, createSql, intermediate).error)
  {
    CreationOrderResult(names, deps);
    if CreationOrder(names, deps).Success? {
      var order := CreationOrder(names, deps).value;
      assert TablesOf(names, deps, createSql, intermediate).value == Statements(createSql, order) + intermediate;
    }
  }

  /** The tables are created whenever some order satisfies every
      dependency, and never when a model depends on itself. */
  lemma TablesCreatedUnlessCircular(names: seq<string>, deps: Deps, createSql: map<string, string>, intermediate: seq<string>, o: seq<string>)
    requires Known(names, deps) && Distinct(names) && forall x :: x in names ==> x in createSql
    ensures (forall x :: x in o <==> x in names) && DepsFirst(o, deps) ==>
      TablesOf(names, deps, createSql, intermediate).Success?
    ensures (exists m :: m in names && m in deps[m]) ==>
      TablesOf(names, deps, createSql, intermediate).Failure?
  {
    if (forall x :: x in o <==> x in names) && DepsFirst(o, deps) {
      CreationOrderComplete(names, deps, o);
    }
    if exists m :: m in names && m in deps[m] {
      var m :| m in names && m in deps[m];
      SelfDependencyFails(names, deps, m);
    }
  }

  /* ---------- INSERT statements ---------- */

  /** The columns of an INSERT: `id`, then the model's fields. */
  function InsertColumns(m: LegacyModels.LModel): seq<string> {
    ["id"] + m.fieldNames
  }

  /** `n` placeholders. */
  function Placeholders(n: nat): (r: seq<string>)
    ensures |r| == n && forall k :: 0 <= k < n ==> r[k] == "?"
  {
    seq(n, k => "?")
  }

  /** `obj.get(name)`. */
  function GetOrNone(obj: map<string, Value>, name: string): Value {
    if name in obj then obj[name] else VNone
  }

  function InsertSql(name: string, columns: seq<string>): string {
    "INSERT INTO " + name + " (" + Join(columns, ",") + ") VALUES (" + Join(Placeholders(|columns|), ",") + ")"
  }

  /** `make_insert_query(model, obj)`: the statement and the value of each
      column in `obj`, `None` when it has none. */
  method MakeInsertQuery(m: LegacyModels.LModel, obj: map<string, Value>) returns (query: string, values: seq<Value>)
    ensures query == InsertSql(m.name, InsertColumns(m))
    ensures |values| == |InsertColumns(m)|
    ensures forall k :: 0 <= k < |values| ==> values[k] == GetOrNone(obj, InsertColumns(m)[k])
  {
    var fieldNames := ["id"];
    for i := 0 to |m.fieldNames|
      invariant fieldNames == ["id"] + m.fieldNames[..i]
    {
      fieldNames := fieldNames + [m.fieldNames[i]];
    }
    assert m.fieldNames[..|m.fieldNames|] == m.fieldNames;
    values := [];
    var marks: seq<string> := [];
    for i := 0 to |fieldNames|
      invariant |values| == i && |marks| == i
      invariant forall k :: 0 <= k < i ==> values[k] == GetOrNone(obj, fieldNames[k]) && marks[k] == "?"
    {
      values := values + [GetOrNone(obj, fieldNames[i])];
      marks := marks + ["?"];
    }
    assert marks == Placeholders(|fieldNames|);
    query := "INSERT INTO " + m.name + " (" + Join(fieldNames, ",") + ") VALUES (" + Join(marks, ",") + ")";
  }

  /** The placeholder list splits back into exactly one `?` per column. */
  lemma PlaceholdersPerColumn(m: LegacyModels.LModel)
    ensures Split(Join(Placeholders(|InsertColumns(m)|), ","), ",") == Placeholders(|InsertColumns(m)|)
  {
    var ps := Placeholders(|InsertColumns(m)|);
    forall p | p in ps ensures CharFree(p, ',') {
      assert p == "?";
    }
    SplitJoinChar(ps, ',');
  }

  /** When no field name holds a comma, the column list splits back into
      the columns: `id` first, then the fields in order. */
  lemma ColumnsRoundTrip(m: LegacyModels.LModel)
    requires forall k :: 0 <= k < |m.fieldNames| ==> CharFree(m.fieldNames[k], ',')
    ensures Split(Join(InsertColumns(m), ","), ",") == ["id"] + m.fieldNames
  {
    var cs := InsertColumns(m);
    forall p | p in cs ensures CharFree(p, ',') {
      if p == "id" {
      } else {
        var k :| 0 <= k < |cs| && cs[k] == p;
        assert m.fieldNames[k - 1] == p;
      }
    }
    SplitJoinChar(cs, ',');
  }

  /* ---------- query filters ---------- */

  /** `OPERATOR_LOOKUP`: the operators a filter may name and their SQL. */
  const OperatorLookup: map<string, string> := map[
    "eq" := "=", "gt" := ">", "gte" := ">=", "lt" := "<", "lte" := "<=",
    "in" := "IN", "like" := "LIKE", "notIn" := "NOT IN",
    "=" := "=", "==" := "=", ">" := ">", ">=" := ">=", "<" := "<", "<=" := "<=",
    "not in" := "NOT IN"]

  /** The SQL operators the lookup produces. */
  const SqlOperators: set<string> := {"=", ">", ">=", "<", "<=", "IN", "LIKE", "NOT IN"}

  /** The lookup produces exactly the SQL operators. */
  lemma OperatorLookupMeaning()
    ensures OperatorLookup.Values == SqlOperators
  {
    assert OperatorLookup["eq"] == "=" && OperatorLookup["gt"] == ">" && OperatorLookup["gte"] == ">=";
    assert OperatorLookup["lt"] == "<" && OperatorLookup["lte"] == "<=" && OperatorLookup["in"] == "IN";
    assert OperatorLookup["like"] == "LIKE" && OperatorLookup["notIn"] == "NOT IN";
  }

  /** The word and symbol spellings of an operator agree. */
  lemma OperatorSpellingsAgree()
    ensures OperatorLookup["eq"] == OperatorLookup["="] == OperatorLookup["=="] == "="
    ensures OperatorLookup["notIn"] == OperatorLookup["not in"] == "NOT IN"
    ensures OperatorLookup["gte"] == OperatorLookup[">="] && OperatorLookup["lte"] == OperatorLookup["<="]
    ensures OperatorLookup["gt"] == OperatorLookup[">"] && OperatorLookup["lt"] == OperatorLookup["<"]
  {
  }

  /** A WHERE clause on a field of the model with one of the SQL operators. */
  ghost predicate ClauseOk(fields: set<string>, c: string) {
    exists name, op :: name in fields && op in SqlOperators && c == name + " " + op + " ?"
  }

  /** What filter parsing collects: the clauses and their values. */
  datatype Where = Where(clauses: seq<string>, values: seq<Value>)

  /** One `field: value` entry of a filter: the field must be one of the
      model's; a dict value names exactly one known operator and holds the
      value under it; any other value is compared with `=`. */
  function FilterEntry(fields: set<string>, name: string, val: Value): (r: Result<(string, Value)>)
    ensures r.Success? <==>
      name in fields && (val.VDict? ==> |val.d.keys| == 1 && val.d.keys[0] in OperatorLookup)
    ensures name !in fields ==> r == Failure(QueryException("unknown field"))
    ensures name in fields && val.VDict? && |val.d.keys| > 1 ==> r == Failure(QueryException("more than one operator"))
    ensures name in fields && !val.VDict? ==> r == Success((name + " = ?", val))
  {
    if name !in fields then Failure(QueryException("unknown field"))
    else if val.VDict? then
      if |val.d.keys| > 1 then Failure(QueryException("more than one operator"))
      else if |val.d.keys| == 0 then Failure(IndexError(0))
      else
        var op := val.d.keys[0];
        if op !in OperatorLookup then Failure(QueryException("unrecognised operator"))
        else Success((name + " " + OperatorLookup[op] + " ?", LegacyModels.Lookup(val.d, op)))
    else Success((name + " = ?", val))
  }

  /** A successful entry is a well-formed clause on a field of the model. */
  lemma FilterEntryClause(fields: set<string>, name: string, val: Value)
    requires FilterEntry(fields, name, val).Success?
    ensures ClauseOk(fields, FilterEntry(fields, name, val).value.0)
  {
    OperatorLookupMeaning();
    if val.VDict? {
      var op := OperatorLookup[val.d.keys[0]];
      assert op in OperatorLookup.Values;
      assert FilterEntry(fields, name, val).value.0 == name + " " + op + " ?";
    } else {
      assert FilterEntry(fields, name, val).value.0 == name + " " + "=" + " ?";
    }
  }

  /** The entries `d.keys[..j]` of one filter, after `acc`. */
  function EntriesTo(fields: set<string>, d: Dict, j: nat, acc: Where): (r: Result<Where>)
    requires j <= |d.keys|
    ensures r.Success? && |acc.clauses| == |acc.values| ==> |r.value.clauses| == |r.value.values|
  {
    if j == 0 then Success(acc)
    else
      var w :- EntriesTo(fields, d, j - 1, acc);
      var e :- FilterEntry(fields, d.keys[j - 1], LegacyModels.Lookup(d, d.keys[j - 1]));
      Success(Where(w.clauses + [e.0], w.values + [e.1]))
  }

  /** The filters `fs[..i]`, each of which must be a dict. */
  function FiltersTo(fields: set<string>, fs: seq<Value>, i: nat): (r: Result<Where>)
    requires i <= |fs|
    ensures r.Success? ==> |r.value.clauses| == |r.value.values|
  {
    if i == 0 then Success(Where([], []))
    else
      var acc :- FiltersTo(fields, fs, i - 1);
      var f := fs[i - 1];
      if !f.VDict? then Failure(AttributeError("iteritems"))
      else EntriesTo(fields, f.d, |f.d.keys|, acc)
  }

  /** The filters of a query: none when falsy, a dict stands for a list
      holding it, anything else that is not a list is refused. */
  function FilterList(filters: Value): Result<seq<Value>> {
    if !Truthy(filters) then Success([])
    else if filters.VDict? then Success([filters])
    else if filters.VList? then Success(filters.elems)
    else Failure(QueryException("filters must be lists or objects"))
  }

  /** The filter parsing of `query(model, filters)`. */
  function QueryWhere(models: map<string, set<string>>, model: string, filters: Value): Result<Where> {
    if model !in models then Failure(ModelDoesNotExistException(model))
    else
      var fs :- FilterList(filters);
      FiltersTo(models[model], fs, |fs|)
  }

  method ParseFilters(models: map<string, set<string>>, model: string, filters: Value) returns (r: Result<Where>)
    ensures r == QueryWhere(models, model, filters)
  {
    if model !in models {
      return Failure(ModelDoesNotExistException(model));
    }
    var fields := models[model];
    var fs := FilterList(filters);
    if fs.Failure? {
      return Failure(fs.error);
    }
    r := ReadFilters(fields, fs.value);
  }

  /** The loop over the filters and their entries. */
  method ReadFilters(fields: set<string>, fs: seq<Value>) returns (r: Result<Where>)
    ensures r == FiltersTo(fields, fs, |fs|)
  {
    var clauses: seq<string> := [];
    var values: seq<Value> := [];
    for i := 0 to |fs|
      invariant FiltersTo(fields, fs, i) == Success(Where(clauses, values))
    {
      var f := fs[i];
      if !f.VDict? {
        FiltersStopped(fields, fs, i + 1, |fs|);
        return Failure(AttributeError("iteritems"));
      }
      var w := ReadEntries(fields, f.d, Where(clauses, values));
      if w.Failure? {
        FiltersStopped(fields, fs, i + 1, |fs|);
        return Failure(w.error);
      }
      clauses, values := w.value.clauses, w.value.values;
    }
    r := Success(Where(clauses, values));
  }

  /** The loop over the entries of one filter. */
  method ReadEntries(fields: set<string>, d: Dict, acc: Where) returns (r: Result<Where>)
    ensures r == EntriesTo(fields, d, |d.keys|, acc)
  {
    var clauses, values := acc.clauses, acc.values;
    for j := 0 to |d.keys|
      invariant EntriesTo(fields, d, j, acc) == Success(Where(clauses, values))
    {
      var e := FilterEntry(fields, d.keys[j], LegacyModels.Lookup(d, d.keys[j]));
      if e.Failure? {
        EntriesStopped(fields, d, acc, j + 1, |d.keys|);
        return Failure(e.error);
      }
      clauses := clauses + [e.value.0];
      values := values + [e.value.1];
    }
    r := Success(Where(clauses, values));
  }

  lemma {:induction false} EntriesStopped(fields: set<string>, d: Dict, acc: Where, j: nat, n: nat)
    requires j <= n <= |d.keys| && EntriesTo(fields, d, j, acc).Failure?
    ensures EntriesTo(fields, d, n, acc) == EntriesTo(fields, d, j, acc)
    decreases n - j
  {
    if j < n {
      EntriesStopped(fields, d, acc, j + 1, n);
    }
  }

  lemma {:induction false} FiltersStopped(fields: set<string>, fs: seq<Value>, i: nat, n: nat)
    requires i <= n <= |fs| && FiltersTo(fields, fs, i).Failure?
    ensures FiltersTo(fields, fs, n) == FiltersTo(fields, fs, i)
    decreases n - i
  {
    if i < n {
      FiltersStopped(fields, fs, i + 1, n);
    }
  }

  /** The entries of one filter succeed exactly when each of them does;
      each adds one well-formed clause and its value. */
  lemma {:induction false} EntriesMeaning(fields: set<string>, d: Dict, j: nat, acc: Where)
    requires j <= |d.keys| && forall k :: 0 <= k < |acc.clauses| ==> ClauseOk(fields, acc.clauses[k])
    ensures EntriesTo(fields, d, j, acc).Success? <==>
      forall k :: 0 <= k < j ==> FilterEntry(fields, d.keys[k], LegacyModels.Lookup(d, d.keys[k])).Success?
    ensures EntriesTo(fields, d, j, acc).Success? ==>
      && |EntriesTo(fields, d, j, acc).value.clauses| == |acc.clauses| + j
      && forall k :: 0 <= k < |EntriesTo(fields, d, j, acc).value.clauses| ==>
           ClauseOk(fields, EntriesTo(fields, d, j, acc).value.clauses[k])
  {
    if j > 0 {
      EntriesMeaning(fields, d, j - 1, acc);
      var e := FilterEntry(fields, d.keys[j - 1], LegacyModels.Lookup(d, d.keys[j - 1]));
      if EntriesTo(fields, d, j - 1, acc).Success? && e.Success? {
        FilterEntryClause(fields, d.keys[j - 1], LegacyModels.Lookup(d, d.keys[j - 1]));
      }
    }
  }

  /** Parsing succeeds exactly when every filter is a dict whose entries all
      succeed; every clause it yields is well formed, one per entry. */
  lemma {:induction false} FiltersMeaning(fields: set<string>, fs: seq<Value>, i: nat)
    requires i <= |fs|
    ensures FiltersTo(fields, fs, i).Success? <==>
      forall k :: 0 <= k < i ==> fs[k].VDict? && EntriesOk(fields, fs[k].d)
    ensures FiltersTo(fields, fs, i).Success? ==>
      forall k :: 0 <= k < |FiltersTo(fields, fs, i).value.clauses| ==>
        ClauseOk(fields, FiltersTo(fields, fs, i).value.clauses[k])
  {
    if i > 0 {
      FiltersMeaning(fields, fs, i - 1);
      var prev := FiltersTo(fields, fs, i - 1);
      if prev.Success? && fs[i - 1].VDict? {
        EntriesMeaning(fields, fs[i - 1].d, |fs[i - 1].d.keys|, prev.value);
      }
    }
  }

  /** Every entry of a filter is acceptable. */
  predicate EntriesOk(fields: set<string>, d: Dict) {
    forall k :: 0 <= k < |d.keys| ==> FilterEntry(fields, d.keys[k], LegacyModels.Lookup(d, d.keys[k])).Success?
  }

  /** A falsy filter yields no clause; a dict filter means the same as a
      list holding it; a filter that is neither is refused. */
  lemma FilterListFacts(models: map<string, set<string>>, model: string, filters: Value)
    requires model in models
    ensures !Truthy(filters) ==> QueryWhere(models, model, filters) == Success(Where([], []))
    ensures filters.VDict? && Truthy(filters) ==>
      QueryWhere(models, model, filters) == QueryWhere(models, model, VList([filters]))
    ensures Truthy(filters) && !filters.VDict? && !filters.VList? ==>
      QueryWhere(models, model, filters) == Failure(QueryException("filters must be lists or objects"))
  {
  }

  /** An unknown model is reported before the filters are looked at. */
  lemma UnknownModelReported(models: map<string, set<string>>, model: string, filters: Value)
    requires model !in models
    ensures QueryWhere(models, model, filters) == Failure(ModelDoesNotExistException(model))
  {
  }

  /* ---------- the Markdown preamble ---------- */

  /** A line that, stripped, is `===`. */
  predicate IsMarker(line: string) {
    Strip(line) == "==="
  }

  /** Which lines are `===` lines. */
  function Markers(lines: seq<string>): (r: seq<bool>)
    ensures |r| == |lines| && forall k :: 0 <= k < |lines| ==> r[k] == IsMarker(lines[k])
  {
    seq(|lines|, k requires 0 <= k < |lines| => IsMarker(lines[k]))
  }

  /** The state of the line loop. */
  datatype Scan = Scan(preamble: string, content: string, started: bool, ended: bool)

  /** The line loop of `_load_markdown` over the first `i` lines, `marks`
      telling which are `===` lines: the first `===` line starts the
      preamble and the second ends it; other lines go to the preamble while
      it is open and to the content otherwise. */
  function ScanTo(lines: seq<string>, marks: seq<bool>, i: nat): Scan
    requires i <= |lines| == |marks|
  {
    if i == 0 then Scan("", "", false, false)
    else
      var s := ScanTo(lines, marks, i - 1);
      var line := lines[i - 1];
      if marks[i - 1] then
        if s.ended then s
        else if s.started then s.(ended := true)
        else s.(started := true)
      else if s.started && !s.ended then s.(preamble := s.preamble + line)
      else s.(content := s.content + line)
  }

  method SplitPreamble(lines: seq<string>) returns (preamble: string, content: string)
    ensures preamble == ScanTo(lines, Markers(lines), |lines|).preamble
    ensures content == ScanTo(lines, Markers(lines), |lines|).content
  {
    ghost var marks := Markers(lines);
    preamble, content := "", "";
    var started, ended := false, false;
    for i := 0 to |lines|
      invariant ScanTo(lines, marks, i) == Scan(preamble, content, started, ended)
    {
      var line := lines[i];
      if Strip(line) == "===" {
        if !ended {
          if started {
            ended := true;
          } else {
            started := true;
          }
        }
      } else {
        if started && !ended {
          preamble := preamble + line;
        } else {
          content := content + line;
        }
      }
    }
  }

  /** The number of `===` lines among the first `k`. */
  function MarkersBefore(marks: seq<bool>, k: nat): nat
    requires k <= |marks|
  {
    if k == 0 then 0 else MarkersBefore(marks, k - 1) + if marks[k - 1] then 1 else 0
  }

  /** The lines among the first `n` that are not `===` lines and follow
      exactly one `===` line (`inside`), or not exactly one (`!inside`),
      concatenated. */
  function LinesWhere(lines: seq<string>, marks: seq<bool>, n: nat, inside: bool): string
    requires n <= |lines| == |marks|
  {
    if n == 0 then ""
    else
      var k := n - 1;
      LinesWhere(lines, marks, k, inside)
        + if !marks[k] && (MarkersBefore(marks, k) == 1) == inside then lines[k] else ""
  }

  /** The loop agrees with the reference: the preamble is what lies between
      the first and the second `===` line, the content everything else
      except the `===` lines, and the flags count the `===` lines seen. */
  lemma {:induction false} ScanMeaning(lines: seq<string>, marks: seq<bool>, n: nat)
    requires n <= |lines| == |marks|
    ensures ScanTo(lines, marks, n) == Scan(LinesWhere(lines, marks, n, true), LinesWhere(lines, marks, n, false),
                                            MarkersBefore(marks, n) >= 1, MarkersBefore(marks, n) >= 2)
  {
    if n > 0 {
      ScanMeaning(lines, marks, n - 1);
    }
  }

  /** Without any `===` line everything is content. */
  lemma {:induction false} NoMarkersAllContent(lines: seq<string>, marks: seq<bool>, n: nat)
    requires n <= |lines| == |marks| && forall k :: 0 <= k < n ==> !marks[k]
    ensures LinesWhere(lines, marks, n, true) == "" && MarkersBefore(marks, n) == 0
    ensures LinesWhere(lines, marks, n, false) == Concat(lines[..n])
  {
    if n > 0 {
      NoMarkersAllContent(lines, marks, n - 1);
      assert lines[..n] == lines[..n - 1] + [lines[n - 1]];
      ConcatSnoc(lines[..n - 1], lines[n - 1]);
    }
  }

  /** The lines, concatenated. */
  function Concat(ls: seq<string>): string {
    if |ls| == 0 then "" else ls[0] + Concat(ls[1..])
  }

  lemma {:induction false} ConcatSnoc(ls: seq<string>, l: string)
    ensures Concat(ls + [l]) == Concat(ls) + l
    decreases |ls|
  {
    if |ls| == 0 {
      assert ls + [l] == [l];
    } else {
      assert (ls + [l])[1..] == ls[1..] + [l];
      ConcatSnoc(ls[1..], l);
    }
  }

  /** What `_load_markdown` makes of the preamble and the content: nothing
      when both are empty; otherwise the preamble's dict, or an empty one
      when there is no preamble, with the rendered content under
      `_content`. */
  function Assemble(preamble: string, content: string, parseJson: string -> Result<Value>, markdown: string -> string): Result<Dict> {
    if preamble == "" && content == "" then Success(Empty)
    else
      var data :- if preamble != "" then parseJson(preamble) else Success(VDict(Empty));
      if !data.VDict? then Failure(TypeError("item assignment"))
      else Success(Put(data.d, "_content", VStr(markdown(content))))
  }

  /** `_load_markdown(filename)`, given the file's lines (each with its line
      ending), a JSON parser and the Markdown renderer. */
  function LoadMarkdown(lines: seq<string>, parseJson: string -> Result<Value>, markdown: string -> string): Result<Dict> {
    var s := ScanTo(lines, Markers(lines), |lines|);
    Assemble(s.preamble, s.content, parseJson, markdown)
  }

  /** Neither preamble nor content yields an empty dict; any other
      successful load holds the rendered content under `_content`, and
      without a preamble nothing else; a preamble that is not a JSON object
      is refused. */
  lemma AssembleFacts(preamble: string, content: string, parseJson: string -> Result<Value>, markdown: string -> string)
    ensures preamble == "" && content == "" ==> Assemble(preamble, content, parseJson, markdown) == Success(Empty)
    ensures Assemble(preamble, content, parseJson, markdown).Success? && (preamble != "" || content != "") ==>
      Assemble(preamble, content, parseJson, markdown).value.vals["_content"] == VStr(markdown(content))
    ensures preamble == "" && content != "" ==>
      Assemble(preamble, content, parseJson, markdown) == Success(Dict(["_content"], map["_content" := VStr(markdown(content))]))
    ensures preamble != "" && parseJson(preamble).Success? && !parseJson(preamble).value.VDict? ==>
      Assemble(preamble, content, parseJson, markdown).Failure?
  {
    if preamble == "" && content != "" {
      var v := VStr(markdown(content));
      assert Put(Empty, "_content", v).keys == ["_content"];
      assert Put(Empty, "_content", v).vals == map["_content" := v];
    }
  }

  /* ---------- instance files ---------- */

  /** The extension of the file name, without its dot. */
  function InstanceExt(filename: string): string {
    LStrip(SplitExt(LastSegment(filename)), {'.'})
  }

  /** The loader the extension selects: `md` and `markdown` files are
      Markdown, `json` files JSON, anything else is refused. */
  function Dispatch(ext: string, filename: string, loadMarkdown: string -> Result<Value>, loadJson: string -> Result<Value>): Result<Value> {
    if ext == "md" || ext == "markdown" then loadMarkdown(filename)
    else if ext == "json" then loadJson(filename)
    else Failure(UnsupportedDataFileException(ext))
  }

  /** The record of the loaded data, with `id` set to `stem`. */
  function RecordWithId(m: LegacyModels.LModel, content: Value, stem: string, conv: LegacyModels.Conversions): Result<map<string, Value>>
    requires LegacyModels.ModelOk(m)
  {
    var data :- LegacyModels.InstanceTo(m, content, conv, |m.fieldNames|);
    Success(data["id" := VStr(stem)])
  }

  /** `StatikInstance(model, filename)`: the file is loaded by its extension,
      its data made into a record of the model, and the record's `id` set to
      the file name without its extension. The loaders read the file and
      are supplied from outside. */
  function LegacyInstanceOf(m: LegacyModels.LModel, filename: string, conv: LegacyModels.Conversions,
                            loadMarkdown: string -> Result<Value>, loadJson: string -> Result<Value>): Result<map<string, Value>>
    requires LegacyModels.ModelOk(m)
  {
    var content :- Dispatch(InstanceExt(filename), filename, loadMarkdown, loadJson);
    RecordWithId(m, content, ExtractFilename(filename), conv)
  }

  /** A record holds the model's fields and `id`, and its `id` is the stem. */
  lemma RecordWithIdFacts(m: LegacyModels.LModel, content: Value, stem: string, conv: LegacyModels.Conversions)
    requires LegacyModels.ModelOk(m) && Distinct(m.fieldNames)
    ensures RecordWithId(m, content, stem, conv).Success? <==> LegacyModels.InstanceTo(m, content, conv, |m.fieldNames|).Success?
    ensures RecordWithId(m, content, stem, conv).Success? ==>
      && RecordWithId(m, content, stem, conv).value["id"] == VStr(stem)
      && (forall k :: 0 <= k < |m.fieldNames| ==> m.fieldNames[k] in RecordWithId(m, content, stem, conv).value)
      && (forall k :: k in RecordWithId(m, content, stem, conv).value ==> k == "id" || k in m.fieldNames)
  {
    if LegacyModels.InstanceTo(m, content, conv, |m.fieldNames|).Success? {
      LegacyModels.InstanceToFields(m, content, conv, |m.fieldNames|);
      assert m.fieldNames[..|m.fieldNames|] == m.fieldNames;
    }
  }

  /** An unsupported extension is refused with that extension; a supported
      one loads through its own loader. */
  lemma DispatchFacts(ext: string, filename: string, loadMarkdown: string -> Result<Value>, loadJson: string -> Result<Value>)
    ensures ext != "md" && ext != "markdown" && ext != "json" ==>
      Dispatch(ext, filename, loadMarkdown, loadJson) == Failure(UnsupportedDataFileException(ext))
    ensures ext == "md" || ext == "markdown" ==> Dispatch(ext, filename, loadMarkdown, loadJson) == loadMarkdown(filename)
    ensures ext == "json" ==> Dispatch(ext, filename, loadMarkdown, loadJson) == loadJson(filename)
  {
  }
}

=== FILE: legacy_models.dfy ===
/** The models of the older data layer (src/models.py): a model is read from
    a JSON file mapping field names to type strings (`string`, `int`,
    `content`, `datetime`, `date`, `float` or `fk|Model`), and turns into a
    CREATE TABLE statement, a list of referenced models, and record dicts
    holding exactly its fields. */
module LegacyModels {
  import opened Common
  import opened Values
  import opened PyStr
  import opened Utils

  /** The type strings a field may declare besides `fk|Model`. */
  const KnownTypes: seq<string> := ["string", "int", "content", "datetime", "date", "float"]

  /** The type of a constructed field: `fk|X` becomes a foreign key to `X`
      (the source stores the type `fk` and `X` as the foreign class). */
  datatype FieldType = TString | TInt | TContent | TDateTime | TDate | TFloat | TForeign(target: string)

  /** A `StatikField`: its model, its name and its type. */
  datatype LField = LField(modelName: string, name: string, fieldType: FieldType)

  /** `foreign_class`: the referenced model of a foreign key, `None` otherwise. */
  function ForeignClass(f: LField): Option<string> {
    if f.fieldType.TForeign? then Some(f.fieldType.target) else None
  }

  /** The type a declared type string stands for: `fk|X` refers to the text
      between the first and the second `|`. */
  function ParseType(t: string): Option<FieldType> {
    if StartsWith(t, "fk|") then
      ForeignPieces(t);
      Some(TForeign(Split(t, "|")[1]))
    else if t == "string" then Some(TString)
    else if t == "int" then Some(TInt)
    else if t == "content" then Some(TContent)
    else if t == "datetime" then Some(TDateTime)
    else if t == "date" then Some(TDate)
    else if t == "float" then Some(TFloat)
    else None
  }

  /** A type starting with `fk|` splits on `|` into `fk` and the pieces of
      what follows. */
  lemma ForeignPieces(t: string)
    requires StartsWith(t, "fk|")
    ensures Split(t, "|") == ["fk"] + Split(t[3..], "|")
  {
    var u := "fk" + "|" + t[3..];
    forall k | 0 <= k < |t|
      ensures u[k] == t[k]
    {
      if k < 3 {
        assert t[k] == "fk|"[k];
      }
    }
    assert u == t;
    SplitAroundChar("fk", '|', t[3..]);
    CharFreeSplit("fk", '|');
  }

  /** A `fk|` type is none of the known types: its second character is `k`. */
  lemma ForeignNotKnown(t: string)
    requires StartsWith(t, "fk|")
    ensures t !in KnownTypes
  {
    assert t[1] == "fk|"[1];
  }

  /** A type string is accepted exactly when it starts with `fk|` or is one
      of the known types; `fk|X` refers to `X` up to any further `|`, and the
      known types map one to one. */
  lemma ParseTypeMeaning(t: string)
    ensures ParseType(t).Some? <==> StartsWith(t, "fk|") || t in KnownTypes
    ensures StartsWith(t, "fk|") ==> ParseType(t) == Some(TForeign(Split(t[3..], "|")[0]))
    ensures StartsWith(t, "fk|") && CharFree(t[3..], '|') ==> ParseType(t) == Some(TForeign(t[3..]))
    ensures ParseType(t) == Some(TContent) <==> t == "content"
    ensures ParseType(t) == Some(TString) <==> t == "string"
    ensures ParseType(t) == Some(TInt) <==> t == "int"
  {
    if StartsWith(t, "fk|") {
      ForeignPieces(t);
      if CharFree(t[3..], '|') {
        CharFreeSplit(t[3..], '|');
      }
      ForeignNotKnown(t);
    }
  }

  /** `StatikField(model_name, field_name, field_type)` as written: the error
      message for an unknown type formats the unbound variable `name`, so
      the exception actually raised is a `NameError`. */
  function FieldAsWritten(modelName: string, fieldName: string, fieldType: string): (r: Result<LField>)
    ensures r.Failure? <==> ParseType(fieldType).None?
  {
    match ParseType(fieldType)
    case None => Failure(NameError("name"))
    case Some(ft) => Success(LField(modelName, fieldName, ft))
  }

  /** The constructor as evidently intended: an unknown type raises
      `InvalidFieldTypeException` naming the field, the model and the type. */
  function NewField(modelName: string, fieldName: string, fieldType: string): (r: Result<LField>)
    ensures r.Success? <==> ParseType(fieldType).Some?
    ensures r.Success? ==>
      r.value.name == fieldName && r.value.modelName == modelName && Some(r.value.fieldType) == ParseType(fieldType)
    ensures r.Failure? ==> r.error == InvalidFieldTypeException(modelName, fieldName, fieldType)
  {
    match ParseType(fieldType)
    case None => Failure(InvalidFieldTypeException(modelName, fieldName, fieldType))
    case Some(ft) => Success(LField(modelName, fieldName, ft))
  }

  /** An unknown type such as `text` reaches the error branch, where the
      written code fails with a `NameError` instead of the intended
      exception; on every accepted type the two agree. */
  lemma UnknownTypeRaisesNameError(modelName: string, fieldName: string, fieldType: string)
    ensures FieldAsWritten(modelName, fieldName, "text") == Failure(NameError("name"))
    ensures NewField(modelName, fieldName, "text") == Failure(InvalidFieldTypeException(modelName, fieldName, "text"))
    ensures ParseType(fieldType).Some? ==> FieldAsWritten(modelName, fieldName, fieldType) == NewField(modelName, fieldName, fieldType)
  {
    assert !StartsWith("text", "fk|") by { assert "text"[0] != "fk|"[0]; }
    ParseTypeMeaning("text");
  }

  /** `get_sql_type()`: the SQL column type of a field. Every constructed
      field has one of the accepted types, so the error branch cannot be
      reached. */
  function SqlType(ft: FieldType): string {
    match ft
    case TForeign(_) => "TEXT"
    case TString => "TEXT"
    case TContent => "TEXT"
    case TInt => "INT"
    case TDateTime => "DATETIME"
    case TDate => "DATE"
    case TFloat => "DOUBLE"
  }

  /** The column type of each accepted type string: foreign keys, strings and
      content are TEXT, `int` INT, `datetime` DATETIME, `date` DATE and
      `float` DOUBLE. */
  lemma SqlTypeOfDeclared(t: string)
    requires ParseType(t).Some?
    ensures var s := SqlType(ParseType(t).value);
      && (StartsWith(t, "fk|") || t == "string" || t == "content" <==> s == "TEXT")
      && (t == "int" <==> s == "INT")
      && (t == "datetime" <==> s == "DATETIME")
      && (t == "date" <==> s == "DATE")
      && (t == "float" <==> s == "DOUBLE")
  {
    if StartsWith(t, "fk|") {
      ForeignNotKnown(t);
    }
  }

  /* ---------- the model ---------- */

  /** A `StatikModel`: its name and its fields, in declaration order. */
  datatype LModel = LModel(name: string, fieldNames: seq<string>, fields: map<string, LField>)

  /** Every listed field has its entry, under its own name. */
  predicate ModelOk(m: LModel) {
    forall k :: 0 <= k < |m.fieldNames| ==> m.fieldNames[k] in m.fields && m.fields[m.fieldNames[k]].name == m.fieldNames[k]
  }

  /** The value stored under `k`, `None` when there is none. */
  function Lookup(d: Dict, k: string): Value {
    if k in d.vals then d.vals[k] else VNone
  }

  /** One entry of the configuration: the reserved name `_content` is
      refused, a type that is not a string has no `startswith`, and
      otherwise the field is constructed. */
  function DeclareField(name: string, k: string, v: Value): Result<LField> {
    if k == "_content" then Failure(InvalidModelConfigException(name, "the field name _content is reserved"))
    else if !v.VStr? then Failure(AttributeError("startswith"))
    else NewField(name, k, v.s)
  }

  /** The field every entry of the configuration declares, in order. */
  function Declarations(name: string, config: Dict): (r: seq<Result<LField>>)
    ensures |r| == |config.keys|
  {
    seq(|config.keys|, j requires 0 <= j < |config.keys| => DeclareField(name, config.keys[j], Lookup(config, config.keys[j])))
  }

  /** What the field loop has built: the field names, the fields and the
      number of fields of type `content`. */
  datatype Fields = Fields(names: seq<string>, fields: map<string, LField>, contentCount: nat)

  /** A declaration that succeeded with a field of type `content`. */
  predicate ContentDecl(d: Result<LField>) {
    d.Success? && d.value.fieldType == TContent
  }

  /** The field loop over the first `i` entries, given what each entry
      declares: it stops at the first entry that fails. */
  function FieldsTo(keys: seq<string>, decls: seq<Result<LField>>, i: nat): Result<Fields>
    requires i <= |keys| == |decls|
  {
    if i == 0 then Success(Fields([], map[], 0))
    else
      var acc :- FieldsTo(keys, decls, i - 1);
      var f :- decls[i - 1];
      var k := keys[i - 1];
      Success(Fields(if k in acc.fields then acc.names else acc.names + [k],
                     acc.fields[k := f],
                     acc.contentCount + if f.fieldType == TContent then 1 else 0))
  }

  /** `StatikModel(filename)`, given the parsed configuration file: the name
      is the file name without directory and extension. */
  function LegacyModelOf(filename: string, config: Value): Result<LModel> {
    if !config.VDict? then Failure(InvalidModelConfigException(filename, "invalid model configuration"))
    else
      var name := ExtractFilename(filename);
      var fs :- FieldsTo(config.d.keys, Declarations(name, config.d), |config.d.keys|);
      if fs.contentCount > 1 then Failure(InvalidModelConfigException(name, "more than one content field"))
      else Success(LModel(name, fs.names, fs.fields))
  }

  method NewLegacyModel(filename: string, config: Value) returns (r: Result<LModel>)
    ensures r == LegacyModelOf(filename, config)
  {
    if !config.VDict? {
      return Failure(InvalidModelConfigException(filename, "invalid model configuration"));
    }
    var name := ExtractFilename(filename);
    var fs := ReadFields(config.d.keys, Declarations(name, config.d));
    if fs.Failure? {
      return Failure(fs.error);
    }
    if fs.value.contentCount > 1 {
      return Failure(InvalidModelConfigException(name, "more than one content field"));
    }
    r := Success(LModel(name, fs.value.names, fs.value.fields));
  }

  /** The field loop of the constructor. */
  method ReadFields(keys: seq<string>, decls: seq<Result<LField>>) returns (r: Result<Fields>)
    requires |keys| == |decls|
    ensures r == FieldsTo(keys, decls, |keys|)
  {
    var names: seq<string> := [];
    var fields: map<string, LField> := map[];
    var contentCount := 0;
    for i := 0 to |keys|
      invariant FieldsTo(keys, decls, i) == Success(Fields(names, fields, contentCount))
    {
      var f := decls[i];
      if f.Failure? {
        FieldsStopped(keys, decls, i + 1, |keys|);
        return Failure(f.error);
      }
      var k := keys[i];
      if k !in fields {
        names := names + [k];
      }
      fields := fields[k := f.value];
      if f.value.fieldType == TContent {
        contentCount := contentCount + 1;
      }
    }
    r := Success(Fields(names, fields, contentCount));
  }

  lemma {:induction false} FieldsStopped(keys: seq<string>, decls: seq<Result<LField>>, i: nat, n: nat)
    requires i <= n <= |keys| == |decls| && FieldsTo(keys, decls, i).Failure?
    ensures FieldsTo(keys, decls, n) == FieldsTo(keys, decls, i)
    decreases n - i
  {
    if i < n {
      FieldsStopped(keys, decls, i + 1, n);
    }
  }

  /** Entry `j` of the configuration is an acceptable field declaration. */
  predicate Declares(config: Dict, j: nat)
    requires j < |config.keys|
  {
    var v := Lookup(config, config.keys[j]);
    config.keys[j] != "_content" && v.VStr? && ParseType(v.s).Some?
  }

  /** Entry `j` declares a field of type `content`. */
  predicate IsContent(config: Dict, j: nat)
    requires j < |config.keys|
  {
    Lookup(config, config.keys[j]) == VStr("content")
  }

  /** What entry `j` declares: its field, built from its own type string. */
  lemma DeclareFieldMeaning(name: string, config: Dict, j: nat)
    requires j < |config.keys|
    ensures var f := DeclareField(name, config.keys[j], Lookup(config, config.keys[j]));
      && (f.Success? <==> Declares(config, j))
      && (f.Success? ==>
            && f.value.name == config.keys[j] && f.value.modelName == name
            && Some(f.value.fieldType) == ParseType(Lookup(config, config.keys[j]).s)
            && (ContentDecl(f) <==> IsContent(config, j)))
  {
    var v := Lookup(config, config.keys[j]);
    if v.VStr? {
      ParseTypeMeaning(v.s);
    }
  }

  /** The field loop succeeds exactly when every entry declares a field. */
  lemma {:induction false} FieldsToSucceeds(keys: seq<string>, decls: seq<Result<LField>>, i: nat)
    requires i <= |keys| == |decls|
    ensures FieldsTo(keys, decls, i).Success? <==> forall j :: 0 <= j < i ==> decls[j].Success?
  {
    if i > 0 {
      FieldsToSucceeds(keys, decls, i - 1);
    }
  }

  /** The field loop's map holds exactly the names of the entries it has
      read. */
  lemma {:induction false} FieldsToDomain(keys: seq<string>, decls: seq<Result<LField>>, i: nat)
    requires i <= |keys| == |decls| && FieldsTo(keys, decls, i).Success?
    ensures forall k :: k in FieldsTo(keys, decls, i).value.fields <==> exists j :: 0 <= j < i && keys[j] == k
  {
    if i > 0 {
      FieldsToDomain(keys, decls, i - 1);
    }
  }

  /** A successful field loop holds under each name the field its own entry
      declares. */
  lemma {:induction false} FieldsToFields(keys: seq<string>, decls: seq<Result<LField>>, i: nat)
    requires i <= |keys| == |decls| && Distinct(keys) && FieldsTo(keys, decls, i).Success?
    ensures forall j :: 0 <= j < i ==>
      keys[j] in FieldsTo(keys, decls, i).value.fields && Success(FieldsTo(keys, decls, i).value.fields[keys[j]]) == decls[j]
  {
    if i > 0 {
      FieldsToFields(keys, decls, i - 1);
    }
  }

  /** A successful field loop lists the names in order. */
  lemma {:induction false} FieldsToNames(keys: seq<string>, decls: seq<Result<LField>>, i: nat)
    requires i <= |keys| == |decls| && Distinct(keys) && FieldsTo(keys, decls, i).Success?
    ensures FieldsTo(keys, decls, i).value.names == keys[..i]
  {
    if i > 0 {
      FieldsToNames(keys, decls, i - 1);
      FieldsToDomain(keys, decls, i - 1);
      assert keys[..i] == keys[..i - 1] + [keys[i - 1]];
    }
  }

  /** A successful field loop counts one `content` field among the first
      `i` exactly when there is one, and two exactly when there are two. */
  lemma {:induction false} FieldsToContent(keys: seq<string>, decls: seq<Result<LField>>, i: nat)
    requires i <= |keys| == |decls| && FieldsTo(keys, decls, i).Success?
    ensures FieldsTo(keys, decls, i).value.contentCount >= 1 <==> exists j :: 0 <= j < i && ContentDecl(decls[j])
    ensures FieldsTo(keys, decls, i).value.contentCount >= 2 <==>
      exists a, b :: 0 <= a < b < i && ContentDecl(decls[a]) && ContentDecl(decls[b])
  {
    if i > 0 {
      FieldsToContent(keys, decls, i - 1);
      var fs := FieldsTo(keys, decls, i - 1).value;
      if ContentDecl(decls[i - 1]) && fs.contentCount >= 1 {
        var a :| 0 <= a < i - 1 && ContentDecl(decls[a]);
        assert ContentDecl(decls[a]) && ContentDecl(decls[i - 1]);
      }
    }
  }

  /** A model is built exactly when the configuration is a dict of
      acceptable declarations with at most one `content` field. */
  lemma LegacyModelResult(filename: string, config: Value)
    requires config.VDict?
    ensures LegacyModelOf(filename, config).Success? <==>
      && (forall j :: 0 <= j < |config.d.keys| ==> Declares(config.d, j))
      && !(exists a, b :: 0 <= a < b < |config.d.keys| && IsContent(config.d, a) && IsContent(config.d, b))
  {
    var d := config.d;
    var name := ExtractFilename(filename);
    var decls := Declarations(name, d);
    forall j | 0 <= j < |d.keys|
      ensures decls[j].Success? <==> Declares(d, j)
      ensures decls[j].Success? ==> (ContentDecl(decls[j]) <==> IsContent(d, j))
    {
      DeclareFieldMeaning(name, d, j);
    }
    FieldsToSucceeds(d.keys, decls, |d.keys|);
    if FieldsTo(d.keys, decls, |d.keys|).Success? {
      FieldsToContent(d.keys, decls, |d.keys|);
    }
  }

  /** A built model has the declared fields, in order, each the field its
      own entry declares. */
  lemma LegacyModelFields(filename: string, config: Value)
    requires config.VDict? && Distinct(config.d.keys) && LegacyModelOf(filename, config).Success?
    ensures ModelOk(LegacyModelOf(filename, config).value)
    ensures LegacyModelOf(filename, config).value.fieldNames == config.d.keys
    ensures forall j :: 0 <= j < |config.d.keys| ==>
      Success(LegacyModelOf(filename, config).value.fields[config.d.keys[j]])
        == DeclareField(LegacyModelOf(filename, config).value.name, config.d.keys[j], Lookup(config.d, config.d.keys[j]))
  {
    var d := config.d;
    var name := ExtractFilename(filename);
    var decls := Declarations(name, d);
    FieldsToFields(d.keys, decls, |d.keys|);
    FieldsToNames(d.keys, decls, |d.keys|);
    assert d.keys[..|d.keys|] == d.keys;
    forall j | 0 <= j < |d.keys|
      ensures FieldsTo(d.keys, decls, |d.keys|).value.fields[d.keys[j]].name == d.keys[j]
    {
      DeclareFieldMeaning(name, d, j);
    }
  }

  /** A configuration with two `content` fields is rejected. */
  lemma TwoContentFieldsRejected(filename: string)
    ensures LegacyModelOf(filename, VDict(Dict(["a", "b"], map["a" := VStr("content"), "b" := VStr("content")]))).Failure?
  {
    var d := Dict(["a", "b"], map["a" := VStr("content"), "b" := VStr("content")]);
    LegacyModelResult(filename, VDict(d));
    assert IsContent(d, 0) && IsContent(d, 1);
  }

  /* ---------- records ---------- */

  /** The conversions `make_instance` applies, supplied from outside:
      `dateutil`'s parser, `datetime.date()`, `int()`, `float()` and `"%s" %`. */
  datatype Conversions = Conversions(
    parseDate: Value -> Result<Value>,
    date: Value -> Value,
    toInt: Value -> Result<Value>,
    toFloat: Value -> Result<Value>,
    format: Value -> string)

  /** The raw value of field `f` in `obj`: the `_content` entry for a
      content field, the field's own entry otherwise, `None` when missing
      or when `obj` is not a dict. */
  function RawValue(obj: Value, f: LField): Value {
    var o := if obj.VDict? then obj.d else Empty;
    if f.fieldType == TContent then Lookup(o, "_content") else Lookup(o, f.name)
  }

  /** The stored value of field `f`: a truthy raw value is converted to the
      field's type, a falsy one is kept as it is. */
  function FieldValue(obj: Value, f: LField, conv: Conversions): Result<Value> {
    var v := RawValue(obj, f);
    if !Truthy(v) then Success(v)
    else
      match f.fieldType
      case TDateTime => conv.parseDate(v)
      case TDate =>
        var dt :- conv.parseDate(v);
        Success(conv.date(dt))
      case TInt => conv.toInt(v)
      case TFloat => conv.toFloat(v)
      case TString => Success(VStr(conv.format(v)))
      case TContent => Success(VStr(conv.format(v)))
      case TForeign(_) => Success(v)
  }

  /** The record over the first `i` fields. */
  function InstanceTo(m: LModel, obj: Value, conv: Conversions, i: nat): Result<map<string, Value>>
    requires ModelOk(m) && i <= |m.fieldNames|
  {
    if i == 0 then Success(map[])
    else
      var r :- InstanceTo(m, obj, conv, i - 1);
      var n := m.fieldNames[i - 1];
      var v :- FieldValue(obj, m.fields[n], conv);
      Success(r[n := v])
  }

  /** `make_instance(obj)`. */
  method MakeInstance(m: LModel, obj: Value, conv: Conversions) returns (r: Result<map<string, Value>>)
    requires ModelOk(m)
    ensures r == InstanceTo(m, obj, conv, |m.fieldNames|)
  {
    var result: map<string, Value> := map[];
    for i := 0 to |m.fieldNames|
      invariant InstanceTo(m, obj, conv, i) == Success(result)
    {
      var n := m.fieldNames[i];
      var v := FieldValue(obj, m.fields[n], conv);
      if v.Failure? {
        InstanceStopped(m, obj, conv, i + 1, |m.fieldNames|);
        return Failure(v.error);
      }
      result := result[n := v.value];
    }
    r := Success(result);
  }

  lemma {:induction false} InstanceStopped(m: LModel, obj: Value, conv: Conversions, i: nat, n: nat)
    requires ModelOk(m) && i <= n <= |m.fieldNames| && InstanceTo(m, obj, conv, i).Failure?
    ensures InstanceTo(m, obj, conv, n) == InstanceTo(m, obj, conv, i)
    decreases n - i
  {
    if i < n {
      InstanceStopped(m, obj, conv, i + 1, n);
    }
  }

  /** The record is built exactly when every conversion succeeds. */
  lemma {:induction false} InstanceToSucceeds(m: LModel, obj: Value, conv: Conversions, i: nat)
    requires ModelOk(m) && i <= |m.fieldNames|
    ensures InstanceTo(m, obj, conv, i).Success?
      <==> forall j :: 0 <= j < i ==> FieldValue(obj, m.fields[m.fieldNames[j]], conv).Success?
  {
    if i > 0 {
      InstanceToSucceeds(m, obj, conv, i - 1);
    }
  }

  /** A built record holds exactly the model's fields, each with its stored
      value. */
  lemma {:induction false} InstanceToFields(m: LModel, obj: Value, conv: Conversions, i: nat)
    requires ModelOk(m) && i <= |m.fieldNames| && Distinct(m.fieldNames) && InstanceTo(m, obj, conv, i).Success?
    ensures forall k :: k in InstanceTo(m, obj, conv, i).value ==> k in m.fieldNames[..i]
    ensures forall j :: 0 <= j < i ==>
      m.fieldNames[j] in InstanceTo(m, obj, conv, i).value
      && Success(InstanceTo(m, obj, conv, i).value[m.fieldNames[j]]) == FieldValue(obj, m.fields[m.fieldNames[j]], conv)
  {
    InstanceKeys(m, obj, conv, i);
    InstanceValues(m, obj, conv, i);
  }

  /** A built record after one more field: the record before, with that
      field's value stored. */
  lemma InstanceStep(m: LModel, obj: Value, conv: Conversions, i: nat)
    requires ModelOk(m) && 0 < i <= |m.fieldNames| && InstanceTo(m, obj, conv, i).Success?
    ensures InstanceTo(m, obj, conv, i - 1).Success?
    ensures FieldValue(obj, m.fields[m.fieldNames[i - 1]], conv).Success?
    ensures InstanceTo(m, obj, conv, i).value ==
      InstanceTo(m, obj, conv, i - 1).value[m.fieldNames[i - 1] := FieldValue(obj, m.fields[m.fieldNames[i - 1]], conv).value]
  {
  }

  /** The keys part of `InstanceToFields`. */
  lemma {:induction false} InstanceKeys(m: LModel, obj: Value, conv: Conversions, i: nat)
    requires ModelOk(m) && i <= |m.fieldNames| && InstanceTo(m, obj, conv, i).Success?
    ensures forall k :: k in InstanceTo(m, obj, conv, i).value ==> k in m.fieldNames[..i]
  {
    if i > 0 {
      InstanceStep(m, obj, conv, i);
      InstanceKeys(m, obj, conv, i - 1);
      assert m.fieldNames[..i] == m.fieldNames[..i - 1] + [m.fieldNames[i - 1]];
    }
  }

  /** The values part of `InstanceToFields`. */
  lemma {:induction false} InstanceValues(m: LModel, obj: Value, conv: Conversions, i: nat)
    requires ModelOk(m) && i <= |m.fieldNames| && Distinct(m.fieldNames) && InstanceTo(m, obj, conv, i).Success?
    ensures forall j :: 0 <= j < i ==>
      m.fieldNames[j] in InstanceTo(m, obj, conv, i).value
      && Success(InstanceTo(m, obj, conv, i).value[m.fieldNames[j]]) == FieldValue(obj, m.fields[m.fieldNames[j]], conv)
  {
    if i > 0 {
      InstanceStep(m, obj, conv, i);
      InstanceValues(m, obj, conv, i - 1);
      forall j | 0 <= j < i - 1 ensures m.fieldNames[j] != m.fieldNames[i - 1] {
      }
    }
  }

  /** A field missing from the object is `None`; a falsy value is kept
      unconverted; a content field reads `_content`; a truthy string or
      content value is stored formatted, a foreign key as it is. */
  lemma FieldValueFacts(obj: Value, f: LField, conv: Conversions)
    ensures !Truthy(RawValue(obj, f)) ==> FieldValue(obj, f, conv) == Success(RawValue(obj, f))
    ensures f.fieldType != TContent && (!obj.VDict? || f.name !in obj.d.vals) ==> FieldValue(obj, f, conv) == Success(VNone)
    ensures f.fieldType == TContent ==>
      RawValue(obj, f) == (if obj.VDict? && "_content" in obj.d.vals then obj.d.vals["_content"] else VNone)
    ensures (f.fieldType == TString || f.fieldType == TContent) && Truthy(RawValue(obj, f)) ==>
      FieldValue(obj, f, conv) == Success(VStr(conv.format(RawValue(obj, f))))
    ensures f.fieldType.TForeign? ==> FieldValue(obj, f, conv) == Success(RawValue(obj, f))
  {
  }

  /* ---------- the CREATE TABLE statement ---------- */

  const IdColumn := "id TEXT PRIMARY KEY NOT NULL"

  /** A field that refers to a model: a foreign key with a non-empty name. */
  predicate HasForeign(f: LField) {
    f.fieldType.TForeign? && f.fieldType.target != ""
  }

  function ForeignClause(f: LField): string
    requires f.fieldType.TForeign?
  {
    "FOREIGN KEY (" + f.name + ") REFERENCES " + f.fieldType.target + "(id)"
  }

  /** The column definitions and the foreign-key clauses of the first `i`
      fields. */
  datatype SqlParts = SqlParts(columns: seq<string>, foreignKeys: seq<string>)

  function SqlPartsTo(m: LModel, i: nat): SqlParts
    requires ModelOk(m) && i <= |m.fieldNames|
  {
    if i == 0 then SqlParts([], [])
    else
      var p := SqlPartsTo(m, i - 1);
      var f := m.fields[m.fieldNames[i - 1]];
      SqlParts(p.columns + [f.name + " " + SqlType(f.fieldType)],
               if HasForeign(f) then p.foreignKeys + [ForeignClause(f)] else p.foreignKeys)
  }

  /** `generate_sql()`: the id column, one column per field, then the
      foreign-key clauses, joined by `, \n`. */
  function GenerateSqlOf(m: LModel): string
    requires ModelOk(m)
  {
    var p := SqlPartsTo(m, |m.fieldNames|);
    "CREATE TABLE " + m.name + " (" + Join([IdColumn] + p.columns + p.foreignKeys, ", \n") + ")"
  }

  method GenerateSql(m: LModel) returns (r: string)
    requires ModelOk(m)
    ensures r == GenerateSqlOf(m)
  {
    var columns: seq<string> := [];
    var foreignKeys: seq<string> := [];
    for i := 0 to |m.fieldNames|
      invariant SqlPartsTo(m, i) == SqlParts(columns, foreignKeys)
    {
      var f := m.fields[m.fieldNames[i]];
      columns := columns + [f.name + " " + SqlType(f.fieldType)];
      if HasForeign(f) {
        foreignKeys := foreignKeys + [ForeignClause(f)];
      }
    }
    r := "CREATE TABLE " + m.name + " (" + Join([IdColumn] + columns + foreignKeys, ", \n") + ")";
  }

  /** The fields among the first `i` that refer to a model, in order. */
  function ForeignFieldsTo(m: LModel, i: nat): (r: seq<LField>)
    requires ModelOk(m) && i <= |m.fieldNames|
    ensures forall k :: 0 <= k < |r| ==> HasForeign(r[k])
  {
    if i == 0 then []
    else
      var r := ForeignFieldsTo(m, i - 1);
      var f := m.fields[m.fieldNames[i - 1]];
      if HasForeign(f) then r + [f] else r
  }

  /** The statement lists one column per field, in order, with its SQL type,
      and one foreign-key clause per field that refers to a model, in
      order. */
  lemma {:induction false} SqlPartsMeaning(m: LModel, i: nat)
    requires ModelOk(m) && i <= |m.fieldNames|
    ensures |SqlPartsTo(m, i).columns| == i
    ensures forall j :: 0 <= j < i ==>
      SqlPartsTo(m, i).columns[j] == m.fieldNames[j] + " " + SqlType(m.fields[m.fieldNames[j]].fieldType)
    ensures |SqlPartsTo(m, i).foreignKeys| == |ForeignFieldsTo(m, i)|
    ensures forall j :: 0 <= j < |ForeignFieldsTo(m, i)| ==>
      SqlPartsTo(m, i).foreignKeys[j] == ForeignClause(ForeignFieldsTo(m, i)[j])
  {
    SqlColumns(m, i);
    SqlForeignKeys(m, i);
  }

  /** The columns part of `SqlPartsMeaning`. */
  lemma {:induction false} SqlColumns(m: LModel, i: nat)
    requires ModelOk(m) && i <= |m.fieldNames|
    ensures |SqlPartsTo(m, i).columns| == i
    ensures forall j :: 0 <= j < i ==>
      SqlPartsTo(m, i).columns[j] == m.fieldNames[j] + " " + SqlType(m.fields[m.fieldNames[j]].fieldType)
  {
    if i > 0 {
      SqlColumns(m, i - 1);
      var prev := SqlPartsTo(m, i - 1).columns;
      var f := m.fields[m.fieldNames[i - 1]];
      assert f.name == m.fieldNames[i - 1];
      assert SqlPartsTo(m, i).columns == prev + [f.name + " " + SqlType(f.fieldType)];
    }
  }

  /** The foreign-key part of `SqlPartsMeaning`. */
  lemma {:induction false} SqlForeignKeys(m: LModel, i: nat)
    requires ModelOk(m) && i <= |m.fieldNames|
    ensures |SqlPartsTo(m, i).foreignKeys| == |ForeignFieldsTo(m, i)|
    ensures forall j :: 0 <= j < |ForeignFieldsTo(m, i)| ==>
      SqlPartsTo(m, i).foreignKeys[j] == ForeignClause(ForeignFieldsTo(m, i)[j])
  {
    if i > 0 {
      SqlForeignKeys(m, i - 1);
    }
  }

  /** `get_foreign_classes()` over the first `i` fields: the model each
      referring field refers to. */
  function ForeignClassesTo(m: LModel, i: nat): seq<string>
    requires ModelOk(m) && i <= |m.fieldNames|
  {
    if i == 0 then []
    else
      var r := ForeignClassesTo(m, i - 1);
      var f := m.fields[m.fieldNames[i - 1]];
      if HasForeign(f) then r + [f.fieldType.target] else r
  }

  function ForeignClasses(m: LModel): seq<string>
    requires ModelOk(m)
  {
    ForeignClassesTo(m, |m.fieldNames|)
  }

  /** A model is among the foreign classes exactly when some field is a
      foreign key to it under a non-empty name; the list follows the
      foreign-key clauses of the CREATE TABLE statement one for one. */
  lemma {:induction false} ForeignClassesMeaning(m: LModel, i: nat)
    requires ModelOk(m) && i <= |m.fieldNames|
    ensures forall x :: x in ForeignClassesTo(m, i) <==>
      x != "" && exists j :: 0 <= j < i && m.fields[m.fieldNames[j]].fieldType == TForeign(x)
    ensures |ForeignClassesTo(m, i)| == |ForeignFieldsTo(m, i)|
    ensures forall j :: 0 <= j < |ForeignFieldsTo(m, i)| ==>
      ForeignClassesTo(m, i)[j] == ForeignFieldsTo(m, i)[j].fieldType.target
  {
    if i > 0 {
      ForeignClassesMeaning(m, i - 1);
      var f := m.fields[m.fieldNames[i - 1]];
      forall x | x !in ForeignClassesTo(m, i - 1) && x in ForeignClassesTo(m, i)
        ensures x != "" && f.fieldType == TForeign(x)
      {
      }
    }
  }
}

=== FILE: markdown_config.dfy ===
/** The Markdown settings of a project (statik/markdown_config.py): whether
    headings get permalinks and what those look like, and the Markdown
    extensions to load, the four built-in ones first, with their settings. */
module MarkdownConfiguration {
  import opened Common
  import opened Values

  /** A `MarkdownConfig` once constructed; nothing changes it afterwards. */
  datatype MarkdownConfig = MarkdownConfig(
    enablePermalinks: Value,
    permalinkText: Value,
    permalinkClass: Value,
    permalinkTitle: Value,
    extensions: seq<string>,
    extensionConfig: Dict)

  /** The extensions every project loads, in this order. */
  const Builtins: seq<string> := [
    "markdown.extensions.fenced_code",
    "markdown.extensions.tables",
    "markdown.extensions.toc",
    "markdown.extensions.footnotes"
  ]

  /** The pilcrow, the default permalink text. */
  const Pilcrow: string := "¶"

  /** The `enabled` setting: `"true"`, `"1"` and `1` become `True` and
      `"false"`, `"0"` and `0` become `False` (`True` and `False` equal `1`
      and `0`, so they stay as they are); any other value is kept, except
      that a list or a dict cannot be looked up in a set and raises
      `TypeError`. */
  function EnabledFlag(v: Value): (r: Result<Value>)
    ensures r.Failure? <==> v.VList? || v.VDict?
    ensures v in {VStr("true"), VStr("1"), VInt(1), VBool(true)} ==> r == Success(VBool(true))
    ensures v in {VStr("false"), VStr("0"), VInt(0), VBool(false)} ==> r == Success(VBool(false))
    ensures r.Success? && r.value != v ==> r.value.VBool?
  {
    if v.VList? || v.VDict? then Failure(TypeError("unhashable type"))
    else if v in {VStr("true"), VStr("1"), VInt(1), VBool(true)} then Success(VBool(true))
    else if v in {VStr("false"), VStr("0"), VInt(0), VBool(false)} then Success(VBool(false))
    else Success(v)
  }

  /** The extension list and settings while the requested extensions are read. */
  datatype Extensions = Extensions(names: seq<string>, config: Dict)

  /** One requested extension: its name is appended unless already listed,
      and its settings, unless `None`, are stored, or merged into settings
      already stored under the name (`dict.update`, which needs two dicts). */
  function AddExtension(e: Extensions, ext: string, config: Value): Result<Extensions> {
    var names := if ext in e.names then e.names else e.names + [ext];
    if config == VNone then Success(Extensions(names, e.config))
    else if ext in e.config.vals then
      var stored := e.config.vals[ext];
      if stored.VDict? && config.VDict? then Success(Extensions(names, Put(e.config, ext, VDict(Update(stored.d, config.d)))))
      else Failure(TypeError("dictionary update"))
    else Success(Extensions(names, Put(e.config, ext, config)))
  }

  /** The first `n` requested extensions added to `e`, in order. */
  function AddAll(e: Extensions, requested: Dict, n: nat): Result<Extensions>
    requires n <= |requested.keys|
  {
    if n == 0 then Success(e)
    else
      var prev :- AddAll(e, requested, n - 1);
      AddExtension(prev, requested.keys[n - 1], GetOr(requested, requested.keys[n - 1], VNone))
  }

  /** Once adding fails, adding more fails with the same error. */
  lemma {:induction false} AddAllStopped(e: Extensions, requested: Dict, i: nat, n: nat)
    requires i <= n <= |requested.keys|
    requires AddAll(e, requested, i).Failure?
    ensures AddAll(e, requested, n) == AddAll(e, requested, i)
    decreases n - i
  {
    if n > i {
      AddAllStopped(e, requested, i, n - 1);
    }
  }

  /** The settings as the constructor reads them: the parameters must be a
      dict (`ValueError` otherwise), and `permalinks` and `extensions`, when
      given, must be dicts, since `.get` and `.items` are called on them
      (`AttributeError` otherwise). */
  function MarkdownConfigOf(params: Value): Result<MarkdownConfig> {
    if !params.VDict? then Failure(ValueError("Markdown configuration parameters must be a dictionary"))
    else
      var permalinks := GetOr(params.d, "permalinks", VDict(Empty));
      if !permalinks.VDict? then Failure(AttributeError("get"))
      else
        var enabled :- EnabledFlag(GetOr(permalinks.d, "enabled", VBool(false)));
        var requested := GetOr(params.d, "extensions", VDict(Empty));
        if !requested.VDict? then Failure(AttributeError("items"))
        else
          var exts :- AddAll(Extensions(Builtins, Empty), requested.d, |requested.d.keys|);
          Success(MarkdownConfig(enabled,
            GetOr(permalinks.d, "text", VStr(Pilcrow)),
            GetOr(permalinks.d, "class", VNone),
            GetOr(permalinks.d, "title", VNone),
            exts.names, exts.config))
  }

  /** `MarkdownConfig(markdown_params)`: the loop over the requested
      extensions, one `AddExtension` per entry. */
  method NewMarkdownConfig(params: Value) returns (r: Result<MarkdownConfig>)
    ensures r == MarkdownConfigOf(params)
  {
    if !params.VDict? {
      return Failure(ValueError("Markdown configuration parameters must be a dictionary"));
    }
    var permalinks := GetOr(params.d, "permalinks", VDict(Empty));
    if !permalinks.VDict? {
      return Failure(AttributeError("get"));
    }
    var enabled := EnabledFlag(GetOr(permalinks.d, "enabled", VBool(false)));
    if enabled.Failure? {
      return Failure(enabled.error);
    }
    var requested := GetOr(params.d, "extensions", VDict(Empty));
    if !requested.VDict? {
      return Failure(AttributeError("items"));
    }
    var d := requested.d;
    var e := Extensions(Builtins, Empty);
    var i := 0;
    while i < |d.keys|
      invariant 0 <= i <= |d.keys|
      invariant AddAll(Extensions(Builtins, Empty), d, i) == Success(e)
    {
      var next := AddExtension(e, d.keys[i], GetOr(d, d.keys[i], VNone));
      if next.Failure? {
        AddAllStopped(Extensions(Builtins, Empty), d, i + 1, |d.keys|);
        return Failure(next.error);
      }
      e := next.value;
      i := i + 1;
    }
    r := Success(MarkdownConfig(enabled.value,
      GetOr(permalinks.d, "text", VStr(Pilcrow)),
      GetOr(permalinks.d, "class", VNone),
      GetOr(permalinks.d, "title", VNone),
      e.names, e.config));
  }

  /** The names of `keys` that are not in `skip`, in order. */
  function Without(keys: seq<string>, skip: seq<string>): seq<string> {
    if |keys| == 0 then []
    else Without(keys[..|keys| - 1], skip) + (if keys[|keys| - 1] in skip then [] else [keys[|keys| - 1]])
  }

  /** `Without` keeps exactly the names of `keys` that are not in `skip`. */
  lemma {:induction false} WithoutMembers(keys: seq<string>, skip: seq<string>)
    ensures forall k :: k in Without(keys, skip) <==> k in keys && k !in skip
    decreases |keys|
  {
    if |keys| > 0 {
      var init := keys[..|keys| - 1];
      WithoutMembers(init, skip);
      assert keys == init + [keys[|keys| - 1]];
    }
  }

  /** The settings given for the first `n` requested extensions, `None`
      settings left out. */
  function Given(requested: Dict, n: nat): map<string, Value>
    requires n <= |requested.keys|
  {
    map k | k in requested.keys[..n] && GetOr(requested, k, VNone) != VNone :: GetOr(requested, k, VNone)
  }

  /** A name requested once is not among the names requested before it. */
  lemma LastIsNew(keys: seq<string>, n: nat)
    requires Distinct(keys) && 0 < n <= |keys|
    ensures keys[n - 1] !in keys[..n - 1]
    ensures keys[..n] == keys[..n - 1] + [keys[n - 1]]
  {
    forall j | 0 <= j < n - 1 ensures keys[j] != keys[n - 1] {
    }
  }

  /** For requested extensions named once each, adding never merges and
      never fails, and the stored settings are exactly those given other
      than `None`. */
  lemma {:induction false} AddAllConfig(requested: Dict, n: nat)
    requires Distinct(requested.keys) && n <= |requested.keys|
    ensures AddAll(Extensions(Builtins, Empty), requested, n).Success?
    ensures AddAll(Extensions(Builtins, Empty), requested, n).value.config.vals == Given(requested, n)
  {
    if n > 0 {
      AddAllConfig(requested, n - 1);
      AddAllStep(Extensions(Builtins, Empty), requested, n);
      GivenStep(requested, n);
    }
  }

  /** One more setting given for a name not requested before. */
  lemma GivenStep(requested: Dict, n: nat)
    requires Distinct(requested.keys) && 0 < n <= |requested.keys|
    ensures requested.keys[n - 1] !in Given(requested, n - 1)
    ensures var k := requested.keys[n - 1];
      GetOr(requested, k, VNone) != VNone ==> Given(requested, n) == Given(requested, n - 1)[k := GetOr(requested, k, VNone)]
    ensures GetOr(requested, requested.keys[n - 1], VNone) == VNone ==> Given(requested, n) == Given(requested, n - 1)
  {
    LastIsNew(requested.keys, n);
    var k := requested.keys[n - 1];
    var v := GetOr(requested, k, VNone);
    if v != VNone {
      assert Given(requested, n) == Given(requested, n - 1)[k := v];
    } else {
      assert Given(requested, n) == Given(requested, n - 1);
    }
  }

  /** For requested extensions named once each, the names are the built-in
      ones followed by the requested ones not among them, in the order
      requested. */
  lemma {:induction false} AddAllNames(base: seq<string>, requested: Dict, n: nat)
    requires Distinct(requested.keys) && n <= |requested.keys|
    requires AddAll(Extensions(base, Empty), requested, n).Success?
    ensures AddAll(Extensions(base, Empty), requested, n).value.names
      == base + Without(requested.keys[..n], base)
  {
    if n > 0 {
      AddAllStep(Extensions(base, Empty), requested, n);
      var r := AddAll(Extensions(base, Empty), requested, n - 1);
      AddAllNames(base, requested, n - 1);
      WithoutStep(requested.keys, n, base);
      NamesAfter(r.value, base, Without(requested.keys[..n - 1], base), requested.keys[n - 1],
        GetOr(requested, requested.keys[n - 1], VNone));
    }
  }

  /** Adding `n` extensions fails as adding the first `n - 1` did, or adds
      the `n`-th to those. */
  lemma AddAllStep(e: Extensions, requested: Dict, n: nat)
    requires 0 < n <= |requested.keys|
    ensures AddAll(e, requested, n - 1).Failure? ==> AddAll(e, requested, n) == AddAll(e, requested, n - 1)
    ensures AddAll(e, requested, n - 1).Success? ==>
      AddAll(e, requested, n) ==
        AddExtension(AddAll(e, requested, n - 1).value, requested.keys[n - 1], GetOr(requested, requested.keys[n - 1], VNone))
  {
  }

  /** One more requested name that was not requested before. */
  lemma WithoutStep(keys: seq<string>, n: nat, skip: seq<string>)
    requires Distinct(keys) && 0 < n <= |keys|
    ensures Without(keys[..n], skip) ==
      Without(keys[..n - 1], skip) + (if keys[n - 1] in skip then [] else [keys[n - 1]])
    ensures keys[n - 1] !in Without(keys[..n - 1], skip)
  {
    LastIsNew(keys, n);
    WithoutMembers(keys[..n - 1], skip);
    assert keys[..n][..n - 1] == keys[..n - 1];
  }

  /** The names after adding a name not yet among the requested ones. */
  lemma NamesAfter(e: Extensions, base: seq<string>, w: seq<string>, ext: string, config: Value)
    requires e.names == base + w && ext !in w
    requires AddExtension(e, ext, config).Success?
    ensures AddExtension(e, ext, config).value.names == base + w + (if ext in base then [] else [ext])
  {
  }

  /** A dict of parameters with dict-valued `permalinks` and `extensions`
      (when given) and a hashable `enabled` is accepted; the extensions are
      the built-in ones followed by the requested ones, and the stored
      settings are those given other than `None`. */
  lemma ExtensionsRequested(params: Value)
    requires params.VDict?
    requires var p := GetOr(params.d, "permalinks", VDict(Empty));
      p.VDict? && EnabledFlag(GetOr(p.d, "enabled", VBool(false))).Success?
    requires var x := GetOr(params.d, "extensions", VDict(Empty)); x.VDict? && Distinct(x.d.keys)
    ensures MarkdownConfigOf(params).Success?
    ensures var x := GetOr(params.d, "extensions", VDict(Empty)).d;
      var c := MarkdownConfigOf(params).value;
      && c.extensions == Builtins + Without(x.keys, Builtins)
      && c.extensions[..4] == Builtins
      && c.extensionConfig.vals == Given(x, |x.keys|)
  {
    var x := GetOr(params.d, "extensions", VDict(Empty)).d;
    AddAllConfig(x, |x.keys|);
    AddAllNames(Builtins, x, |x.keys|);
    assert x.keys[..|x.keys|] == x.keys;
  }

  /** `Without` keeps a list without repeats free of them. */
  lemma {:induction false} WithoutDistinct(keys: seq<string>, skip: seq<string>)
    requires Distinct(keys)
    ensures Distinct(Without(keys, skip))
    decreases |keys|
  {
    if |keys| > 0 {
      var init := keys[..|keys| - 1];
      LastIsNew(keys, |keys|);
      WithoutDistinct(init, skip);
      WithoutMembers(init, skip);
    }
  }

  /** Each extension is listed once, provided each is requested once. */
  lemma ExtensionsDistinct(keys: seq<string>)
    requires Distinct(keys)
    ensures Distinct(Builtins + Without(keys, Builtins))
  {
    var w := Without(keys, Builtins);
    WithoutDistinct(keys, Builtins);
    WithoutMembers(keys, Builtins);
    var s := Builtins + w;
    forall i, j | 0 <= i < j < |s| ensures s[i] != s[j] {
      if j < 4 {
      } else if i < 4 {
        assert s[j] == w[j - 4] && s[j] !in Builtins;
      } else {
        assert s[i] == w[i - 4] && s[j] == w[j - 4];
      }
    }
  }

  /** With no parameters: permalinks off, the pilcrow as their text, no class
      or title, and only the built-in extensions, with no settings. */
  lemma Defaults()
    ensures MarkdownConfigOf(VDict(Empty)) ==
      Success(MarkdownConfig(VBool(false), VStr(Pilcrow), VNone, VNone, Builtins, Empty))
  {
  }
}

=== FILE: markdown_exts.dfy ===
/** The Markdown extensions (statik/markdown_exts.py): the preprocessor that
    takes YAML front matter off a document, the preprocessor that expands
    lorem-ipsum directives, and the tree walk that gives headings ids and
    permalinks. YAML, the lorem-ipsum generators and slugify are
    parameters. */
module MarkdownExts {
  import opened Common
  import opened Values
  import opened PyStr
  import Utils

  /* ---------- YAML front matter ---------- */

  /** A line that, stripped, is `---`. */
  predicate IsFence(line: string) {
    Strip(line) == "---"
  }

  /** Which lines are `---` lines. */
  function Fences(lines: seq<string>): (r: seq<bool>)
    ensures |r| == |lines| && forall k :: 0 <= k < |lines| ==> r[k] == IsFence(lines[k])
  {
    seq(|lines|, k requires 0 <= k < |lines| => IsFence(lines[k]))
  }

  /** The state of the line loop: whether YAML is being collected, the YAML
      lines and the body lines so far. */
  datatype Scan = Scan(collecting: bool, yaml: seq<string>, body: seq<string>)

  /** One line of the loop: while collecting, a `---` line ends the YAML and
      any other line is YAML; afterwards every line is body. */
  function Step(s: Scan, line: string, fence: bool): Scan {
    if s.collecting then
      if fence then s.(collecting := false) else s.(yaml := s.yaml + [line])
    else s.(body := s.body + [line])
  }

  /** The loop over lines `from` to `n - 1`, starting in state `start`. */
  function ScanFrom(lines: seq<string>, fences: seq<bool>, start: Scan, from: nat, n: nat): Scan
    requires from <= n <= |lines| == |fences|
    decreases n
  {
    if n == from then start else Step(ScanFrom(lines, fences, start, from, n - 1), lines[n - 1], fences[n - 1])
  }

  /** The loop over a document of at least one line: YAML is collected only
      when the first line is a `---` line, and the loop then starts after it. */
  function FrontMatter(lines: seq<string>, fences: seq<bool>): Scan
    requires 0 < |lines| == |fences|
  {
    if fences[0] then ScanFrom(lines, fences, Scan(true, [], []), 1, |lines|)
    else ScanFrom(lines, fences, Scan(false, [], []), 0, |lines|)
  }

  /** `run(lines)` as written: fewer than two lines give nothing at all. */
  function YamlMetaAsWritten(lines: seq<string>): Scan {
    if |lines| <= 1 then Scan(false, [], []) else FrontMatter(lines, Fences(lines))
  }

  /** `run(lines)` as evidently intended: only an empty document gives
      nothing. */
  function YamlMeta(lines: seq<string>): Scan {
    if |lines| == 0 then Scan(false, [], []) else FrontMatter(lines, Fences(lines))
  }

  /** The metadata: `{}`, or the YAML lines joined by newlines and loaded
      when there is at least one. */
  function MetaOf(yaml: seq<string>, load: string -> Result<Value>): Result<Value> {
    if |yaml| > 0 then load(Join(yaml, "\n")) else Success(VDict(Empty))
  }

  /** The Markdown instance the preprocessors share; `meta` is what the YAML
      preprocessor leaves for the caller. */
  class MarkdownDocument {
    var meta: Value

    constructor ()
      ensures meta == VDict(Empty)
    {
      meta := VDict(Empty);
    }
  }

  /** The line loop of `MarkdownYamlMetaPreprocessor.run`. */
  method SplitFrontMatter(lines: seq<string>) returns (yaml: seq<string>, body: seq<string>)
    requires |lines| > 0
    ensures yaml == FrontMatter(lines, Fences(lines)).yaml && body == FrontMatter(lines, Fences(lines)).body
  {
    ghost var fences := Fences(lines);
    var collecting := Strip(lines[0]) == "---";
    var start := if collecting then 1 else 0;
    ghost var init := Scan(collecting, [], []);
    yaml, body := [], [];
    for i := start to |lines|
      invariant ScanFrom(lines, fences, init, start, i) == Scan(collecting, yaml, body)
    {
      var line := lines[i];
      if collecting {
        if Strip(line) == "---" {
          collecting := false;
        } else {
          yaml := yaml + [line];
        }
      } else {
        body := body + [line];
      }
    }
  }

  /** `MarkdownYamlMetaPreprocessor.run(lines)`: `meta` is reset to `{}`,
      the body lines are returned, and the YAML lines, if any, are loaded
      into `meta`; what loading raises is raised. */
  method RunYamlMeta(md: MarkdownDocument, lines: seq<string>, load: string -> Result<Value>)
    returns (r: Result<seq<string>>)
    modifies md
    ensures var s := YamlMetaAsWritten(lines);
      && (MetaOf(s.yaml, load).Success? ==> r == Success(s.body) && md.meta == MetaOf(s.yaml, load).value)
      && (MetaOf(s.yaml, load).Failure? ==> r == Failure(MetaOf(s.yaml, load).error) && md.meta == VDict(Empty))
  {
    md.meta := VDict(Empty);
    if |lines| <= 1 {
      return Success([]);
    }
    var yaml, body := SplitFrontMatter(lines);
    if |yaml| > 0 {
      var loaded := load(Join(yaml, "\n"));
      if loaded.Failure? {
        return Failure(loaded.error);
      }
      md.meta := loaded.value;
    }
    r := Success(body);
  }

  /** Without an opening `---` every line is body, in order. */
  lemma {:induction false} PlainLines(lines: seq<string>, fences: seq<bool>, n: nat)
    requires n <= |lines| == |fences|
    ensures ScanFrom(lines, fences, Scan(false, [], []), 0, n) == Scan(false, [], lines[..n])
  {
    if n > 0 {
      PlainLines(lines, fences, n - 1);
      assert lines[..n] == lines[..n - 1] + [lines[n - 1]];
    }
  }

  /** While no closing `---` has come, every line after the opening one is YAML. */
  lemma {:induction false} CollectedLines(lines: seq<string>, fences: seq<bool>, n: nat)
    requires 1 <= n <= |lines| == |fences|
    requires forall k :: 1 <= k < n ==> !fences[k]
    ensures ScanFrom(lines, fences, Scan(true, [], []), 1, n) == Scan(true, lines[1..n], [])
  {
    if n > 1 {
      CollectedLines(lines, fences, n - 1);
      assert lines[1..n] == lines[1..n - 1] + [lines[n - 1]];
    }
  }

  /** After the closing `---` at `c`, every line is body. */
  lemma {:induction false} LinesAfterClose(lines: seq<string>, fences: seq<bool>, c: nat, n: nat)
    requires 1 <= c < n <= |lines| == |fences|
    requires fences[c] && forall k :: 1 <= k < c ==> !fences[k]
    ensures ScanFrom(lines, fences, Scan(true, [], []), 1, n) == Scan(false, lines[1..c], lines[c + 1..n])
  {
    if n == c + 1 {
      CollectedLines(lines, fences, c);
    } else {
      LinesAfterClose(lines, fences, c, n - 1);
      assert lines[c + 1..n] == lines[c + 1..n - 1] + [lines[n - 1]];
    }
  }

  /** A document whose first line is not `---` is all body and has no
      metadata. */
  lemma NoFrontMatter(lines: seq<string>)
    requires |lines| > 1 && !IsFence(lines[0])
    ensures YamlMetaAsWritten(lines) == Scan(false, [], lines)
  {
    PlainLines(lines, Fences(lines), |lines|);
    assert lines[..|lines|] == lines;
  }

  /** With an opening `---` and the next `---` at `c`, the lines between
      are the YAML and the lines after the body. */
  lemma FrontMatterBetweenFences(lines: seq<string>, c: nat)
    requires 1 <= c < |lines| && IsFence(lines[0]) && IsFence(lines[c])
    requires forall k :: 1 <= k < c ==> !IsFence(lines[k])
    ensures YamlMetaAsWritten(lines) == Scan(false, lines[1..c], lines[c + 1..])
  {
    LinesAfterClose(lines, Fences(lines), c, |lines|);
  }

  /** With an opening `---` and no closing one, every later line is YAML
      and there is no body. */
  lemma FrontMatterUnclosed(lines: seq<string>)
    requires |lines| > 1 && IsFence(lines[0])
    requires forall k :: 1 <= k < |lines| ==> !IsFence(lines[k])
    ensures YamlMetaAsWritten(lines) == Scan(true, lines[1..], [])
  {
    CollectedLines(lines, Fences(lines), |lines|);
  }

  /** A one-line document loses its line as written, and keeps it as intended. */
  lemma OneLineDocumentLost()
    ensures YamlMetaAsWritten(["Hello"]).body == []
    ensures YamlMeta(["Hello"]).body == ["Hello"]
  {
    var lines := ["Hello"];
    assert !IsFence("Hello") by {
      StripCharsFixed("Hello", Whitespace, ' ');
    }
    PlainLines(lines, Fences(lines), 1);
  }

  /** As intended, every document whose first line is not `---`, one line
      long or longer, passes through whole, with no metadata. */
  lemma PlainDocumentKept(lines: seq<string>)
    requires |lines| > 0 && !IsFence(lines[0])
    ensures YamlMeta(lines) == Scan(false, [], lines)
  {
    PlainLines(lines, Fences(lines), |lines|);
    assert lines[..|lines|] == lines;
  }

  /* ---------- lorem ipsum ---------- */

  /** The three lorem-ipsum generators. */
  datatype Generator = Words | Sentences | Paragraphs

  /** `GENERATORS`: each kind's generator, and its count when none is
      given (none for the plural kinds). */
  function KindGenerator(kind: string): (Generator, Option<nat>) {
    if kind == "word" then (Words, Some(1))
    else if kind == "words" then (Words, None)
    else if kind == "sentence" then (Sentences, Some(1))
    else if kind == "sentences" then (Sentences, None)
    else if kind == "paragraph" then (Paragraphs, Some(1))
    else (Paragraphs, None)
  }

  const LipsumPrefix: string := "!(lipsum-"

  /** The kinds the directive accepts; a plural is tried before its
      singular, as the optional `s` in the pattern is greedy. */
  const Kinds: seq<string> := ["words", "word", "sentences", "sentence", "paragraphs", "paragraph"]

  /** `\w` on ASCII text. */
  predicate IsWordChar(c: char) {
    'a' <= c <= 'z' || 'A' <= c <= 'Z' || IsDigit(c) || c == '_'
  }

  predicate WordChars(s: string) {
    forall i :: 0 <= i < |s| ==> IsWordChar(s[i])
  }

  /** A matched directive: its kind, its count as written, if any, and the
      word characters after the closing parenthesis. */
  datatype Directive = Directive(kind: string, count: Option<string>, trailing: string)

  /** The lines the pattern matches are exactly the texts of the
      well-formed directives. */
  predicate WellFormedDirective(d: Directive) {
    d.kind in Kinds && (d.count.Some? ==> |d.count.value| > 0 && AllDigits(d.count.value)) && WordChars(d.trailing)
  }

  /** What follows the kind in a directive's text. */
  function TailText(d: Directive): string {
    (if d.count.Some? then ":" + d.count.value else "") + ")" + d.trailing
  }

  /** A directive's text. */
  function DirectiveText(d: Directive): string {
    LipsumPrefix + d.kind + TailText(d)
  }

  /** Where the run of digits starting at `i` ends. */
  function DigitEnd(s: string, i: nat): (n: nat)
    requires i <= |s|
    ensures i <= n <= |s| && (forall k :: i <= k < n ==> IsDigit(s[k])) && (n == |s| || !IsDigit(s[n]))
    decreases |s| - i
  {
    if i < |s| && IsDigit(s[i]) then DigitEnd(s, i + 1) else i
  }

  /** The pattern after the kind: `(:\d+)?\)\w*$`. */
  function ParseTail(kind: string, rest: string): Option<Directive> {
    if |rest| > 0 && rest[0] == ')' then
      if WordChars(rest[1..]) then Some(Directive(kind, None, rest[1..])) else None
    else if |rest| > 0 && rest[0] == ':' then
      var e := DigitEnd(rest, 1);
      if e > 1 && e < |rest| && rest[e] == ')' && WordChars(rest[e + 1..]) then
        Some(Directive(kind, Some(rest[1..e]), rest[e + 1..]))
      else None
    else None
  }

  /** The pattern with the kinds from the `k`-th on. */
  function ParseKinds(line: string, k: nat): Option<Directive>
    requires k <= |Kinds|
    decreases |Kinds| - k
  {
    if k == |Kinds| then None
    else
      var kind := Kinds[k];
      var at := |LipsumPrefix| + |kind|;
      if OccursAt(line, kind, |LipsumPrefix|) && ParseTail(kind, line[at..]).Some? then ParseTail(kind, line[at..])
      else ParseKinds(line, k + 1)
  }

  /** `REGEXP.match(line)`, on ASCII word characters and digits. */
  function ParseDirective(line: string): Option<Directive> {
    if StartsWith(line, LipsumPrefix) then ParseKinds(line, 0) else None
  }

  /** The tail of a well-formed directive parses back into it. */
  lemma ParseTailText(d: Directive)
    requires WellFormedDirective(d)
    ensures ParseTail(d.kind, TailText(d)) == Some(d)
  {
    var rest := TailText(d);
    if d.count.Some? {
      var c := d.count.value;
      assert rest == [':'] + c + [')'] + d.trailing;
      assert rest[1 + |c|] == ')';
      assert DigitEnd(rest, 1) == 1 + |c| by {
        DigitRun(rest, 1, 1 + |c|);
      }
      assert rest[1..1 + |c|] == c;
      assert rest[1 + |c| + 1..] == d.trailing;
    } else {
      assert rest[1..] == d.trailing;
    }
  }

  /** A run of digits ending before a non-digit is what `DigitEnd` finds. */
  lemma {:induction false} DigitRun(s: string, i: nat, e: nat)
    requires i <= e < |s| && !IsDigit(s[e]) && forall k :: i <= k < e ==> IsDigit(s[k])
    ensures DigitEnd(s, i) == e
    decreases e - i
  {
    if i < e {
      DigitRun(s, i + 1, e);
    }
  }

  /** What `ParseTail` accepts is the tail text of a well-formed directive. */
  lemma ParseTailMeaning(kind: string, rest: string)
    requires ParseTail(kind, rest).Some?
    ensures var d := ParseTail(kind, rest).value;
      d.kind == kind && TailText(d) == rest
      && (d.count.Some? ==> |d.count.value| > 0 && AllDigits(d.count.value)) && WordChars(d.trailing)
  {
    var d := ParseTail(kind, rest).value;
    if rest[0] == ')' {
      assert rest == [')'] + rest[1..];
    } else {
      var e := DigitEnd(rest, 1);
      assert rest == [':'] + rest[1..e] + [')'] + rest[e + 1..];
    }
  }

  /** Exactly the texts of well-formed directives are directives, and each
      is read back as itself. */
  lemma DirectiveRoundTrip(d: Directive)
    requires WellFormedDirective(d)
    ensures ParseDirective(DirectiveText(d)) == Some(d)
  {
    var line := DirectiveText(d);
    var n := |LipsumPrefix|;
    assert line[..n] == LipsumPrefix;
    assert StartsWith(line, LipsumPrefix) by {
      forall m | 0 <= m < n ensures line[0 + m] == LipsumPrefix[m] {
        assert line[..n][m] == line[m];
      }
    }
    var rest := TailText(d);
    assert line[n + |d.kind|..] == rest;
    assert rest[0] == ':' || rest[0] == ')';
    ParseTailText(d);
    assert OccursAt(line, d.kind, n) by {
      forall m | 0 <= m < |d.kind| ensures line[n + m] == d.kind[m] {
        assert line[n..n + |d.kind|] == d.kind;
      }
    }
    EarlierKindsFail(d, line);
  }

  /** The kinds tried before a directive's own kind do not match its text. */
  lemma EarlierKindsFail(d: Directive, line: string)
    requires WellFormedDirective(d) && line == DirectiveText(d)
    requires OccursAt(line, d.kind, |LipsumPrefix|)
    requires ParseTail(d.kind, line[|LipsumPrefix| + |d.kind|..]) == Some(d)
    ensures ParseKinds(line, 0) == Some(d)
  {
    if d.kind == "words" || d.kind == "word" {
      WordKindsFail(d, line);
    } else if d.kind == "sentences" || d.kind == "sentence" {
      SentenceKindsFail(d, line);
    } else {
      ParagraphKindsFail(d, line);
    }
  }

  /** `EarlierKindsFail` for the two word kinds. */
  lemma WordKindsFail(d: Directive, line: string)
    requires WellFormedDirective(d) && line == DirectiveText(d) && (d.kind == "words" || d.kind == "word")
    requires OccursAt(line, d.kind, |LipsumPrefix|)
    requires ParseTail(d.kind, line[|LipsumPrefix| + |d.kind|..]) == Some(d)
    ensures ParseKinds(line, 0) == Some(d)
  {
    if d.kind == "words" {
      KindHit(d, line, 0);
    } else {
      PluralSkip(d, line, 0);
      KindHit(d, line, 1);
    }
  }

  /** `EarlierKindsFail` for the two sentence kinds. */
  lemma SentenceKindsFail(d: Directive, line: string)
    requires WellFormedDirective(d) && line == DirectiveText(d) && (d.kind == "sentences" || d.kind == "sentence")
    requires OccursAt(line, d.kind, |LipsumPrefix|)
    requires ParseTail(d.kind, line[|LipsumPrefix| + |d.kind|..]) == Some(d)
    ensures ParseKinds(line, 0) == Some(d)
  {
    DirectiveChars(d);
    FirstLetterSkipTo(line, 0, 2);
    if d.kind == "sentences" {
      KindHit(d, line, 2);
    } else {
      PluralSkip(d, line, 2);
      KindHit(d, line, 3);
    }
  }

  /** `EarlierKindsFail` for the two paragraph kinds. */
  lemma ParagraphKindsFail(d: Directive, line: string)
    requires WellFormedDirective(d) && line == DirectiveText(d) && (d.kind == "paragraphs" || d.kind == "paragraph")
    requires OccursAt(line, d.kind, |LipsumPrefix|)
    requires ParseTail(d.kind, line[|LipsumPrefix| + |d.kind|..]) == Some(d)
    ensures ParseKinds(line, 0) == Some(d)
  {
    DirectiveChars(d);
    FirstLetterSkipTo(line, 0, 4);
    if d.kind == "paragraphs" {
      KindHit(d, line, 4);
    } else {
      PluralSkip(d, line, 4);
      KindHit(d, line, 5);
    }
  }

  /** The plural of a directive's kind does not match its text, since the
      kind is followed by `:` or `)` rather than `s`. */
  lemma PluralSkip(d: Directive, line: string, k: nat)
    requires WellFormedDirective(d) && line == DirectiveText(d)
    requires k < |Kinds| && Kinds[k] == d.kind + "s"
    ensures ParseKinds(line, k) == ParseKinds(line, k + 1)
  {
    var n := |LipsumPrefix|;
    DirectiveChars(d);
    assert !OccursAt(line, Kinds[k], n) by {
      assert line[n + |d.kind|] != Kinds[k][|d.kind|];
    }
  }

  /** A directive's own kind, once reached, is taken with its tail. */
  lemma KindHit(d: Directive, line: string, k: nat)
    requires k < |Kinds| && Kinds[k] == d.kind && OccursAt(line, d.kind, |LipsumPrefix|)
    requires ParseTail(d.kind, line[|LipsumPrefix| + |d.kind|..]) == Some(d)
    ensures ParseKinds(line, k) == Some(d)
  {
  }

  /** In a directive's text the kind starts right after the prefix and is
      followed by `:` or `)`. */
  lemma DirectiveChars(d: Directive)
    requires WellFormedDirective(d)
    ensures var line := DirectiveText(d); var n := |LipsumPrefix|;
      && n + |d.kind| < |line| && line[n] == d.kind[0]
      && (line[n + |d.kind|] == ':' || line[n + |d.kind|] == ')')
  {
    var t := TailText(d);
    var line := DirectiveText(d);
    var n := |LipsumPrefix|;
    assert line[n..] == d.kind + t;
    assert line[n] == line[n..][0];
    assert line[n + |d.kind|] == line[n..][|d.kind|] == t[0];
  }

  /** Kinds whose first letters are not the one after the prefix are passed over. */
  lemma {:induction false} FirstLetterSkipTo(line: string, k: nat, m: nat)
    requires k <= m <= |Kinds| && |LipsumPrefix| < |line|
    requires forall j :: k <= j < m ==> line[|LipsumPrefix|] != Kinds[j][0]
    ensures ParseKinds(line, k) == ParseKinds(line, m)
    decreases m - k
  {
    if k < m {
      FirstLetterSkip(line, k);
      FirstLetterSkipTo(line, k + 1, m);
    }
  }

  /** A kind whose first letter is not the one after the prefix is passed over. */
  lemma FirstLetterSkip(line: string, k: nat)
    requires k < |Kinds| && |LipsumPrefix| < |line| && line[|LipsumPrefix|] != Kinds[k][0]
    ensures ParseKinds(line, k) == ParseKinds(line, k + 1)
  {
    assert !OccursAt(line, Kinds[k], |LipsumPrefix|) by {
      assert line[|LipsumPrefix| + 0] != Kinds[k][0];
    }
  }

  /** Every line the pattern matches is the text of a well-formed directive. */
  lemma {:induction false} ParsedIsDirective(line: string, k: nat)
    requires StartsWith(line, LipsumPrefix) && k <= |Kinds| && ParseKinds(line, k).Some?
    ensures WellFormedDirective(ParseKinds(line, k).value)
    ensures DirectiveText(ParseKinds(line, k).value) == line
    decreases |Kinds| - k
  {
    var kind := Kinds[k];
    var at := |LipsumPrefix| + |kind|;
    if OccursAt(line, kind, |LipsumPrefix|) && ParseTail(kind, line[at..]).Some? {
      TailIsDirective(line, k);
    } else {
      ParsedIsDirective(line, k + 1);
    }
  }

  /** A line with the prefix, a kind and a tail that parses is the text of
      the directive read from it. */
  lemma TailIsDirective(line: string, k: nat)
    requires StartsWith(line, LipsumPrefix) && k < |Kinds| && OccursAt(line, Kinds[k], |LipsumPrefix|)
    requires ParseTail(Kinds[k], line[|LipsumPrefix| + |Kinds[k]|..]).Some?
    ensures var d := ParseTail(Kinds[k], line[|LipsumPrefix| + |Kinds[k]|..]).value;
      WellFormedDirective(d) && DirectiveText(d) == line
  {
    var kind := Kinds[k];
    var n := |LipsumPrefix|;
    var at := n + |kind|;
    ParseTailMeaning(kind, line[at..]);
    assert line[..n] == LipsumPrefix;
    assert line[n..at] == kind;
    assert line == line[..n] + line[n..at] + line[at..];
  }

  /** One line of `MarkdownLoremIpsumProcessor.run`: a line that is not a
      directive is kept; a directive becomes the generator's text, split into
      lines, for its count, which defaults to 1 for the singular kinds; a
      plural kind without a count raises `SyntaxError`. */
  function Expand(line: string, gen: (Generator, nat) -> string): Result<seq<string>> {
    match ParseDirective(line)
    case None => Success([line])
    case Some(d) =>
      ParsedIsDirective(line, 0);
      var (g, default) := KindGenerator(d.kind);
      var count := if d.count.Some? then Some(DigitsValue(d.count.value)) else default;
      if count.None? then Failure(SyntaxError("Missing \"count\" parameter for !(lipsum-" + d.kind + ") command"))
      else Success(Split(gen(g, count.value), "\n"))
  }

  /** The first `n` lines expanded, in order; the first failure is raised. */
  function LoremIpsum(lines: seq<string>, gen: (Generator, nat) -> string, n: nat): Result<seq<string>>
    requires n <= |lines|
  {
    if n == 0 then Success([])
    else
      var prev := LoremIpsum(lines, gen, n - 1);
      if prev.Failure? then prev
      else
        var expanded := Expand(lines[n - 1], gen);
        if expanded.Failure? then expanded else Success(prev.value + expanded.value)
  }

  /** `MarkdownLoremIpsumProcessor.run(lines)`. */
  method RunLoremIpsum(lines: seq<string>, gen: (Generator, nat) -> string) returns (r: Result<seq<string>>)
    ensures r == LoremIpsum(lines, gen, |lines|)
  {
    var newLines: seq<string> := [];
    for i := 0 to |lines|
      invariant LoremIpsum(lines, gen, i) == Success(newLines)
    {
      var expanded := Expand(lines[i], gen);
      LoremStep(lines, gen, i);
      if expanded.Failure? {
        LoremStopped(lines, gen, i + 1, |lines|);
        return Failure(expanded.error);
      }
      newLines := newLines + expanded.value;
    }
    r := Success(newLines);
  }

  /** After `i` lines expand, the next line's failure is the run's, or its
      lines are appended. */
  lemma LoremStep(lines: seq<string>, gen: (Generator, nat) -> string, i: nat)
    requires i < |lines| && LoremIpsum(lines, gen, i).Success?
    ensures var e := Expand(lines[i], gen);
      LoremIpsum(lines, gen, i + 1) == if e.Failure? then Failure(e.error) else Success(LoremIpsum(lines, gen, i).value + e.value)
  {
  }

  /** Once a line fails, the whole run fails with its error. */
  lemma {:induction false} LoremStopped(lines: seq<string>, gen: (Generator, nat) -> string, i: nat, n: nat)
    requires i <= n <= |lines| && LoremIpsum(lines, gen, i).Failure?
    ensures LoremIpsum(lines, gen, n) == LoremIpsum(lines, gen, i)
    decreases n - i
  {
    if n > i {
      LoremStopped(lines, gen, i, n - 1);
      LoremFailed(lines, gen, n);
    }
  }

  /** A failed run stays failed with one more line. */
  lemma LoremFailed(lines: seq<string>, gen: (Generator, nat) -> string, n: nat)
    requires 0 < n <= |lines| && LoremIpsum(lines, gen, n - 1).Failure?
    ensures LoremIpsum(lines, gen, n) == LoremIpsum(lines, gen, n - 1)
  {
  }

  /** Lines that are not directives pass through unchanged. */
  lemma {:induction false} NoDirectivesKept(lines: seq<string>, gen: (Generator, nat) -> string, n: nat)
    requires n <= |lines| && forall k :: 0 <= k < n ==> ParseDirective(lines[k]).None?
    ensures LoremIpsum(lines, gen, n) == Success(lines[..n])
  {
    if n > 0 {
      NoDirectivesKept(lines, gen, n - 1);
      assert lines[..n] == lines[..n - 1] + [lines[n - 1]];
    }
  }

  /** A directive with a count generates that many; a singular one without
      a count generates one; a plural one without a count is an error. */
  lemma DirectiveCounts(d: Directive, gen: (Generator, nat) -> string)
    requires WellFormedDirective(d)
    ensures var g := KindGenerator(d.kind).0;
      var r := Expand(DirectiveText(d), gen);
      && (d.count.Some? ==> r == Success(Split(gen(g, DigitsValue(d.count.value)), "\n")))
      && (d.count.None? && d.kind in ["word", "sentence", "paragraph"] ==> r == Success(Split(gen(g, 1), "\n")))
      && (d.count.None? && d.kind in ["words", "sentences", "paragraphs"] ==> r.Failure? && r.error.SyntaxError?)
  {
    DirectiveRoundTrip(d);
  }

  /** `!(lipsum-words:100)` asks for a hundred words. */
  lemma HundredWords(gen: (Generator, nat) -> string)
    ensures Expand("!(lipsum-words:100)", gen) == Success(Split(gen(Words, 100), "\n"))
  {
    var d := Directive("words", Some("100"), "");
    assert DirectiveText(d) == "!(lipsum-words:100)";
    DirectiveCounts(d, gen);
    assert DigitsValue("100") == 100 by {
      assert "100"[..2] == "10" && "10"[..1] == "1" && "1"[..0] == "";
    }
  }

  /* ---------- heading permalinks ---------- */

  /** An element of the document tree: its tag, attributes, text before
      its first child, text after its own end tag, and children. */
  datatype Element = Element(tag: string, attrs: map<string, string>, text: Option<string>, tail: Option<string>, children: seq<Element>)

  /** The permalink settings; each is left unset when absent. */
  datatype PermalinkConfig = PermalinkConfig(text: Option<string>, cls: Option<string>, title: Option<string>)

  predicate IsHeading(tag: string) {
    tag in {"h1", "h2", "h3", "h4", "h5", "h6", "h7", "h8"}
  }

  function OrEmpty(s: Option<string>): string {
    if s.Some? then s.value else ""
  }

  /** `strip_el_text(el, max_depth, cur_depth)`: the element's stripped
      text, then each child's text down to `maxDepth` (below it, only the
      last child's tail), then, except at the root, the element's tail,
      separated by spaces and stripped again. */
  function StripElText(el: Element, maxDepth: nat, curDepth: nat): (r: string)
    ensures '\n' !in r
    decreases el, 1
  {
    var own := Utils.StripStr(OrEmpty(el.text));
    var n := |el.children|;
    var withChildren :=
      if curDepth < maxDepth then own + ChildrenText(el, 0, maxDepth, curDepth)
      else if n > 0 && el.children[n - 1].tail.Some? then own + " " + Utils.StripStr(el.children[n - 1].tail.value)
      else own;
    var withTail := if curDepth > 0 && el.tail.Some? then withChildren + " " + Utils.StripStr(el.tail.value) else withChildren;
    Utils.StripStr(withTail)
  }

  /** `" " + strip_el_text(child, ...)` for the children from the `i`-th on. */
  function ChildrenText(el: Element, i: nat, maxDepth: nat, curDepth: nat): string
    requires i <= |el.children|
    decreases el, 0, |el.children| - i
  {
    if i == |el.children| then ""
    else " " + StripElText(el.children[i], maxDepth, curDepth + 1) + ChildrenText(el, i + 1, maxDepth, curDepth)
  }

  /** The heading text with its single and double quotes removed. */
  function Unquote(s: string): (r: string)
    ensures forall i :: 0 <= i < |r| ==> r[i] != '\'' && r[i] != '"'
    ensures forall c :: c in s && c != '\'' && c != '"' ==> c in r
  {
    if |s| == 0 then ""
    else (if s[0] == '\'' || s[0] == '"' then "" else [s[0]]) + Unquote(s[1..])
  }

  /** A heading's id: the one it has, or the slug of its text (to depth 3,
      quotes removed). */
  function IdOf(h: Element, slugify: string -> string): string {
    if "id" in h.attrs then h.attrs["id"] else slugify(Unquote(StripElText(h, 3, 0)))
  }

  /** The `a` element appended to a heading: `href` is `#` and the id;
      class, title and text are set only when configured. */
  function Permalink(id: string, cfg: PermalinkConfig): (a: Element)
    ensures a.tag == "a" && a.children == [] && a.tail.None? && a.text == cfg.text
    ensures "href" in a.attrs && a.attrs["href"] == "#" + id
    ensures ("class" in a.attrs <==> cfg.cls.Some?) && (cfg.cls.Some? ==> a.attrs["class"] == cfg.cls.value)
    ensures ("title" in a.attrs <==> cfg.title.Some?) && (cfg.title.Some? ==> a.attrs["title"] == cfg.title.value)
    ensures a.attrs.Keys <= {"href", "class", "title"}
  {
    var withClass := if cfg.cls.Some? then map["href" := "#" + id]["class" := cfg.cls.value] else map["href" := "#" + id];
    var attrs := if cfg.title.Some? then withClass["title" := cfg.title.value] else withClass;
    Element("a", attrs, cfg.text, None, [])
  }

  /** `insert_permalinks(el, ...)`: every heading below `el` (not `el`
      itself) gets its id set and a permalink appended after its own
      processed children. */
  function InsertPermalinks(el: Element, cfg: PermalinkConfig, slugify: string -> string): (r: Element)
    ensures r.tag == el.tag && r.attrs == el.attrs && r.text == el.text && r.tail == el.tail
    ensures |r.children| == |el.children|
    decreases el, 1
  {
    el.(children := InsertFrom(el, 0, cfg, slugify))
  }

  /** The processed children from the `i`-th on. */
  function InsertFrom(el: Element, i: nat, cfg: PermalinkConfig, slugify: string -> string): (r: seq<Element>)
    requires i <= |el.children|
    ensures |r| == |el.children| - i
    ensures forall j :: 0 <= j < |r| ==> r[j] == Processed(el.children[i + j], cfg, slugify)
    decreases el, 0, |el.children| - i
  {
    if i == |el.children| then []
    else [Processed(el.children[i], cfg, slugify)] + InsertFrom(el, i + 1, cfg, slugify)
  }

  /** One child of the walk. A heading's id is taken or slugified from its
      text as it was before the walk reached its children; the permalink
      goes last, and walking into it changes nothing (see `LinkUnchanged`). */
  function Processed(c: Element, cfg: PermalinkConfig, slugify: string -> string): (r: Element)
    decreases c, 2
  {
    var inner := InsertPermalinks(c, cfg, slugify);
    if IsHeading(c.tag) then
      var id := IdOf(c, slugify);
      inner.(attrs := c.attrs["id" := id], children := inner.children + [Permalink(id, cfg)])
    else inner
  }

  /** Walking into a permalink changes nothing, so appending it before or
      after the walk gives the same tree. */
  lemma LinkUnchanged(id: string, cfg: PermalinkConfig, slugify: string -> string)
    ensures InsertPermalinks(Permalink(id, cfg), cfg, slugify) == Permalink(id, cfg)
  {
    var a := Permalink(id, cfg);
    assert InsertFrom(a, 0, cfg, slugify) == [];
  }

  /** A processed heading keeps its tag, texts and other attributes, has the
      id it had or else the slug of its text, and ends with a permalink to
      that id. */
  lemma ProcessedHeading(c: Element, cfg: PermalinkConfig, slugify: string -> string)
    requires IsHeading(c.tag)
    ensures var r := Processed(c, cfg, slugify);
      && r.tag == c.tag && r.text == c.text && r.tail == c.tail
      && "id" in r.attrs
      && ("id" in c.attrs ==> r.attrs["id"] == c.attrs["id"])
      && ("id" !in c.attrs ==> r.attrs["id"] == slugify(Unquote(StripElText(c, 3, 0))))
      && (forall k :: k in c.attrs && k != "id" ==> k in r.attrs && r.attrs[k] == c.attrs[k])
      && r.attrs.Keys == c.attrs.Keys + {"id"}
      && |r.children| == |c.children| + 1
      && r.children[|c.children|] == Permalink(r.attrs["id"], cfg)
  {
    var inner := InsertPermalinks(c, cfg, slugify);
    var id := IdOf(c, slugify);
    var r := Processed(c, cfg, slugify);
    assert r == inner.(attrs := c.attrs["id" := id], children := inner.children + [Permalink(id, cfg)]);
    assert r.attrs["id"] == id;
    assert r.attrs.Keys == c.attrs.Keys + {"id"};
  }

  /** Any other child keeps its tag, texts, attributes and number of
      children. */
  lemma ProcessedOther(c: Element, cfg: PermalinkConfig, slugify: string -> string)
    requires !IsHeading(c.tag)
    ensures var r := Processed(c, cfg, slugify);
      r.tag == c.tag && r.text == c.text && r.tail == c.tail && r.attrs == c.attrs && |r.children| == |c.children|
  {
  }

  /** The tree with the ids the walk sets and no permalinks. */
  function SetIds(el: Element, slugify: string -> string): (r: Element)
    decreases el, 1
  {
    el.(children := SetIdsFrom(el, 0, slugify))
  }

  function SetIdsFrom(el: Element, i: nat, slugify: string -> string): (r: seq<Element>)
    requires i <= |el.children|
    ensures |r| == |el.children| - i
    ensures forall j :: 0 <= j < |r| ==> r[j] == SetIdsChild(el.children[i + j], slugify)
    decreases el, 0, |el.children| - i
  {
    if i == |el.children| then [] else [SetIdsChild(el.children[i], slugify)] + SetIdsFrom(el, i + 1, slugify)
  }

  function SetIdsChild(c: Element, slugify: string -> string): Element
    decreases c, 2
  {
    var inner := SetIds(c, slugify);
    if IsHeading(c.tag) then inner.(attrs := c.attrs["id" := IdOf(c, slugify)]) else inner
  }

  /** The tree with the last child of every heading below the root removed,
      keeping the first `keep` children of `el`. */
  function Unlinked(el: Element, keep: nat): Element
    requires keep <= |el.children|
    decreases el, 1
  {
    el.(children := UnlinkFrom(el, 0, keep))
  }

  function UnlinkFrom(el: Element, i: nat, keep: nat): (r: seq<Element>)
    requires i <= keep <= |el.children|
    ensures |r| == keep - i
    ensures forall j :: 0 <= j < |r| ==> r[j] == UnlinkChild(el.children[i + j])
    decreases el, 0, keep - i
  {
    if i == keep then [] else [UnlinkChild(el.children[i])] + UnlinkFrom(el, i + 1, keep)
  }

  function UnlinkChild(c: Element): Element
    decreases c, 2
  {
    Unlinked(c, if IsHeading(c.tag) && |c.children| > 0 then |c.children| - 1 else |c.children|)
  }

  /** Taking the permalinks back out of the walked tree leaves the original
      tree with the ids set: the walk adds exactly one permalink per heading
      and changes nothing else. */
  lemma PermalinksRemoved(el: Element, cfg: PermalinkConfig, slugify: string -> string)
    ensures Unlinked(InsertPermalinks(el, cfg, slugify), |el.children|) == SetIds(el, slugify)
  {
    UnlinkProcessed(el, InsertPermalinks(el, cfg, slugify), cfg, slugify);
  }

  /** Unlinking the first `|c.children|` children of `p`, when those are
      `c`'s processed children, gives `c`'s children with ids set. */
  lemma {:induction false} UnlinkProcessed(c: Element, p: Element, cfg: PermalinkConfig, slugify: string -> string)
    requires |c.children| <= |p.children|
    requires forall j :: 0 <= j < |c.children| ==> p.children[j] == Processed(c.children[j], cfg, slugify)
    ensures UnlinkFrom(p, 0, |c.children|) == SetIdsFrom(c, 0, slugify)
    decreases c, 1
  {
    forall j | 0 <= j < |c.children|
      ensures UnlinkFrom(p, 0, |c.children|)[j] == SetIdsFrom(c, 0, slugify)[j]
    {
      UnlinkChildProcessed(c.children[j], cfg, slugify);
    }
  }

  lemma {:induction false} UnlinkChildProcessed(c: Element, cfg: PermalinkConfig, slugify: string -> string)
    ensures UnlinkChild(Processed(c, cfg, slugify)) == SetIdsChild(c, slugify)
    decreases c, 2
  {
    var p := Processed(c, cfg, slugify);
    var inner := InsertPermalinks(c, cfg, slugify);
    assert inner.children == InsertFrom(c, 0, cfg, slugify);
    assert p.children[..|c.children|] == inner.children;
    assert forall j :: 0 <= j < |c.children| ==> p.children[j] == inner.children[j];
    UnlinkProcessed(c, p, cfg, slugify);
  }

  /** No heading anywhere below `el`. */
  ghost predicate NoHeadings(el: Element)
    decreases el
  {
    forall c :: c in el.children ==> !IsHeading(c.tag) && NoHeadings(c)
  }

  /** A tree without headings comes out of the walk unchanged. */
  lemma {:induction false} NoHeadingsUnchanged(el: Element, cfg: PermalinkConfig, slugify: string -> string)
    requires NoHeadings(el)
    ensures InsertPermalinks(el, cfg, slugify) == el
    decreases el
  {
    var r := InsertFrom(el, 0, cfg, slugify);
    forall j | 0 <= j < |el.children| ensures r[j] == el.children[j] {
      var c := el.children[j];
      assert c in el.children;
      NoHeadingsUnchanged(c, cfg, slugify);
    }
    assert r == el.children;
  }

  /** A heading holding only text gets the slug of that text, stripped and
      unquoted, as its id. */
  lemma PlainHeadingId(tag: string, text: string, slugify: string -> string)
    requires IsHeading(tag)
    ensures IdOf(Element(tag, map[], Some(text), None, []), slugify)
      == slugify(Unquote(Utils.StripStr(Utils.StripStr(text))))
  {
    var h := Element(tag, map[], Some(text), None, []);
    assert ChildrenText(h, 0, 3, 0) == "";
    assert Utils.StripStr(OrEmpty(h.text)) + "" == Utils.StripStr(text);
  }
}

=== FILE: markdownyaml.dfy ===
/** The older YAML front-matter preprocessor (statik/markdownyaml.py): the
    same line loop as the one in statik/markdown_exts.py, except that body
    lines and the YAML text have every non-ASCII character replaced by a
    decimal character reference, as in section 4.1 of XML 1.0 (`&#233;`
    for `é`). */
module MarkdownYaml {
  import opened Common
  import opened Values
  import opened PyStr
  import opened MarkdownExts

  predicate IsAscii(c: char) {
    c as int < 128
  }

  predicate AllAscii(s: string) {
    forall i :: 0 <= i < |s| ==> IsAscii(s[i])
  }

  /** What `encode("ascii", "xmlcharrefreplace")` makes of one character. */
  function CharRef(c: char): (r: string)
    ensures AllAscii(r)
  {
    if IsAscii(c) then [c] else "&#" + NatToString(c as int) + ";"
  }

  /** `s.encode("ascii", "xmlcharrefreplace").decode("utf-8")`. */
  function XmlCharRefs(s: string): (r: string)
    ensures AllAscii(r)
  {
    if |s| == 0 then "" else CharRef(s[0]) + XmlCharRefs(s[1..])
  }

  /** Each line encoded. */
  function EncodeEach(lines: seq<string>): (r: seq<string>)
    ensures |r| == |lines| && forall i :: 0 <= i < |lines| ==> r[i] == XmlCharRefs(lines[i])
  {
    if |lines| == 0 then [] else [XmlCharRefs(lines[0])] + EncodeEach(lines[1..])
  }

  /** A character reference reads back as the character's code point. */
  lemma CharRefRoundTrip(c: char)
    requires !IsAscii(c)
    ensures var r := CharRef(c);
      && |r| >= 4 && r[..2] == "&#" && r[|r| - 1] == ';'
      && AllDigits(r[2..|r| - 1]) && DigitsValue(r[2..|r| - 1]) == c as int
  {
    var digits := NatToString(c as int);
    var r := CharRef(c);
    assert r == "&#" + digits + ";";
    assert r[2..|r| - 1] == digits;
    DigitsRoundTrip(c as int);
  }

  /** ASCII text is left as it is. */
  lemma {:induction false} AsciiUnchanged(s: string)
    requires AllAscii(s)
    ensures XmlCharRefs(s) == s
    decreases |s|
  {
    if |s| > 0 {
      AsciiUnchanged(s[1..]);
      assert s == [s[0]] + s[1..];
    }
  }

  /** Encoding works character by character, so it distributes over
      concatenation. */
  lemma {:induction false} EncodeConcat(a: string, b: string)
    ensures XmlCharRefs(a + b) == XmlCharRefs(a) + XmlCharRefs(b)
    decreases |a|
  {
    if |a| > 0 {
      assert (a + b)[1..] == a[1..] + b;
      EncodeConcat(a[1..], b);
    } else {
      assert a + b == b;
    }
  }

  /** Encoding the joined YAML text is joining the encoded lines: the YAML
      loader sees each line encoded on its own. */
  lemma {:induction false} EncodeJoin(lines: seq<string>)
    ensures XmlCharRefs(Join(lines, "\n")) == Join(EncodeEach(lines), "\n")
    decreases |lines|
  {
    if |lines| > 1 {
      EncodeJoin(lines[1..]);
      EncodeConcat(lines[0] + "\n", Join(lines[1..], "\n"));
      EncodeConcat(lines[0], "\n");
      assert XmlCharRefs("\n") == "\n";
      assert EncodeEach(lines)[1..] == EncodeEach(lines[1..]);
    }
  }

  /** The run's result: the body lines, encoded, and the YAML lines as
      collected. */
  function Encoded(s: Scan): Scan {
    s.(body := EncodeEach(s.body))
  }

  /** `run(lines)` as written: fewer than two lines give nothing at all. */
  function RunAsWritten(lines: seq<string>): Scan {
    Encoded(YamlMetaAsWritten(lines))
  }

  /** `run(lines)` as evidently intended: only an empty document gives
      nothing. */
  function Run(lines: seq<string>): Scan {
    Encoded(YamlMeta(lines))
  }

  /** The metadata: `{}`, or the encoded YAML text loaded. */
  function EncodedMetaOf(yaml: seq<string>, load: string -> Result<Value>): Result<Value> {
    if |yaml| > 0 then load(XmlCharRefs(Join(yaml, "\n"))) else Success(VDict(Empty))
  }

  /** The line loop of `run`, encoding each body line as it is kept. */
  method SplitEncoded(lines: seq<string>) returns (yaml: seq<string>, body: seq<string>)
    requires |lines| > 0
    ensures yaml == FrontMatter(lines, Fences(lines)).yaml
    ensures body == EncodeEach(FrontMatter(lines, Fences(lines)).body)
  {
    ghost var fences := Fences(lines);
    var collecting := Strip(lines[0]) == "---";
    var start := if collecting then 1 else 0;
    ghost var init := Scan(collecting, [], []);
    yaml, body := [], [];
    for i := start to |lines|
      invariant var s := ScanFrom(lines, fences, init, start, i);
        s.collecting == collecting && s.yaml == yaml && body == EncodeEach(s.body)
    {
      ghost var before := ScanFrom(lines, fences, init, start, i).body;
      var line := lines[i];
      if collecting {
        if Strip(line) == "---" {
          collecting := false;
        } else {
          yaml := yaml + [line];
        }
      } else {
        body := body + [XmlCharRefs(line)];
        assert EncodeEach(before + [line]) == EncodeEach(before) + [XmlCharRefs(line)];
      }
    }
  }

  /** `MarkdownYamlMetaPreprocessor.run(lines)`: `meta` is reset to `{}`,
      the encoded body lines are returned, and the encoded YAML text, if
      any, is loaded into `meta`; what loading raises is raised. */
  method RunYamlMeta(md: MarkdownDocument, lines: seq<string>, load: string -> Result<Value>)
    returns (r: Result<seq<string>>)
    modifies md
    ensures var s := RunAsWritten(lines);
      && (EncodedMetaOf(s.yaml, load).Success? ==> r == Success(s.body) && md.meta == EncodedMetaOf(s.yaml, load).value)
      && (EncodedMetaOf(s.yaml, load).Failure? ==> r == Failure(EncodedMetaOf(s.yaml, load).error) && md.meta == VDict(Empty))
  {
    md.meta := VDict(Empty);
    if |lines| <= 1 {
      return Success([]);
    }
    var yaml, body := SplitEncoded(lines);
    if |yaml| > 0 {
      var loaded := load(XmlCharRefs(Join(yaml, "\n")));
      if loaded.Failure? {
        return Failure(loaded.error);
      }
      md.meta := loaded.value;
    }
    r := Success(body);
  }

  /** Every body line of the loop is a line of the document. */
  lemma {:induction false} BodyFromLines(lines: seq<string>, fences: seq<bool>, start: Scan, from: nat, n: nat)
    requires from <= n <= |lines| == |fences| && start.body == []
    ensures forall l :: l in ScanFrom(lines, fences, start, from, n).body ==> l in lines
    decreases n
  {
    if n > from {
      BodyFromLines(lines, fences, start, from, n - 1);
    }
  }

  /** The body and YAML lines of a run are lines of the document. */
  lemma RunFromLines(lines: seq<string>)
    ensures var s := YamlMetaAsWritten(lines);
      (forall l :: l in s.body ==> l in lines) && (forall l :: l in s.yaml ==> l in lines)
  {
    if |lines| > 1 {
      var fences := Fences(lines);
      var start := Scan(fences[0], [], []);
      var from := if fences[0] then 1 else 0;
      assert FrontMatter(lines, fences) == ScanFrom(lines, fences, start, from, |lines|);
      BodyFromLines(lines, fences, start, from, |lines|);
      YamlFromLines(lines, fences, start, from, |lines|);
    }
  }

  /** ASCII lines are left as they are. */
  lemma EncodeEachAscii(lines: seq<string>)
    requires forall l :: l in lines ==> AllAscii(l)
    ensures EncodeEach(lines) == lines
  {
    forall i | 0 <= i < |lines| ensures EncodeEach(lines)[i] == lines[i] {
      AsciiUnchanged(lines[i]);
    }
  }

  /** On an ASCII document this preprocessor and the one in
      statik/markdown_exts.py give the same body and the same YAML text. */
  lemma AsciiDocumentAgrees(lines: seq<string>, load: string -> Result<Value>)
    requires forall l :: l in lines ==> AllAscii(l)
    ensures RunAsWritten(lines) == YamlMetaAsWritten(lines)
    ensures EncodedMetaOf(RunAsWritten(lines).yaml, load) == MetaOf(YamlMetaAsWritten(lines).yaml, load)
  {
    var s := YamlMetaAsWritten(lines);
    RunFromLines(lines);
    EncodeEachAscii(s.body);
    EncodeEachAscii(s.yaml);
    EncodeJoin(s.yaml);
  }

  /** Every YAML line of the loop is a line of the document. */
  lemma {:induction false} YamlFromLines(lines: seq<string>, fences: seq<bool>, start: Scan, from: nat, n: nat)
    requires from <= n <= |lines| == |fences| && start.yaml == []
    ensures forall l :: l in ScanFrom(lines, fences, start, from, n).yaml ==> l in lines
    decreases n
  {
    if n > from {
      YamlFromLines(lines, fences, start, from, n - 1);
    }
  }

  /** `é` becomes `&#233;`. */
  lemma AccentEncoded()
    ensures XmlCharRefs("H\U{E9}") == "H&#233;"
  {
    var line := "H\U{E9}";
    assert NatToString(233) == "233" by {
      assert NatToString(2) == "2";
      assert NatToString(23) == "2" + "3";
    }
    assert CharRef('\U{E9}') == "&#233;";
    assert XmlCharRefs(line[1..]) == "&#233;" + "";
    assert XmlCharRefs(line) == "H" + XmlCharRefs(line[1..]);
  }

  /** The direct call `run(["Hé"])` loses the line as written; the intended
      reading keeps it, encoded. The fault is latent in rendering: the
      preprocessor runs after `normalize_whitespace`, which appends blank
      lines, so `run` never sees a one-line list there. */
  lemma OneLineDocumentDropped()
    ensures RunAsWritten(["H\U{E9}"]).body == []
    ensures Run(["H\U{E9}"]).body == ["H&#233;"]
  {
    var line := "H\U{E9}";
    assert !IsFence(line) by {
      StripCharsFixed(line, Whitespace, ' ');
    }
    PlainDocumentKept([line]);
    AccentEncoded();
  }
}

=== FILE: models.dfy ===
/** Statik models (statik/models.py): a model is built from its declared
    `field: Type` variables, then, once every model exists, it collects the
    back-reference relationships other models declare towards it. */
module Models {
  import opened Common
  import opened Values
  import opened Utils
  import opened Fields

  /** What the constructor loop fills in. */
  datatype Built = Built(
    fields: map<string, Field>,
    fieldNames: seq<string>,
    contentField: Option<string>,
    foreignModels: set<string>)

  const NoFields: Built := Built(map[], [], None, {})

  /** One declared variable as the constructor loop sees it: the name as
      written, whether its type is exactly the string `Content`, and what
      `construct_field` gives for it. */
  datatype Decl = Decl(key: string, isContent: bool, field: Result<Field>)

  /** The declaration of variable `key` with type `v`. A type that is not a
      string fails the `split` inside `construct_field`. */
  function DeclOf(modelName: string, modelNames: seq<string>, key: string, v: Value): (d: Decl)
    ensures d.key == key && d.isContent == (v == VStr("Content"))
    ensures d.field.Success? ==> d.field.value.name == UnderscoreKey(key)
  {
    Decl(key, v == VStr("Content"),
         match v
         case VStr(t) => ConstructField(modelName, UnderscoreKey(key), t, modelNames)
         case _ => Failure(AttributeError("split")))
  }

  /** The declarations of a model's variables, in order. */
  function Declarations(modelName: string, modelNames: seq<string>, vars: Dict): (ds: seq<Decl>)
    requires Listed(vars)
    ensures |ds| == |vars.keys|
  {
    seq(|vars.keys|, i requires 0 <= i < |vars.keys| =>
      DeclOf(modelName, modelNames, vars.keys[i], vars.vals[vars.keys[i]]))
  }

  /** Field construction names the field after the declared name with `-`
      replaced by `_`. */
  predicate NamedAfterKeys(ds: seq<Decl>) {
    forall i :: 0 <= i < |ds| && ds[i].field.Success? ==> ds[i].field.value.name == UnderscoreKey(ds[i].key)
  }

  lemma DeclarationsNamed(modelName: string, modelNames: seq<string>, vars: Dict)
    requires Listed(vars)
    ensures NamedAfterKeys(Declarations(modelName, modelNames, vars))
  {
    var ds := Declarations(modelName, modelNames, vars);
    forall i | 0 <= i < |ds| && ds[i].field.Success?
      ensures ds[i].field.value.name == UnderscoreKey(ds[i].key)
    {
      assert ds[i] == DeclOf(modelName, modelNames, vars.keys[i], vars.vals[vars.keys[i]]);
    }
  }

  /** One round of the constructor loop on the state `b`. */
  function BuildStep(modelName: string, b: Built, d: Decl): Result<Built> {
    if d.isContent && b.contentField.Some? then
      Failure(ModelError(modelName, "Only one \"Content\" field is allowed per model."))
    else
      var f :- d.field;
      Success(Built(
        b.fields[f.name := f],
        b.fieldNames + [f.name],
        if d.isContent then Some(d.key) else b.contentField,
        if f.kind.IsRelation() then b.foreignModels + {f.fieldType} else b.foreignModels))
  }

  /** The state after the constructor loop has gone through the first `i`
      declarations of `ds`, or the error that stopped it. */
  function BuildTo(modelName: string, ds: seq<Decl>, i: nat): Result<Built>
    requires i <= |ds|
  {
    if i == 0 then Success(NoFields)
    else
      match BuildTo(modelName, ds, i - 1)
      case Failure(e) => Failure(e)
      case Success(b) => BuildStep(modelName, b, ds[i - 1])
  }

  /** The state after the whole constructor loop. */
  function BuildAll(modelName: string, ds: seq<Decl>): Result<Built> {
    BuildTo(modelName, ds, |ds|)
  }

  /** At most one of the first `i` declarations is `Content`. */
  predicate AtMostOneContent(ds: seq<Decl>, i: int) {
    forall j, k :: 0 <= j < k < i && k < |ds| ==> !(ds[j].isContent && ds[k].isContent)
  }

  /** The constructor loop gets through `i` declarations exactly when each of
      their types builds a field and at most one of them is `Content`. */
  lemma {:induction false} BuildSucceeds(modelName: string, ds: seq<Decl>, i: nat)
    requires i <= |ds|
    ensures BuildTo(modelName, ds, i).Success? <==>
      (forall j :: 0 <= j < i ==> ds[j].field.Success?) && AtMostOneContent(ds, i)
  {
    if i > 0 {
      BuildSucceeds(modelName, ds, i - 1);
      BuildContentField(modelName, ds, i - 1);
      var p := BuildTo(modelName, ds, i - 1);
      var d := ds[i - 1];
      if p.Success? && d.isContent && p.value.contentField.Some? {
        var j :| 0 <= j < i - 1 && ds[j].key == p.value.contentField.value && ds[j].isContent;
        assert ds[j].isContent && ds[i - 1].isContent;
      }
    }
  }

  /** `content_field` holds the name, as written (before `-` becomes `_`), of
      the declaration typed `Content`, or `None` when there is none. */
  lemma {:induction false} BuildContentField(modelName: string, ds: seq<Decl>, i: nat)
    requires i <= |ds|
    ensures BuildTo(modelName, ds, i).Success? ==>
      var c := BuildTo(modelName, ds, i).value.contentField;
      && (c.None? <==> forall j :: 0 <= j < i ==> !ds[j].isContent)
      && (c.Some? ==> exists j :: 0 <= j < i && ds[j].key == c.value && ds[j].isContent)
  {
    if i > 0 {
      BuildContentField(modelName, ds, i - 1);
      var d := ds[i - 1];
      var p := BuildTo(modelName, ds, i - 1);
      var r := BuildTo(modelName, ds, i);
      if p.Success? && r.Success? {
        var c := r.value.contentField;
        if d.isContent {
          assert c == Some(d.key);
        } else {
          assert c == p.value.contentField;
        }
      }
    }
  }

  /** `field_names` lists the declared names with `-` replaced by `_`, in
      declaration order, and `fields` has exactly those names as keys. */
  lemma {:induction false} BuildFieldNames(modelName: string, ds: seq<Decl>, i: nat)
    requires i <= |ds| && NamedAfterKeys(ds) && BuildTo(modelName, ds, i).Success?
    ensures var b := BuildTo(modelName, ds, i).value;
      && |b.fieldNames| == i
      && (forall j :: 0 <= j < i ==> b.fieldNames[j] == UnderscoreKey(ds[j].key))
      && (forall k :: k in b.fields <==> k in b.fieldNames)
  {
    if i > 0 {
      var d := ds[i - 1];
      var p := BuildTo(modelName, ds, i - 1);
      assert p.Success?;
      BuildFieldNames(modelName, ds, i - 1);
      var b := BuildTo(modelName, ds, i).value;
      var f := d.field.value;
      assert b.fieldNames == p.value.fieldNames + [f.name];
      assert b.fields == p.value.fields[f.name := f];
    }
  }

  /** Each name in `fields` holds the field built from the last declaration
      that has that name. */
  lemma {:induction false} BuildFieldValues(modelName: string, ds: seq<Decl>, i: nat)
    requires i <= |ds| && NamedAfterKeys(ds) && BuildTo(modelName, ds, i).Success?
    ensures var b := BuildTo(modelName, ds, i).value;
      forall j :: 0 <= j < i && LastNamed(ds, i, j) ==>
        && ds[j].field.Success? && UnderscoreKey(ds[j].key) in b.fields
        && b.fields[UnderscoreKey(ds[j].key)] == ds[j].field.value
  {
    if i > 0 {
      var d := ds[i - 1];
      var p := BuildTo(modelName, ds, i - 1);
      assert p.Success?;
      BuildFieldValues(modelName, ds, i - 1);
      var b := BuildTo(modelName, ds, i).value;
      var f := d.field.value;
      assert b.fields == p.value.fields[f.name := f];
      forall j | 0 <= j < i - 1 && LastNamed(ds, i, j)
        ensures LastNamed(ds, i - 1, j)
      {
        assert UnderscoreKey(ds[i - 1].key) != UnderscoreKey(ds[j].key);
      }
    }
  }

  /** No declaration among the first `i` after the `j`-th has the same field name. */
  predicate LastNamed(ds: seq<Decl>, i: int, j: int)
    requires 0 <= j < i <= |ds|
  {
    forall k :: j < k < i ==> UnderscoreKey(ds[k].key) != UnderscoreKey(ds[j].key)
  }

  /** `foreign_models` is exactly the set of targets of the foreign-key and
      many-to-many fields declared. */
  lemma {:induction false} BuildForeignModels(modelName: string, ds: seq<Decl>, i: nat)
    requires i <= |ds| && BuildTo(modelName, ds, i).Success?
    ensures forall m :: m in BuildTo(modelName, ds, i).value.foreignModels <==>
        exists j :: 0 <= j < i && ds[j].field.Success?
                    && ds[j].field.value.kind.IsRelation() && ds[j].field.value.fieldType == m
  {
    if i > 0 {
      var d := ds[i - 1];
      var p := BuildTo(modelName, ds, i - 1);
      assert p.Success?;
      BuildForeignModels(modelName, ds, i - 1);
      var f := d.field.value;
      var b := BuildTo(modelName, ds, i).value;
      assert b.foreignModels ==
        if f.kind.IsRelation() then p.value.foreignModels + {f.fieldType} else p.value.foreignModels;
    }
  }

  /** One more round of the constructor loop. */
  lemma BuildNext(modelName: string, ds: seq<Decl>, i: nat, b: Built)
    requires i < |ds| && BuildTo(modelName, ds, i) == Success(b)
    ensures BuildTo(modelName, ds, i + 1) == BuildStep(modelName, b, ds[i])
  {
  }

  /** Once a round fails, the loop's result is that failure. */
  lemma {:induction false} BuildStopped(modelName: string, ds: seq<Decl>, i: nat, k: nat)
    requires i <= k <= |ds| && BuildTo(modelName, ds, i).Failure?
    ensures BuildTo(modelName, ds, k) == BuildTo(modelName, ds, i)
    decreases k
  {
    if i < k {
      BuildStopped(modelName, ds, i, k - 1);
    }
  }

  /** A back-reference relationship: the model that declares it, the field
      there, and the association-table pair for a many-to-many field. */
  datatype Rel = Rel(toModel: string, backPopulates: string, secondary: Option<(string, string)>)

  /** The parts of another model that `find_additional_rels` reads. */
  datatype ModelDecl = ModelDecl(fieldNames: seq<string>, fields: map<string, Field>)

  /** Every listed field name has its field, as the constructor guarantees. */
  predicate Consistent(d: ModelDecl) {
    forall j :: 0 <= j < |d.fieldNames| ==> d.fieldNames[j] in d.fields
  }

  /** A field of another model considered by `find_additional_rels`. */
  datatype Candidate = Candidate(modelName: string, fieldName: string, field: Field)

  /** Field `j` of model `d`, named `modelName`, in `field_names` order. */
  function CandidateOf(modelName: string, d: ModelDecl, j: nat): Candidate
    requires Consistent(d) && j < |d.fieldNames|
  {
    Candidate(modelName, d.fieldNames[j], d.fields[d.fieldNames[j]])
  }

  predicate AllConsistent(models: seq<(string, ModelDecl)>) {
    forall i :: 0 <= i < |models| ==> Consistent(models[i].1)
  }

  /** The entry a relation field `c` of model `c.modelName` leaves in the
      target's `additional_rels`: the declaring model, the field, and for a
      many-to-many field the pair naming the association table. */
  function RelOf(c: Candidate): Rel {
    Rel(c.modelName, c.fieldName,
      if c.field.kind == ManyToManyField then Some((c.modelName, c.field.fieldType)) else None)
  }

  /** One candidate's effect on `additional_rels`, following the condition's
      left-to-right evaluation: the target is compared first, then
      `back_populates` is read (an `AttributeError` on a scalar field). */
  function ScanNext(selfName: string, rels: map<string, Rel>, c: Candidate): (map<string, Rel>, Outcome)
  {
    if c.field.fieldType != selfName then (rels, Pass)
    else
      match c.field.BackPopulates()
      case Failure(e) => (rels, Fail(e))
      case Success(bp) => if bp.None? then (rels, Pass) else (rels[bp.value := RelOf(c)], Pass)
  }

  /** The inner loop of `find_additional_rels`: `additional_rels` after the
      first `j` fields of model `d`, starting from `acc`, and whether an error
      stopped the scan. */
  function ScanFields(selfName: string, modelName: string, d: ModelDecl, j: nat, acc: map<string, Rel>): (map<string, Rel>, Outcome)
    requires Consistent(d) && j <= |d.fieldNames|
  {
    if j == 0 then (acc, Pass)
    else
      var prev := ScanFields(selfName, modelName, d, j - 1, acc);
      if prev.1.Fail? then prev else ScanNext(selfName, prev.0, CandidateOf(modelName, d, j - 1))
  }

  /** The outer loop: `additional_rels` after the first `i` models, the model
      itself skipped. */
  function ScanModels(selfName: string, models: seq<(string, ModelDecl)>, i: nat, acc: map<string, Rel>): (map<string, Rel>, Outcome)
    requires AllConsistent(models) && i <= |models|
  {
    if i == 0 then (acc, Pass)
    else
      var prev := ScanModels(selfName, models, i - 1, acc);
      if prev.1.Fail? || models[i - 1].0 == selfName then prev
      else ScanFields(selfName, models[i - 1].0, models[i - 1].1, |models[i - 1].1.fieldNames|, prev.0)
  }

  /** A scalar field whose type names the model: reading its
      `back_populates` raises `AttributeError`. */
  predicate ScalarToSelf(selfName: string, c: Candidate) {
    c.field.fieldType == selfName && !c.field.kind.IsRelation()
  }

  /** Field `q` of model `m` is a candidate: `m` is another model and has a field `q`. */
  predicate IsCandidate(selfName: string, models: seq<(string, ModelDecl)>, m: int, q: int) {
    0 <= m < |models| && models[m].0 != selfName && 0 <= q < |models[m].1.fieldNames|
  }

  lemma {:induction false} ScanFieldsFails(selfName: string, modelName: string, d: ModelDecl, j: nat, acc: map<string, Rel>)
    requires Consistent(d) && j <= |d.fieldNames|
    ensures ScanFields(selfName, modelName, d, j, acc).1.Pass? <==>
      forall q :: 0 <= q < j ==> !ScalarToSelf(selfName, CandidateOf(modelName, d, q))
  {
    if j > 0 {
      ScanFieldsFails(selfName, modelName, d, j - 1, acc);
    }
  }

  /** The scan succeeds unless a scalar field of another model has the
      model's name as its type. */
  lemma {:induction false} ScanModelsFails(selfName: string, models: seq<(string, ModelDecl)>, i: nat, acc: map<string, Rel>)
    requires AllConsistent(models) && i <= |models|
    ensures ScanModels(selfName, models, i, acc).1.Pass? <==>
      forall m, q :: IsCandidate(selfName, models, m, q) && m < i ==>
        !ScalarToSelf(selfName, CandidateOf(models[m].0, models[m].1, q))
  {
    if i > 0 {
      ScanModelsFails(selfName, models, i - 1, acc);
      var prev := ScanModels(selfName, models, i - 1, acc);
      var (n, d) := models[i - 1];
      ScanFieldsFails(selfName, n, d, |d.fieldNames|, prev.0);
    }
  }

  /** Candidate `c` accounts for the entry `rel` under `bp`: it is a relation
      field targeting this model that names `bp` as its `back_populates`, and
      the entry points back to it, with the pair (declaring model, this
      model) for a many-to-many field. */
  predicate Justifies(selfName: string, c: Candidate, bp: string, rel: Rel) {
    && c.field.kind.IsRelation() && c.field.fieldType == selfName
    && c.field.backPopulatesParam == Some(bp)
    && rel == Rel(c.modelName, c.fieldName,
         if c.field.kind == ManyToManyField then Some((c.modelName, selfName)) else None)
  }

  lemma {:induction false} ScanFieldsSound(selfName: string, modelName: string, d: ModelDecl, j: nat, acc: map<string, Rel>)
    requires Consistent(d) && j <= |d.fieldNames|
    ensures var r := ScanFields(selfName, modelName, d, j, acc).0;
      forall bp :: bp in r ==>
        (bp in acc && r[bp] == acc[bp]) || exists q :: 0 <= q < j && Justifies(selfName, CandidateOf(modelName, d, q), bp, r[bp])
  {
    if j > 0 {
      ScanFieldsSound(selfName, modelName, d, j - 1, acc);
      var prev := ScanFields(selfName, modelName, d, j - 1, acc);
      var r := ScanFields(selfName, modelName, d, j, acc).0;
      var c := CandidateOf(modelName, d, j - 1);
      forall bp | bp in r
        ensures (bp in acc && r[bp] == acc[bp]) || exists q :: 0 <= q < j && Justifies(selfName, CandidateOf(modelName, d, q), bp, r[bp])
      {
        if prev.1.Pass? && BackRef(selfName, c) && c.field.backPopulatesParam.value == bp {
          assert Justifies(selfName, c, bp, r[bp]);
        } else {
          assert bp in prev.0 && r[bp] == prev.0[bp];
        }
      }
    }
  }

  /** Some field of one of the first `i` models, other than the model
      itself, accounts for the entry `rel` under `bp`. */
  ghost predicate Justified(selfName: string, models: seq<(string, ModelDecl)>, i: int, bp: string, rel: Rel)
    requires AllConsistent(models)
  {
    exists m, q :: IsCandidate(selfName, models, m, q) && m < i
      && Justifies(selfName, CandidateOf(models[m].0, models[m].1, q), bp, rel)
  }

  /** Every entry the scan adds comes from a field of another model that
      targets this one. */
  lemma {:induction false} ScanModelsSound(selfName: string, models: seq<(string, ModelDecl)>, i: nat)
    requires AllConsistent(models) && i <= |models|
    ensures forall bp :: bp in ScanModels(selfName, models, i, map[]).0 ==>
      Justified(selfName, models, i, bp, ScanModels(selfName, models, i, map[]).0[bp])
  {
    if i > 0 {
      ScanModelsSound(selfName, models, i - 1);
      var prev := ScanModels(selfName, models, i - 1, map[]);
      var (n, d) := models[i - 1];
      var r := ScanModels(selfName, models, i, map[]).0;
      if prev.1.Pass? && n != selfName {
        ScanFieldsSound(selfName, n, d, |d.fieldNames|, prev.0);
      }
      forall bp | bp in r
        ensures Justified(selfName, models, i, bp, r[bp])
      {
        if bp in prev.0 && r[bp] == prev.0[bp] {
          assert Justified(selfName, models, i - 1, bp, prev.0[bp]);
          var m, q :| IsCandidate(selfName, models, m, q) && m < i - 1
            && Justifies(selfName, CandidateOf(models[m].0, models[m].1, q), bp, prev.0[bp]);
          assert IsCandidate(selfName, models, m, q) && m < i;
        } else {
          var q :| 0 <= q < |d.fieldNames| && Justifies(selfName, CandidateOf(n, d, q), bp, r[bp]);
          assert IsCandidate(selfName, models, i - 1, q);
        }
      }
    }
  }

  /** A relation field targeting this model that names a `back_populates`. */
  predicate BackRef(selfName: string, c: Candidate) {
    c.field.kind.IsRelation() && c.field.fieldType == selfName && c.field.backPopulatesParam.Some?
  }

  lemma {:induction false} ScanFieldsComplete(selfName: string, modelName: string, d: ModelDecl, j: nat, acc: map<string, Rel>)
    requires Consistent(d) && j <= |d.fieldNames|
    requires ScanFields(selfName, modelName, d, j, acc).1.Pass?
    ensures var r := ScanFields(selfName, modelName, d, j, acc).0;
      && acc.Keys <= r.Keys
      && forall q :: 0 <= q < j && BackRef(selfName, CandidateOf(modelName, d, q)) ==>
           CandidateOf(modelName, d, q).field.backPopulatesParam.value in r
  {
    if j > 0 {
      ScanFieldsComplete(selfName, modelName, d, j - 1, acc);
    }
  }

  /** Every relation field of another model that targets this model and
      names a `back_populates` leaves an entry under that name, unless an
      error stops the scan. */
  lemma {:induction false} ScanModelsComplete(selfName: string, models: seq<(string, ModelDecl)>, i: nat, acc: map<string, Rel>)
    requires AllConsistent(models) && i <= |models|
    requires ScanModels(selfName, models, i, acc).1.Pass?
    ensures var r := ScanModels(selfName, models, i, acc).0;
      && acc.Keys <= r.Keys
      && forall m, q :: (IsCandidate(selfName, models, m, q) && m < i
           && BackRef(selfName, CandidateOf(models[m].0, models[m].1, q))) ==>
           CandidateOf(models[m].0, models[m].1, q).field.backPopulatesParam.value in r
  {
    if i > 0 {
      ScanModelsComplete(selfName, models, i - 1, acc);
      var prev := ScanModels(selfName, models, i - 1, acc);
      var (n, d) := models[i - 1];
      if n != selfName {
        ScanFieldsComplete(selfName, n, d, |d.fieldNames|, prev.0);
      }
    }
  }

  /** The scan after field `j`, when the scan so far has passed. */
  lemma FieldStep(selfName: string, modelName: string, d: ModelDecl, j: nat, acc: map<string, Rel>, rels: map<string, Rel>)
    requires Consistent(d) && j < |d.fieldNames|
    requires ScanFields(selfName, modelName, d, j, acc) == (rels, Pass)
    ensures ScanFields(selfName, modelName, d, j + 1, acc) == ScanNext(selfName, rels, CandidateOf(modelName, d, j))
  {
  }

  /** Once the scan of a model's fields has failed, later fields leave it alone. */
  lemma {:induction false} FieldsStopped(selfName: string, modelName: string, d: ModelDecl, j: nat, k: nat, acc: map<string, Rel>)
    requires Consistent(d) && j <= k <= |d.fieldNames|
    requires ScanFields(selfName, modelName, d, j, acc).1.Fail?
    ensures ScanFields(selfName, modelName, d, k, acc) == ScanFields(selfName, modelName, d, j, acc)
    decreases k
  {
    if j < k {
      FieldsStopped(selfName, modelName, d, j, k - 1, acc);
    }
  }

  /** The outer scan after model `i`, given the inner scan over its fields. */
  lemma ModelStep(selfName: string, models: seq<(string, ModelDecl)>, i: nat, acc: map<string, Rel>,
                  start: map<string, Rel>, rels: map<string, Rel>)
    requires AllConsistent(models) && i < |models|
    requires ScanModels(selfName, models, i, acc) == (start, Pass)
    requires models[i].0 == selfName ==> rels == start
    requires models[i].0 != selfName ==>
      ScanFields(selfName, models[i].0, models[i].1, |models[i].1.fieldNames|, start) == (rels, Pass)
    ensures ScanModels(selfName, models, i + 1, acc) == (rels, Pass)
  {
  }

  /** A scalar field of another model typed with this model's name ends the
      whole scan with `AttributeError`, keeping the entries recorded so far. */
  lemma ScanFailsAt(selfName: string, models: seq<(string, ModelDecl)>, i: nat, j: nat, acc: map<string, Rel>,
                    start: map<string, Rel>, rels: map<string, Rel>)
    requires AllConsistent(models) && i < |models| && models[i].0 != selfName
    requires j < |models[i].1.fieldNames|
    requires ScanModels(selfName, models, i, acc) == (start, Pass)
    requires ScanFields(selfName, models[i].0, models[i].1, j, start) == (rels, Pass)
    requires ScalarToSelf(selfName, CandidateOf(models[i].0, models[i].1, j))
    ensures ScanModels(selfName, models, |models|, acc) == (rels, Fail(AttributeError("back_populates")))
  {
    var (n, d) := models[i];
    assert ScanFields(selfName, n, d, j + 1, start) == (rels, Fail(AttributeError("back_populates")));
    FieldsStopped(selfName, n, d, j + 1, |d.fieldNames|, start);
    ModelsStopped(selfName, models, i + 1, |models|, acc);
  }

  /** Once the scan has failed, later models leave it alone. */
  lemma {:induction false} ModelsStopped(selfName: string, models: seq<(string, ModelDecl)>, i: nat, k: nat, acc: map<string, Rel>)
    requires AllConsistent(models) && i <= k <= |models|
    requires ScanModels(selfName, models, i, acc).1.Fail?
    ensures ScanModels(selfName, models, k, acc) == ScanModels(selfName, models, i, acc)
    decreases k
  {
    if i < k {
      ModelsStopped(selfName, models, i, k - 1, acc);
    }
  }

  /** A model of the project. */
  class StatikModel {
    const name: string
    const modelNames: seq<string>
    var fields: map<string, Field>
    var fieldNames: seq<string>
    var contentField: Option<string>
    var additionalRels: map<string, Rel>
    var foreignModels: set<string>

    constructor (name: string, modelNames: seq<string>)
      ensures this.name == name && this.modelNames == modelNames
      ensures Snapshot() == NoFields && additionalRels == map[]
    {
      this.name := name;
      this.modelNames := modelNames;
      fields := map[];
      fieldNames := [];
      contentField := None;
      additionalRels := map[];
      foreignModels := {};
    }

    function Snapshot(): Built
      reads this
    {
      Built(fields, fieldNames, contentField, foreignModels)
    }

    /** What other models see of this one. */
    function Decl(): ModelDecl
      reads this
    {
      ModelDecl(fieldNames, fields)
    }

    /** The field-building loop of the constructor, over the declarations
        of the model's variables in order. */
    method BuildFields(ds: seq<Decl>) returns (o: Outcome)
      requires NamedAfterKeys(ds) && Snapshot() == NoFields
      modifies this`fields, this`fieldNames, this`contentField, this`foreignModels
      ensures var r := BuildAll(name, ds);
        && (o.Pass? <==> r.Success?)
        && (r.Success? ==> Snapshot() == r.value)
        && (r.Failure? ==> o == Fail(r.error))
    {
      var i := 0;
      while i < |ds|
        invariant 0 <= i <= |ds|
        invariant BuildTo(name, ds, i) == Success(Snapshot())
      {
        BuildNext(name, ds, i, Snapshot());
        var step := AddDeclared(ds[i]);
        if step.Fail? {
          BuildStopped(name, ds, i + 1, |ds|);
          return step;
        }
        i := i + 1;
      }
      return Pass;
    }

    /** One round of the field-building loop: a second `Content` field is
        refused, the field name is listed, and the field is stored, its
        target recorded when it is a relationship; a type that builds no
        field raises its error. */
    method AddDeclared(d: Decl) returns (o: Outcome)
      requires d.field.Success? ==> d.field.value.name == UnderscoreKey(d.key)
      modifies this`fields, this`fieldNames, this`contentField, this`foreignModels
      ensures var r := BuildStep(name, old(Snapshot()), d);
        && (o.Pass? <==> r.Success?)
        && (r.Success? ==> Snapshot() == r.value)
        && (r.Failure? ==> o == Fail(r.error))
    {
      var fieldName := d.key;
      if d.isContent {
        if contentField.Some? {
          return Fail(ModelError(name, "Only one \"Content\" field is allowed per model."));
        }
        contentField := Some(fieldName);
      }
      var newFieldName := UnderscoreKey(fieldName);
      fieldNames := fieldNames + [newFieldName];
      if d.field.Failure? {
        return Fail(d.field.error);
      }
      var newField := d.field.value;
      fields := fields[newFieldName := newField];
      if newField.kind.IsRelation() {
        foreignModels := foreignModels + {newField.fieldType};
      }
      o := Pass;
    }

    /** `find_additional_rels(all_models)`: scans the fields of every other
        model, in order, and records the relationships that point here. */
    method FindAdditionalRels(allModels: seq<(string, ModelDecl)>) returns (o: Outcome)
      requires AllConsistent(allModels)
      modifies this`additionalRels
      ensures (additionalRels, o) == ScanModels(name, allModels, |allModels|, old(additionalRels))
    {
      var rels := additionalRels;
      ghost var acc := rels;
      var i := 0;
      while i < |allModels|
        invariant 0 <= i <= |allModels|
        invariant ScanModels(name, allModels, i, acc) == (rels, Pass)
      {
        var modelName := allModels[i].0;
        var model := allModels[i].1;
        ghost var start := rels;
        if modelName != name {
          var j := 0;
          while j < |model.fieldNames|
            invariant 0 <= j <= |model.fieldNames|
            invariant ScanFields(name, modelName, model, j, start) == (rels, Pass)
          {
            var fieldName := model.fieldNames[j];
            var field := model.fields[fieldName];
            FieldStep(name, modelName, model, j, start, rels);
            ghost var c := Candidate(modelName, fieldName, field);
            assert c == CandidateOf(modelName, model, j);
            if field.fieldType == name {
              if !field.kind.IsRelation() {
                ScanFailsAt(name, allModels, i, j, acc, start, rels);
                // the entries recorded before the error stay in place
                additionalRels := rels;
                return Fail(AttributeError("back_populates"));
              }
              if field.backPopulatesParam.Some? {
                rels := rels[field.backPopulatesParam.value := Rel(
                  modelName, fieldName,
                  if field.kind == ManyToManyField then Some((modelName, field.fieldType)) else None)];
              }
            }
            j := j + 1;
          }
        }
        ModelStep(name, allModels, i, acc, start, rels);
        i := i + 1;
      }
      additionalRels := rels;
      o := Pass;
    }
  }

  /** `StatikModel(name=..., filename=..., model_names=...)` over the
      variables already loaded from the model's YAML declaration. */
  method NewStatikModel(name: Option<string>, filename: Option<string>,
                        modelNames: Option<seq<string>>, vars: Dict)
    returns (r: Result<StatikModel>)
    requires Listed(vars)
    ensures name.None? && filename.None? ==> r == Failure(MissingParameterError("name"))
    ensures (name.Some? || filename.Some?) && modelNames.None? ==> r == Failure(MissingParameterError("model_names"))
    ensures r.Success? ==> (fresh(r.value)
      && r.value.name == (if name.Some? then name.value else ExtractFilename(filename.value))
      && modelNames.Some? && r.value.modelNames == modelNames.value
      && r.value.additionalRels == map[]
      && BuildAll(r.value.name, Declarations(r.value.name, r.value.modelNames, vars)) == Success(r.value.Snapshot()))
    ensures (name.Some? || filename.Some?) && modelNames.Some? ==>
      var n := if name.Some? then name.value else ExtractFilename(filename.value);
      var b := BuildAll(n, Declarations(n, modelNames.value, vars));
      (r.Success? <==> b.Success?) && (b.Failure? ==> r == Failure(b.error))
  {
    var modelName;
    if name.Some? {
      modelName := name.value;
    } else if filename.Some? {
      modelName := ExtractFilename(filename.value);
    } else {
      return Failure(MissingParameterError("name"));
    }
    if modelNames.None? {
      return Failure(MissingParameterError("model_names"));
    }
    var m := new StatikModel(modelName, modelNames.value);
    var ds := Declarations(modelName, modelNames.value, vars);
    DeclarationsNamed(modelName, modelNames.value, vars);
    var o := m.BuildFields(ds);
    if o.Fail? {
      return Failure(o.error);
    }
    return Success(m);
  }
}

=== FILE: pagination.dfy ===
/** statik/pagination.py: splitting the results of a query into numbered pages.
    The database query is represented by the list of records it returns; `offset`
    and `limit` on it become slicing of that list. */
module Pagination {
  import opened Common
  import opened PyStr

  /** `int(math.ceil(float(a) / float(b)))`, computed on integers. */
  function CeilDiv(a: int, b: int): int
    requires b > 0
  {
    -((-a) / b)
  }

  /** The ceiling of `a / b`: the least `r` with `a <= r * b`. */
  lemma CeilDivBounds(a: int, b: int)
    requires b > 0
    ensures (CeilDiv(a, b) - 1) * b < a <= CeilDiv(a, b) * b
  {
    var q := (-a) / b;
    assert q * b <= -a < q * b + b;
  }

  /** A list holding `lo, lo + 1, ...` up to `hi` is `range(lo, hi)`. */
  lemma RangeFromPoints(s: seq<int>, lo: int, hi: int)
    requires |s| == (if hi <= lo then 0 else hi - lo)
    requires forall i :: 0 <= i < |s| ==> s[i] == lo + i
    ensures s == Range(lo, hi)
  {
  }

  /** `range(lo, hi)`. */
  function Range(lo: int, hi: int): (r: seq<int>)
    ensures |r| == if hi <= lo then 0 else hi - lo
    ensures forall i :: 0 <= i < |r| ==> r[i] == lo + i
    decreases hi - lo
  {
    if hi <= lo then [] else [lo] + Range(lo + 1, hi)
  }

  /** `query.offset(off).limit(n).all()` on a query returning `s`. */
  function Slice<T>(s: seq<T>, off: nat, n: nat): (r: seq<T>)
    ensures |r| <= n
    ensures off + n <= |s| ==> r == s[off..off + n]
    ensures off <= |s| < off + n ==> r == s[off..]
    ensures |s| < off ==> r == []
  {
    if |s| <= off then [] else if |s| < off + n then s[off..] else s[off..off + n]
  }

  class Paginator<T> {
    const dbQuery: seq<T>
    const itemsPerPage: int
    const offset: nat
    const startPage: int
    const totalItems: int
    const totalPages: int
    const lastPage: int
    const pageRange: seq<int>

    /** `Paginator(db_query, items_per_page, offset, start_page)`. */
    constructor (dbQuery: seq<T>, itemsPerPage: int, offset: nat, startPage: int)
      requires itemsPerPage > 0
      ensures this.dbQuery == dbQuery && this.itemsPerPage == itemsPerPage
      ensures this.offset == offset && this.startPage == startPage
      ensures Valid()
    {
      this.dbQuery := dbQuery;
      this.itemsPerPage := itemsPerPage;
      this.offset := offset;
      this.startPage := startPage;
      var total := |dbQuery| - offset;
      var pages := CeilDiv(total, itemsPerPage);
      this.totalItems := total;
      this.totalPages := pages;
      this.lastPage := startPage + pages - 1;
      this.pageRange := Range(startPage, startPage + pages);
    }

    /** The derived counts agree with the query: the items after the offset,
        that many divided into pages rounding up, numbered from `startPage`. */
    predicate Valid() {
      itemsPerPage > 0
      && totalItems == |dbQuery| - offset
      && totalPages == CeilDiv(totalItems, itemsPerPage)
      && lastPage == startPage + totalPages - 1
      && pageRange == Range(startPage, lastPage + 1)
    }

    /** `empty()`. */
    predicate Empty()
      requires Valid()
    {
      totalPages == 0
    }

    /** The records on page `page`. */
    function PageItems(page: int): (r: seq<T>)
      requires Valid() && startPage <= page <= lastPage
      ensures |r| <= itemsPerPage
    {
      Slice(dbQuery, offset + (page - startPage) * itemsPerPage, itemsPerPage)
    }

    /** `paginator[page]`: `IndexError` outside `startPage..lastPage`. */
    method GetPage(page: int) returns (r: Result<Page<T>>)
      requires Valid()
      ensures page < startPage || page > lastPage ==> r == Failure(IndexError(page))
      ensures startPage <= page <= lastPage ==>
        r.Success? && fresh(r.value) && r.value.Valid() && r.value.paginator == this
        && r.value.number == page && r.value.items == PageItems(page)
    {
      if page < startPage || page > lastPage {
        return Failure(IndexError(page));
      }
      var p := new Page(this, page, PageItems(page));
      return Success(p);
    }

    /** `iter(paginator)`. */
    method Iter() returns (it: PaginatorIterator<T>)
      requires Valid()
      ensures fresh(it) && it.paginator == this && it.curPage == startPage
    {
      it := new PaginatorIterator(this, startPage);
    }
  }

  class Page<T> {
    const paginator: Paginator<T>
    const number: int
    const number0: int
    const items: seq<T>
    const count: int
    const totalItems: int
    const itemsPerPage: int
    const totalPages: int
    const pageRange: seq<int>
    const startPage: int
    const lastPage: int

    /** `Page(paginator, number, items)`: copies the paginator's counts. */
    constructor (paginator: Paginator<T>, number: int, items: seq<T>)
      requires paginator.Valid()
      ensures this.paginator == paginator && this.number == number && this.items == items
      ensures Valid()
    {
      this.paginator := paginator;
      this.number := number;
      this.number0 := number - 1;
      this.items := items;
      this.count := |items|;
      this.totalItems := paginator.totalItems;
      this.itemsPerPage := paginator.itemsPerPage;
      this.totalPages := paginator.totalPages;
      this.pageRange := paginator.pageRange;
      this.startPage := paginator.startPage;
      this.lastPage := paginator.lastPage;
    }

    predicate Valid() {
      paginator.Valid()
      && number0 == number - 1 && count == |items|
      && totalItems == paginator.totalItems && itemsPerPage == paginator.itemsPerPage
      && totalPages == paginator.totalPages && pageRange == paginator.pageRange
      && startPage == paginator.startPage && lastPage == paginator.lastPage
    }

    /** `has_next`. */
    predicate HasNext() { number < lastPage }

    /** `has_previous`. */
    predicate HasPrevious() { number > startPage }

    /** `len(page)`. */
    function Len(): (n: nat)
      requires Valid()
      ensures n == |items|
    {
      count
    }

    /** `str(page)`: the page number in decimal. */
    function Str(): string {
      IntToString(number)
    }

    /** `iter(page)`. */
    method Iter() returns (it: PageIterator<T>)
      requires Valid()
      ensures fresh(it) && it.page == this && it.curItem == 0
    {
      it := new PageIterator(this);
    }
  }

  class PageIterator<T> {
    const page: Page<T>
    var curItem: int

    constructor (page: Page<T>)
      ensures this.page == page && curItem == 0
    {
      this.page := page;
      curItem := 0;
    }

    /** `next()`: the next item of the page, or `None` for `StopIteration`. */
    method Next() returns (r: Option<T>)
      requires page.Valid() && 0 <= curItem
      modifies this
      ensures old(curItem) >= page.count ==> r == None && curItem == old(curItem)
      ensures old(curItem) < page.count ==> r == Some(page.items[old(curItem)]) && curItem == old(curItem) + 1
    {
      if curItem >= page.count {
        return None;
      }
      curItem := curItem + 1;
      return Some(page.items[curItem - 1]);
    }
  }

  class PaginatorIterator<T> {
    const paginator: Paginator<T>
    var curPage: int

    constructor (paginator: Paginator<T>, startPage: int)
      ensures this.paginator == paginator && curPage == startPage
    {
      this.paginator := paginator;
      curPage := startPage;
    }

    /** `next()`: the next page, `None` for `StopIteration` once past the last page. */
    method Next() returns (r: Result<Option<Page<T>>>)
      requires paginator.Valid()
      modifies this
      ensures old(curPage) > paginator.lastPage ==> r == Success(None) && curPage == old(curPage)
      ensures old(curPage) <= paginator.lastPage ==> curPage == old(curPage) + 1
      ensures paginator.startPage <= old(curPage) <= paginator.lastPage ==>
        r.Success? && r.value.Some? && fresh(r.value.value) && r.value.value.Valid()
        && r.value.value.number == old(curPage) && r.value.value.items == paginator.PageItems(old(curPage))
      ensures old(curPage) < paginator.startPage && old(curPage) <= paginator.lastPage ==>
        r == Failure(IndexError(old(curPage)))
    {
      if curPage > paginator.lastPage {
        return Success(None);
      }
      curPage := curPage + 1;
      var p := paginator.GetPage(curPage - 1);
      if p.Failure? {
        return Failure(p.error);
      }
      return Success(Some(p.value));
    }
  }

  /** `paginate(db_query, items_per_page, offset, start_page)`. */
  method Paginate<T>(dbQuery: seq<T>, itemsPerPage: int, offset: nat, startPage: int) returns (p: Paginator<T>)
    requires itemsPerPage > 0
    ensures fresh(p) && p.Valid() && p.dbQuery == dbQuery && p.itemsPerPage == itemsPerPage
    ensures p.offset == offset && p.startPage == startPage
  {
    p := new Paginator(dbQuery, itemsPerPage, offset, startPage);
  }

  /** The records of the pages `startPage .. startPage + k - 1`, in order. */
  function PagesFrom<T>(p: Paginator<T>, k: nat): seq<T>
    requires p.Valid() && k <= PageCount(p)
  {
    if k == 0 then [] else PagesFrom(p, k - 1) + p.PageItems(p.startPage + k - 1)
  }

  /** The number of pages iteration visits: `totalPages`, or none when the
      offset lies beyond the last record. */
  function PageCount<T>(p: Paginator<T>): (n: nat)
    requires p.Valid()
    ensures n == 0 <==> p.offset >= |p.dbQuery|
  {
    CeilDivBounds(p.totalItems, p.itemsPerPage);
    if p.totalPages < 0 then 0 else p.totalPages
  }

  /** `empty()` holds exactly when the offset lies within one page's size at
      or past the end of the records. An offset a whole page or more past the
      end leaves `empty()` false although there is no page. */
  lemma EmptyMeaning<T>(p: Paginator<T>)
    requires p.Valid()
    ensures p.Empty() <==> |p.dbQuery| <= p.offset < |p.dbQuery| + p.itemsPerPage
    ensures p.Empty() ==> PageCount(p) == 0
    ensures p.offset >= |p.dbQuery| + p.itemsPerPage ==> !p.Empty() && PageCount(p) == 0
  {
    CeilDivBounds(p.totalItems, p.itemsPerPage);
  }

  /** Read in order, the pages hold exactly the records after the offset. */
  lemma PagesCoverRecords<T>(p: Paginator<T>)
    requires p.Valid()
    ensures PagesFrom(p, PageCount(p)) == if p.offset <= |p.dbQuery| then p.dbQuery[p.offset..] else []
  {
    if p.totalPages > 0 {
      CeilDivBounds(p.totalItems, p.itemsPerPage);
      PagesPrefix(p, p.totalPages);
      assert p.totalItems <= p.totalPages * p.itemsPerPage;
    }
  }

  /** Where the first `k` pages end: `k` pages' worth of records after the
      offset, or the end of the records. */
  function PrefixEnd<T>(p: Paginator<T>, k: nat): int
    requires p.Valid()
  {
    var hi := p.offset + k * p.itemsPerPage;
    if hi <= |p.dbQuery| then hi else |p.dbQuery|
  }

  lemma {:induction false} PagesPrefix<T>(p: Paginator<T>, k: nat)
    requires p.Valid() && k <= PageCount(p) && p.offset <= |p.dbQuery|
    ensures p.offset <= PrefixEnd(p, k) && PagesFrom(p, k) == p.dbQuery[p.offset..PrefixEnd(p, k)]
  {
    if k > 0 {
      PagesPrefix(p, k - 1);
      PageStep(p, k);
      SliceAppend(p.dbQuery, p.offset, PrefixEnd(p, k - 1), p.itemsPerPage);
    }
  }

  /** Page `k - 1` starts where the first `k - 1` pages end, before the last record. */
  lemma PageStep<T>(p: Paginator<T>, k: nat)
    requires p.Valid() && 0 < k <= PageCount(p)
    ensures var lo := PrefixEnd(p, k - 1);
      p.offset <= lo < |p.dbQuery|
      && PrefixEnd(p, k) == (if lo + p.itemsPerPage <= |p.dbQuery| then lo + p.itemsPerPage else |p.dbQuery|)
      && p.PageItems(p.startPage + k - 1) == Slice(p.dbQuery, lo, p.itemsPerPage)
  {
    CeilDivBounds(p.totalItems, p.itemsPerPage);
    PageArith(p.offset, |p.dbQuery|, p.itemsPerPage, p.totalPages, k);
  }

  /** Records `a..b` followed by the page of `n` records at `b` are the records
      from `a` up to `b + n`, or to the end. */
  lemma SliceAppend<T>(s: seq<T>, a: nat, b: nat, n: nat)
    requires a <= b < |s|
    ensures s[a..b] + Slice(s, b, n) == s[a..if b + n <= |s| then b + n else |s|]
  {
    var hi := if b + n <= |s| then b + n else |s|;
    assert Slice(s, b, n) == s[b..hi];
    assert s[a..b] + s[b..hi] == s[a..hi];
  }

  lemma PageArith(off: int, q: int, ipp: int, tp: int, k: int)
    requires ipp > 0 && 0 < k <= tp && (tp - 1) * ipp < q - off
    ensures off + k * ipp == off + (k - 1) * ipp + ipp
    ensures off + (k - 1) * ipp < q
  {
    assert (k - 1) * ipp <= (tp - 1) * ipp;
  }

  /** Every page holds at least one record, and all but the last are full. */
  lemma PageSizes<T>(p: Paginator<T>, page: int)
    requires p.Valid() && p.startPage <= page <= p.lastPage
    ensures 0 < |p.PageItems(page)|
    ensures page < p.lastPage ==> |p.PageItems(page)| == p.itemsPerPage
    ensures page == p.lastPage ==> |p.PageItems(page)| == p.totalItems - (p.totalPages - 1) * p.itemsPerPage
  {
    var k := page - p.startPage;
    CeilDivBounds(p.totalItems, p.itemsPerPage);
    PageBounds(k, p.totalPages, p.itemsPerPage, p.totalItems);
    SliceSize(p.dbQuery, p.offset, k * p.itemsPerPage, p.itemsPerPage);
  }

  /** Where page `k` (counted from 0) of `tp` pages of `ipp` items starts, among `total` items. */
  lemma PageBounds(k: int, tp: int, ipp: int, total: int)
    requires ipp > 0 && 0 <= k < tp && (tp - 1) * ipp < total <= tp * ipp
    ensures 0 <= k * ipp < total
    ensures k < tp - 1 ==> k * ipp + ipp < total
    ensures k == tp - 1 ==> total <= k * ipp + ipp && k * ipp == (tp - 1) * ipp
  {
    assert k * ipp <= (tp - 1) * ipp;
    if k < tp - 1 {
      assert (k + 1) * ipp <= (tp - 1) * ipp;
    }
  }

  /** The size of the slice of `n` records starting `l` records after `off`. */
  lemma SliceSize<T>(s: seq<T>, off: nat, l: nat, n: nat)
    requires off + l < |s| && n > 0
    ensures 0 < |Slice(s, off + l, n)|
    ensures off + l + n < |s| ==> |Slice(s, off + l, n)| == n
    ensures |s| - off <= l + n ==> |Slice(s, off + l, n)| == |s| - off - l
  {
  }

  /** The boundary flags: a page has a successor iff it is not the last one and
      a predecessor iff it is not the first one. */
  lemma PageFlags<T>(pg: Page<T>)
    requires pg.Valid() && pg.startPage <= pg.number <= pg.lastPage
    ensures pg.HasNext() <==> pg.number != pg.paginator.lastPage
    ensures pg.HasPrevious() <==> pg.number != pg.paginator.startPage
    ensures pg.paginator.totalPages == 1 ==> !pg.HasNext() && !pg.HasPrevious()
  {
  }

  /** Reading back `str(page)` gives the page number. */
  lemma PageStrRoundTrip<T>(pg: Page<T>)
    requires pg.number >= 0
    ensures AllDigits(pg.Str()) && DigitsValue(pg.Str()) == pg.number
  {
    DigitsRoundTrip(pg.number);
  }

  /** Iterating a paginator yields the pages `startPage .. lastPage`, once each,
      in increasing order. */
  method IteratePages<T>(p: Paginator<T>) returns (numbers: seq<int>)
    requires p.Valid()
    ensures numbers == p.pageRange
  {
    var it := p.Iter();
    numbers := [];
    while true
      invariant it.paginator == p && p.startPage <= it.curPage <= p.startPage + PageCount(p)
      invariant |numbers| == it.curPage - p.startPage
      invariant forall i :: 0 <= i < |numbers| ==> numbers[i] == p.startPage + i
      decreases p.startPage + PageCount(p) - it.curPage
    {
      PageCountBound(p, it.curPage - p.startPage);
      var n := it.Next();
      if n.Failure? || n.value.None? {
        break;
      }
      numbers := numbers + [n.value.value.number];
    }
    RangeFromPoints(numbers, p.startPage, p.lastPage + 1);
  }

  /** Reading the items of every page in turn yields every record after the
      offset, each once, in query order. */
  method IterateRecords<T>(p: Paginator<T>) returns (records: seq<T>)
    requires p.Valid()
    ensures records == if p.offset <= |p.dbQuery| then p.dbQuery[p.offset..] else []
  {
    var it := p.Iter();
    records := [];
    while true
      invariant it.paginator == p && p.startPage <= it.curPage <= p.startPage + PageCount(p)
      invariant records == PagesFrom(p, it.curPage - p.startPage)
      decreases p.startPage + PageCount(p) - it.curPage
    {
      ghost var k := it.curPage - p.startPage;
      PageCountBound(p, k);
      var n := it.Next();
      if n.Failure? || n.value.None? {
        break;
      }
      records := records + n.value.value.items;
      PagesFromNext(p, k);
    }
    PagesCoverRecords(p);
  }

  /** Page `startPage + k` exists exactly when fewer than `PageCount` pages precede it. */
  lemma PageCountBound<T>(p: Paginator<T>, k: nat)
    requires p.Valid()
    ensures p.startPage + k <= p.lastPage <==> k < PageCount(p)
  {
  }

  /** One more page read extends the records read so far by that page. */
  lemma PagesFromNext<T>(p: Paginator<T>, k: nat)
    requires p.Valid() && k < PageCount(p)
    ensures PagesFrom(p, k + 1) == PagesFrom(p, k) + p.PageItems(p.startPage + k)
  {
  }

  /** Iterating a page yields its records in order. */
  method IterateItems<T>(pg: Page<T>) returns (items: seq<T>)
    requires pg.Valid()
    ensures items == pg.items
  {
    var it := pg.Iter();
    items := [];
    while true
      invariant it.page == pg && 0 <= it.curItem <= pg.count
      invariant items == pg.items[..it.curItem]
      decreases pg.count - it.curItem
    {
      var x := it.Next();
      if x.None? {
        break;
      }
      items := items + [x.value];
    }
  }
}

=== FILE: strings.dfy ===
/** The Python `str` operations Statik relies on, over `string` (a sequence of
    Unicode scalar values, as Python 3 strings are). */
module PyStr {
  import opened Common

  /** The characters for which Python's `str.isspace()` holds; these are the
      characters `strip()` removes when called without an argument. */
  const Whitespace: set<char> := {
    '\t', '\n', '\U{000B}', '\U{000C}', '\r', '\U{001C}', '\U{001D}', '\U{001E}', '\U{001F}', ' ',
    '\U{0085}', '\U{00A0}', '\U{1680}', '\U{2000}', '\U{2001}', '\U{2002}', '\U{2003}', '\U{2004}',
    '\U{2005}', '\U{2006}', '\U{2007}', '\U{2008}', '\U{2009}', '\U{200A}', '\U{2028}', '\U{2029}',
    '\U{202F}', '\U{205F}', '\U{3000}'}

  predicate IsSpace(c: char) { c in Whitespace }

  predicate IsDigit(c: char) { '0' <= c <= '9' }

  predicate AllDigits(s: string) { forall i :: 0 <= i < |s| ==> IsDigit(s[i]) }

  /** Where the run of characters of `cs` that starts at `i` ends. */
  function LeadEnd(s: string, cs: set<char>, i: nat): (n: nat)
    requires i <= |s|
    ensures i <= n <= |s| && forall k :: i <= k < n ==> s[k] in cs
    ensures n == |s| || s[n] !in cs
    decreases |s| - i
  {
    if i < |s| && s[i] in cs then LeadEnd(s, cs, i + 1) else i
  }

  /** Where the run of characters of `cs` that ends at `j` starts, scanning
      back no further than `lo`. */
  function TrailStart(s: string, cs: set<char>, lo: nat, j: nat): (n: nat)
    requires lo <= j <= |s|
    ensures lo <= n <= j && forall k :: n <= k < j ==> s[k] in cs
    ensures n == lo || s[n - 1] !in cs
    decreases j
  {
    if j > lo && s[j - 1] in cs then TrailStart(s, cs, lo, j - 1) else j
  }

  /** `s.lstrip(chars)`: the longest suffix of `s` that does not start with a
      character of `cs`. */
  function LStrip(s: string, cs: set<char>): (r: string)
    ensures EndsWith(s, r)
    ensures forall i :: 0 <= i < |s| - |r| ==> s[i] in cs
    ensures r == [] || r[0] !in cs
  {
    s[LeadEnd(s, cs, 0)..]
  }

  /** `s.rstrip(chars)`: the longest prefix of `s` that does not end with a
      character of `cs`. */
  function RStrip(s: string, cs: set<char>): (r: string)
    ensures OccursAt(s, r, 0)
    ensures forall i :: |r| <= i < |s| ==> s[i] in cs
    ensures r == [] || r[|r| - 1] !in cs
  {
    s[..TrailStart(s, cs, 0, |s|)]
  }

  /** How many leading characters of `cs` `strip(chars)` removes. */
  function Leading(s: string, cs: set<char>): (n: nat)
    ensures n <= |s| && forall i :: 0 <= i < n ==> s[i] in cs
    ensures n == |s| || s[n] !in cs
  {
    LeadEnd(s, cs, 0)
  }

  /** `s.strip(chars)`: `s` without leading and trailing characters of `cs`. */
  function StripChars(s: string, cs: set<char>): (r: string)
    ensures |r| <= |s|
  {
    var a := LeadEnd(s, cs, 0);
    s[a..TrailStart(s, cs, a, |s|)]
  }

  /** `strip(chars)` keeps the run of `s` that starts after the leading
      characters of `cs` and is followed only by characters of `cs`; that run
      neither starts nor ends with one of them. */
  lemma StripCharsSpec(s: string, cs: set<char>)
    ensures OccursAt(s, StripChars(s, cs), Leading(s, cs))
    ensures forall i :: Leading(s, cs) + |StripChars(s, cs)| <= i < |s| ==> s[i] in cs
    ensures var r := StripChars(s, cs); r == [] || (r[0] !in cs && r[|r| - 1] !in cs)
  {
  }

  /** A string that neither starts nor ends with a character of `cs` is its own
      `strip(chars)`; one character of `cs` added on either side is removed again. */
  lemma StripCharsFixed(s: string, cs: set<char>, c: char)
    requires c in cs
    requires |s| == 0 || (s[0] !in cs && s[|s| - 1] !in cs)
    ensures StripChars(s, cs) == s
    ensures StripChars(s + [c], cs) == s
    ensures StripChars([c] + s, cs) == s
  {
    assert StripChars(s, cs) == s by {
      assert LeadEnd(s, cs, 0) == 0;
      assert TrailStart(s, cs, 0, |s|) == |s|;
    }
    assert StripChars(s + [c], cs) == s by {
      var t := s + [c];
      assert t[|s|] == c;
      if |s| > 0 {
        assert LeadEnd(t, cs, 0) == 0;
        assert TrailStart(t, cs, 0, |s|) == |s|;
        assert TrailStart(t, cs, 0, |t|) == |s|;
      } else {
        assert LeadEnd(t, cs, 1) == 1;
      }
    }
    assert StripChars([c] + s, cs) == s by {
      var u := [c] + s;
      assert LeadEnd(u, cs, 1) == 1;
      assert LeadEnd(u, cs, 0) == 1;
      assert TrailStart(u, cs, 1, |u|) == |u|;
    }
  }

  /** How many leading whitespace characters `strip()` removes. */
  function LeadingSpace(s: string): (n: nat)
    ensures n <= |s| && forall i :: 0 <= i < n ==> IsSpace(s[i])
    ensures n == |s| || !IsSpace(s[n])
  {
    Leading(s, Whitespace)
  }

  /** `s.strip()`: `s` without leading and trailing whitespace. */
  function Strip(s: string): (r: string)
    ensures |r| <= |s|
  {
    StripChars(s, Whitespace)
  }

  /** `strip()` keeps the run of `s` that starts after the leading whitespace
      and is followed only by whitespace; that run neither starts nor ends with
      whitespace. */
  lemma StripSpec(s: string)
    ensures OccursAt(s, Strip(s), LeadingSpace(s))
    ensures forall i :: LeadingSpace(s) + |Strip(s)| <= i < |s| ==> IsSpace(s[i])
    ensures var r := Strip(s); r == [] || (!IsSpace(r[0]) && !IsSpace(r[|r| - 1]))
  {
    StripCharsSpec(s, Whitespace);
  }

  /** Stripping a string that has no surrounding whitespace leaves it alone. */
  lemma StripIdempotent(s: string)
    ensures Strip(Strip(s)) == Strip(s)
  {
    StripSpec(s);
    StripFixed(Strip(s));
  }

  /** `s.endswith(suffix)`. */
  predicate EndsWith(s: string, suffix: string) {
    |suffix| <= |s| && forall m :: 0 <= m < |suffix| ==> s[|s| - |suffix| + m] == suffix[m]
  }

  /** `sep` occurs in `s` starting at position `j`. */
  predicate OccursAt(s: string, sep: string, j: int) {
    0 <= j && j + |sep| <= |s| && forall m :: 0 <= m < |sep| ==> s[j + m] == sep[m]
  }

  ghost predicate Contains(s: string, sep: string) {
    exists j :: OccursAt(s, sep, j)
  }

  /** The first position at or after `k` where `sep` occurs in `s`. */
  function IndexFrom(s: string, sep: string, k: nat): (r: Option<nat>)
    ensures r.Some? ==> k <= r.value && r.value + |sep| <= |s|
    decreases |s| - k
  {
    if k + |sep| > |s| then None
    else if OccursAt(s, sep, k) then Some(k)
    else IndexFrom(s, sep, k + 1)
  }

  /** `IndexFrom` finds an occurrence, and none lies between `k` and it. */
  lemma {:induction false} IndexFromSpec(s: string, sep: string, k: nat)
    ensures var r := IndexFrom(s, sep, k);
      && (r.Some? ==> OccursAt(s, sep, r.value))
      && (r.Some? ==> forall j :: k <= j < r.value ==> !OccursAt(s, sep, j))
      && (r.None? ==> forall j :: k <= j ==> !OccursAt(s, sep, j))
    decreases |s| - k
  {
    if k + |sep| <= |s| && !OccursAt(s, sep, k) {
      IndexFromSpec(s, sep, k + 1);
    }
  }

  /** `s.find(sep)`, with -1 replaced by `None`. */
  function IndexOf(s: string, sep: string): (r: Option<nat>)
    ensures r.Some? ==> r.value + |sep| <= |s|
  {
    IndexFrom(s, sep, 0)
  }

  /** `s.find(sep)` is the first occurrence of `sep`, and `None` exactly when
      there is none. */
  lemma IndexOfSpec(s: string, sep: string)
    ensures var r := IndexOf(s, sep);
      && (r.Some? ==> OccursAt(s, sep, r.value))
      && (r.Some? ==> forall j :: 0 <= j < r.value ==> !OccursAt(s, sep, j))
      && (r.None? <==> !Contains(s, sep))
  {
    IndexFromSpec(s, sep, 0);
  }

  /** `s.split(sep)` for a non-empty separator: the pieces between
      successive non-overlapping occurrences, scanned from the left. */
  function Split(s: string, sep: string): (r: seq<string>)
    requires |sep| > 0
    ensures |r| >= 1
    decreases |s|
  {
    match IndexOf(s, sep)
    case None => [s]
    case Some(i) => [s[..i]] + Split(s[i + |sep|..], sep)
  }

  /** `sep.join(parts)`. */
  function Join(parts: seq<string>, sep: string): string
  {
    if |parts| == 0 then ""
    else if |parts| == 1 then parts[0]
    else parts[0] + sep + Join(parts[1..], sep)
  }

  /** Where `sep` occurs at `i`, the string is what precedes it, `sep`, and what follows. */
  lemma AroundOccurrence(s: string, sep: string, i: nat)
    requires OccursAt(s, sep, i)
    ensures s == s[..i] + sep + s[i + |sep|..]
  {
    var t := s[..i] + sep + s[i + |sep|..];
    forall k | 0 <= k < |s| ensures s[k] == t[k] {
      if i <= k < i + |sep| { assert s[i + (k - i)] == sep[k - i]; }
    }
  }

  /** Joining the pieces of a split with the same separator restores the string. */
  lemma {:induction false} SplitJoin(s: string, sep: string)
    requires |sep| > 0
    ensures Join(Split(s, sep), sep) == s
    decreases |s|
  {
    var r := IndexOf(s, sep);
    if r.Some? {
      SplitJoin(s[r.value + |sep|..], sep);
      SplitJoinStep(s, sep, r.value);
    }
  }

  /** One round of `SplitJoin`: the first piece, the separator, and the rest. */
  lemma SplitJoinStep(s: string, sep: string, i: nat)
    requires |sep| > 0 && IndexOf(s, sep) == Some(i)
    requires Join(Split(s[i + |sep|..], sep), sep) == s[i + |sep|..]
    ensures Join(Split(s, sep), sep) == s
  {
    IndexOfSpec(s, sep);
    var head, rest := s[..i], s[i + |sep|..];
    var ps := Split(rest, sep);
    assert Split(s, sep) == [head] + ps;
    assert ([head] + ps)[1..] == ps;
    assert Join([head] + ps, sep) == head + sep + Join(ps, sep);
    AroundOccurrence(s, sep, i);
  }

  /** No piece of a split contains the separator. */
  lemma {:induction false} SplitPiecesAvoidSep(s: string, sep: string)
    requires |sep| > 0
    ensures forall p :: p in Split(s, sep) ==> !Contains(p, sep)
    decreases |s|
  {
    IndexOfSpec(s, sep);
    match IndexOf(s, sep)
    case None =>
    case Some(i) =>
      var rest := s[i + |sep|..];
      SplitPiecesAvoidSep(rest, sep);
      PrefixAvoids(s, sep, i);
      assert Split(s, sep) == [s[..i]] + Split(rest, sep);
  }

  /** The part before the first occurrence does not contain `sep`. */
  lemma PrefixAvoids(s: string, sep: string, i: nat)
    requires |sep| > 0 && i <= |s|
    requires forall j :: 0 <= j < i ==> !OccursAt(s, sep, j)
    ensures !Contains(s[..i], sep)
  {
    var head := s[..i];
    forall j ensures !OccursAt(head, sep, j) {
      if 0 <= j && j + |sep| <= |head| {
        assert !OccursAt(s, sep, j);
        forall m | 0 <= m < |sep| ensures head[j + m] == sep[m] <==> s[j + m] == sep[m] {}
      }
    }
  }

  /** A string without the separator splits into itself. */
  lemma SplitWithoutSep(s: string, sep: string)
    requires |sep| > 0 && !Contains(s, sep)
    ensures Split(s, sep) == [s]
  {
    IndexOfSpec(s, sep);
  }

  /** `s.split(sep)` has more than one piece exactly when `sep` occurs in `s`. */
  lemma SplitMany(s: string, sep: string)
    requires |sep| > 0
    ensures |Split(s, sep)| > 1 <==> Contains(s, sep)
  {
    IndexOfSpec(s, sep);
  }

  lemma OccursAtChar(s: string, c: char, j: int)
    ensures OccursAt(s, [c], j) <==> 0 <= j < |s| && s[j] == c
  {
    assert [c][0] == c;
    if 0 <= j < |s| { assert s[j + 0] == s[j]; }
  }

  /** The first occurrence of a one-character separator. */
  lemma CharIndex(s: string, c: char, i: nat)
    requires i < |s| && s[i] == c
    requires forall j :: 0 <= j < i ==> s[j] != c
    ensures IndexOf(s, [c]) == Some(i)
  {
    OccursAtChar(s, c, i);
    IndexOfSpec(s, [c]);
    var r := IndexOf(s, [c]);
    assert r.Some?;
    OccursAtChar(s, c, r.value);
  }

  /** Where a one-character separator first occurs in `x + [c] + y`. */
  lemma CharIndexInConcat(x: string, c: char, y: string)
    ensures IndexOf(x + [c] + y, [c]) ==
      (if IndexOf(x, [c]).Some? then IndexOf(x, [c]) else Some(|x|))
  {
    var s := x + [c] + y;
    forall j | 0 <= j < |x|
      ensures s[j] == x[j] && (OccursAt(x, [c], j) <==> x[j] == c)
    {
      OccursAtChar(x, c, j);
    }
    IndexOfSpec(x, [c]);
    match IndexOf(x, [c])
    case Some(i) =>
      OccursAtChar(x, c, i);
      CharIndex(s, c, i);
    case None =>
      CharIndex(s, c, |x|);
  }

  /** With a one-character separator, splitting distributes over a
      concatenation around that character. */
  lemma {:induction false} SplitAroundChar(x: string, c: char, y: string)
    ensures Split(x + [c] + y, [c]) == Split(x, [c]) + Split(y, [c])
    decreases |x|
  {
    match IndexOf(x, [c])
    case Some(i) =>
      SplitAroundChar(x[i + 1..], c, y);
      SplitAtFirstChar(x, c, y, i);
      assert Split(x, [c]) == [x[..i]] + Split(x[i + 1..], [c]);
    case None =>
      SplitAroundCharBase(x, c, y);
  }

  /** `x` has no `c`: its only piece is followed by the pieces of `y`. */
  lemma SplitAroundCharBase(x: string, c: char, y: string)
    requires IndexOf(x, [c]).None?
    ensures Split(x + [c] + y, [c]) == Split(x, [c]) + Split(y, [c])
  {
    var s := x + [c] + y;
    CharIndexInConcat(x, c, y);
    assert s[|x| + 1..] == y;
    assert s[..|x|] == x;
    assert Split(s, [c]) == [x] + Split(y, [c]);
    assert Split(x, [c]) == [x];
  }

  /** `x` has its first `c` at `i`: the piece before it comes first. */
  lemma SplitAtFirstChar(x: string, c: char, y: string, i: nat)
    requires IndexOf(x, [c]) == Some(i)
    ensures Split(x + [c] + y, [c]) == [x[..i]] + Split(x[i + 1..] + [c] + y, [c])
  {
    var s := x + [c] + y;
    CharIndexInConcat(x, c, y);
    assert s[i + 1..] == x[i + 1..] + [c] + y;
    assert s[..i] == x[..i];
  }

  /** `c` does not occur in `s`. */
  predicate CharFree(s: string, c: char) {
    forall k :: 0 <= k < |s| ==> s[k] != c
  }

  /** A suffix of a suffix is a suffix; a suffix of a string without `c` has no `c`. */
  lemma EndsWithTrans(a: string, b: string, t: string, c: char)
    requires EndsWith(a, b) && EndsWith(b, t)
    ensures EndsWith(a, t)
    ensures CharFree(b, c) ==> CharFree(t, c)
  {
    forall m | 0 <= m < |t| ensures a[|a| - |t| + m] == t[m] {
      assert t[m] == b[|b| - |t| + m];
    }
    if CharFree(b, c) {
      forall m | 0 <= m < |t| ensures t[m] != c {
        assert t[m] == b[|b| - |t| + m];
      }
    }
  }

  /** A string is what precedes a suffix followed by that suffix; that prefix
      has no `c` when the string has none. */
  lemma DropSuffix(s: string, t: string, c: char)
    requires EndsWith(s, t)
    ensures s[..|s| - |t|] + t == s
    ensures CharFree(s, c) ==> CharFree(s[..|s| - |t|], c)
  {
    var p := s[..|s| - |t|];
    forall m | 0 <= m < |s| ensures (p + t)[m] == s[m] {
      if m >= |p| { assert (p + t)[m] == t[m - |p|]; }
    }
  }

  /** `last` ends `s` and, unless it is all of `s`, follows a `c`. */
  predicate PieceAfter(s: string, last: string, c: char) {
    EndsWith(s, last) && (|last| < |s| ==> s[|s| - |last| - 1] == c)
  }

  /** A piece that follows a `c` in the rest of `s` follows a `c` in `s`. */
  lemma PieceAfterExtend(s: string, i: nat, last: string, c: char)
    requires i < |s| && s[i] == c && PieceAfter(s[i + 1..], last, c)
    ensures PieceAfter(s, last, c)
  {
    if |last| == |s| - i - 1 {
      assert |s| - |last| - 1 == i;
    }
  }

  /** The last piece of a split on a single character is what follows the
      last occurrence of that character. */
  lemma {:induction false} SplitLastPiece(s: string, c: char)
    ensures var ps := Split(s, [c]); CharFree(ps[|ps| - 1], c) && PieceAfter(s, ps[|ps| - 1], c)
    decreases |s|
  {
    match IndexOf(s, [c])
    case Some(i) =>
      IndexOfSpec(s, [c]);
      OccursAtChar(s, c, i);
      var qs := Split(s[i + 1..], [c]);
      SplitLastPiece(s[i + 1..], c);
      assert Split(s, [c]) == [s[..i]] + qs;
      SplitSnocLast(s[..i], qs);
      PieceAfterExtend(s, i, qs[|qs| - 1], c);
    case None =>
      NoCharFree(s, c);
      assert Split(s, [c]) == [s];
  }

  /** Where `c` does not occur, no position of `s` holds it. */
  lemma NoCharFree(s: string, c: char)
    requires IndexOf(s, [c]).None?
    ensures CharFree(s, c)
  {
    IndexOfSpec(s, [c]);
    forall j | 0 <= j < |s| ensures s[j] != c { OccursAtChar(s, c, j); }
  }

  /** `s.startswith(prefix)`. */
  predicate StartsWith(s: string, prefix: string) {
    OccursAt(s, prefix, 0)
  }

  /** A string without `c` splits on `c` into itself. */
  lemma CharFreeSplit(s: string, c: char)
    requires CharFree(s, c)
    ensures Split(s, [c]) == [s]
  {
    IndexOfSpec(s, [c]);
    if IndexOf(s, [c]).Some? {
      OccursAtChar(s, c, IndexOf(s, [c]).value);
    }
  }

  /** Splitting a join on a one-character separator that no part contains
      gives the parts back. */
  lemma {:induction false} SplitJoinChar(parts: seq<string>, c: char)
    requires |parts| >= 1 && forall i :: 0 <= i < |parts| ==> CharFree(parts[i], c)
    ensures Split(Join(parts, [c]), [c]) == parts
    decreases |parts|
  {
    CharFreeSplit(parts[0], c);
    if |parts| > 1 {
      SplitJoinChar(parts[1..], c);
      SplitAroundChar(parts[0], c, Join(parts[1..], [c]));
    }
  }

  /** The last of `[x] + qs` is the last of `qs`. */
  lemma SplitSnocLast(x: string, qs: seq<string>)
    requires |qs| >= 1
    ensures ([x] + qs)[|qs|] == qs[|qs| - 1]
  {
  }

  /** `s` has no `a` immediately followed by `b`, i.e. does not contain `[a, b]`. */
  predicate NoPair(s: string, a: char, b: char) {
    forall j :: 0 <= j < |s| - 1 ==> !(s[j] == a && s[j + 1] == b)
  }

  lemma OccursAtPair(s: string, a: char, b: char, j: int)
    ensures OccursAt(s, [a, b], j) <==> 0 <= j && j + 1 < |s| && s[j] == a && s[j + 1] == b
  {
    assert [a, b][0] == a && [a, b][1] == b;
    if 0 <= j && j + 1 < |s| { assert s[j + 0] == s[j]; }
  }

  /** A two-character separator first occurs where the pair first appears. */
  lemma PairFirstAt(s: string, a: char, b: char, i: nat)
    requires i + 1 < |s| && s[i] == a && s[i + 1] == b
    requires forall j :: 0 <= j < i ==> !(s[j] == a && s[j + 1] == b)
    ensures IndexOf(s, [a, b]) == Some(i)
  {
    OccursAtPair(s, a, b, i);
    forall j | 0 <= j < i ensures !OccursAt(s, [a, b], j) {
      OccursAtPair(s, a, b, j);
    }
    FirstOccurrence(s, [a, b], i);
  }

  lemma NoPairNotContains(s: string, a: char, b: char)
    requires NoPair(s, a, b)
    ensures !Contains(s, [a, b])
  {
    forall j ensures !OccursAt(s, [a, b], j) { OccursAtPair(s, a, b, j); }
  }

  /** The pair is absent from a concatenation when it is absent from both
      parts and does not straddle the join. */
  lemma NoPairConcat(x: string, y: string, a: char, b: char)
    requires NoPair(x, a, b) && NoPair(y, a, b)
    requires |x| == 0 || |y| == 0 || !(x[|x| - 1] == a && y[0] == b)
    ensures NoPair(x + y, a, b)
  {
    var s := x + y;
    forall j | 0 <= j < |s| - 1 ensures !(s[j] == a && s[j + 1] == b) {
      if j + 1 < |x| {
        assert s[j] == x[j] && s[j + 1] == x[j + 1];
      } else if j + 1 == |x| {
        assert s[j] == x[|x| - 1] && s[j + 1] == y[0];
      } else {
        assert s[j] == y[j - |x|] && s[j + 1] == y[j + 1 - |x|];
      }
    }
  }

  /** A piece of a string that avoids `sep` avoids it too. */
  lemma InfixAvoids(s: string, t: string, sep: string, i: nat)
    requires OccursAt(s, t, i) && !Contains(s, sep)
    ensures !Contains(t, sep)
  {
    forall j ensures !OccursAt(t, sep, j) {
      if 0 <= j && j + |sep| <= |t| {
        assert !OccursAt(s, sep, i + j);
        forall m | 0 <= m < |sep| ensures t[j + m] == sep[m] <==> s[i + j + m] == sep[m] {}
      }
    }
  }

  /** An occurrence with none before it is the first one. */
  lemma FirstOccurrence(s: string, sep: string, i: nat)
    requires OccursAt(s, sep, i)
    requires forall j :: 0 <= j < i ==> !OccursAt(s, sep, j)
    ensures IndexOf(s, sep) == Some(i)
  {
    IndexOfSpec(s, sep);
    var r := IndexOf(s, sep);
    assert r.Some?;
  }

  /** A string with no surrounding whitespace is its own `strip()`; padding it
      with one space on either side does not change that. */
  lemma StripFixed(s: string)
    requires |s| == 0 || (!IsSpace(s[0]) && !IsSpace(s[|s| - 1]))
    ensures Strip(s) == s
    ensures Strip(s + " ") == s
    ensures Strip(" " + s) == s
  {
    assert IsSpace(' ');
    StripCharsFixed(s, Whitespace, ' ');
  }

  /** `s.replace(a, b)` for single characters. */
  function ReplaceChar(s: string, a: char, b: char): (r: string)
    ensures |r| == |s|
    ensures forall i :: 0 <= i < |s| ==> r[i] == (if s[i] == a then b else s[i])
  {
    if |s| == 0 then "" else [if s[0] == a then b else s[0]] + ReplaceChar(s[1..], a, b)
  }

  /** `c.lower()` for the ASCII capitals; other characters are unchanged. */
  function LowerChar(c: char): char {
    if 'A' <= c <= 'Z' then (c as int - 'A' as int + 'a' as int) as char else c
  }

  /** Code-point ordering of strings, the order Python's `sorted` uses. */
  predicate StrLt(a: string, b: string) {
    if |a| == 0 then |b| > 0
    else if |b| == 0 then false
    else if a[0] != b[0] then a[0] < b[0]
    else StrLt(a[1..], b[1..])
  }

  /** Code-point order is a strict total order on strings. */
  lemma {:induction false} StrLtTotal(a: string, b: string)
    ensures a == b || StrLt(a, b) || StrLt(b, a)
    ensures !(StrLt(a, b) && StrLt(b, a))
    decreases |a|
  {
    if |a| > 0 && |b| > 0 && a[0] == b[0] {
      StrLtTotal(a[1..], b[1..]);
      if a[1..] == b[1..] { assert a == [a[0]] + a[1..] == [b[0]] + b[1..] == b; }
    }
  }

  /** `str(n)` for a natural number. */
  function NatToString(n: nat): (r: string)
    ensures |r| >= 1 && AllDigits(r)
    ensures n > 0 ==> r[0] != '0'
  {
    if n < 10 then [DigitChar(n)] else NatToString(n / 10) + [DigitChar(n % 10)]
  }

  function DigitChar(d: nat): (c: char)
    requires d < 10
    ensures IsDigit(c) && c as int - '0' as int == d
  {
    ('0' as int + d) as char
  }

  /** `str(i)` for an integer. */
  function IntToString(i: int): string {
    if i < 0 then "-" + NatToString(-i) else NatToString(i)
  }

  /** `int(s)` for a string of ASCII digits (leading zeros allowed). */
  function DigitsValue(s: string): nat
    requires AllDigits(s)
  {
    if |s| == 0 then 0 else DigitsValue(s[..|s| - 1]) * 10 + (s[|s| - 1] as int - '0' as int)
  }

  /** Reading back the decimal form of a natural number gives the number. */
  lemma {:induction false} DigitsRoundTrip(n: nat)
    ensures DigitsValue(NatToString(n)) == n
  {
    if n >= 10 {
      DigitsRoundTrip(n / 10);
      var s := NatToString(n);
      assert s[..|s| - 1] == NatToString(n / 10);
    }
  }
}

=== FILE: tags.dfy ===
/** The built-in template tags (statik/tags.py): `context`, which hands
    back the template context, and `ditto`, which echoes its arguments, both
    registered in the tag store when the module is imported. */
module Tags {
  import opened Common
  import opened Values
  import opened PyStr
  import opened Utils
  import opened TemplateTags

  const PrintContextFn: Callable := Callable("print_context", None)
  const EchoArgumentsFn: Callable := Callable("echo_arguments", None)

  /** `print_context(context, *args)` called with the positional arguments
      `args`: the first one is the context, and it is returned as it is. */
  function PrintContext(args: seq<Value>): (r: Result<Value>)
    ensures r.Success? <==> |args| > 0
    ensures r.Success? ==> r.value == args[0]
  {
    if |args| == 0 then Failure(TypeError("print_context() missing 1 required positional argument: 'context'"))
    else Success(args[0])
  }

  /** `str(v)` for the scalar values; `other` stands for `str` of lists,
      dicts and records. */
  function Str(v: Value, other: Value -> string): string {
    match v
    case VNone => "None"
    case VBool(b) => if b then "True" else "False"
    case VInt(i) => IntToString(i)
    case VStr(s) => s
    case _ => other(v)
  }

  /** `map(str, args)`. */
  function Strs(args: seq<Value>, other: Value -> string): (r: seq<string>)
    ensures |r| == |args| && forall i :: 0 <= i < |args| ==> r[i] == Str(args[i], other)
  {
    if |args| == 0 then [] else [Str(args[0], other)] + Strs(args[1..], other)
  }

  /** `"%s=%s" % (k, v)` for each keyword argument, in order. */
  function KeywordStrs(kwargs: Dict, i: nat, other: Value -> string): (r: seq<string>)
    requires Listed(kwargs) && i <= |kwargs.keys|
    ensures |r| == |kwargs.keys| - i
    decreases |kwargs.keys| - i
  {
    if i == |kwargs.keys| then []
    else [kwargs.keys[i] + "=" + Str(kwargs.vals[kwargs.keys[i]], other)] + KeywordStrs(kwargs, i + 1, other)
  }

  /** `echo_arguments(*args, **kwargs)` as written: the keyword pairs go
      through `map` with a two-parameter lambda, which Python calls with one
      argument each, so any keyword argument raises `TypeError`. */
  function EchoArgumentsAsWritten(args: seq<Value>, kwargs: Dict, other: Value -> string): (r: Result<string>)
    ensures r.Failure? <==> |kwargs.keys| > 0
  {
    if |kwargs.keys| > 0 then Failure(TypeError("<lambda>() missing 1 required positional argument: 'v'"))
    else Success("ditto(" + Join(NonEmpty([Join(Strs(args, other), ", "), ""]), ", ") + ")")
  }

  /** `echo_arguments(*args, **kwargs)` as evidently intended: the
      positional arguments, then the `key=value` pairs, the non-empty ones
      of the two joined by `, `, inside `ditto(` and `)`. */
  function EchoArguments(args: seq<Value>, kwargs: Dict, other: Value -> string): (r: string)
    requires Listed(kwargs)
    ensures StartsWith(r, "ditto(") && r[|r| - 1] == ')'
  {
    var argsString := Join(Strs(args, other), ", ");
    var kwargsString := Join(KeywordStrs(kwargs, 0, other), ", ");
    "ditto(" + Join(NonEmpty([argsString, kwargsString]), ", ") + ")"
  }

  /** Without keyword arguments the two definitions agree: the fault is in
      the keyword part alone. */
  lemma EchoAsWrittenWithoutKeywords(args: seq<Value>, other: Value -> string)
    ensures EchoArgumentsAsWritten(args, Empty, other) == Success(EchoArguments(args, Empty, other))
  {
  }

  /** The direct call `echo_arguments(a=1)` raises instead of returning
      `ditto(a=1)`. The fault is latent in templates: the tag parser of
      statik/jinja2ext.py passes positional arguments only. */
  lemma KeywordEchoFails(other: Value -> string)
    ensures EchoArgumentsAsWritten([], Dict(["a"], map["a" := VInt(1)]), other).Failure?
    ensures EchoArguments([], Dict(["a"], map["a" := VInt(1)]), other) == "ditto(a=1)"
  {
    var kw := Dict(["a"], map["a" := VInt(1)]);
    assert Str(VInt(1), other) == "1" by { assert NatToString(1) == "1"; }
    assert KeywordStrs(kw, 1, other) == [];
    assert kw.keys[0] == "a" && kw.vals["a"] == VInt(1);
    assert KeywordStrs(kw, 0, other) == ["a" + "=" + "1"] + KeywordStrs(kw, 1, other);
    assert Join(Strs([], other), ", ") == "";
    assert Join(["a=1"], ", ") == "a=1";
    assert NonEmpty(["", "a=1"]) == ["a=1"];
    assert Join(NonEmpty(["", "a=1"]), ", ") == "a=1";
    var argsString := Join(Strs([], other), ", ");
    var kwString := Join(KeywordStrs(kw, 0, other), ", ");
    assert kwString == "a=1";
    assert [argsString, kwString] == ["", "a=1"];
    assert EchoArguments([], kw, other) == "ditto(" + "a=1" + ")";
  }

  /** `{% ditto 1 2 3 %}` renders `ditto(1, 2, 3)`, and `{% ditto %}` renders `ditto()`. */
  lemma EchoExamples(other: Value -> string)
    ensures EchoArguments([VInt(1), VInt(2), VInt(3)], Empty, other) == "ditto(1, 2, 3)"
    ensures EchoArguments([], Empty, other) == "ditto()"
  {
    assert Strs([VInt(1), VInt(2), VInt(3)], other) == ["1", "2", "3"];
    assert Join(["1", "2", "3"], ", ") == "1, 2, 3";
    assert NonEmpty(["1, 2, 3", ""]) == ["1, 2, 3"];
    assert NonEmpty(["", ""]) == [];
  }

  /** With positional arguments only, whose text has no comma, the text
      between the parentheses splits on `, ` back into the arguments'
      `str` forms. */
  lemma EchoArgumentsRoundTrip(args: seq<Value>, other: Value -> string)
    requires |args| > 0
    requires forall i :: 0 <= i < |args| ==> CharFree(Str(args[i], other), ',')
    ensures var r := EchoArguments(args, Empty, other);
      |r| >= 7 && Split(r[6..|r| - 1], ", ") == Strs(args, other)
  {
    var parts := Strs(args, other);
    var inner := Join(parts, ", ");
    assert KeywordStrs(Empty, 0, other) == [];
    assert Join(NonEmpty([inner, ""]), ", ") == inner;
    var r := EchoArguments(args, Empty, other);
    assert r == "ditto(" + inner + ")";
    assert r[6..|r| - 1] == inner;
    SplitJoinComma(parts);
  }

  /** Splitting a `, `-join of comma-free parts gives the parts back. */
  lemma {:induction false} SplitJoinComma(parts: seq<string>)
    requires |parts| >= 1 && forall i :: 0 <= i < |parts| ==> CharFree(parts[i], ',')
    ensures Split(Join(parts, ", "), ", ") == parts
    decreases |parts|
  {
    if |parts| == 1 {
      CommaFreeSplit(parts[0]);
    } else {
      var x, y := parts[0], Join(parts[1..], ", ");
      SplitJoinComma(parts[1..]);
      SplitAfterComma(x, y);
      assert parts == [x] + parts[1..];
    }
  }

  /** A comma-free string splits on `, ` into itself. */
  lemma CommaFreeSplit(s: string)
    requires CharFree(s, ',')
    ensures Split(s, ", ") == [s]
  {
    IndexOfSpec(s, ", ");
    forall j | 0 <= j && j + 2 <= |s| ensures !OccursAt(s, ", ", j) {
      assert s[j + 0] != ", "[0];
    }
  }

  /** A comma-free `x` followed by `, ` is the first piece of the split. */
  lemma SplitAfterComma(x: string, y: string)
    requires CharFree(x, ',')
    ensures Split(x + ", " + y, ", ") == [x] + Split(y, ", ")
  {
    var s := x + ", " + y;
    assert OccursAt(s, ", ", |x|) by {
      assert s[|x|] == ',' && s[|x| + 1] == ' ';
    }
    forall j | 0 <= j < |x| ensures !OccursAt(s, ", ", j) {
      assert s[j + 0] == x[j] != ", "[0];
    }
    FirstOccurrence(s, ", ", |x|);
    assert s[..|x|] == x;
    assert s[|x| + 2..] == y;
  }

  /** Importing statik/tags.py: `context` is registered with
      `takes_context=True` and `ditto` without; the `context` tag, invoked
      with any context and arguments, hands the context back. */
  method RegisterTags(store: TemplateTagStore)
    modifies store
    ensures store.tags == old(store.tags)["context" := PrintContextFn]["ditto" := EchoArgumentsFn]
    ensures store.takesContext == old(store.takesContext)["context" := VBool(true)]["ditto" := VBool(false)]
    ensures store.filters == old(store.filters)
    ensures forall context, args, kwargs ::
      store.InvokeTag("context", context, args, kwargs) == Success(Call(PrintContextFn, [context] + args, kwargs))
    ensures forall args, kwargs ::
      store.InvokeTag("ditto", VNone, args, kwargs) == Success(Call(EchoArgumentsFn, args, kwargs))
  {
    var d := store.SimpleTag([], Some("context"), Some(VBool(true)));
    var _ := store.Decorate(d.value.value, PrintContextFn);
    d := store.SimpleTag([], Some("ditto"), None);
    var _ := store.Decorate(d.value.value, EchoArgumentsFn);
  }

  /** `{% context %}` renders the context it is given. */
  lemma ContextTagReturnsContext(context: Value, args: seq<Value>)
    ensures PrintContext([context] + args) == Success(context)
  {
  }
}

=== FILE: templatetags.dfy ===
/** The store of custom template tags and filters (statik/templatetags.py):
    two registries from name to callable, and one map, shared by tags and
    filters, saying whether a name's callable takes the template context as
    its first argument. */
module TemplateTags {
  import opened Common
  import opened Values

  /** A Python callable as the store sees it: its `__name__`, and the
      `__name__` of the function it wraps when it is a decorated wrapper
      (the `_decorated_function` attribute). */
  datatype Callable = Callable(name: string, wrapped: Option<string>)

  /** `getattr(fn, '_decorated_function', fn).__name__`. */
  function RegisteredName(fn: Callable): string {
    if fn.wrapped.Some? then fn.wrapped.value else fn.name
  }

  /** A call of a registered callable with its positional and keyword arguments. */
  datatype Call = Call(fn: Callable, args: seq<Value>, kwargs: Dict)

  /** The closure the named forms of `simple_tag` and `filter` return. */
  datatype Decorator = TagDecorator(name: string) | FilterDecorator(name: string)

  /** `kwargs.pop('takes_context', False)`. */
  function Flag(takesContext: Option<Value>): Value {
    if takesContext.Some? then takesContext.value else VBool(false)
  }

  /** `invoke_tag(name, context, *args, **kwargs)` on the store's registries:
      the tag's callable is called with the context in front of the
      positional arguments exactly when the name's flag is truthy; a name
      without a flag or without a tag raises `KeyError`. */
  function Invoke(tags: map<string, Callable>, flags: map<string, Value>, name: string,
                  context: Value, args: seq<Value>, kwargs: Dict): (r: Result<Call>)
    ensures r.Success? <==> name in flags && name in tags
    ensures r.Failure? ==> r.error == KeyError(name)
    ensures r.Success? ==> r.value.fn == tags[name] && r.value.kwargs == kwargs
    ensures r.Success? && Truthy(flags[name]) ==> r.value.args == [context] + args
    ensures r.Success? && !Truthy(flags[name]) ==> r.value.args == args
  {
    if name !in flags || name !in tags then Failure(KeyError(name))
    else if Truthy(flags[name]) then Success(Call(tags[name], [context] + args, kwargs))
    else Success(Call(tags[name], args, kwargs))
  }

  /** The context reaches the callable only through a truthy flag: with a
      false flag the call is the one made without any context. */
  lemma InvokeWithoutContext(tags: map<string, Callable>, flags: map<string, Value>, name: string,
                             context: Value, other: Value, args: seq<Value>, kwargs: Dict)
    requires name in flags && !Truthy(flags[name])
    ensures Invoke(tags, flags, name, context, args, kwargs) == Invoke(tags, flags, name, other, args, kwargs)
  {
  }

  class TemplateTagStore {
    var filters: map<string, Callable>
    var tags: map<string, Callable>
    var takesContext: map<string, Value>

    /** An empty store. */
    constructor ()
      ensures filters == map[] && tags == map[] && takesContext == map[]
    {
      filters := map[];
      tags := map[];
      takesContext := map[];
    }

    /** `invoke_tag(name, context, *args, **kwargs)`. */
    function InvokeTag(name: string, context: Value, args: seq<Value>, kwargs: Dict): Result<Call>
      reads this
    {
      Invoke(tags, takesContext, name, context, args, kwargs)
    }

    /** `register_tag(name, fn)`: a later registration replaces an earlier one. */
    method RegisterTag(name: string, fn: Callable)
      modifies this`tags
      ensures tags == old(tags)[name := fn]
    {
      tags := tags[name := fn];
    }

    /** `register_filter(name, fn)`. */
    method RegisterFilter(name: string, fn: Callable)
      modifies this`filters
      ensures filters == old(filters)[name := fn]
    {
      filters := filters[name := fn];
    }

    /** `simple_tag(*args, name=..., takes_context=...)`. With a name it
        returns the decorator that will register the tag; without one it
        registers `args[0]` under its own name and returns `None`, and an
        empty `args` raises `IndexError`. The flag is recorded under the
        name in both forms, `False` when not given. */
    method SimpleTag(args: seq<Callable>, name: Option<string>, takes: Option<Value>)
      returns (r: Result<Option<Decorator>>)
      modifies this`tags, this`takesContext
      ensures name.Some? ==> (r == Success(Some(TagDecorator(name.value)))
        && tags == old(tags) && takesContext == old(takesContext)[name.value := Flag(takes)])
      ensures name.None? && |args| == 0 ==> (r == Failure(IndexError(0))
        && tags == old(tags) && takesContext == old(takesContext))
      ensures name.None? && |args| > 0 ==> (r == Success(None)
        && tags == old(tags)[RegisteredName(args[0]) := args[0]]
        && takesContext == old(takesContext)[RegisteredName(args[0]) := Flag(takes)])
    {
      var registered: string;
      if name.Some? {
        registered := name.value;
        r := Success(Some(TagDecorator(registered)));
      } else {
        if |args| == 0 {
          return Failure(IndexError(0));
        }
        registered := RegisteredName(args[0]);
        RegisterTag(registered, args[0]);
        r := Success(None);
      }
      takesContext := takesContext[registered := Flag(takes)];
    }

    /** `filter(*args, name=..., takes_context=...)`: as `SimpleTag`, for
        filters, recording the flag in the same map. */
    method Filter(args: seq<Callable>, name: Option<string>, takes: Option<Value>)
      returns (r: Result<Option<Decorator>>)
      modifies this`filters, this`takesContext
      ensures name.Some? ==> (r == Success(Some(FilterDecorator(name.value)))
        && filters == old(filters) && takesContext == old(takesContext)[name.value := Flag(takes)])
      ensures name.None? && |args| == 0 ==> (r == Failure(IndexError(0))
        && filters == old(filters) && takesContext == old(takesContext))
      ensures name.None? && |args| > 0 ==> (r == Success(None)
        && filters == old(filters)[RegisteredName(args[0]) := args[0]]
        && takesContext == old(takesContext)[RegisteredName(args[0]) := Flag(takes)])
    {
      var registered: string;
      if name.Some? {
        registered := name.value;
        r := Success(Some(FilterDecorator(registered)));
      } else {
        if |args| == 0 {
          return Failure(IndexError(0));
        }
        registered := RegisteredName(args[0]);
        RegisterFilter(registered, args[0]);
        r := Success(None);
      }
      takesContext := takesContext[registered := Flag(takes)];
    }

    /** Calling a decorator on `fn`: it registers `fn` under the decorator's
        name, leaves the flags alone, and returns `None`. */
    method Decorate(d: Decorator, fn: Callable) returns (r: Value)
      modifies this`tags, this`filters
      ensures d.TagDecorator? ==> tags == old(tags)[d.name := fn] && filters == old(filters)
      ensures d.FilterDecorator? ==> filters == old(filters)[d.name := fn] && tags == old(tags)
      ensures r == VNone
    {
      if d.TagDecorator? {
        RegisterTag(d.name, fn);
      } else {
        RegisterFilter(d.name, fn);
      }
      r := VNone;
    }
  }
}

=== FILE: templating.dfy ===
/** The template engine (statik/templating.py): which template providers a
    project may use, which provider handles which file extension, where
    templates are looked up, and the caches of provider instances and loaded
    templates. Jinja2 and Mustache themselves, and the filesystem, are
    parameters: a template is a handle the provider hands back. */
module Templating {
  import opened Common
  import opened Values
  import opened PyStr

  /** The template providers, in order of precedence. */
  const DefaultTemplateProviders: seq<string> := ["jinja2", "mustache"]

  /** The providers considered safe. */
  const SaferTemplateProviders: seq<string> := ["mustache"]

  /** The file extensions each provider reads, in its order of preference;
      its keys are also the providers that have a provider class. */
  const TemplateProviderExts: map<string, seq<string>> := map[
    "jinja2" := [".html.jinja2", ".jinja2", ".html"],
    "mustache" := [".html.mustache", ".mustache", ".html"]
  ]

  const TemplatesDir: string := "templates"
  const ThemesDir: string := "themes"

  /** `os.path.join(a, b)` on POSIX paths. */
  function PathJoin(a: string, b: string): string {
    if StartsWith(b, "/") then b
    else if |a| == 0 || EndsWith(a, "/") then a + b
    else a + "/" + b
  }

  /** `[p for p in ps if p in keep]`. */
  function Keep(ps: seq<string>, keep: seq<string>): (r: seq<string>)
    ensures forall p :: p in r <==> p in ps && p in keep
    ensures |r| <= |ps|
  {
    if |ps| == 0 then []
    else Keep(ps[..|ps| - 1], keep) + (if ps[|ps| - 1] in keep then [ps[|ps| - 1]] else [])
  }

  /** The providers an engine supports: the configured ones, only the safer
      ones in safe mode; none at all raises `NoSupportedTemplateProvidersError`. */
  function SupportedProviders(configured: seq<string>, safeMode: bool): (r: Result<seq<string>>)
    ensures r.Success? ==> |r.value| > 0
    ensures r.Success? && !safeMode ==> r.value == configured
    ensures r.Success? && safeMode ==> forall p :: p in r.value ==> p in SaferTemplateProviders && p in configured
    ensures r.Failure? <==> (if safeMode then Keep(configured, SaferTemplateProviders) else configured) == []
    ensures r.Failure? ==> r.error == NoSupportedTemplateProvidersError
  {
    var supported := if safeMode then Keep(configured, SaferTemplateProviders) else configured;
    if |supported| == 0 then Failure(NoSupportedTemplateProvidersError) else Success(supported)
  }

  /** Every provider has a provider class. */
  predicate KnownProviders(ps: seq<string>) {
    forall p :: p in ps ==> p in TemplateProviderExts
  }

  /** The first provider without a provider class, whose lookup raises `KeyError`. */
  function FirstUnknown(ps: seq<string>): (r: Option<string>)
    ensures r.None? <==> KnownProviders(ps)
    ensures r.Some? ==> r.value in ps && r.value !in TemplateProviderExts
  {
    if |ps| == 0 then None
    else if ps[0] !in TemplateProviderExts then Some(ps[0])
    else FirstUnknown(ps[1..])
  }

  /** `providers_by_ext` and `exts` while the providers claim extensions. */
  datatype ExtMap = ExtMap(byExt: map<string, string>, exts: seq<string>)

  /** Provider `p` claims extension `e` unless an earlier provider has. */
  function Claim(x: ExtMap, p: string, e: string): ExtMap {
    if e in x.byExt then x else ExtMap(x.byExt[e := p], x.exts + [e])
  }

  /** Provider `p` claims the first `k` of its extensions `es`. */
  function ClaimEach(x: ExtMap, p: string, es: seq<string>, k: nat): ExtMap
    requires k <= |es|
  {
    if k == 0 then x else Claim(ClaimEach(x, p, es, k - 1), p, es[k - 1])
  }

  /** The extension map built from the providers, in precedence order. */
  function ExtMapOf(ps: seq<string>): ExtMap
    requires KnownProviders(ps)
  {
    if |ps| == 0 then ExtMap(map[], [])
    else
      var p := ps[|ps| - 1];
      ClaimEach(ExtMapOf(ps[..|ps| - 1]), p, TemplateProviderExts[p], |TemplateProviderExts[p]|)
  }

  /** The two loops of the engine's constructor that fill `providers_by_ext`
      and `exts`. */
  method BuildExtMap(ps: seq<string>) returns (byExt: map<string, string>, exts: seq<string>)
    requires KnownProviders(ps)
    ensures ExtMap(byExt, exts) == ExtMapOf(ps)
  {
    byExt, exts := map[], [];
    var i := 0;
    while i < |ps|
      invariant 0 <= i <= |ps|
      invariant ExtMap(byExt, exts) == ExtMapOf(ps[..i])
    {
      var p := ps[i];
      var es := TemplateProviderExts[p];
      ghost var before := ExtMap(byExt, exts);
      var j := 0;
      while j < |es|
        invariant 0 <= j <= |es|
        invariant ExtMap(byExt, exts) == ClaimEach(before, p, es, j)
      {
        var e := es[j];
        if e !in byExt {
          byExt := byExt[e := p];
          exts := exts + [e];
        }
        j := j + 1;
      }
      assert ps[..i + 1][..i] == ps[..i];
      i := i + 1;
    }
    assert ps[..|ps|] == ps;
  }

  /** Every extension is listed once, and exactly the mapped extensions are listed. */
  ghost predicate Consistent(x: ExtMap) {
    Distinct(x.exts) && forall e :: e in x.exts <==> e in x.byExt
  }

  /** Claiming extensions keeps the map consistent; an extension already
      claimed keeps its provider, and a new one goes to the claimer. */
  lemma {:induction false} ClaimEachMeaning(x: ExtMap, p: string, es: seq<string>, k: nat)
    requires Consistent(x) && k <= |es|
    ensures var y := ClaimEach(x, p, es, k);
      && Consistent(y)
      && (forall e :: e in y.byExt <==> e in x.byExt || e in es[..k])
      && (forall e :: e in x.byExt ==> y.byExt[e] == x.byExt[e])
      && (forall e :: e in y.byExt && e !in x.byExt ==> y.byExt[e] == p)
  {
    if k > 0 {
      ClaimEachMeaning(x, p, es, k - 1);
      assert es[..k] == es[..k - 1] + [es[k - 1]];
      var y := ClaimEach(x, p, es, k - 1);
      if es[k - 1] !in y.byExt {
        forall i | 0 <= i < |y.exts| ensures y.exts[i] != es[k - 1] {
          assert y.exts[i] in y.exts;
        }
      }
    }
  }

  /** The provider that claims `e` first: the earliest provider in
      precedence order that reads files with that extension. */
  function FirstClaimer(ps: seq<string>, e: string): Option<string>
    requires KnownProviders(ps)
  {
    if |ps| == 0 then None
    else if FirstClaimer(ps[..|ps| - 1], e).Some? then FirstClaimer(ps[..|ps| - 1], e)
    else if e in TemplateProviderExts[ps[|ps| - 1]] then Some(ps[|ps| - 1])
    else None
  }

  /** The extension map is consistent and maps each extension to the
      provider that claims it first; no other extension is mapped. */
  lemma {:induction false} ExtMapOfMeaning(ps: seq<string>)
    requires KnownProviders(ps)
    ensures Consistent(ExtMapOf(ps))
    ensures forall e :: e in ExtMapOf(ps).byExt <==> FirstClaimer(ps, e).Some?
    ensures forall e :: e in ExtMapOf(ps).byExt ==> ExtMapOf(ps).byExt[e] == FirstClaimer(ps, e).value
  {
    if |ps| > 0 {
      var init := ps[..|ps| - 1];
      var p := ps[|ps| - 1];
      var es := TemplateProviderExts[p];
      ExtMapOfMeaning(init);
      ClaimEachMeaning(ExtMapOf(init), p, es, |es|);
      assert es[..|es|] == es;
    }
  }

  /** The provider that claims `e` first is the earliest one reading files
      with that extension; when none does, no provider claims it. */
  lemma {:induction false} FirstClaimerIsEarliest(ps: seq<string>, e: string, j: nat)
    requires KnownProviders(ps) && j < |ps|
    requires e in TemplateProviderExts[ps[j]]
    requires forall i :: 0 <= i < j ==> e !in TemplateProviderExts[ps[i]]
    ensures FirstClaimer(ps, e) == Some(ps[j])
    decreases |ps|
  {
    var init := ps[..|ps| - 1];
    if j < |ps| - 1 {
      FirstClaimerIsEarliest(init, e, j);
    } else {
      FirstClaimerNone(init, e);
    }
  }

  /** No provider reading files with extension `e`: no claimer. */
  lemma {:induction false} FirstClaimerNone(ps: seq<string>, e: string)
    requires KnownProviders(ps)
    requires forall i :: 0 <= i < |ps| ==> e !in TemplateProviderExts[ps[i]]
    ensures FirstClaimer(ps, e).None?
    decreases |ps|
  {
    if |ps| > 0 {
      FirstClaimerNone(ps[..|ps| - 1], e);
    }
  }

  /** With the default providers Jinja2 claims `.html`, which Mustache would
      otherwise read; in safe mode Mustache keeps it. */
  lemma DefaultExtensions()
    ensures ExtMapOf(DefaultTemplateProviders).exts
      == [".html.jinja2", ".jinja2", ".html", ".html.mustache", ".mustache"]
    ensures ExtMapOf(DefaultTemplateProviders).byExt[".html"] == "jinja2"
    ensures ExtMapOf(SaferTemplateProviders).byExt[".html"] == "mustache"
  {
    var j := TemplateProviderExts["jinja2"];
    var m := TemplateProviderExts["mustache"];
    assert DefaultTemplateProviders[..1] == ["jinja2"] && ["jinja2"][..0] == [];
    var x1 := ClaimEach(ExtMap(map[], []), "jinja2", j, 3);
    assert x1 == ExtMap(map[".html.jinja2" := "jinja2", ".jinja2" := "jinja2", ".html" := "jinja2"],
      [".html.jinja2", ".jinja2", ".html"]);
    assert ExtMapOf(["jinja2"]) == x1;
    assert ClaimEach(x1, "mustache", m, 3).exts
      == [".html.jinja2", ".jinja2", ".html", ".html.mustache", ".mustache"];
    assert SaferTemplateProviders[..0] == [];
  }

  /** The directories searched for templates: the project's `templates`
      directory first, then the theme's, when the configuration names one. */
  function TemplatePaths(path: string, theme: Value): (r: Result<seq<string>>)
    ensures r.Success? <==> theme.VNone? || theme.VStr?
    ensures r.Success? ==> |r.value| > 0 && r.value[0] == PathJoin(path, TemplatesDir)
    ensures r.Success? && theme.VStr? ==> r.value == [PathJoin(path, TemplatesDir),
      PathJoin(PathJoin(PathJoin(path, ThemesDir), theme.s), TemplatesDir)]
    ensures r.Success? && theme.VNone? ==> |r.value| == 1
  {
    if theme.VNone? then Success([PathJoin(path, TemplatesDir)])
    else if theme.VStr? then
      Success([PathJoin(path, TemplatesDir), PathJoin(PathJoin(PathJoin(path, ThemesDir), theme.s), TemplatesDir)])
    else Failure(TypeError("join() argument must be str"))
  }

  /** The first path that is not an existing directory. */
  function FirstMissing(paths: seq<string>, isDir: string -> bool): (r: Option<string>)
    ensures r.None? <==> forall p :: p in paths ==> isDir(p)
    ensures r.Some? ==> r.value in paths && !isDir(r.value)
  {
    if |paths| == 0 then None
    else if !isDir(paths[0]) then Some(paths[0])
    else FirstMissing(paths[1..], isDir)
  }

  /** What the engine's constructor computes before it stores anything. */
  datatype Setup = Setup(supported: seq<string>, extMap: ExtMap, templatePaths: seq<string>)

  /** The engine's constructor on the configured providers, the safe-mode
      flag, the project path, the configured theme and the filesystem's
      directories, in the order the source raises its errors. */
  function EngineSetup(configured: seq<string>, safeMode: bool, path: string, theme: Value,
                       isDir: string -> bool): Result<Setup>
  {
    var supported :- SupportedProviders(configured, safeMode);
    match FirstUnknown(supported)
    case Some(p) => Failure(KeyError(p))
    case None =>
      var paths :- TemplatePaths(path, theme);
      match FirstMissing(paths, isDir)
      case Some(d) => Failure(MissingProjectFolderError(d))
      case None => Success(Setup(supported, ExtMapOf(supported), paths))
  }

  /** A constructed engine supports at least one provider, only safe ones in
      safe mode, all with a provider class; its extension map is consistent
      and goes to supported providers; every template path exists. */
  lemma EngineSetupMeaning(configured: seq<string>, safeMode: bool, path: string, theme: Value,
                           isDir: string -> bool)
    requires EngineSetup(configured, safeMode, path, theme, isDir).Success?
    ensures var s := EngineSetup(configured, safeMode, path, theme, isDir).value;
      && |s.supported| > 0 && KnownProviders(s.supported)
      && (safeMode ==> forall p :: p in s.supported ==> p == "mustache")
      && Consistent(s.extMap)
      && (forall e :: e in s.extMap.byExt ==> s.extMap.byExt[e] in s.supported)
      && s.templatePaths[0] == PathJoin(path, TemplatesDir)
      && (forall d :: d in s.templatePaths ==> isDir(d))
  {
    var s := EngineSetup(configured, safeMode, path, theme, isDir).value;
    ExtMapOfMeaning(s.supported);
    forall e | e in s.extMap.byExt ensures s.extMap.byExt[e] in s.supported {
      FirstClaimerIn(s.supported, e);
    }
  }

  /** The first claimer is one of the providers. */
  lemma {:induction false} FirstClaimerIn(ps: seq<string>, e: string)
    requires KnownProviders(ps)
    ensures FirstClaimer(ps, e).Some? ==> FirstClaimer(ps, e).value in ps
    decreases |ps|
  {
    if |ps| > 0 {
      FirstClaimerIn(ps[..|ps| - 1], e);
    }
  }

  /** The last extension among the first `n` of `exts` that `name` ends with. */
  function LastMatchingExt(exts: seq<string>, name: string, n: nat): (r: Option<string>)
    requires n <= |exts|
    ensures r.Some? ==> r.value in exts && EndsWith(name, r.value)
  {
    if n == 0 then None
    else if EndsWith(name, exts[n - 1]) then Some(exts[n - 1])
    else LastMatchingExt(exts, name, n - 1)
  }

  /** No later extension matches the one found, and none matches when none is found. */
  lemma {:induction false} LastMatchingExtMeaning(exts: seq<string>, name: string, n: nat)
    requires n <= |exts|
    ensures LastMatchingExt(exts, name, n).None? <==> NoMatchBetween(exts, name, -1, n)
    ensures LastMatchingExt(exts, name, n).Some? ==>
      exists j :: 0 <= j < n && exts[j] == LastMatchingExt(exts, name, n).value
        && NoMatchBetween(exts, name, j, n)
  {
    if n > 0 {
      var r := LastMatchingExt(exts, name, n);
      if EndsWith(name, exts[n - 1]) {
        assert r == Some(exts[n - 1]);
        assert NoMatchBetween(exts, name, n - 1, n);
      } else {
        assert r == LastMatchingExt(exts, name, n - 1);
        LastMatchingExtMeaning(exts, name, n - 1);
        if r.Some? {
          var j :| 0 <= j < n - 1 && exts[j] == r.value && NoMatchBetween(exts, name, j, n - 1);
          assert NoMatchBetween(exts, name, j, n);
        }
      }
    }
  }

  /** No extension strictly between the `j`-th and the `n`-th matches `name`. */
  ghost predicate NoMatchBetween(exts: seq<string>, name: string, j: int, n: nat)
    requires -1 <= j && n <= |exts|
  {
    forall k :: j < k < n ==> !EndsWith(name, exts[k])
  }

  /** `find_first_file_with_ext(paths, prefix, exts)` from the `i`-th path
      and its `j`-th extension on: the first path, and within it the first
      extension, for which `prefix + ext` is an existing file. */
  function FirstFileFrom(paths: seq<string>, prefix: string, exts: seq<string>, isFile: string -> bool,
                         i: nat, j: nat): (r: Option<(string, string)>)
    requires i <= |paths| && j <= |exts|
    ensures r.Some? ==> r.value.0 in paths[i..] && r.value.1 in exts && isFile(PathJoin(r.value.0, prefix + r.value.1))
    decreases |paths| - i, |exts| - j
  {
    if i == |paths| then None
    else if j == |exts| then FirstFileFrom(paths, prefix, exts, isFile, i + 1, 0)
    else if isFile(PathJoin(paths[i], prefix + exts[j])) then Some((paths[i], exts[j]))
    else FirstFileFrom(paths, prefix, exts, isFile, i, j + 1)
  }

  /** No extension from the `j`-th on gives an existing file in the `q`-th path. */
  ghost predicate NoFileIn(paths: seq<string>, prefix: string, exts: seq<string>, isFile: string -> bool,
                           q: nat, j: nat)
    requires q < |paths|
  {
    forall k :: j <= k < |exts| ==> !isFile(PathJoin(paths[q], prefix + exts[k]))
  }

  /** Nothing is found exactly when no path holds a file with any of the extensions. */
  lemma {:induction false} FirstFileNone(paths: seq<string>, prefix: string, exts: seq<string>,
                                         isFile: string -> bool, i: nat, j: nat)
    requires i <= |paths| && j <= |exts|
    ensures FirstFileFrom(paths, prefix, exts, isFile, i, j).None? <==>
      (i < |paths| ==> NoFileIn(paths, prefix, exts, isFile, i, j))
      && NoFileAfter(paths, prefix, exts, isFile, i)
    decreases |paths| - i, |exts| - j
  {
    if i == |paths| {
    } else if j == |exts| {
      assert FirstFileFrom(paths, prefix, exts, isFile, i, j) == FirstFileFrom(paths, prefix, exts, isFile, i + 1, 0);
      FirstFileNone(paths, prefix, exts, isFile, i + 1, 0);
      assert NoFileAfter(paths, prefix, exts, isFile, i) <==>
        (i + 1 < |paths| ==> NoFileIn(paths, prefix, exts, isFile, i + 1, 0))
        && NoFileAfter(paths, prefix, exts, isFile, i + 1);
    } else if isFile(PathJoin(paths[i], prefix + exts[j])) {
      assert !NoFileIn(paths, prefix, exts, isFile, i, j);
    } else {
      assert FirstFileFrom(paths, prefix, exts, isFile, i, j) == FirstFileFrom(paths, prefix, exts, isFile, i, j + 1);
      FirstFileNone(paths, prefix, exts, isFile, i, j + 1);
      assert NoFileIn(paths, prefix, exts, isFile, i, j) <==> NoFileIn(paths, prefix, exts, isFile, i, j + 1);
    }
  }

  /** No path after the `i`-th holds a file with any of the extensions. */
  ghost predicate NoFileAfter(paths: seq<string>, prefix: string, exts: seq<string>, isFile: string -> bool, i: nat) {
    forall q :: i < q < |paths| ==> NoFileIn(paths, prefix, exts, isFile, q, 0)
  }

  /** A template in the project's own directory (the first path) wins over
      one in the theme's. */
  lemma {:induction false} FirstPathWins(paths: seq<string>, prefix: string, exts: seq<string>,
                                         isFile: string -> bool, j: nat, k: nat)
    requires |paths| > 0 && j <= k < |exts|
    requires isFile(PathJoin(paths[0], prefix + exts[k]))
    ensures FirstFileFrom(paths, prefix, exts, isFile, 0, j).Some?
    ensures FirstFileFrom(paths, prefix, exts, isFile, 0, j).value.0 == paths[0]
    decreases k - j
  {
    if !isFile(PathJoin(paths[0], prefix + exts[j])) {
      FirstPathWins(paths, prefix, exts, isFile, j + 1, k);
    }
  }

  /** What `find_template_details` returns: the file name with its
      extension, the provider for that extension, and the directory it was
      found in (none when the name already carried an extension). */
  datatype Details = Details(nameWithExt: string, provider: string, basePath: Option<string>)

  /** `find_template_details(name)`: a name ending in a known extension is
      taken as it is, with the last such extension; otherwise the template
      directories are searched for `name` plus an extension, and a miss
      raises `MissingTemplateError`. */
  function TemplateDetails(exts: seq<string>, byExt: map<string, string>, paths: seq<string>,
                           name: string, isFile: string -> bool): Result<Details>
    requires forall e :: e in exts ==> e in byExt
  {
    match LastMatchingExt(exts, name, |exts|)
    case Some(e) => Success(Details(name, byExt[e], None))
    case None =>
      match FirstFileFrom(paths, name, exts, isFile, 0, 0)
      case None => Failure(MissingTemplateError(name))
      case Some((base, e)) => Success(Details(name + e, byExt[e], Some(base)))
  }

  /** The details name a file with a known extension, read by the provider
      that claimed it; a searched-for file exists; a miss means no template
      directory holds the name with any known extension. */
  lemma TemplateDetailsMeaning(exts: seq<string>, byExt: map<string, string>, paths: seq<string>,
                               name: string, isFile: string -> bool)
    requires forall e :: e in exts ==> e in byExt
    ensures var r := TemplateDetails(exts, byExt, paths, name, isFile);
      && (r.Success? ==> exists e :: e in exts && EndsWith(r.value.nameWithExt, e) && r.value.provider == byExt[e])
      && (r.Success? && r.value.basePath.Some? ==>
            r.value.basePath.value in paths && isFile(PathJoin(r.value.basePath.value, r.value.nameWithExt)))
      && (r.Failure? ==> (r.error == MissingTemplateError(name)
            && forall q, k :: 0 <= q < |paths| && 0 <= k < |exts| ==> !isFile(PathJoin(paths[q], name + exts[k]))))
  {
    var r := TemplateDetails(exts, byExt, paths, name, isFile);
    FirstFileNone(paths, name, exts, isFile, 0, 0);
    if r.Failure? {
      forall q, k | 0 <= q < |paths| && 0 <= k < |exts| ensures !isFile(PathJoin(paths[q], name + exts[k])) {
        assert NoFileIn(paths, name, exts, isFile, q, 0);
      }
    }
    if r.Success? && r.value.basePath.Some? {
      var e := FirstFileFrom(paths, name, exts, isFile, 0, 0).value.1;
      assert EndsWith(name + e, e) by {
        assert forall m :: 0 <= m < |e| ==> (name + e)[|name + e| - |e| + m] == e[m];
      }
    }
  }

  /** What a provider's loader hands back: a template, or the message of
      whatever the underlying engine raised. */
  datatype Template = Template(handle: nat)
  datatype Loaded = Loaded(template: Template) | Raised(message: string)

  /** A provider instance; `serial` counts the instances created before it. */
  datatype ProviderInstance = ProviderInstance(name: string, serial: nat)

  class StatikTemplateEngine {
    const supportedProviders: seq<string>
    const providersByExt: map<string, string>
    const exts: seq<string>
    const templatePaths: seq<string>
    /** Provider instances, created lazily. */
    var providers: map<string, ProviderInstance>
    /** The names of the providers instantiated so far, in order. */
    var created: seq<string>
    var cachedTemplates: map<string, Template>

    /** Each extension maps to a supported provider, each provider is
        instantiated at most once, and only supported ones are. */
    ghost predicate Valid()
      reads this
    {
      && |supportedProviders| > 0
      && Consistent(ExtMap(providersByExt, exts))
      && (forall e :: e in providersByExt ==> providersByExt[e] in supportedProviders)
      && Distinct(created)
      && (forall p :: p in providers <==> p in created)
      && (forall p :: p in providers ==> p in supportedProviders && providers[p].name == p)
    }

    /** The engine once its constructor has worked out `s`. */
    constructor (s: Setup)
      requires |s.supported| > 0 && Consistent(s.extMap)
      requires forall e :: e in s.extMap.byExt ==> s.extMap.byExt[e] in s.supported
      ensures supportedProviders == s.supported && ExtMap(providersByExt, exts) == s.extMap
      ensures templatePaths == s.templatePaths
      ensures providers == map[] && created == [] && cachedTemplates == map[]
      ensures Valid()
    {
      supportedProviders := s.supported;
      providersByExt := s.extMap.byExt;
      exts := s.extMap.exts;
      templatePaths := s.templatePaths;
      providers := map[];
      created := [];
      cachedTemplates := map[];
    }

    /** `get_provider(name)`: the existing instance, or a new one for a
        supported provider; any other name raises `KeyError`. */
    method GetProvider(name: string) returns (r: Result<ProviderInstance>)
      requires Valid()
      modifies this`providers, this`created
      ensures Valid()
      ensures name in old(providers) ==>
        r == Success(old(providers)[name]) && providers == old(providers) && created == old(created)
      ensures name !in old(providers) && name in supportedProviders ==>
        r == Success(ProviderInstance(name, |old(created)|))
        && providers == old(providers)[name := r.value] && created == old(created) + [name]
      ensures name !in old(providers) && name !in supportedProviders ==>
        r == Failure(KeyError(name)) && providers == old(providers) && created == old(created)
    {
      if name !in providers {
        if name !in supportedProviders {
          return Failure(KeyError(name));
        }
        providers := providers[name := ProviderInstance(name, |created|)];
        created := created + [name];
      }
      r := Success(providers[name]);
    }

    /** `find_template_details(name)`: the loop keeps the last extension
        `name` ends with. */
    method FindTemplateDetails(name: string, isFile: string -> bool) returns (r: Result<Details>)
      requires Valid()
      ensures r == TemplateDetails(exts, providersByExt, templatePaths, name, isFile)
    {
      var found: Option<string> := None;
      var i := 0;
      while i < |exts|
        invariant 0 <= i <= |exts|
        invariant found == LastMatchingExt(exts, name, i)
      {
        if EndsWith(name, exts[i]) {
          found := Some(exts[i]);
        }
        i := i + 1;
      }
      if found.Some? {
        return Success(Details(name, providersByExt[found.value], None));
      }
      var first := FirstFileFrom(templatePaths, name, exts, isFile, 0, 0);
      if first.None? {
        return Failure(MissingTemplateError(name));
      }
      r := Success(Details(name + first.value.1, providersByExt[first.value.1], Some(first.value.0)));
    }

    /** `load_template(name)`: a cached template is returned as it is;
        otherwise its provider is instantiated if need be and loads it, and
        the template is cached. What the loader raises becomes a
        `TemplateError` and caches nothing, though the provider stays
        instantiated. */
    method LoadTemplate(name: string, isFile: string -> bool, load: (string, string, Option<string>) -> Loaded)
      returns (r: Result<Template>)
      requires Valid()
      modifies this`providers, this`created, this`cachedTemplates
      ensures Valid()
      ensures name in old(cachedTemplates) ==> (r == Success(old(cachedTemplates)[name])
        && cachedTemplates == old(cachedTemplates) && providers == old(providers) && created == old(created))
      ensures name !in old(cachedTemplates) ==>
        var d := TemplateDetails(exts, providersByExt, templatePaths, name, isFile);
        && (d.Failure? ==> (r == Failure(d.error)
              && cachedTemplates == old(cachedTemplates) && providers == old(providers) && created == old(created)))
        && (d.Success? ==>
              var p := d.value.provider;
              var full := if d.value.basePath.Some? then Some(PathJoin(d.value.basePath.value, d.value.nameWithExt)) else None;
              var l := load(p, d.value.nameWithExt, full);
              && p in providers
              && (p in old(providers) ==> providers == old(providers) && created == old(created))
              && (p !in old(providers) ==> (providers == old(providers)[p := ProviderInstance(p, |old(created)|)]
                    && created == old(created) + [p]))
              && (l.Raised? ==> r == Failure(TemplateError(l.message)) && cachedTemplates == old(cachedTemplates))
              && (l.Loaded? ==> r == Success(l.template) && cachedTemplates == old(cachedTemplates)[name := l.template]))
    {
      if name in cachedTemplates {
        return Success(cachedTemplates[name]);
      }
      var d := FindTemplateDetails(name, isFile);
      if d.Failure? {
        return Failure(d.error);
      }
      TemplateDetailsProvider(exts, providersByExt, templatePaths, name, isFile);
      var full: Option<string> := None;
      if d.value.basePath.Some? {
        full := Some(PathJoin(d.value.basePath.value, d.value.nameWithExt));
      }
      var provider := GetProvider(d.value.provider);
      var l := load(d.value.provider, d.value.nameWithExt, full);
      if l.Raised? {
        return Failure(TemplateError(l.message));
      }
      cachedTemplates := cachedTemplates[name := l.template];
      r := Success(l.template);
    }

    /** `create_template(s, provider_name)`: the named provider, by default
        the first supported one, creates a template from the string; an
        unsupported name and whatever the provider raises become a
        `TemplateError`. */
    method CreateTemplate(s: string, providerName: Option<string>, create: (string, string) -> Loaded)
      returns (r: Result<Template>)
      requires Valid()
      modifies this`providers, this`created
      ensures Valid()
      ensures var p := if providerName.Some? then providerName.value else supportedProviders[0];
        && (p !in supportedProviders && p !in old(providers) ==> (r == Failure(TemplateError("'" + p + "'"))
              && providers == old(providers) && created == old(created)))
        && (p in supportedProviders || p in old(providers) ==> (p in providers
              && (create(p, s).Raised? ==> r == Failure(TemplateError(create(p, s).message)))
              && (create(p, s).Loaded? ==> r == Success(create(p, s).template))))
      ensures providerName.None? ==> supportedProviders[0] in providers
    {
      var p := if providerName.Some? then providerName.value else supportedProviders[0];
      var provider := GetProvider(p);
      if provider.Failure? {
        return Failure(TemplateError("'" + p + "'"));
      }
      var l := create(p, s);
      if l.Raised? {
        return Failure(TemplateError(l.message));
      }
      r := Success(l.template);
    }
  }

  /** The provider found for a template is one the engine supports. */
  lemma TemplateDetailsProvider(exts: seq<string>, byExt: map<string, string>, paths: seq<string>,
                                name: string, isFile: string -> bool)
    requires forall e :: e in exts ==> e in byExt
    ensures var r := TemplateDetails(exts, byExt, paths, name, isFile);
      r.Success? ==> exists e :: e in exts && r.value.provider == byExt[e]
  {
  }

  /** `StatikTemplateEngine(project)`: the supported providers, the
      extension map built by the constructor's loops, and the template
      paths; an engine is returned exactly when the setup succeeds. */
  method NewEngine(configured: seq<string>, safeMode: bool, path: string, theme: Value, isDir: string -> bool)
    returns (r: Result<StatikTemplateEngine>)
    ensures var s := EngineSetup(configured, safeMode, path, theme, isDir);
      && (r.Failure? <==> s.Failure?)
      && (r.Failure? ==> r.error == s.error)
      && (r.Success? ==> (fresh(r.value) && r.value.Valid()
            && r.value.supportedProviders == s.value.supported
            && ExtMap(r.value.providersByExt, r.value.exts) == s.value.extMap
            && r.value.templatePaths == s.value.templatePaths
            && r.value.providers == map[] && r.value.cachedTemplates == map[]))
  {
    var supported := SupportedProviders(configured, safeMode);
    if supported.Failure? {
      return Failure(supported.error);
    }
    var unknown := FirstUnknown(supported.value);
    if unknown.Some? {
      return Failure(KeyError(unknown.value));
    }
    var byExt, exts := BuildExtMap(supported.value);
    var paths := TemplatePaths(path, theme);
    if paths.Failure? {
      return Failure(paths.error);
    }
    var missing := FirstMissing(paths.value, isDir);
    if missing.Some? {
      return Failure(MissingProjectFolderError(missing.value));
    }
    EngineSetupMeaning(configured, safeMode, path, theme, isDir);
    var engine := new StatikTemplateEngine(Setup(supported.value, ExtMap(byExt, exts), paths.value));
    r := Success(engine);
  }
}

=== FILE: utils.dfy ===
/** The path, dictionary and output-tree helpers of statik/utils.py.
    A rendered site is a tree of nested dicts whose leaves are page contents;
    `Tree` is that tree, with a directory as a map from path component to subtree. */
module Utils {
  import opened Common
  import opened PyStr
  import opened Values

  datatype Tree = Leaf(content: string) | Dir(children: map<string, Tree>)

  /* ---------- path components ---------- */

  /** The non-empty strings of `parts`, in order. */
  function NonEmpty(parts: seq<string>): (r: seq<string>)
    ensures forall p :: p in r ==> p != "" && p in parts
    ensures forall p :: p in parts && p != "" ==> p in r
    ensures |r| <= |parts|
  {
    if |parts| == 0 then []
    else (if parts[0] != "" then [parts[0]] else []) + NonEmpty(parts[1..])
  }

  lemma {:induction false} NonEmptyAppend(a: seq<string>, b: seq<string>)
    ensures NonEmpty(a + b) == NonEmpty(a) + NonEmpty(b)
    decreases |a|
  {
    if |a| > 0 {
      assert (a + b)[1..] == a[1..] + b;
      NonEmptyAppend(a[1..], b);
    } else {
      assert a + b == b;
    }
  }

  /** The non-empty `/`-separated components of a path. */
  function Components(path: string): seq<string> {
    NonEmpty(Split(path, "/"))
  }

  /** Components are separated by `/`: joining two paths with a slash
      concatenates their component lists. */
  lemma ComponentsOfJoin(x: string, y: string)
    ensures Components(x + "/" + y) == Components(x) + Components(y)
  {
    SplitAroundChar(x, '/', y);
    NonEmptyAppend(Split(x, "/"), Split(y, "/"));
  }

  predicate AllSlashes(s: string) { forall i :: 0 <= i < |s| ==> s[i] == '/' }

  /** A run of slashes contributes no components. */
  lemma {:induction false} ComponentsOfSlashes(s: string)
    requires AllSlashes(s)
    ensures Components(s) == []
    decreases |s|
  {
    if |s| > 0 {
      assert s == "" + "/" + s[1..];
      ComponentsOfJoin("", s[1..]);
      ComponentsOfSlashes(s[1..]);
      assert Split("", "/") == [""];
    } else {
      assert Split(s, "/") == [""];
    }
  }

  /** Trailing slashes do not change the components of a path. */
  lemma TrailingSlashesIgnored(p: string)
    ensures Components(RStrip(p, {'/'})) == Components(p)
  {
    var x := RStrip(p, {'/'});
    if |x| < |p| {
      assert p[|x|] in {'/'};
      var t := p[|x| + 1..];
      assert p == x + "/" + t;
      assert AllSlashes(t);
      ComponentsOfJoin(x, t);
      ComponentsOfSlashes(t);
    } else {
      assert x == p;
    }
  }

  /** Leading slashes do not change the components of a path. */
  lemma LeadingSlashesIgnored(p: string)
    ensures Components(LStrip(p, {'/'})) == Components(p)
  {
    var y := LStrip(p, {'/'});
    if |y| < |p| {
      var t := p[..|p| - |y| - 1];
      assert p == t + "/" + y;
      assert AllSlashes(t);
      ComponentsOfJoin(t, y);
      ComponentsOfSlashes(t);
    }
  }

  /* ---------- dict_from_path ---------- */

  /** `v` nested under `comps`, outermost component first. */
  function Wrap(comps: seq<string>, v: Tree): Tree {
    if |comps| == 0 then v else Dir(map[comps[0] := Wrap(comps[1..], v)])
  }

  /** The dict `dict_from_path` returns for components `comps`. */
  function Nested(comps: seq<string>, v: Tree): map<string, Tree> {
    if |comps| == 0 then map[] else Wrap(comps, v).children
  }

  /** The node reached from `m` by following `p`, if there is one. */
  function Lookup(m: map<string, Tree>, p: seq<string>): Option<Tree>
    requires |p| > 0
    decreases |p|
  {
    if p[0] !in m then None
    else if |p| == 1 then Some(m[p[0]])
    else match m[p[0]]
      case Leaf(_) => None
      case Dir(c) => Lookup(c, p[1..])
  }

  /** `dict_from_path(path, final_value)`: walks the components from the last
      to the first, wrapping the value in one dict per non-empty component. */
  method DictFromPath(path: string, finalValue: Tree) returns (r: map<string, Tree>)
    ensures r == Nested(Components(path), finalValue)
  {
    var components := Split(path, "/");
    var last := finalValue;
    var cur: map<string, Tree> := map[];
    var i := |components|;
    while i > 0
      invariant 0 <= i <= |components|
      invariant last == Wrap(NonEmpty(components[i..]), finalValue)
      invariant cur == Nested(NonEmpty(components[i..]), finalValue)
    {
      i := i - 1;
      var c := components[i];
      ghost var rest := NonEmpty(components[i + 1..]);
      assert NonEmpty(components[i..]) == (if c != "" then [c] else []) + rest by {
        assert components[i..][1..] == components[i + 1..];
      }
      if |c| > 0 {
        assert c != "";
        assert ([c] + rest)[1..] == rest;
        assert Wrap([c] + rest, finalValue) == Dir(map[c := Wrap(rest, finalValue)]);
        cur := map[c := last];
        last := Dir(cur);
      } else {
        assert c == "";
        assert NonEmpty(components[i..]) == rest;
      }
    }
    assert components[0..] == components;
    r := cur;
  }

  /** The value sits at the path's components, in order. */
  lemma {:induction false} NestedLookup(comps: seq<string>, v: Tree)
    requires |comps| > 0
    ensures Lookup(Nested(comps, v), comps) == Some(v)
    decreases |comps|
  {
    var m := Nested(comps, v);
    assert m == map[comps[0] := Wrap(comps[1..], v)];
    if |comps| > 1 {
      NestedLookup(comps[1..], v);
      assert Wrap(comps[1..], v) == Dir(Nested(comps[1..], v));
      assert Lookup(m, comps) == Lookup(Nested(comps[1..], v), comps[1..]);
    }
  }

  /** Nothing else is in the tree: every node on the way down lies on the path. */
  lemma {:induction false} NestedOnlyPath(comps: seq<string>, v: Tree, p: seq<string>)
    requires 0 < |p| <= |comps|
    requires Lookup(Nested(comps, v), p).Some?
    ensures p == comps[..|p|]
    decreases |p|
  {
    if |p| > 1 {
      assert Nested(comps, v) == map[comps[0] := Wrap(comps[1..], v)];
      if |comps| > 1 {
        assert Wrap(comps[1..], v) == Dir(Nested(comps[1..], v));
        NestedOnlyPath(comps[1..], v, p[1..]);
      }
    }
  }

  /* ---------- deep_merge_dict ---------- */

  /** The value of key `k` after deep-merging `b` into `a`: a leaf of `b` replaces
      whatever `a` holds; a dict of `b` is merged into `a[k]` when that is a dict
      and into an empty dict otherwise. */
  function MergeEntry(a: map<string, Tree>, b: map<string, Tree>, k: string): Tree
    requires k in a || k in b
    decreases Dir(b), 0
  {
    if k !in b then a[k]
    else match b[k]
      case Leaf(_) => b[k]
      case Dir(bc) => Dir(Merge(if k in a && a[k].Dir? then a[k].children else map[], bc))
  }

  /** The dict `deep_merge_dict(a, b)` returns, for dict arguments. */
  function Merge(a: map<string, Tree>, b: map<string, Tree>): map<string, Tree>
    decreases Dir(b), 1
  {
    map k | k in a.Keys + b.Keys :: MergeEntry(a, b, k)
  }

  /** `b` with the keys of `pending` not yet merged. */
  function Without(b: map<string, Tree>, pending: set<string>): map<string, Tree> {
    map k | k in b && k !in pending :: b[k]
  }

  lemma MergeStep(a: map<string, Tree>, b: map<string, Tree>, pending: set<string>, k: string)
    requires k in pending && pending <= b.Keys
    ensures Merge(a, Without(b, pending - {k})) == Merge(a, Without(b, pending))[k := MergeEntry(a, b, k)]
  {
    var b1 := Without(b, pending);
    var b2 := Without(b, pending - {k});
    forall j | j in a.Keys + b2.Keys
      ensures MergeEntry(a, b2, j) == (if j == k then MergeEntry(a, b, k) else MergeEntry(a, b1, j))
    {
    }
  }

  /** `deep_merge_dict(a, b)`: a copy of `a` into which each key of `b` is merged
      in turn; `TypeError` when either argument is not a dict. */
  method DeepMergeDict(a: Tree, b: Tree) returns (r: Result<Tree>)
    ensures !a.Dir? ==> r.Failure? && r.error.TypeError?
    ensures a.Dir? && !b.Dir? ==> r.Failure? && r.error.TypeError?
    ensures a.Dir? && b.Dir? ==> r == Success(Dir(Merge(a.children, b.children)))
    decreases b
  {
    if !a.Dir? {
      return Failure(TypeError("a must be a dict"));
    }
    if !b.Dir? {
      return Failure(TypeError("b must be a dict"));
    }
    var merged := a.children;
    var pending := b.children.Keys;
    assert Without(b.children, pending) == map[];
    assert Merge(a.children, map[]) == a.children;
    while pending != {}
      invariant pending <= b.children.Keys
      invariant merged == Merge(a.children, Without(b.children, pending))
      decreases |pending|
    {
      var k :| k in pending;
      var v := b.children[k];
      assert k !in Without(b.children, pending);
      if v.Dir? {
        var sub := if k in merged && merged[k].Dir? then merged[k] else Dir(map[]);
        var m := DeepMergeDict(sub, v);
        merged := merged[k := m.value];
      } else {
        merged := merged[k := v];
      }
      MergeStep(a.children, b.children, pending, k);
      pending := pending - {k};
    }
    assert Without(b.children, {}) == b.children;
    return Success(Dir(merged));
  }

  /** Merging into an empty dict copies the right-hand side. */
  lemma {:induction false} MergeIntoEmpty(b: map<string, Tree>)
    ensures Merge(map[], b) == b
    decreases Dir(b)
  {
    forall k | k in b
      ensures MergeEntry(map[], b, k) == b[k]
    {
      if b[k].Dir? {
        MergeIntoEmpty(b[k].children);
      }
    }
  }

  /** Merging a tree into itself changes nothing. */
  lemma {:induction false} MergeIdempotent(a: map<string, Tree>)
    ensures Merge(a, a) == a
    decreases Dir(a)
  {
    forall k | k in a
      ensures MergeEntry(a, a, k) == a[k]
    {
      if a[k].Dir? {
        MergeIdempotent(a[k].children);
      }
    }
  }

  /** Every leaf of the right-hand side is in the result, at the same path. */
  lemma {:induction false} MergeRightLeafWins(a: map<string, Tree>, b: map<string, Tree>, p: seq<string>, s: string)
    requires |p| > 0 && Lookup(b, p) == Some(Leaf(s))
    ensures Lookup(Merge(a, b), p) == Some(Leaf(s))
    decreases |p|
  {
    if |p| > 1 {
      var k := p[0];
      var sub := if k in a && a[k].Dir? then a[k].children else map[];
      MergeRightLeafWins(sub, b[k].children, p[1..], s);
    }
  }

  /** The right-hand side leaves the path `p` alone: no node of `b` sits on `p`
      or on a prefix of it, except dicts that `p` passes through. */
  predicate Avoids(b: map<string, Tree>, p: seq<string>)
    decreases |p|
  {
    |p| > 0 &&
    (p[0] !in b || (|p| > 1 && b[p[0]].Dir? && Avoids(b[p[0]].children, p[1..])))
  }

  /** A leaf of the left-hand side survives when the right-hand side avoids its path. */
  lemma {:induction false} MergeLeftLeafSurvives(a: map<string, Tree>, b: map<string, Tree>, p: seq<string>, s: string)
    requires |p| > 0 && Lookup(a, p) == Some(Leaf(s)) && Avoids(b, p)
    ensures Lookup(Merge(a, b), p) == Some(Leaf(s))
    decreases |p|
  {
    var k := p[0];
    if k in b {
      MergeLeftLeafSurvives(a[k].children, b[k].children, p[1..], s);
    }
  }

  /* ---------- underscore_var_names ---------- */

  function UnderscoreKey(k: string): (r: string)
    ensures |r| == |k| && '-' !in r
    ensures forall i :: 0 <= i < |k| && k[i] != '-' ==> r[i] == k[i]
  {
    ReplaceChar(k, '-', '_')
  }

  /** Keys free of `-` at every level of nesting. */
  ghost predicate DashFree(v: Value) {
    match v
    case VDict(d) =>
      (forall k :: k in d.keys ==> '-' !in k)
      && forall k :: k in d.vals ==> DashFree(d.vals[k])
    case _ => true
  }

  /** A dict value gets its keys underscored; any other value is kept as is. */
  function UnderscoreValue(v: Value): (r: Value)
    ensures !v.VDict? ==> r == v
    ensures v.VDict? ==> r.VDict? && WF(r.d)
    decreases v, 1
  {
    if v.VDict? then VDict(UnderscorePrefix(v.d, |v.d.keys|)) else v
  }

  /** The dict built by the first `n` rounds of the loop in `underscore_var_names`. */
  function UnderscorePrefix(d: Dict, n: nat): (r: Dict)
    requires n <= |d.keys|
    ensures WF(r)
    ensures forall k :: k in r.keys ==> '-' !in k
    decreases d, 0, n
  {
    if n == 0 then Empty
    else
      var k := d.keys[n - 1];
      var v := if k in d.vals then UnderscoreValue(d.vals[k]) else VNone;
      Put(UnderscorePrefix(d, n - 1), UnderscoreKey(k), v)
  }

  /** Underscoring leaves no `-` in a key at any level. */
  lemma {:induction false} UnderscoreDashFree(v: Value)
    ensures DashFree(UnderscoreValue(v))
    decreases v, 1
  {
    if v.VDict? {
      UnderscorePrefixDashFree(v.d, |v.d.keys|);
    }
  }

  lemma {:induction false} UnderscorePrefixDashFree(d: Dict, n: nat)
    requires n <= |d.keys|
    ensures DashFree(VDict(UnderscorePrefix(d, n)))
    decreases d, 0, n
  {
    if n > 0 {
      var k := d.keys[n - 1];
      var v := if k in d.vals then UnderscoreValue(d.vals[k]) else VNone;
      UnderscorePrefixDashFree(d, n - 1);
      if k in d.vals { UnderscoreDashFree(d.vals[k]); }
      assert DashFree(v);
    }
  }

  /** After `n` rounds the keys are exactly the underscored first `n` keys. */
  lemma {:induction false} UnderscorePrefixKeys(d: Dict, n: nat)
    requires n <= |d.keys|
    ensures forall i :: 0 <= i < n ==> UnderscoreKey(d.keys[i]) in UnderscorePrefix(d, n).keys
    ensures forall k :: k in UnderscorePrefix(d, n).keys ==>
      exists i :: 0 <= i < n && UnderscoreKey(d.keys[i]) == k
  {
    if n > 0 {
      UnderscorePrefixKeys(d, n - 1);
    }
  }

  /** `underscore_var_names(d)`: every `-` in a key, at every level, becomes `_`. */
  function UnderscoreVarNames(d: Dict): Dict {
    UnderscorePrefix(d, |d.keys|)
  }

  /** The result is a well-formed dict with no `-` in any key at any level,
      whose keys are exactly the underscored keys of `d`. */
  lemma UnderscoreVarNamesMeaning(d: Dict)
    ensures var r := UnderscoreVarNames(d);
      WF(r) && DashFree(VDict(r))
      && (forall k :: k in d.keys ==> UnderscoreKey(k) in r.keys)
      && (forall k :: k in r.keys ==> exists k' :: k' in d.keys && UnderscoreKey(k') == k)
  {
    UnderscorePrefixKeys(d, |d.keys|);
    UnderscorePrefixDashFree(d, |d.keys|);
  }

  /** When no two keys collide after underscoring, each value lands under its
      underscored key (dicts underscored in turn, other values untouched). */
  lemma {:induction false} UnderscoreValues(d: Dict, n: nat, i: nat)
    requires WF(d) && n <= |d.keys| && i < n
    requires forall j :: 0 <= j < |d.keys| && j != i ==> UnderscoreKey(d.keys[j]) != UnderscoreKey(d.keys[i])
    ensures var r := UnderscorePrefix(d, n).vals; var key := UnderscoreKey(d.keys[i]);
      key in r && r[key] == UnderscoreValue(d.vals[d.keys[i]])
    decreases n
  {
    var k := d.keys[n - 1];
    assert k in d.vals;
    var key := UnderscoreKey(d.keys[i]);
    var prev := UnderscorePrefix(d, n - 1).vals;
    var vals := prev[UnderscoreKey(k) := UnderscoreValue(d.vals[k])];
    assert UnderscorePrefix(d, n).vals == vals;
    if i < n - 1 {
      UnderscoreValues(d, n - 1, i);
      assert UnderscoreKey(k) != key;
      assert vals[key] == prev[key];
    } else {
      assert key == UnderscoreKey(k);
    }
  }

  /* ---------- dict_strip and strip_str ---------- */

  /** A string value is stripped, a dict value is stripped recursively, any other
      value is kept as is. */
  function StripValue(v: Value): Value
    decreases v, 1
  {
    match v
    case VStr(s) => VStr(Strip(s))
    case VDict(d) => VDict(DictStrip(d))
    case _ => v
  }

  /** `dict_strip(d)`: the same keys, with `StripValue` applied to each value. */
  function DictStrip(d: Dict): (r: Dict)
    ensures r.keys == d.keys && r.vals.Keys == d.vals.Keys
    ensures WF(d) ==> WF(r)
    decreases d, 0
  {
    Dict(d.keys, map k | k in d.vals :: StripValue(d.vals[k]))
  }

  /** Values with no surrounding whitespace on any string, at every level. */
  ghost predicate StrippedValue(v: Value) {
    match v
    case VStr(s) => s == Strip(s)
    case VDict(d) => forall k :: k in d.vals ==> StrippedValue(d.vals[k])
    case _ => true
  }

  /** Stripping leaves no string with surrounding whitespace, and a stripped
      value is its own stripping. */
  lemma {:induction false} StripValueStripped(v: Value)
    ensures StrippedValue(StripValue(v))
    ensures StripValue(StripValue(v)) == StripValue(v)
    decreases v
  {
    match v
    case VStr(s) => StripIdempotent(s);
    case VDict(d) =>
      forall k | k in d.vals
        ensures StrippedValue(StripValue(d.vals[k]))
        ensures StripValue(StripValue(d.vals[k])) == StripValue(d.vals[k])
      {
        StripValueStripped(d.vals[k]);
      }
      assert DictStrip(DictStrip(d)) == DictStrip(d);
    case _ =>
  }

  /** `dict_strip` is idempotent. */
  lemma DictStripIdempotent(d: Dict)
    ensures DictStrip(DictStrip(d)) == DictStrip(d)
  {
    StripValueStripped(VDict(d));
  }

  function StripEach(lines: seq<string>): (r: seq<string>)
    ensures |r| == |lines| && forall i :: 0 <= i < |lines| ==> r[i] == Strip(lines[i])
  {
    if |lines| == 0 then [] else [Strip(lines[0])] + StripEach(lines[1..])
  }

  /** `strip_str(s)`: the stripped lines of the stripped string, joined by single spaces. */
  function StripStr(s: string): (r: string)
    ensures '\n' !in r
  {
    StripStrOneLine(s);
    Join(StripEach(Split(Strip(s), "\n")), " ")
  }

  lemma StripStrOneLine(s: string)
    ensures '\n' !in Join(StripEach(Split(Strip(s), "\n")), " ")
  {
    var lines := Split(Strip(s), "\n");
    SplitPiecesAvoidSep(Strip(s), "\n");
    StripEachAvoidsChar(lines, '\n');
    JoinAvoidsChar(StripEach(lines), " ", '\n');
  }

  /** On a single line `strip_str` is plain stripping. */
  lemma StripStrSingleLine(s: string)
    requires '\n' !in s
    ensures StripStr(s) == Strip(s)
  {
    var t := Strip(s);
    StripSpec(s);
    assert !Contains(t, "\n") by {
      forall j ensures !OccursAt(t, "\n", j) {
        OccursAtChar(t, '\n', j);
        if 0 <= j < |t| { assert t[j] == s[LeadingSpace(s) + j]; }
      }
    }
    SplitWithoutSep(t, "\n");
    StripIdempotent(s);
    assert StripEach([t]) == [Strip(t)];
  }

  lemma {:induction false} StripEachAvoidsChar(lines: seq<string>, c: char)
    requires forall l :: l in lines ==> !Contains(l, [c])
    ensures forall p :: p in StripEach(lines) ==> c !in p
    decreases |lines|
  {
    if |lines| > 0 {
      assert lines[0] in lines;
      StripSpec(lines[0]);
      NoCharInInfix(lines[0], Strip(lines[0]), c);
      assert forall l :: l in lines[1..] ==> l in lines;
      StripEachAvoidsChar(lines[1..], c);
      assert StripEach(lines) == [Strip(lines[0])] + StripEach(lines[1..]);
    }
  }

  lemma NoCharInInfix(s: string, t: string, c: char)
    requires !Contains(s, [c])
    requires OccursAt(s, t, LeadingSpace(s))
    ensures c !in t
  {
    forall i | 0 <= i < |t| ensures t[i] != c {
      OccursAtChar(s, c, LeadingSpace(s) + i);
    }
  }

  lemma {:induction false} JoinAvoidsChar(parts: seq<string>, sep: string, c: char)
    requires c !in sep && forall p :: p in parts ==> c !in p
    ensures c !in Join(parts, sep)
    decreases |parts|
  {
    if |parts| > 1 {
      JoinAvoidsChar(parts[1..], sep, c);
    }
  }

  /* ---------- URL helpers ---------- */

  /** `add_url_path_component(path, component)`. */
  function AddUrlPathComponent(path: string, component: string): string {
    RStrip(path, {'/'}) + "/" + LStrip(component, {'/'})
  }

  /** The path without its trailing slashes and the component without its
      leading ones, joined by exactly one slash. */
  lemma AddUrlPathComponentJoin(path: string, component: string)
    ensures var r := AddUrlPathComponent(path, component);
      exists i :: (0 <= i < |r| && r[i] == '/'
        && r[..i] == RStrip(path, {'/'}) && r[i + 1..] == LStrip(component, {'/'}))
  {
    var x := RStrip(path, {'/'});
    var y := LStrip(component, {'/'});
    var r := x + "/" + y;
    assert r == AddUrlPathComponent(path, component);
    assert 0 <= |x| < |r| && r[|x|] == '/' && r[..|x|] == x && r[|x| + 1..] == y;
  }

  /** Exactly one slash sits at the join, so the components of the result are
      those of the path followed by those of the component. */
  lemma AddUrlPathComponentComponents(path: string, component: string)
    ensures Components(AddUrlPathComponent(path, component)) == Components(path) + Components(component)
  {
    var x := RStrip(path, {'/'});
    var y := LStrip(component, {'/'});
    ComponentsOfJoin(x, y);
    TrailingSlashesIgnored(path);
    LeadingSlashesIgnored(component);
  }

  /** `sorted([model1, model2])` concatenated. */
  function CalculateAssociationTableName(model1: string, model2: string): (r: string)
    ensures r == model1 + model2 || r == model2 + model1
  {
    if StrLt(model2, model1) then model2 + model1 else model1 + model2
  }

  /** The association-table name does not depend on the order of the two models. */
  lemma AssociationTableNameSymmetric(model1: string, model2: string)
    ensures CalculateAssociationTableName(model1, model2) == CalculateAssociationTableName(model2, model1)
  {
    StrLtTotal(model1, model2);
  }

  /** The last `/`-separated segment of a URL: the text after its last `/`,
      or the whole URL when it has none. */
  function LastSegment(url: string): (r: string)
    ensures CharFree(r, '/') && PieceAfter(url, r, '/')
  {
    var ps := Split(url, "/");
    SplitLastPiece(url, '/');
    ps[|ps| - 1]
  }

  /** The index of the last `c` in `s`. */
  function LastIndexOf(s: string, c: char): (r: Option<nat>)
    ensures r.Some? ==> r.value < |s| && s[r.value] == c
    ensures r.Some? ==> forall k :: r.value < k < |s| ==> s[k] != c
    ensures r.None? ==> CharFree(s, c)
  {
    if |s| == 0 then None
    else if s[|s| - 1] == c then Some(|s| - 1)
    else LastIndexOf(s[..|s| - 1], c)
  }

  /** The extension `os.path.splitext` finds in a name without `/`: from the last
      dot on, provided a character other than a dot precedes that dot. */
  function SplitExt(name: string): (ext: string)
    ensures ext == "" || (ext[0] == '.' && EndsWith(name, ext))
  {
    match LastIndexOf(name, '.')
    case None => ""
    case Some(i) => if exists j :: 0 <= j < i && name[j] != '.' then name[i..] else ""
  }

  /** `get_url_file_ext(url)`: the extension of the last segment, or the whole
      segment when it starts with a dot and has no other extension. */
  function GetUrlFileExt(url: string): string {
    var filename := LastSegment(url);
    var ext := SplitExt(filename);
    if ext == "" && filename != "" && filename[0] == '.' then filename else ext
  }

  /** The extension starts with a dot, lies within the last segment at its
      end, and is empty exactly when that segment has no dot. */
  lemma GetUrlFileExtMeaning(url: string)
    ensures var r := GetUrlFileExt(url);
      (r == "" || r[0] == '.')
      && CharFree(r, '/') && EndsWith(url, r)
      && (r == "" <==> CharFree(LastSegment(url), '.'))
  {
    var filename := LastSegment(url);
    ExtFound(filename);
    EndsWithTrans(url, filename, GetUrlFileExt(url), '/');
  }

  lemma ExtFound(name: string)
    ensures !CharFree(name, '.') ==> SplitExt(name) != "" || name[0] == '.'
    ensures CharFree(name, '.') ==> SplitExt(name) == ""
    ensures EndsWith(name, name)
  {
    match LastIndexOf(name, '.')
    case None =>
    case Some(i) =>
      if !(exists j :: 0 <= j < i && name[j] != '.') && i > 0 {
        assert name[0] == '.';
      }
  }

  /** Only the last segment counts: what comes before the last `/` is ignored. */
  lemma UrlExtOfLastSegment(prefix: string, name: string)
    requires CharFree(name, '/')
    ensures GetUrlFileExt(prefix + "/" + name) == GetUrlFileExt(name)
  {
    SplitAroundChar(prefix, '/', name);
    assert !Contains(name, "/") by {
      forall j ensures !OccursAt(name, "/", j) {
        if 0 <= j < |name| { OccursAtChar(name, '/', j); }
      }
    }
    SplitWithoutSep(name, "/");
    assert Split(name, "/") == [name];
  }

  /** A URL ending in `/` has no extension. */
  lemma UrlExtOfDirectory(url: string)
    ensures GetUrlFileExt(url + "/") == ""
  {
    SplitAroundChar(url, '/', "");
    assert url + "/" == url + "/" + "";
    assert Split("", "/") == [""];
  }

  /** `extract_filename(path)`: the last segment without its extension. */
  function ExtractFilename(path: string): string {
    var name := LastSegment(path);
    var ext := SplitExt(name);
    name[..|name| - |ext|]
  }

  /** The file name is the last segment with its extension cut off, and it
      holds no `/`. */
  lemma ExtractFilenameParts(path: string)
    ensures ExtractFilename(path) + SplitExt(LastSegment(path)) == LastSegment(path)
    ensures CharFree(ExtractFilename(path), '/')
  {
    var name := LastSegment(path);
    var ext := SplitExt(name);
    ExtFound(name);
    DropSuffix(name, ext, '/');
  }

  /* ---------- small helpers ---------- */

  /** `uncapitalize(s)`: a leading capital becomes lower case; the rest is kept. */
  function Uncapitalize(s: string): (r: string)
    ensures |r| == |s| && (s != "" ==> r[1..] == s[1..])
    ensures s != "" ==> !('A' <= r[0] <= 'Z')
    ensures s != "" && !('A' <= s[0] <= 'Z') ==> r == s
  {
    if s == "" then "" else [LowerChar(s[0])] + s[1..]
  }

  /** The repeated elements of `s[..n]`, each once, in the order in which they
      occur for the second time. */
  function DupsUpTo(s: seq<Value>, n: nat): seq<Value>
    requires n <= |s|
  {
    if n == 0 then []
    else
      var d := DupsUpTo(s, n - 1);
      if s[n - 1] in s[..n - 1] && s[n - 1] !in d then d + [s[n - 1]] else d
  }

  /** An element is reported iff it occurs at least twice, and none is reported twice. */
  lemma {:induction false} DupsUpToMeaning(s: seq<Value>, n: nat)
    requires n <= |s|
    ensures forall x :: x in DupsUpTo(s, n) <==> multiset(s[..n])[x] >= 2
    ensures Distinct(DupsUpTo(s, n))
  {
    if n > 0 {
      DupsUpToMeaning(s, n - 1);
      assert s[..n] == s[..n - 1] + [s[n - 1]];
    }
  }

  /** Without repeats nothing is reported. */
  lemma DupsOfDistinct(s: seq<Value>)
    requires Distinct(s)
    ensures DupsUpTo(s, |s|) == []
  {
    DupsUpToMeaning(s, |s|);
    if DupsUpTo(s, |s|) != [] {
      var x := DupsUpTo(s, |s|)[0];
      var t := s[..|s|];
      assert t == s;
      assert x in DupsUpTo(s, |s|);
      assert multiset(t)[x] >= 2;
      DistinctCount(t, x);
    }
  }

  lemma {:induction false} DistinctCount(s: seq<Value>, x: Value)
    requires Distinct(s)
    ensures multiset(s)[x] <= 1
    decreases |s|
  {
    if |s| > 0 {
      assert s == [s[0]] + s[1..];
      DistinctCount(s[1..], x);
      if x == s[0] {
        assert x !in s[1..];
      }
    }
  }

  /** A sequence with as many distinct elements as entries has no repeats. */
  lemma {:induction false} DistinctFromCard(s: seq<Value>)
    ensures |set x | x in s| <= |s|
    ensures |set x | x in s| == |s| ==> Distinct(s)
    decreases |s|
  {
    if |s| > 0 {
      var t := s[1..];
      DistinctFromCard(t);
      assert (set x | x in s) == (set x | x in t) + {s[0]};
      if s[0] in t {
        assert (set x | x in s) == (set x | x in t);
      } else if |set x | x in s| == |s| {
        forall i, j | 0 <= i < j < |s| ensures s[i] != s[j] {
          if i > 0 { assert s[i] == t[i - 1] && s[j] == t[j - 1]; }
          else { assert s[j] == t[j - 1]; }
        }
      }
    }
  }

  /** `find_duplicates_in_array(array)`. */
  method FindDuplicatesInArray(items: seq<Value>) returns (duplicates: seq<Value>)
    ensures duplicates == DupsUpTo(items, |items|)
    ensures forall x :: x in duplicates <==> multiset(items)[x] >= 2
    ensures Distinct(duplicates)
  {
    duplicates := [];
    var nonDuplicates: seq<Value> := [];
    DupsUpToMeaning(items, |items|);
    assert items[..|items|] == items;
    if |items| != |set x | x in items| {
      var i := 0;
      while i < |items|
        invariant 0 <= i <= |items|
        invariant duplicates == DupsUpTo(items, i)
        invariant forall x :: x in nonDuplicates <==> x in items[..i]
      {
        var item := items[i];
        assert items[..i + 1] == items[..i] + [item];
        if item !in nonDuplicates {
          nonDuplicates := nonDuplicates + [item];
        } else if item !in duplicates {
          duplicates := duplicates + [item];
        }
        i := i + 1;
      }
    } else {
      DistinctFromCard(items);
      DupsOfDistinct(items);
    }
  }
}

=== FILE: values.dfy ===
/** Python values as Statik handles them: the configuration, variables and
    record data it reads from YAML/JSON, and the template context it builds.
    A `Dict` is a Python `dict`: keys in insertion order plus a key-value map. */
module Values {
  import opened Common

  datatype Value =
    | VNone
    | VBool(b: bool)
    | VInt(i: int)
    | VStr(s: string)
    | VList(elems: seq<Value>)
    | VDict(d: Dict)
    /** A loaded database record, named by its model and primary key. */
    | VRecord(model: string, pk: string)

  datatype Dict = Dict(keys: seq<string>, vals: map<string, Value>)

  const Empty: Dict := Dict([], map[])

  predicate Distinct<T(==)>(s: seq<T>) {
    forall i, j :: 0 <= i < j < |s| ==> s[i] != s[j]
  }

  /** Every dict Python can build: each key listed once, and exactly the keys of the map. */
  predicate WF(d: Dict) {
    Distinct(d.keys) && d.vals.Keys == set k | k in d.keys
  }

  /** Each listed key has a value; every well-formed dict is listed. */
  predicate Listed(d: Dict) {
    forall i :: 0 <= i < |d.keys| ==> d.keys[i] in d.vals
  }

  /** Python truthiness: `None`, `False`, `0`, `""`, `[]` and `{}` are false. */
  predicate Truthy(v: Value) {
    match v
    case VNone => false
    case VBool(b) => b
    case VInt(i) => i != 0
    case VStr(s) => |s| > 0
    case VList(e) => |e| > 0
    case VDict(d) => |d.keys| > 0
    case VRecord(_, _) => true
  }

  function Get(d: Dict, k: string): Option<Value> {
    if k in d.vals then Some(d.vals[k]) else None
  }

  /** `d.get(k, default)`. */
  function GetOr(d: Dict, k: string, default: Value): Value {
    if k in d.vals then d.vals[k] else default
  }

  /** `d[k] = v`: an existing key keeps its position, a new key goes last. */
  function Put(d: Dict, k: string, v: Value): (r: Dict)
    ensures r.vals == d.vals[k := v]
    ensures k in d.keys ==> r.keys == d.keys
    ensures k !in d.keys ==> r.keys == d.keys + [k]
    ensures WF(d) ==> WF(r)
  {
    if k in d.keys then Dict(d.keys, d.vals[k := v]) else Dict(d.keys + [k], d.vals[k := v])
  }

  /** `d.update(e)` where `e` lists the keys `ks` with the values `vals`. */
  function UpdateKeys(d: Dict, ks: seq<string>, vals: map<string, Value>): (r: Dict)
    ensures forall k :: k in r.vals <==> k in d.vals || (k in ks && k in vals)
    ensures forall k :: k in r.vals ==>
      r.vals[k] == if k in ks && k in vals then vals[k] else d.vals[k]
    ensures WF(d) ==> WF(r)
    ensures forall k :: k in r.keys <==> k in d.keys || (k in ks && k in vals)
    decreases |ks|
  {
    if |ks| == 0 then d
    else
      var d' := if ks[0] in vals then Put(d, ks[0], vals[ks[0]]) else d;
      assert forall k :: k in ks <==> k == ks[0] || k in ks[1..];
      UpdateKeys(d', ks[1..], vals)
  }

  /** `d.update(e)`: every key of `e` takes `e`'s value, other keys keep theirs. */
  function Update(d: Dict, e: Dict): (r: Dict)
    ensures WF(e) ==> r.vals == d.vals + e.vals
    ensures WF(d) ==> WF(r)
    ensures forall k :: k in r.keys <==> k in d.keys || (k in e.keys && k in e.vals)
  {
    UpdateKeys(d, e.keys, e.vals)
  }

  /** A dict literal `{k1: v1, ...}`, later repeats of a key winning. */
  function FromPairs(ps: seq<(string, Value)>): (r: Dict)
    ensures WF(r)
    ensures forall k :: k in r.vals <==> exists i :: 0 <= i < |ps| && ps[i].0 == k
    decreases |ps|
  {
    if |ps| == 0 then Empty
    else
      var r := Put(FromPairs(ps[..|ps| - 1]), ps[|ps| - 1].0, ps[|ps| - 1].1);
      assert forall i :: 0 <= i < |ps| - 1 ==> ps[..|ps| - 1][i] == ps[i];
      r
  }
}

=== FILE: views.dfy ===
/** Views (statik/views.py): a view maps a path configuration and a
    template to pages of the output tree. A simple view has a string path and
    renders one page; a complex view renders its path template once for each
    record a query yields, giving one page per record. */
module Views {
  import opened Common
  import opened Values
  import opened PyStr
  import opened Utils
  import opened Context

  /* ---------- configuration ---------- */

  /** `key in container` for a value read from YAML: the keys of a dict, the
      substrings of a string, the members of a list; `TypeError` otherwise. */
  function PyIn(key: string, container: Value): (r: Result<bool>)
    ensures container.VDict? ==> r == Success(key in container.d.vals)
    ensures container.VStr? ==> r == Success(IndexOf(container.s, key).Some?)
    ensures container.VList? ==> r == Success(VStr(key) in container.elems)
    ensures !container.VDict? && !container.VStr? && !container.VList? ==> r.Failure? && r.error.TypeError?
  {
    match container
    case VDict(d) => Success(key in d.vals)
    case VStr(s) => Success(IndexOf(s, key).Some?)
    case VList(es) => Success(VStr(key) in es)
    case _ => Failure(TypeError("argument is not iterable"))
  }

  /** The path configuration: a string path, or a path template rendered for
      each record of the query bound to a single for-each variable. */
  datatype PathShape = Simple(path: string) | Complex(template: string, variable: string, query: Value)

  /** The for-each value of a complex path: a dict with exactly one key. */
  predicate SingleEntry(v: Value) {
    v.VDict? && |v.d.keys| == 1
  }

  /** The value under the only key of a single-entry dict (a listed key
      always has a value). */
  function OnlyValue(d: Dict): Value
    requires |d.keys| == 1
  {
    if d.keys[0] in d.vals then d.vals[d.keys[0]] else VNone
  }

  /** `configure` and `configure_complex_view` on the `path` variable. */
  function PathShapeOf(vars: Dict): Result<PathShape> {
    if "path" !in vars.vals then Failure(MissingParameterError("path"))
    else match vars.vals["path"]
      case VStr(s) => Success(Simple(s))
      case VDict(p) =>
        if "template" !in p.vals || !p.vals["template"].VStr? then Failure(MissingParameterError("path.template"))
        else if "for-each" !in p.vals then Failure(MissingParameterError("path.for-each"))
        else if !SingleEntry(p.vals["for-each"]) then Failure(ValueError("path.for-each"))
        else
          var fe := p.vals["for-each"].d;
          Success(Complex(p.vals["template"].s, fe.keys[0], OnlyValue(fe)))
      case _ => Failure(ValueError("path"))
  }

  /** A string path makes a simple view; a dict makes a complex one only
      with a string `template` and a one-entry `for-each`, whose key is the
      path variable and whose value is the query; anything else is refused,
      with the first missing piece named in the error. */
  lemma PathShapeOfMeaning(vars: Dict)
    ensures "path" !in vars.vals ==> PathShapeOf(vars) == Failure(MissingParameterError("path"))
    ensures "path" in vars.vals && vars.vals["path"].VStr? ==> PathShapeOf(vars) == Success(Simple(vars.vals["path"].s))
    ensures "path" in vars.vals && !vars.vals["path"].VStr? && !vars.vals["path"].VDict? ==>
      PathShapeOf(vars) == Failure(ValueError("path"))
    ensures PathShapeOf(vars).Success? && PathShapeOf(vars).value.Complex? <==>
      "path" in vars.vals && vars.vals["path"].VDict?
      && "template" in vars.vals["path"].d.vals && vars.vals["path"].d.vals["template"].VStr?
      && "for-each" in vars.vals["path"].d.vals && SingleEntry(vars.vals["path"].d.vals["for-each"])
    ensures PathShapeOf(vars).Success? && PathShapeOf(vars).value.Complex? ==>
      var p := vars.vals["path"].d;
      PathShapeOf(vars).value.template == p.vals["template"].s
      && [PathShapeOf(vars).value.variable] == p.vals["for-each"].d.keys
      && PathShapeOf(vars).value.query == OnlyValue(p.vals["for-each"].d)
    ensures PathShapeOf(vars).Failure? && "path" in vars.vals && vars.vals["path"].VDict? ==>
      var p := vars.vals["path"].d;
      if "template" !in p.vals || !p.vals["template"].VStr? then PathShapeOf(vars).error == MissingParameterError("path.template")
      else if "for-each" !in p.vals then PathShapeOf(vars).error == MissingParameterError("path.for-each")
      else PathShapeOf(vars).error == ValueError("path.for-each")
  {
  }

  /** The static, dynamic and for-each sections of a view's context. */
  datatype ContextConfig = ContextConfig(staticVars: Dict, dynamic: Dict, forEach: Dict)

  /** One `if 'x' in context and isinstance(context['x'], dict)` test of
      `configure_context`: the underscored section when it is a dict. A
      context that is not a dict but "contains" the name fails on the
      subscript. */
  function Section(ctx: Value, name: string): (r: Result<Option<Dict>>)
    ensures r.Success? && r.value.Some? ==> WF(r.value.value)
    ensures ctx.VDict? ==> r.Success?
    ensures ctx.VDict? && name in ctx.d.vals && ctx.d.vals[name].VDict? ==>
      r == Success(Some(UnderscoreVarNames(ctx.d.vals[name].d)))
    ensures ctx.VDict? && !(name in ctx.d.vals && ctx.d.vals[name].VDict?) ==> r == Success(None)
  {
    var present :- PyIn(name, ctx);
    if !present then Success(None)
    else if !ctx.VDict? then Failure(TypeError("indices must be integers"))
    else if ctx.d.vals[name].VDict? then Success(Some(UnderscoreVarNames(ctx.d.vals[name].d)))
    else Success(None)
  }

  function OrEmpty(o: Option<Dict>): Dict {
    if o.Some? then o.value else Empty
  }

  /** `configure_context` on a freshly constructed view, whose sections are
      all empty. */
  function ContextOf(vars: Dict): (r: Result<ContextConfig>)
    ensures r.Success? ==> WF(r.value.staticVars) && WF(r.value.dynamic) && WF(r.value.forEach)
    ensures "context" !in vars.vals ==> r == Success(ContextConfig(Empty, Empty, Empty))
    ensures "context" in vars.vals && vars.vals["context"].VDict? ==> r.Success?
  {
    if "context" !in vars.vals then Success(ContextConfig(Empty, Empty, Empty))
    else
      var ctx := vars.vals["context"];
      var s :- Section(ctx, "static");
      var d :- Section(ctx, "dynamic");
      var f :- Section(ctx, "for-each");
      Success(ContextConfig(OrEmpty(s), OrEmpty(d), OrEmpty(f)))
  }

  /** What `configure` settles: the path shape, the template (the one given
      to the constructor, else the one `load` gives for the `template`
      variable) and the context sections. */
  datatype ViewConfig = ViewConfig(shape: PathShape, template: string, context: ContextConfig)

  function ConfigOf(vars: Dict, template: Option<string>, load: Value -> string): (r: Result<ViewConfig>)
  {
    var shape :- PathShapeOf(vars);
    var t :- if template.Some? then Success(template.value)
             else if "template" !in vars.vals then Failure(MissingParameterError("template"))
             else Success(load(vars.vals["template"]));
    var ctx :- ContextOf(vars);
    Success(ViewConfig(shape, t, ctx))
  }

  /** The checks of `configure` come in order: the path first, then the
      template, then the context; a view that passes them all has its
      template, and its context sections are well-formed dicts without `-`
      in any key. */
  lemma ConfigOfMeaning(vars: Dict, template: Option<string>, load: Value -> string)
    ensures PathShapeOf(vars).Failure? ==> ConfigOf(vars, template, load) == Failure(PathShapeOf(vars).error)
    ensures PathShapeOf(vars).Success? && template.None? && "template" !in vars.vals ==>
      ConfigOf(vars, template, load) == Failure(MissingParameterError("template"))
    ensures ConfigOf(vars, template, load).Success? ==>
      var c := ConfigOf(vars, template, load).value;
      c.shape == PathShapeOf(vars).value
      && c.template == (if template.Some? then template.value else load(vars.vals["template"]))
      && WF(c.context.staticVars) && WF(c.context.dynamic) && WF(c.context.forEach)
    ensures (PathShapeOf(vars).Success? && (template.Some? || "template" in vars.vals)
             && ("context" !in vars.vals || vars.vals["context"].VDict?)) ==>
      ConfigOf(vars, template, load).Success?
  {
  }

  /** A view that passes the checks has a `path` variable, which is the
      path itself when the view is simple. */
  lemma ConfiguredPath(vars: Dict, template: Option<string>, load: Value -> string)
    requires ConfigOf(vars, template, load).Success?
    ensures "path" in vars.vals
    ensures ConfigOf(vars, template, load).value.shape.Simple? ==>
      vars.vals["path"] == VStr(ConfigOf(vars, template, load).value.shape.path)
  {
    PathShapeOfMeaning(vars);
  }

  /** A view's context is taken section by section, each only when it is a
      dict, and with every key at every level underscored. */
  lemma ContextSections(vars: Dict)
    requires "context" in vars.vals && vars.vals["context"].VDict?
    ensures var ctx := vars.vals["context"].d; var c := ContextOf(vars).value;
      (if "static" in ctx.vals && ctx.vals["static"].VDict?
       then c.staticVars == UnderscoreVarNames(ctx.vals["static"].d) else c.staticVars == Empty)
      && (if "dynamic" in ctx.vals && ctx.vals["dynamic"].VDict?
          then c.dynamic == UnderscoreVarNames(ctx.vals["dynamic"].d) else c.dynamic == Empty)
      && (if "for-each" in ctx.vals && ctx.vals["for-each"].VDict?
          then c.forEach == UnderscoreVarNames(ctx.vals["for-each"].d) else c.forEach == Empty)
    ensures DashFree(VDict(ContextOf(vars).value.staticVars)) && DashFree(VDict(ContextOf(vars).value.dynamic))
      && DashFree(VDict(ContextOf(vars).value.forEach))
  {
    var ctx := vars.vals["context"];
    var s := Section(ctx, "static").value;
    var d := Section(ctx, "dynamic").value;
    var f := Section(ctx, "for-each").value;
    if s.Some? { UnderscoreVarNamesMeaning(ctx.d.vals["static"].d); }
    if d.Some? { UnderscoreVarNamesMeaning(ctx.d.vals["dynamic"].d); }
    if f.Some? { UnderscoreVarNamesMeaning(ctx.d.vals["for-each"].d); }
  }

  /** The argument checks of `__init__`: the view's name is the `name`
      argument, else the file name without extension; the `models` argument
      is required, and so is a template engine unless a template was given. */
  function ViewName(name: Option<string>, filename: Option<string>, hasModels: bool, hasEngine: bool,
                    template: Option<string>): (r: Result<string>)
    ensures name.Some? && hasModels && (hasEngine || template.Some?) ==> r == Success(name.value)
    ensures name.None? && filename.Some? && hasModels && (hasEngine || template.Some?) ==>
      r == Success(ExtractFilename(filename.value))
    ensures r.Failure? <==> (name.None? && filename.None?) || !hasModels || (!hasEngine && template.None?)
    ensures r.Failure? ==> r.error.MissingParameterError?
  {
    var n :- if name.Some? then Success(name.value)
             else if filename.Some? then Success(ExtractFilename(filename.value))
             else Failure(MissingParameterError("name"));
    if !hasModels then Failure(MissingParameterError("models"))
    else if !hasEngine && template.None? then Failure(MissingParameterError("template_engine"))
    else Success(n)
  }

  /* ---------- output paths ---------- */

  /** The output path of a page: a path whose last segment has no extension
      gets the default file name (`index.html`) appended. */
  function PageOutput(path: string, defaultFile: string): string {
    if GetUrlFileExt(path) == "" then AddUrlPathComponent(path, "/" + defaultFile) else path
  }

  /** A path with an extension is used as is; otherwise the page lands in
      the default file under the path's components. */
  lemma PageOutputComponents(path: string, defaultFile: string)
    requires defaultFile != "" && CharFree(defaultFile, '/')
    ensures GetUrlFileExt(path) == "" ==> Components(PageOutput(path, defaultFile)) == Components(path) + [defaultFile]
    ensures GetUrlFileExt(path) != "" ==> PageOutput(path, defaultFile) == path
  {
    if GetUrlFileExt(path) == "" {
      AddUrlPathComponentComponents(path, "/" + defaultFile);
      ComponentsOfFileName(defaultFile);
    }
  }

  /** `/name` has the one component `name` when `name` holds no `/`. */
  lemma ComponentsOfFileName(name: string)
    requires name != "" && CharFree(name, '/')
    ensures Components("/" + name) == [name]
  {
    ComponentsOfJoin("", name);
    assert "" + "/" + name == "/" + name;
    assert Components("") == [] by {
      assert Split("", "/") == [""];
    }
    CharFreeSplit(name, '/');
  }

  /** The last rule of `reverse_url`: a `/` is appended unless the URL ends
      with `/` or its last three characters are `.js`. */
  function SlashRule(url: string): string {
    if EndsWith(url, "/") || EndsWith(url, ".js") then url else url + "/"
  }

  /** The rule leaves a URL ending in `/` or `.js` alone and appends one `/`
      to any other. */
  lemma SlashRuleMeaning(url: string)
    ensures var r := SlashRule(url);
      (EndsWith(r, "/") || EndsWith(r, ".js"))
      && (r == url || r == url + "/")
      && (r == url <==> EndsWith(url, "/") || EndsWith(url, ".js"))
  {
    assert (url + "/")[|url|] == '/';
  }

  /** Applying the rule twice changes nothing more. */
  lemma SlashRuleIdempotent(url: string)
    ensures SlashRule(SlashRule(url)) == SlashRule(url)
  {
    SlashRuleMeaning(url);
  }

  /** The one-entry dict `{variable: inst}`. */
  function Single(variable: string, inst: Value): (d: Dict)
    ensures WF(d) && d.vals == map[variable := inst]
  {
    Dict([variable], map[variable := inst])
  }

  /** `reverse_url(inst)`: the path template rendered with the record bound
      to the path variable (complex views) or the path itself (simple
      views), ending in `/` unless it is a `.js` file. */
  function ReverseUrl(shape: PathShape, inst: Value, renderPath: (string, Dict) -> string): string {
    match shape
    case Simple(p) => SlashRule(p)
    case Complex(t, v, _) => SlashRule(renderPath(t, Single(v, inst)))
  }

  /** A reverse URL never lacks its final `/`, so its page is the default
      file inside it unless it is a `.js` file. */
  lemma ReverseUrlIsDirectory(shape: PathShape, inst: Value, renderPath: (string, Dict) -> string)
    ensures !EndsWith(ReverseUrl(shape, inst, renderPath), ".js") ==> GetUrlFileExt(ReverseUrl(shape, inst, renderPath)) == ""
  {
    var r := ReverseUrl(shape, inst, renderPath);
    match shape {
      case Simple(p) => SlashRuleMeaning(p);
      case Complex(t, v, _) => SlashRuleMeaning(renderPath(t, Single(v, inst)));
    }
    if !EndsWith(r, ".js") {
      assert EndsWith(r, "/");
      assert r == r[..|r| - 1] + "/";
      UrlExtOfDirectory(r[..|r| - 1]);
    }
  }

  /* ---------- processing ---------- */

  /** The external parts a view is processed with: the database query
      runner, the template renderer, and the renderer of path templates. */
  datatype Engine = Engine(run: Runner, render: (string, Dict) -> string, renderPath: (string, Dict) -> string)

  /** What a complex view's loop reads: its path configuration, for-each
      queries, template and default output file. */
  datatype Setup = Setup(shape: PathShape, forEach: Dict, template: string, defaultFile: string)

  /** The loop state of `process_complex`: the view's context and the pages
      rendered so far. */
  datatype Progress = Progress(context: Dict, out: map<string, Tree>)

  /** The output path of the page for record `inst`. */
  function InstancePath(s: Setup, e: Engine, inst: Value): string {
    PageOutput(ReverseUrl(s.shape, inst, e.renderPath), s.defaultFile)
  }

  /** What one round of `process_complex` takes from outside the view's
      context: the record, the components of its page's path and the
      results of the for-each queries with the record bound. */
  datatype Round = Round(inst: Value, path: seq<string>, forEach: Result<Dict>)

  function RoundOf(s: Setup, e: Engine, inst: Value): Round
    requires s.shape.Complex? && Listed(s.forEach)
  {
    Round(inst, Components(InstancePath(s, e, inst)), Queried(s.forEach, e.run, VDict(Single(s.shape.variable, inst))))
  }

  /** The rounds for the records the path query yields, in order. */
  function Rounds(s: Setup, e: Engine, insts: seq<Value>): (rs: seq<Round>)
    requires s.shape.Complex? && Listed(s.forEach)
    ensures |rs| == |insts|
  {
    seq(|insts|, i requires 0 <= i < |insts| => RoundOf(s, e, insts[i]))
  }

  /** One round of `process_complex`: the record is bound to the path
      variable, the for-each results go on top, and the template rendered
      with that context is merged into the output at the record's path. */
  function ComplexStep(variable: string, template: string, render: (string, Dict) -> string, p: Progress,
                       r: Round): Result<Progress>
  {
    var fe :- r.forEach;
    var ctx := Update(Put(p.context, variable, r.inst), fe);
    Success(Progress(ctx, Merge(p.out, Nested(r.path, Leaf(render(template, ctx))))))
  }

  /** A round of the loop as a function of the state before it. */
  type StepFn = (Progress, Round) -> Result<Progress>

  function StepOf(variable: string, template: string, render: (string, Dict) -> string): StepFn {
    (p: Progress, r: Round) => ComplexStep(variable, template, render, p, r)
  }

  /** The state after the first `n` rounds. */
  function FoldTo(step: StepFn, ctx: Dict, rounds: seq<Round>, n: nat): Result<Progress>
    requires n <= |rounds|
  {
    if n == 0 then Success(Progress(ctx, map[]))
    else
      var p :- FoldTo(step, ctx, rounds, n - 1);
      step(p, rounds[n - 1])
  }

  /** What `process_complex` returns and leaves in the context, starting
      from the context `ctx`, for the records `insts`. */
  function ComplexOf(s: Setup, e: Engine, ctx: Dict, insts: seq<Value>): Result<Progress>
    requires s.shape.Complex? && Listed(s.forEach)
  {
    FoldTo(StepOf(s.shape.variable, s.template, e.render), ctx, Rounds(s, e, insts), |insts|)
  }

  /** The context `process_complex` leaves in the view. */
  function ComplexContext(s: Setup, e: Engine, ctx: Dict, insts: seq<Value>): Dict
    requires s.shape.Complex? && Listed(s.forEach)
  {
    ContextTo(s.shape.variable, StepOf(s.shape.variable, s.template, e.render), ctx, Rounds(s, e, insts), |insts|)
  }

  /** A round that fails ends the loop with its error. */
  lemma {:induction false} FoldStopped(step: StepFn, ctx: Dict, rounds: seq<Round>, i: nat, n: nat)
    requires i <= n <= |rounds|
    requires FoldTo(step, ctx, rounds, i).Failure?
    ensures FoldTo(step, ctx, rounds, n) == FoldTo(step, ctx, rounds, i)
    decreases n - i
  {
    if i < n {
      FoldStopped(step, ctx, rounds, i, n - 1);
    }
  }

  /** A loop that got through `n` rounds got through every earlier one. */
  lemma {:induction false} FoldPrefixSucceeds(step: StepFn, ctx: Dict, rounds: seq<Round>, i: nat, n: nat)
    requires i <= n <= |rounds|
    requires FoldTo(step, ctx, rounds, n).Success?
    ensures FoldTo(step, ctx, rounds, i).Success?
    decreases n - i
  {
    if i < n {
      FoldPrefixSucceeds(step, ctx, rounds, i, n - 1);
    }
  }

  /** The view's context after the first `n` rounds: the context of the
      last round, or, once a round has failed, the context that round left
      behind, which has the record bound to the path variable and none of
      its for-each results. */
  function ContextTo(variable: string, step: StepFn, ctx: Dict, rounds: seq<Round>, n: nat): Dict
    requires n <= |rounds|
  {
    if n == 0 then ctx
    else match FoldTo(step, ctx, rounds, n - 1)
      case Failure(_) => ContextTo(variable, step, ctx, rounds, n - 1)
      case Success(p) =>
        match step(p, rounds[n - 1])
          case Success(q) => q.context
          case Failure(_) => Put(p.context, variable, rounds[n - 1].inst)
  }

  /** While the loop runs, the view's context is that of its state. */
  lemma ContextOfProgress(variable: string, step: StepFn, ctx: Dict, rounds: seq<Round>, n: nat, p: Progress)
    requires n <= |rounds| && FoldTo(step, ctx, rounds, n) == Success(p)
    ensures ContextTo(variable, step, ctx, rounds, n) == p.context
  {
  }

  /** After a failing round the context no longer changes. */
  lemma {:induction false} ContextStopped(variable: string, step: StepFn, ctx: Dict, rounds: seq<Round>,
                                          i: nat, n: nat)
    requires 0 < i <= n <= |rounds|
    requires FoldTo(step, ctx, rounds, i).Failure?
    ensures ContextTo(variable, step, ctx, rounds, n) == ContextTo(variable, step, ctx, rounds, i)
    decreases n - i
  {
    if i < n {
      ContextStopped(variable, step, ctx, rounds, i, n - 1);
      FoldStopped(step, ctx, rounds, i, n - 1);
    }
  }

  /** The round that fails leaves its record bound in the context. */
  lemma FailedRoundContext(variable: string, template: string, render: (string, Dict) -> string, ctx: Dict,
                           rounds: seq<Round>, n: nat)
    requires 0 < n <= |rounds|
    requires FoldTo(StepOf(variable, template, render), ctx, rounds, n - 1).Success?
    requires FoldTo(StepOf(variable, template, render), ctx, rounds, n).Failure?
    ensures var p := FoldTo(StepOf(variable, template, render), ctx, rounds, n - 1).value;
      ContextTo(variable, StepOf(variable, template, render), ctx, rounds, n)
        == Put(p.context, variable, rounds[n - 1].inst)
      && rounds[n - 1].forEach.Failure?
  {
  }

  /** The page of the latest record is in the output, at its path, holding
      the template rendered with the context of its round. */
  lemma ComplexLatestPage(variable: string, template: string, render: (string, Dict) -> string, ctx: Dict,
                          rounds: seq<Round>, n: nat)
    requires 0 < n <= |rounds| && |rounds[n - 1].path| > 0
    requires FoldTo(StepOf(variable, template, render), ctx, rounds, n).Success?
    ensures var p := FoldTo(StepOf(variable, template, render), ctx, rounds, n).value;
      Lookup(p.out, rounds[n - 1].path) == Some(Leaf(render(template, p.context)))
  {
    var step := StepOf(variable, template, render);
    var p := FoldTo(step, ctx, rounds, n).value;
    var prev := FoldTo(step, ctx, rounds, n - 1).value;
    assert FoldTo(step, ctx, rounds, n) == ComplexStep(variable, template, render, prev, rounds[n - 1]);
    var comps := rounds[n - 1].path;
    var leaf := Leaf(render(template, p.context));
    NestedLookup(comps, leaf);
    MergeRightLeafWins(prev.out, Nested(comps, leaf), comps, leaf.content);
  }

  /** The page round `j` merges into the output. */
  function RoundPage(variable: string, template: string, render: (string, Dict) -> string, ctx: Dict,
                     rounds: seq<Round>, j: nat): map<string, Tree>
    requires j < |rounds| && FoldTo(StepOf(variable, template, render), ctx, rounds, j + 1).Success?
  {
    Nested(rounds[j].path, Leaf(render(template, FoldTo(StepOf(variable, template, render), ctx, rounds, j + 1).value.context)))
  }

  /** One round merges its page into the output. */
  lemma RoundMerges(variable: string, template: string, render: (string, Dict) -> string, ctx: Dict,
                    rounds: seq<Round>, j: nat)
    requires j < |rounds| && FoldTo(StepOf(variable, template, render), ctx, rounds, j + 1).Success?
    ensures FoldTo(StepOf(variable, template, render), ctx, rounds, j).Success?
    ensures FoldTo(StepOf(variable, template, render), ctx, rounds, j + 1).value.out
      == Merge(FoldTo(StepOf(variable, template, render), ctx, rounds, j).value.out,
               RoundPage(variable, template, render, ctx, rounds, j))
  {
    var step := StepOf(variable, template, render);
    var prev := FoldTo(step, ctx, rounds, j).value;
    assert FoldTo(step, ctx, rounds, j + 1) == ComplexStep(variable, template, render, prev, rounds[j]);
  }

  /** One round whose page avoids a path keeps the page found there. */
  lemma PageSurvivesRound(variable: string, template: string, render: (string, Dict) -> string, ctx: Dict,
                          rounds: seq<Round>, j: nat, path: seq<string>, page: string)
    requires j < |rounds| && |path| > 0
    requires FoldTo(StepOf(variable, template, render), ctx, rounds, j + 1).Success?
    requires Avoids(RoundPage(variable, template, render, ctx, rounds, j), path)
    requires FoldTo(StepOf(variable, template, render), ctx, rounds, j).Success?
    requires Lookup(FoldTo(StepOf(variable, template, render), ctx, rounds, j).value.out, path) == Some(Leaf(page))
    ensures Lookup(FoldTo(StepOf(variable, template, render), ctx, rounds, j + 1).value.out, path) == Some(Leaf(page))
  {
    RoundMerges(variable, template, render, ctx, rounds, j);
    MergeLeftLeafSurvives(FoldTo(StepOf(variable, template, render), ctx, rounds, j).value.out,
                          RoundPage(variable, template, render, ctx, rounds, j), path, page);
  }

  /** Round `j` of the fold keeps the page found at `path`. */
  predicate KeepsPage(step: StepFn, ctx: Dict, rounds: seq<Round>, j: nat, path: seq<string>, page: string)
    requires j < |rounds| && |path| > 0
  {
    (FoldTo(step, ctx, rounds, j).Success? && FoldTo(step, ctx, rounds, j + 1).Success?
     && Lookup(FoldTo(step, ctx, rounds, j).value.out, path) == Some(Leaf(page)))
    ==> Lookup(FoldTo(step, ctx, rounds, j + 1).value.out, path) == Some(Leaf(page))
  }

  /** A page that every round from `i` on keeps is still there after round `n`. */
  lemma {:induction false} FoldKeepsPage(step: StepFn, ctx: Dict, rounds: seq<Round>, i: nat, n: nat,
                                         path: seq<string>, page: string)
    requires i <= n <= |rounds| && |path| > 0
    requires FoldTo(step, ctx, rounds, n).Success?
    requires FoldTo(step, ctx, rounds, i).Success?
    requires Lookup(FoldTo(step, ctx, rounds, i).value.out, path) == Some(Leaf(page))
    requires forall j :: i <= j < n ==> KeepsPage(step, ctx, rounds, j, path, page)
    ensures Lookup(FoldTo(step, ctx, rounds, n).value.out, path) == Some(Leaf(page))
    decreases n - i
  {
    if i < n {
      FoldPrefixSucceeds(step, ctx, rounds, i + 1, n);
      assert KeepsPage(step, ctx, rounds, i, path, page);
      FoldKeepsPage(step, ctx, rounds, i + 1, n, path, page);
    }
  }

  /** A page stays in the output through every later round whose page
      avoids its path: a later record overwrites an earlier one only at the
      same path. */
  lemma ComplexPageSurvives(variable: string, template: string, render: (string, Dict) -> string,
                            ctx: Dict, rounds: seq<Round>, i: nat, n: nat, path: seq<string>, page: string)
    requires i <= n <= |rounds| && |path| > 0
    requires FoldTo(StepOf(variable, template, render), ctx, rounds, n).Success?
    requires FoldTo(StepOf(variable, template, render), ctx, rounds, i).Success?
    requires Lookup(FoldTo(StepOf(variable, template, render), ctx, rounds, i).value.out, path) == Some(Leaf(page))
    requires forall j :: i <= j < n && FoldTo(StepOf(variable, template, render), ctx, rounds, j + 1).Success? ==>
      Avoids(RoundPage(variable, template, render, ctx, rounds, j), path)
    ensures Lookup(FoldTo(StepOf(variable, template, render), ctx, rounds, n).value.out, path) == Some(Leaf(page))
  {
    var step := StepOf(variable, template, render);
    forall j | i <= j < n
      ensures KeepsPage(step, ctx, rounds, j, path, page)
    {
      if FoldTo(step, ctx, rounds, j + 1).Success? && FoldTo(step, ctx, rounds, j).Success?
        && Lookup(FoldTo(step, ctx, rounds, j).value.out, path) == Some(Leaf(page)) {
        PageSurvivesRound(variable, template, render, ctx, rounds, j, path, page);
      }
    }
    FoldKeepsPage(step, ctx, rounds, i, n, path, page);
  }

  /** The context persists from round to round: keys set earlier stay, the
      path variable holds the latest record unless a for-each variable of
      the same name overrides it, and every for-each variable holds its
      result for that record. */
  lemma ComplexContextPersists(variable: string, template: string, render: (string, Dict) -> string, ctx: Dict,
                               rounds: seq<Round>, n: nat)
    requires 0 < n <= |rounds| && rounds[n - 1].forEach.Success? && WF(rounds[n - 1].forEach.value)
    requires FoldTo(StepOf(variable, template, render), ctx, rounds, n).Success?
    ensures FoldTo(StepOf(variable, template, render), ctx, rounds, n - 1).Success?
    ensures var before := FoldTo(StepOf(variable, template, render), ctx, rounds, n - 1).value.context;
      var after := FoldTo(StepOf(variable, template, render), ctx, rounds, n).value.context;
      var fe := rounds[n - 1].forEach.value;
      before.vals.Keys <= after.vals.Keys
      && (variable !in fe.vals ==> after.vals[variable] == rounds[n - 1].inst)
      && forall k :: k in fe.vals ==> after.vals[k] == fe.vals[k]
  {
    var step := StepOf(variable, template, render);
    var prev := FoldTo(step, ctx, rounds, n - 1).value;
    assert FoldTo(step, ctx, rounds, n) == ComplexStep(variable, template, render, prev, rounds[n - 1]);
  }

  /** A round's for-each results are its queries' records, with the record
      bound to the path variable; its path is the components of the page's
      output path. */
  lemma RoundsMeaning(s: Setup, e: Engine, insts: seq<Value>, i: nat)
    requires s.shape.Complex? && WF(s.forEach) && i < |insts|
    ensures var r := Rounds(s, e, insts)[i];
      r.inst == insts[i] && r.path == Components(InstancePath(s, e, insts[i]))
      && (r.forEach.Success? ==>
            WF(r.forEach.value) && r.forEach.value.vals.Keys == s.forEach.vals.Keys
            && forall k :: k in s.forEach.vals ==>
              var q := e.run(s.forEach.vals[k], VDict(Single(s.shape.variable, insts[i])));
              q.Success? && r.forEach.value.vals[k] == VList(q.value))
  {
    var locals := VDict(Single(s.shape.variable, insts[i]));
    QueriedKeys(s.forEach, e.run, locals, |s.forEach.keys|);
    QueriedValues(s.forEach, e.run, locals, |s.forEach.keys|);
    assert s.forEach.keys[..|s.forEach.keys|] == s.forEach.keys;
  }

  /** One round of `process_complex` for the record `inst`, starting from the
      state `p`. */
  method RenderRound(s: Setup, e: Engine, p: Progress, inst: Value) returns (r: Result<Progress>)
    requires s.shape.Complex? && Listed(s.forEach)
    ensures r == ComplexStep(s.shape.variable, s.template, e.render, p, RoundOf(s, e, inst))
  {
    var instPath := InstancePath(s, e, inst);
    var fe := RunQueries(s.forEach, e.run, VDict(Single(s.shape.variable, inst)));
    if fe.Failure? {
      return Failure(fe.error);
    }
    var ctx := Update(Put(p.context, s.shape.variable, inst), fe.value);
    var page := DictFromPath(instPath, Leaf(e.render(s.template, ctx)));
    var merged := DeepMergeDict(Dir(p.out), Dir(page));
    return Success(Progress(ctx, merged.value.children));
  }

  /** `step` and `rounds` are the step and the rounds of the complex view
      `s` over the records `insts`. */
  ghost predicate LoopOf(s: Setup, e: Engine, insts: seq<Value>, step: StepFn, rounds: seq<Round>) {
    && s.shape.Complex? && Listed(s.forEach)
    && step == StepOf(s.shape.variable, s.template, e.render) && rounds == Rounds(s, e, insts)
  }

  /** Round `i` of the loop, given the state after the rounds before it. */
  method Advance(s: Setup, e: Engine, ctx: Dict, insts: seq<Value>, i: nat, p: Progress,
                 ghost step: StepFn, ghost rounds: seq<Round>)
    returns (r: Result<Progress>, last: Dict)
    requires LoopOf(s, e, insts, step, rounds) && i < |insts|
    requires FoldTo(step, ctx, rounds, i) == Success(p)
    ensures r == FoldTo(step, ctx, rounds, i + 1)
    ensures last == ContextTo(s.shape.variable, step, ctx, rounds, i + 1)
    ensures r.Failure? ==>
      r == FoldTo(step, ctx, rounds, |rounds|) && last == ContextTo(s.shape.variable, step, ctx, rounds, |rounds|)
    ensures r.Success? ==> last == r.value.context
  {
    assert rounds[i] == RoundOf(s, e, insts[i]);
    r := RenderRound(s, e, p, insts[i]);
    if r.Failure? {
      FoldStopped(step, ctx, rounds, i + 1, |rounds|);
      ContextStopped(s.shape.variable, step, ctx, rounds, i + 1, |rounds|);
      last := Put(p.context, s.shape.variable, insts[i]);
    } else {
      last := r.value.context;
    }
  }

  /** The loop of `process_complex` over the records `insts`, starting from
      the context `ctx`: what it renders, and the context as the loop
      leaves it (after the failing round, when one fails). */
  method RenderAll(s: Setup, e: Engine, ctx: Dict, insts: seq<Value>, ghost step: StepFn, ghost rounds: seq<Round>)
    returns (r: Result<Progress>, last: Dict)
    requires LoopOf(s, e, insts, step, rounds)
    ensures r == FoldTo(step, ctx, rounds, |rounds|)
    ensures last == ContextTo(s.shape.variable, step, ctx, rounds, |rounds|)
    ensures r.Success? ==> last == r.value.context
  {
    var p := Progress(ctx, map[]);
    for i := 0 to |insts|
      invariant FoldTo(step, ctx, rounds, i) == Success(p)
      invariant ContextTo(s.shape.variable, step, ctx, rounds, i) == p.context
    {
      var next, l := Advance(s, e, ctx, insts, i, p, step, rounds);
      if next.Failure? {
        return next, l;
      }
      p := next.value;
    }
    return Success(p), p.context;
  }


  /** The query loop of `process_context_dynamic` and
      `render_context_for_each`. */
  method RunQueries(d: Dict, run: Runner, locals: Value) returns (r: Result<Dict>)
    requires Listed(d)
    ensures r == Queried(d, run, locals)
  {
    var result := Empty;
    var i := 0;
    while i < |d.keys|
      invariant i <= |d.keys|
      invariant QueriedTo(d, run, locals, i) == Success(result)
    {
      var k := d.keys[i];
      var res := run(d.vals[k], locals);
      if res.Failure? {
        QueriedStopped(d, run, locals, i + 1, |d.keys|);
        return Failure(res.error);
      }
      result := Put(result, k, VList(res.value));
      i := i + 1;
    }
    return Success(result);
  }

  /** A `StatikView` after its constructor: the name, the variables read
      from its file, and what `configure` derived from them. */
  class StatikView {
    var name: string
    var vars: Dict
    var complex: bool
    var path: Value
    var template: Option<string>
    var pathTemplate: Option<string>
    var pathVariable: Option<string>
    var pathQuery: Value
    var context: Dict
    var contextStatic: Dict
    var contextDynamic: Dict
    var contextForEach: Dict
    var defaultOutputExt: string
    var defaultOutputFilename: string

    /** A configured view: its template is loaded, its path matches its
        kind, and its context sections are dicts. */
    predicate Valid()
      reads this
    {
      template.Some? && WF(contextStatic) && WF(contextDynamic) && WF(contextForEach)
      && (complex ==> pathTemplate.Some? && pathVariable.Some?)
      && (!complex ==> path.VStr?)
    }

    /** The path configuration the fields describe. */
    function Shape(): PathShape
      reads this
      requires Valid()
    {
      if complex then Complex(pathTemplate.value, pathVariable.value, pathQuery) else Simple(path.s)
    }

    /** The defaults `__init__` sets before calling `configure`. */
    constructor(name: string, vars: Dict, template: Option<string>, initialContext: Dict,
                defaultOutputExt: string, defaultOutputFilename: string)
      ensures this.name == name && this.vars == vars && this.template == template
      ensures !complex && path == VNone && pathTemplate.None? && pathVariable.None? && pathQuery == VNone
      ensures context == initialContext
      ensures contextStatic == Empty && contextDynamic == Empty && contextForEach == Empty
      ensures this.defaultOutputExt == defaultOutputExt && this.defaultOutputFilename == defaultOutputFilename
    {
      this.name := name;
      this.vars := vars;
      this.template := template;
      complex := false;
      path := VNone;
      pathTemplate := None;
      pathVariable := None;
      pathQuery := VNone;
      context := initialContext;
      contextStatic := Empty;
      contextDynamic := Empty;
      contextForEach := Empty;
      this.defaultOutputExt := defaultOutputExt;
      this.defaultOutputFilename := defaultOutputFilename;
    }

    /** `configure()`: reads the path, the template and the context sections
        from the view's variables; an error leaves the view unusable, as
        the constructor then raises it. */
    method Configure(load: Value -> string) returns (r: Outcome)
      modifies this`complex, this`path, this`template, this`pathTemplate, this`pathVariable, this`pathQuery,
        this`contextStatic, this`contextDynamic, this`contextForEach
      ensures ConfigOf(vars, old(template), load).Failure? ==> r == Fail(ConfigOf(vars, old(template), load).error)
      ensures ConfigOf(vars, old(template), load).Success? ==>
        var c := ConfigOf(vars, old(template), load).value;
        r == Pass && Valid() && Shape() == c.shape && template == Some(c.template)
        && path == vars.vals["path"]
        && contextStatic == c.context.staticVars && contextDynamic == c.context.dynamic
        && contextForEach == c.context.forEach
    {
      var c := ConfigOf(vars, template, load);
      if c.Failure? {
        return Fail(c.error);
      }
      ConfigOfMeaning(vars, template, load);
      ConfiguredPath(vars, template, load);
      Apply(c.value, vars.vals["path"]);
      return Pass;
    }

    /** The field assignments of `configure` for a configuration that passed
        its checks. */
    method Apply(c: ViewConfig, pathValue: Value)
      requires c.shape.Simple? ==> pathValue == VStr(c.shape.path)
      requires WF(c.context.staticVars) && WF(c.context.dynamic) && WF(c.context.forEach)
      modifies this`complex, this`path, this`template, this`pathTemplate, this`pathVariable, this`pathQuery,
        this`contextStatic, this`contextDynamic, this`contextForEach
      ensures Valid() && Shape() == c.shape && template == Some(c.template) && path == pathValue
      ensures contextStatic == c.context.staticVars && contextDynamic == c.context.dynamic
        && contextForEach == c.context.forEach
    {
      path := pathValue;
      match c.shape {
        case Simple(_) =>
          complex := false;
        case Complex(t, v, q) =>
          complex := true;
          pathTemplate := Some(t);
          pathVariable := Some(v);
          pathQuery := q;
      }
      template := Some(c.template);
      contextStatic := c.context.staticVars;
      contextDynamic := c.context.dynamic;
      contextForEach := c.context.forEach;
    }

    /** What the loop of `process_complex` reads. */
    function SetupOf(): Setup
      reads this
      requires Valid()
    {
      Setup(Shape(), contextForEach, template.value, defaultOutputFilename + defaultOutputExt)
    }

    /** `process_simple()`: the template rendered with the context, as the
        one page of the view. */
    method ProcessSimple(e: Engine) returns (r: map<string, Tree>)
      requires Valid() && !complex
      ensures r == Nested(Components(PageOutput(path.s, defaultOutputFilename + defaultOutputExt)),
                          Leaf(e.render(template.value, context)))
    {
      var p := PageOutput(path.s, defaultOutputFilename + defaultOutputExt);
      r := DictFromPath(p, Leaf(e.render(template.value, context)));
    }

    /** `process_complex()`: one page per record of the path query, merged
        into one tree; the context keeps what every round put into it. */
    method ProcessComplex(e: Engine) returns (r: Result<map<string, Tree>>)
      requires Valid() && complex
      modifies this`context
      ensures Valid() && SetupOf() == old(SetupOf())
      ensures e.run(pathQuery, VNone).Failure? ==> r == Failure(e.run(pathQuery, VNone).error) && context == old(context)
      ensures e.run(pathQuery, VNone).Success? ==>
        var insts := e.run(pathQuery, VNone).value;
        var p := ComplexOf(SetupOf(), e, old(context), insts);
        context == ComplexContext(SetupOf(), e, old(context), insts)
        && (p.Success? ==> r == Success(p.value.out) && context == p.value.context)
        && (p.Failure? ==> r == Failure(p.error))
    {
      var s := SetupOf();
      var q := e.run(pathQuery, VNone);
      if q.Failure? {
        return Failure(q.error);
      }
      var p, last := RenderAll(s, e, context, q.value, StepOf(s.shape.variable, s.template, e.render), Rounds(s, e, q.value));
      context := last;
      if p.Failure? {
        return Failure(p.error);
      }
      return Success(p.value.out);
    }

    /** `process(db)`: the static context, then the dynamic query results,
        go into the view's context before its pages are rendered. */
    method Process(e: Engine) returns (r: Result<map<string, Tree>>)
      requires Valid()
      modifies this`context
      ensures Valid() && SetupOf() == old(SetupOf())
      ensures Queried(contextDynamic, e.run, VNone).Failure? ==>
        r == Failure(Queried(contextDynamic, e.run, VNone).error)
        && context == Update(old(context), contextStatic)
      ensures Queried(contextDynamic, e.run, VNone).Success? && !complex ==>
        var ctx := Prepared(old(context), contextStatic, Queried(contextDynamic, e.run, VNone).value);
        context == ctx
        && r == Success(Nested(Components(PageOutput(path.s, defaultOutputFilename + defaultOutputExt)),
                               Leaf(e.render(template.value, ctx))))
      ensures Queried(contextDynamic, e.run, VNone).Success? && complex && e.run(pathQuery, VNone).Failure? ==>
        r == Failure(e.run(pathQuery, VNone).error)
        && context == Prepared(old(context), contextStatic, Queried(contextDynamic, e.run, VNone).value)
      ensures Queried(contextDynamic, e.run, VNone).Success? && complex && e.run(pathQuery, VNone).Success? ==>
        var ctx := Prepared(old(context), contextStatic, Queried(contextDynamic, e.run, VNone).value);
        var insts := e.run(pathQuery, VNone).value;
        var p := ComplexOf(SetupOf(), e, ctx, insts);
        context == ComplexContext(SetupOf(), e, ctx, insts)
        && (p.Success? ==> r == Success(p.value.out) && context == p.value.context)
        && (p.Failure? ==> r == Failure(p.error))
    {
      context := Update(context, contextStatic);
      var dyn := RunQueries(contextDynamic, e.run, VNone);
      if dyn.Failure? {
        return Failure(dyn.error);
      }
      context := Update(context, dyn.value);
      if complex {
        r := ProcessComplex(e);
      } else {
        var out := ProcessSimple(e);
        r := Success(out);
      }
    }
  }

  /** The context `process` renders with: the view's context, updated with
      the static variables and then with the dynamic query results. */
  function Prepared(ctx: Dict, staticVars: Dict, dynamic: Dict): Dict {
    Update(Update(ctx, staticVars), dynamic)
  }

  /** Static context applies before dynamic context: a dynamic result wins
      over a static variable of the same name, which wins over the view's
      initial context. */
  lemma PreparedPrecedence(ctx: Dict, staticVars: Dict, dynamic: Dict, k: string)
    requires WF(staticVars) && WF(dynamic)
    ensures k in Prepared(ctx, staticVars, dynamic).vals <==> k in ctx.vals || k in staticVars.vals || k in dynamic.vals
    ensures k in dynamic.vals ==> Prepared(ctx, staticVars, dynamic).vals[k] == dynamic.vals[k]
    ensures k !in dynamic.vals && k in staticVars.vals ==> Prepared(ctx, staticVars, dynamic).vals[k] == staticVars.vals[k]
    ensures k !in dynamic.vals && k !in staticVars.vals && k in ctx.vals ==>
      Prepared(ctx, staticVars, dynamic).vals[k] == ctx.vals[k]
  {
  }
}
